=== FILE: README.md ===
# Formal-language labs, modelled in Dafny

The repository is a set of C++ laboratory works on formal languages. This
project models their cores as pure Dafny functions and proves what each
one promises.

- **Lab 1** (`Lab1`): the variant-23 grammar `S → aB`, `B → aC | bB`,
  `C → bB | c | aS` and its hand-built automaton. The leftmost rewriting
  generator is shown to produce only words the automaton accepts.
- **The finite-automaton class** (`FiniteAutomata`, `SubsetConstruction`,
  `SubsetWorklist`):
  - string membership over state sets, with the run semantics it computes;
  - the determinism test;
  - the subset construction, which preserves the language;
  - the Graphviz text.
- **The regular-grammar bridge** (`Grammars`, `AutomatonGrammar`, `Variant23`):
  - the automaton-to-grammar conversion with one letter per state;
  - the grammar's word generator;
  - Chomsky classification;
  - the variant-23 NFA of the driver.

  A word generated by the converted grammar is exactly a word the
  automaton accepts.
- **The lab-2 single-file automaton** (`OrderedSubsetConstruction`): the
  subset construction over ordered maps and brace-wrapped names. Its
  return statement drops the transitions it computes; see "Findings".
- **The ChronoLang lexer of lab 3** (`SourcePos`, `ChronoLexer`,
  `Lexemes`): a hand-written scanner with line and column tracking. It
  is proved to re-lex its own printed tokens.
- **The regular-expression tool of lab 4** (`Regex`, `RegexWords`,
  `RegexSamples`):
  - a recursive-descent parser with powers `^+`, `^*`, `^n` and `?`;
  - printing, and the parse of a printed pattern;
  - a random word generator, shown sound and complete for the set of
    words a pattern describes.
- **The CNF converter of lab 5** (`Cnf`, `FixedPoints`):
  - removal of ε-rules, unit rules and useless symbols as least fixed points;
  - terminal replacement and the right-folding of long bodies;
  - the shape theorem for the result, and freshness of the new variables.
- **The lab-6 ChronoLang front end** (`PatternLexer`, `ChronoParser`,
  `AstJson`):
  - the table-driven lexer;
  - the recursive-descent parser, with its print/parse round trip;
  - the JSON dump of the syntax tree.

Shared helpers live in `Wrappers` (Option/Result) and `Text` (character
classes, `std::stoi`, decimal printing, string order).

Conventions:
- Hash-ordered iteration is replaced by ascending order wherever the
  output depends on it.
- A thrown exception is an `Err` result.
- A random draw is an explicit list of picks.

## Model

| member | source | states |
|---|---|---|
| Lab1.Run | src/1Grammar/lab1.cpp:79-88 | a run that has not got stuck is in one of the states `S`, `B`, `C` |
| Lab1.StuckStaysStuck | src/1Grammar/lab1.cpp:82-88 | once a prefix has no transition, the whole word is rejected |
| Lab1.RunSnoc | src/1Grammar/lab1.cpp:82-88 | reading one more character follows the transition table from the state reached, or gets stuck when there is no entry |
| Lab1.ValidateString | src/1Grammar/lab1.cpp:79-90 | the loop answers true exactly when the run over the input ends in the final state `C` |
| Lab1.EmptyIsRejected | src/1Grammar/lab1.cpp:80-89 | the empty word is rejected because the start state `S` is not final |
| Lab1.Leftmost | src/1Grammar/lab1.cpp:30-41 | the position found holds a non-terminal and no earlier character is one; none is found exactly when the string has no non-terminal |
| Lab1.Rewrite | src/1Grammar/lab1.cpp:28-42 | a step fails exactly when the string has no non-terminal left |
| Lab1.RewriteReplacesLeftmost | src/1Grammar/lab1.cpp:30-40 | a step keeps everything before and after the leftmost non-terminal and puts one of its bodies in its place |
| Lab1.BodyMatchesTable | src/1Grammar/lab1.cpp:17-21 | every body of the grammar is a terminal followed by a non-terminal whose transition the automaton table holds, or the body `c` of `C` with the loop on `C` |
| Lab1.RewriteKeepsShape | src/1Grammar/lab1.cpp:28-42 | a step keeps the sentential shape: terminals followed by the non-terminal the automaton reaches on them, or terminals alone on which it reaches `C` |
| Lab1.GeneratedIsAccepted | src/1Grammar/lab1.cpp:23-46 | every string generated from such a sentential form is accepted by the automaton |
| Lab1.GeneratedFromStartIsAccepted | src/1Grammar/lab1.cpp:103-111 | every string generated from `S` is reported VALID by the automaton |
| Lab1.GenerateStep | src/1Grammar/lab1.cpp:28-43 | generation after a first successful step goes on from the rewritten string with the remaining draws |
| Lab1.DerivesAac | src/1Grammar/lab1.cpp:17-21 | the draws 0, 0, 1 derive `aac` from `S` and the automaton accepts it |
| Lab1.DerivesAbac | src/1Grammar/lab1.cpp:17-21 | the draws 0, 1, 0, 1 derive `abac` from `S` and the automaton accepts it |
| Lab1.AutomatonAcceptsAa | src/1Grammar/lab1.cpp:70-77 | the automaton accepts `aa`, a word without the closing `c` every derivation ends with |
| FiniteAutomata.Step | src/2DFA/FiniteAutomaton.cpp:34-39 | a state is in the next set exactly when some current state has it among its targets on the symbol; a missing map entry contributes nothing |
| FiniteAutomata.StringBelongsToLanguage | src/2DFA/FiniteAutomaton.cpp:30-50 | on the empty word the answer is whether the start state is final |
| FiniteAutomata.AcceptsIffRun | src/2DFA/FiniteAutomaton.cpp:30-50 | the set simulation (which gives up as soon as the set of current states is empty) accepts a word exactly when some run over it leads from the start state to a final state |
| FiniteAutomata.SimulateHasRun | src/2DFA/FiniteAutomaton.cpp:33-49 | an accepting simulation from a set of states has an accepting run behind it that starts in that set |
| FiniteAutomata.RunMakesSimulate | src/2DFA/FiniteAutomaton.cpp:33-49 | every accepting run starting in the current set makes the simulation accept |
| FiniteAutomata.IsDeterministic | src/2DFA/FiniteAutomaton.cpp:52-59 | the answer is true exactly when no state/symbol entry lists more than one target, whatever order the entries are visited in |
| FiniteAutomata.DeterministicRunsAgree | src/2DFA/FiniteAutomaton.cpp:52-59 | in an automaton that passes the determinism test, two runs over one word from one state agree on every prefix |
| FiniteAutomata.DeterministicRunUnique | src/2DFA/FiniteAutomaton.cpp:52-59 | in an automaton that passes the determinism test a run is determined by its word and its first state |
| FiniteAutomata.Edges | src/2DFA/FiniteAutomaton.cpp:115-121 | the listed (state, symbol, target) triples are exactly the entries of the transition map, each listed once |
| FiniteAutomata.EdgesCount | src/2DFA/FiniteAutomaton.cpp:115-121 | the nested loops write as many edge lines as the map has (state, symbol, target) triples |
| FiniteAutomata.DotStatements | src/2DFA/FiniteAutomaton.cpp:104-125 | the header, a double circle for exactly the final states, the start arrow, then one arrow for each transition triple with no triple repeated, so as many arrows as triples, then the closing brace |
| FiniteAutomata.ToDot | src/2DFA/FiniteAutomaton.cpp:104-125 | the text opens with the `digraph DFA` header lines and closes with `}`, and is the rendered statement list: final nodes, the start arrow, then one arrow per transition triple |
| SubsetConstruction.ConvertToDFA | src/2DFA/FiniteAutomaton.cpp:61-102 | a deterministic input comes back unchanged; otherwise the result is deterministic, keeps start symbol and alphabet, has a row for every state on every symbol, its targets are its own states or the dead state `""`, and its finals are among its states |
| SubsetConstruction.ConvertToDFAFinals | src/2DFA/FiniteAutomaton.cpp:70-141 | the name of an explored set is a final state of the result exactly when the set holds a final state of the original, as `ContainsFinalState` decides |
| SubsetConstruction.ConvertToDFAPreservesLanguage | src/2DFA/FiniteAutomaton.cpp:61-102 | the converted automaton accepts exactly the words the original accepts, for words over the alphabet (or any word when every transition symbol is in the alphabet) |
| SubsetConstruction.ConvertToDFAStates | src/2DFA/FiniteAutomaton.cpp:70-99 | the states of the result are exactly the start state and the joined names of the non-empty sets reachable from `{start}` over the alphabet |
| SubsetConstruction.Subsets | src/2DFA/FiniteAutomaton.cpp:67-99 | the queue order of explored sets starts with `{start}`, has no repeats, holds only non-empty sets of states, and is closed under every non-empty successor |
| SubsetConstruction.Row | src/2DFA/FiniteAutomaton.cpp:82-98 | the row written for a dequeued set has every alphabet symbol, each mapped to the single name of its successor set (the name of the empty set for no successors) |
| SubsetConstruction.NonEmptySuccessorIsSubset | src/2DFA/FiniteAutomaton.cpp:90-95 | every non-empty successor of an explored set on an alphabet symbol is itself explored |
| SubsetConstruction.DeadStateRejects | src/2DFA/FiniteAutomaton.cpp:97 | the state named by the empty set, which has no row and is not final, rejects every word |
| SubsetConstruction.BuildDfaShape | src/2DFA/FiniteAutomaton.cpp:61-102 | the built automaton keeps start and alphabet, is deterministic, has a row over the whole alphabet for each of its states, never names a state `""`, and its targets are its states or `""` |
| SubsetConstruction.BuildDfaSimulates | src/2DFA/FiniteAutomaton.cpp:61-102 | from the name of an explored set the built automaton accepts exactly the words the original accepts from that set |
| SubsetWorklist.Explore | src/2DFA/FiniteAutomaton.cpp:77-99 | the breadth-first queue only grows, keeps no duplicates, stays among subsets of the universe and ends closed under the successor step |
| SubsetWorklist.Expand | src/2DFA/FiniteAutomaton.cpp:82-96 | one pass over the alphabet for a dequeued set keeps the queue as a prefix, appends only non-empty successors of that set, keeps it free of repeats, and leaves every non-empty successor in the queue |
| SubsetWorklist.ExploreLeast | src/2DFA/FiniteAutomaton.cpp:77-99 | every set the exploration enqueues lies in any family that holds the seed and is closed under non-empty successors |
| SubsetWorklist.ReachableExactly | src/2DFA/FiniteAutomaton.cpp:70-99 | a set is enqueued exactly when it is the seed or a non-empty set reached from the seed by some word over the symbols |
| SubsetWorklist.WithinPowerSet | src/2DFA/FiniteAutomaton.cpp:77-99 | the queue never holds more sets than the universe has subsets, which bounds the loop |
| OrderedSubsetConstruction.IsDeterministic | src/lab2.cpp:79-86 | true exactly when no (state, symbol) key has more than one target, and false exactly when one has |
| OrderedSubsetConstruction.Successors | src/lab2.cpp:105-110 | a state is in the next set exactly when some state of the current set has it as a target on the symbol |
| OrderedSubsetConstruction.Subsets | src/lab2.cpp:94-128 | the explored sets start with `{start}`, have no repeats, are non-empty sets of states and are closed under non-empty successors |
| OrderedSubsetConstruction.Name | src/lab2.cpp:113-118 | the name of a set is wrapped in braces |
| OrderedSubsetConstruction.NameInjective | src/lab2.cpp:113-118 | two non-empty sets of comma-free state names with one name are the same set |
| OrderedSubsetConstruction.JoinInjective | src/lab2.cpp:113-117 | comma-free names are recovered from their comma-joined text |
| OrderedSubsetConstruction.Names | src/lab2.cpp:96-97 | the new state set holds exactly the names of the explored sets |
| OrderedSubsetConstruction.FinalNames | src/lab2.cpp:130-138 | the new final states are exactly the names of explored sets holding a final state |
| OrderedSubsetConstruction.ConvertAsWritten | src/lab2.cpp:88-141 | the result carries the input's own transition map, the input's alphabet, start `{start}` (one of its states), and the named explored sets holding a final state as finals |
| OrderedSubsetConstruction.NewTransitions | src/lab2.cpp:99-128 | the computed new map has a key exactly for the (name, symbol) pairs written while the sets are dequeued; every value is a single name; with distinct names each written key holds its successor's name |
| OrderedSubsetConstruction.ConvertCorrected | src/lab2.cpp:88-141 | the corrected result keeps the states, finals, alphabet and start of the as-written one, has a key exactly for each explored set and symbol with a non-empty successor, and every key has one target |
| OrderedSubsetConstruction.CorrectedTransitions | src/lab2.cpp:125 | with comma-free state names, the corrected map sends each explored set's name and symbol to the name of its non-empty successor set |
| OrderedSubsetConstruction.SubsetsDistinctNames | src/lab2.cpp:113-121 | with comma-free state names the explored sets have pairwise distinct names |
| OrderedSubsetConstruction.AsWrittenResultIsNotDeterministic | src/lab2.cpp:140 | on the driver's automaton the as-written conversion still has a key with more than one target |
| OrderedSubsetConstruction.MainNfaHasTwoTargets | src/lab2.cpp:199-205 | the driver's automaton sends (`q0`, `a`) to two states |
| OrderedSubsetConstruction.StartTransition | src/lab2.cpp:94-125 | the start set's row in the corrected result holds the name of the start state's successor set |
| Grammars.GenerateString | src/2DFA/Grammar.hpp:41-66 | a terminal, and a symbol with no productions, stand for themselves and draw nothing; a symbol with productions and no draws left fails; a result never holds more unused draws than were given |
| Grammars.GenerateTerminal | src/2DFA/Grammar.hpp:52-57 | a one-character terminal body yields that character and uses no draw |
| Grammars.GenerateTerminalThen | src/2DFA/Grammar.hpp:52-61 | a body of a terminal then a non-terminal yields the terminal followed by what the non-terminal derives |
| Grammars.GenerateChoice | src/2DFA/Grammar.hpp:46-50 | a symbol with productions expands the body picked by its first draw taken modulo the number of bodies |
| Grammars.WordsWithoutSpace | src/2DFA/Grammar.hpp:78-91 | a body without spaces splits into itself as one symbol (none when empty) |
| Grammars.WordsHaveNoSpace | src/2DFA/Grammar.hpp:78-91 | no symbol split off a body contains a space |
| Grammars.SplitBody | src/2DFA/Grammar.hpp:78-91 | the split loop returns the maximal space-free runs of the body, in order |
| Grammars.ScanRules | src/2DFA/Grammar.hpp:74-105 | the three flags for one left-hand side are true exactly when every non-empty body passes the regular, context-free and non-contracting test respectively, the last comparing UTF-8 byte lengths as `std::string::length` does |
| Grammars.ClassifyGrammar | src/2DFA/Grammar.hpp:69-111 | the text returned is the name of the highest Chomsky type whose test every production passes, checked in the order 3, 2, 1 |
| Grammars.NonContractingCountsBytes | src/2DFA/Grammar.hpp:101-103 | `AB -> é` passes the non-contracting test, because the one letter takes two bytes |
| Grammars.MonotoneType | src/2DFA/Grammar.hpp:74-110 | adding productions to a grammar never raises the reported type: every test the larger grammar passes, the smaller passes too |
| AutomatonGrammar.NonTerminalMap | src/lab2/FiniteAutomaton.hpp:116-124 | every state gets a one-character non-terminal |
| AutomatonGrammar.NonTerminalIsLetter | src/lab2/FiniteAutomaton.hpp:117-121 | a state's non-terminal is the letter of its position in the state order |
| AutomatonGrammar.NonTerminalMapInjective | src/lab2/FiniteAutomaton.hpp:117-121 | with at most 256 states different states get different letters (the `char` counter wraps after that) |
| AutomatonGrammar.LetterInjective | src/lab2/FiniteAutomaton.hpp:117-119 | two counter values below 256 with the same letter are equal |
| AutomatonGrammar.CollectProductions | src/lab2/FiniteAutomaton.hpp:126-137 | after the triples are visited, a head has an entry exactly when some triple starts at its state, and a body is listed under a head exactly when a triple from that head's state gives it (`symbol` + target letter, plus `symbol` alone for a final target) |
| AutomatonGrammar.ToGrammar | src/lab2/FiniteAutomaton.hpp:110-140 | the terminals are the alphabet, the non-terminals are the state letters, the start is the start state's letter, and the bodies of each head are exactly those its transitions give |
| AutomatonGrammar.VerifyGeneratedString | src/lab2/FiniteAutomaton.hpp:142-144 | the check ignores the grammar and answers true exactly when some run of the automaton over the word leads from the start state to a final state |
| AutomatonGrammar.MirrorableMirrors | src/lab2/FiniteAutomaton.hpp:110-140 | for an automaton whose letters and symbols do not clash the grammar mirrors its transitions production for production |
| AutomatonGrammar.BodyFromEdge | src/lab2/FiniteAutomaton.hpp:126-137 | every body of a mirrored grammar comes from a transition: it is its symbol followed by the target's letter, or the symbol alone when the target is final |
| AutomatonGrammar.EdgeGivesBodies | src/lab2/FiniteAutomaton.hpp:126-137 | every transition gives its body to its source's head, and its bare symbol too when the target is final |
| AutomatonGrammar.GeneratedHasRun | src/2DFA/Grammar.hpp:41-66 | a word of terminals generated from a state's letter has an accepting run from that state |
| AutomatonGrammar.GeneratedWordsAreAccepted | src/2DFA/main.cpp:28-31 | every terminal word the converted grammar generates passes `VerifyGeneratedString` |
| AutomatonGrammar.GeneratedWordsAreValidForDfa | src/2DFA/main.cpp:21-31 | every terminal word the grammar generates is accepted by the converted DFA too |
| AutomatonGrammar.RunIsGenerated | src/2DFA/Grammar.hpp:41-66 | an accepting run over a non-empty word is produced by some sequence of draws from the first state's letter |
| AutomatonGrammar.AcceptedWordsAreGenerated | src/lab2/FiniteAutomaton.hpp:110-140 | every non-empty word the automaton accepts can be generated from the grammar's start symbol |
| AutomatonGrammar.StepGenerated | src/2DFA/Grammar.hpp:46-61 | a transition on `c` prefixes `c` to whatever is generated from its target's letter |
| AutomatonGrammar.LastStepGenerated | src/2DFA/Grammar.hpp:46-61 | a transition into a final state generates its bare symbol in one draw |
| AutomatonGrammar.ToGrammarIsRegular | src/2DFA/Grammar.hpp:93-95 | with at most 223 states and space-free symbols the grammar of an automaton classifies as Type 3 (letter 223 would be a space) |
| AutomatonGrammar.LetterOfSpace | src/lab2/FiniteAutomaton.hpp:117-119 | counting up from `A`, letter 223 is the space character |
| Variant23.NfaIsNotDeterministic | src/2DFA/main.cpp:6-19 | the variant-23 automaton fails the determinism test |
| Variant23.NfaAcceptsAb | src/2DFA/main.cpp:6-15 | the variant-23 automaton accepts `ab` |
| Variant23.NfaRejectsA | src/2DFA/main.cpp:6-15 | the variant-23 automaton rejects `a` |
| Variant23.NfaRejectsEmpty | src/2DFA/main.cpp:6-15 | the variant-23 automaton rejects the empty word because its start state is not final |
| Variant23.NfaIsMirrorable | src/2DFA/main.cpp:6-15 | the variant-23 automaton has the shape under which its grammar mirrors it |
| Variant23.GeneratedWordsAreValid | src/2DFA/main.cpp:21-31 | every terminal word generated from the converted grammar is accepted by the converted DFA |
| Variant23.GrammarIsRegular | src/2DFA/main.cpp:24-25 | the driver's classification of the converted grammar prints "Type 3: Regular Grammar" |
| Cnf.Fresh | src/5cnf/cnf.cpp:32-34 | a counter value gives a name that counts as a non-terminal |
| Cnf.FreshInjective | src/5cnf/cnf.cpp:32-34 | different counter values give different names `X<n>` |
| Cnf.Push | src/5cnf/cnf.cpp:80 | appending a body adds it at the end of its head's list and leaves every other head alone |
| Cnf.Nullable | src/5cnf/cnf.cpp:37-60 | the nullable set lies among the heads and is closed: a head with a body of nullable symbols (or `~`, or no symbols) is in it |
| Cnf.NullableIsLeast | src/5cnf/cnf.cpp:37-60 | the nullable set lies inside every closed set, so it is the least one the loop can reach |
| Cnf.Extend | src/5cnf/cnf.cpp:66-76 | one step of the expansion loop keeps each partial form with the symbol appended, and also without it when the symbol is nullable |
| Cnf.ExpansionIsKeep | src/5cnf/cnf.cpp:65-77 | every expansion of a body is that body with some nullable symbols dropped |
| Cnf.KeepIsExpansion | src/5cnf/cnf.cpp:65-77 | every way of dropping nullable symbols from a body is among its expansions |
| Cnf.Filter | src/5cnf/cnf.cpp:78-82 | exactly the expansions other than the empty body and `~` are kept |
| Cnf.RemoveNull | src/5cnf/cnf.cpp:36-87 | a body is at a head afterwards exactly when it is non-empty, not `~`, and is some body of that head with nullable symbols dropped |
| Cnf.UnitPairs | src/5cnf/cnf.cpp:90-115 | every collected pair starts at a head |
| Cnf.UnitPairsClosed | src/5cnf/cnf.cpp:90-115 | the pair set holds every unit body and is closed under following a unit body of the second symbol |
| Cnf.UnitPairsAreLeast | src/5cnf/cnf.cpp:90-115 | the pair set lies inside every set with that closure property |
| Cnf.UnitPairsTransitive | src/5cnf/cnf.cpp:100-115 | pairs (A,B) and (B,C) give the pair (A,C) |
| Cnf.CopyUnits | src/5cnf/cnf.cpp:117-123 | copying in pair order loses no body and gives every first symbol each non-unit body of its second symbol |
| Cnf.NonUnit | src/5cnf/cnf.cpp:125-130 | the erase step keeps exactly the bodies that are not a single non-terminal |
| Cnf.RemoveUnits | src/5cnf/cnf.cpp:89-131 | afterwards a head has no unit body; it keeps its own non-unit bodies, gains those of every symbol it reaches by unit bodies, and nothing else |
| Cnf.Generating | src/5cnf/cnf.cpp:134-151 | the generating set lies among the heads |
| Cnf.GeneratingClosed | src/5cnf/cnf.cpp:134-151 | a head with a body whose non-terminals all generate is generating |
| Cnf.GeneratingIsLeast | src/5cnf/cnf.cpp:134-151 | the generating set lies inside every set with that closure property |
| Cnf.Reachable | src/5cnf/cnf.cpp:153-167 | the start symbol is reachable, and the set is the least one closed under the bodies of its heads (next two rows) |
| Cnf.ReachableClosed | src/5cnf/cnf.cpp:153-167 | every non-terminal in a body of a reachable head is reachable |
| Cnf.ReachableIsLeast | src/5cnf/cnf.cpp:153-167 | the reachable set lies inside every set that holds the start and has that closure property |
| Cnf.Useful | src/5cnf/cnf.cpp:172-178 | exactly the bodies whose non-terminals are all kept survive, in order |
| Cnf.RemoveUseless | src/5cnf/cnf.cpp:133-183 | a body stays at a head exactly when the head is reachable and generating and so is every non-terminal of the body |
| Cnf.TermSymbol | src/5cnf/cnf.cpp:241-251 | a non-terminal is kept; a terminal is replaced by its variable, made on first use and never reassigned |
| Cnf.TermSymbols | src/5cnf/cnf.cpp:240-252 | the rewritten body has one symbol per original symbol, each terminal replaced by its variable, and is all non-terminals |
| Cnf.TermBody | src/5cnf/cnf.cpp:234-253 | after a body is handled, a lone terminal body is kept as is and any other body appears with its terminals replaced |
| Cnf.TermKeys | src/5cnf/cnf.cpp:233-255 | after all heads are visited, every body of the grammar has been handled |
| Cnf.ConvertTerminals | src/5cnf/cnf.cpp:229-258 | the counter only grows, each terminal variable is a non-terminal with its terminal among its bodies, and every input body is in the result converted |
| Cnf.TerminalVariables | src/5cnf/cnf.cpp:243-246 | when no `X<n>` above the counter names a head, each terminal variable is a new head whose only body is its terminal, and different terminals get different variables |
| Cnf.PairVar | src/5cnf/cnf.cpp:204-212 | the key `left,right` always ends up with a variable and earlier keys keep theirs; a key not seen before gets the next `X<n>` with `left right` among its intermediate rules |
| Cnf.FoldLong | src/5cnf/cnf.cpp:197-214 | a body of at most two symbols is left alone; a longer one folds to two symbols starting with its first |
| Cnf.LongBody | src/5cnf/cnf.cpp:191-216 | a body of at most two symbols is copied to its head, and no rule is lost |
| Cnf.MergeRules | src/5cnf/cnf.cpp:220-224 | the intermediate rules are added to the output without losing any rule already there |
| Cnf.ConvertLong | src/5cnf/cnf.cpp:185-227 | bodies of at most two symbols are kept at their heads, and when every input body is one terminal or two or more non-terminals every output body is in Chomsky normal form |
| Cnf.YieldMore | src/5cnf/cnf.cpp:200-214 | one more right-end expansion through a pair rule `v -> x y` replaces the last symbol `v` with `x y` |
| Cnf.PairKeyInjective | src/5cnf/cnf.cpp:204 | a key `left,right` determines its two symbols when the left one has no comma |
| Cnf.CommaKeysCollide | src/5cnf/cnf.cpp:204 | with commas inside symbols two different pairs, (`A,B`, `C`) and (`A`, `B,C`), share a key |
| Cnf.FoldLongOwn | src/5cnf/cnf.cpp:200-214 | a folded body of two symbols keeps the first symbol, and expanding its second symbol through the pair rules gives back the rest of the original body |
| Cnf.LongFoldsBack | src/5cnf/cnf.cpp:185-227 | with fresh `X<n>` names and comma-free left symbols, every long body folds back through the pair rules to the original, each pair variable is new and spells its own key, and different keys get different variables |
| Cnf.ConvertToCnfShape | src/5cnf/cnf.cpp:18-25 | whatever the input grammar, every body of the result is a single terminal or two non-terminals |
| Cnf.SampleIsCnf | src/5cnf/cnf.cpp:266-275 | the driver's sample grammar converts to Chomsky normal form |
| FixedPoints.Lfp | src/5cnf/cnf.cpp:47-60 | the repeat-until-unchanged loop ends at a set closed under the step |
| FixedPoints.LfpLeast | src/5cnf/cnf.cpp:47-60 | that set lies inside every closed set containing the seed |
| Regex.Peek | src/4regex/regex.cpp:49-51 | the character under the cursor, or `'\0'` past the end |
| Regex.Parse | src/4regex/regex.cpp:41-46 | a successful parse yields a well-formed pattern tree |
| Regex.ParseSequence | src/4regex/regex.cpp:65-84 | the cursor only moves forward and stops at the end, at the `until` character or at a `|`; the tree is well formed (a single item is returned unwrapped) |
| Regex.SeqItems | src/4regex/regex.cpp:68-80 | the loop stops at the end, at `until` or at `|`, and every collected child is an atom under at most one power |
| Regex.ParseItem | src/4regex/regex.cpp:69-79 | one item consumes at least one character and is an atom under at most one power |
| Regex.ParseAtom | src/4regex/regex.cpp:69-78 | any character other than `(` is read as a one-character literal; a `(` gives an alternation that ends on a consumed `)` |
| Regex.ParseAlternation | src/4regex/regex.cpp:86-95 | an alternation stops at the end of the pattern or at a `)` |
| Regex.AltRest | src/4regex/regex.cpp:90-92 | the `|` loop keeps the options read so far as a prefix, adds well-formed options, and stops where no `|` follows |
| Regex.ApplyPower | src/4regex/regex.cpp:105-139 | no power leaves the node alone; `?` gives 0..1, `^+` gives 1..5, `^*` gives 0..5; any other `^` succeeds exactly when a digit follows, with the decimal count as both bounds |
| Regex.PowerCountIsStoi | src/4regex/regex.cpp:119-122 | the count of a `^n` power is the value `std::stoi` reads after the `^` |
| Regex.UnclosedParenFails | src/4regex/regex.cpp:69-72 | a `(` with no `)` after it fails with "Expected )" |
| Regex.ParseUnclosed | src/4regex/regex.cpp:72 | a pattern that opens a parenthesis it never closes is rejected |
| Regex.ParseBadPower | src/4regex/regex.cpp:118-121 | a `^` followed by neither `+`, `*` nor a digit makes `std::stoi` throw on the empty string, so the parse fails |
| Regex.TopLevelExamples | src/4regex/regex.cpp:41-46 | at the top level a lone `)` is a literal, everything from the first top-level `|` on is ignored, and the empty pattern is the empty sequence |
| Regex.PowerRoundTrip | src/4regex/regex.cpp:105-139 | a printed power suffix reads back as the same bounds |
| Regex.AtomRoundTrip | src/4regex/regex.cpp:69-78 | a printed atom reads back as itself |
| Regex.ItemRoundTrip | src/4regex/regex.cpp:69-79 | a printed item reads back as itself when what follows cannot extend it |
| Regex.ItemsRoundTrip | src/4regex/regex.cpp:68-80 | printed items of a sequence read back as those items up to the stopping character |
| Regex.AltRoundTrip | src/4regex/regex.cpp:86-95 | a printed alternation followed by `)` reads back as itself |
| Regex.PatternRoundTrip | src/4regex/regex.cpp:65-84 | a printed pattern followed by its stopping character reads back as itself |
| Regex.ParsePrint | src/4regex/regex.cpp:41-95 | printing a well-formed, printable pattern and parsing the text (followed by nothing or by a `|`) gives the pattern back |
| RegexWords.Generate | src/4regex/regex.cpp:142-169 | a literal yields its text and uses no draw; any result leaves a suffix of the draws |
| RegexWords.GenerateSound | src/4regex/regex.cpp:142-169 | every generated word is in the language of the tree |
| RegexWords.GenerateComplete | src/4regex/regex.cpp:142-169 | every word of the language of the tree is generated by some draws, which leave any following draws untouched |
| RegexWords.GenerateTotal | src/4regex/regex.cpp:142-169 | every well-formed tree generates some word using up exactly the draws given |
| RegexWords.ChoiceStep | src/4regex/regex.cpp:154-166 | an alternation follows the option its draw names; a repetition makes as many copies as its draw names, within its bounds |
| RegexWords.SampleOneWord | src/4regex/regex.cpp:172-183 | the draws 2, 1, 0, 1 make the first sample pattern produce `OQ2P24` |
| RegexSamples.SampleOneParses | src/4regex/regex.cpp:173 | `O(P|Q2|R)^+2(3|4)` parses to the expected tree |
| RegexSamples.SampleTwoParses | src/4regex/regex.cpp:174 | `A^*B(C|D|E)F(G|H|I)^2` parses to the expected tree |
| RegexSamples.SampleThreeParses | src/4regex/regex.cpp:175 | `J^+K(L|M|N)^*0?(P|Q)^3` parses to the expected tree |
| RegexSamples.SampleOnePrint | src/4regex/regex.cpp:173 | the first sample tree prints back as its source text |
| RegexSamples.SampleTwoPrint | src/4regex/regex.cpp:174 | the second sample tree prints back as its source text |
| RegexSamples.SampleThreePrint | src/4regex/regex.cpp:175 | the third sample tree prints back as its source text |
| SourcePos.WalkLine | src/3lexer/src/lexer.cpp:32-38 | the line counter moves down once per newline consumed |
| SourcePos.WalkFlat | src/3lexer/src/lexer.cpp:32-38 | without a newline only the column moves, by the number of characters consumed |
| SourcePos.WalkAfterNewline | src/3lexer/src/lexer.cpp:34 | after a newline the column restarts at 1 and then counts the characters after it |
| SourcePos.WalkAppend | src/3lexer/src/lexer.cpp:32-38 | consuming two pieces is consuming the first, then the second |
| ChronoLexer.SkipWhitespace | src/3lexer/src/lexer.cpp:32-38 | the cursor moves over white space only, stops at the end or at a non-space character, and tracks lines and columns as each character is consumed |
| ChronoLexer.MakeWord | src/3lexer/src/lexer.cpp:56-81 | the word is the longest run of letters, digits and underscores from the cursor, its type is the keyword table's answer, the column moves by its length, and the token carries the position after it |
| ChronoLexer.KeywordsAreKeywords | src/3lexer/src/lexer.cpp:61-80 | a word gets a keyword type exactly when it is in the keyword table |
| ChronoLexer.ClassifyExamples | src/3lexer/src/lexer.cpp:61-80 | keyword lookup is case-sensitive: `Prophet` is a keyword and `PROPHET` is not, `LOAD` is and `load` is not, `d` is a time unit and `D`, `dd` are identifiers |
| ChronoLexer.ClassifyNeverEnds | src/3lexer/src/lexer.cpp:78-80 | a word is never classified as end of file or invalid |
| ChronoLexer.NumberSpan | src/3lexer/src/lexer.cpp:83-94 | a number is a digit run, extended by a dot and a second digit run only when a digit follows the dot |
| ChronoLexer.MakeNumber | src/3lexer/src/lexer.cpp:83-94 | an `INT` token is all digits, a `FLOAT` token is digits, dot, digits, no digit follows the lexeme, and the column moves by its length |
| ChronoLexer.ScanString | src/3lexer/src/lexer.cpp:99-102 | the scan stops at the first double quote or the end, counting newlines into the line and every character into the column |
| ChronoLexer.MakeString | src/3lexer/src/lexer.cpp:96-106 | the value holds no double quote, the line moves by its newlines and the column by its length plus the two quotes (the column is not reset at a newline inside a string) |
| ChronoLexer.MakeSymbol | src/3lexer/src/lexer.cpp:108-122 | `->` gives an arrow, one of `=<>{}(),` gives its one-character token, and anything else gives an invalid token of that one character |
| ChronoLexer.NextToken | src/3lexer/src/lexer.cpp:21-30 | after white space, the end of the input and only it gives the end-of-file token with an empty value; every token carries the position after it |
| ChronoLexer.Tokenize | src/3lexer/src/lexer.cpp:10-19 | the token list ends with exactly one end-of-file token and holds no invalid token |
| ChronoLexer.TokenizeLayout | src/3lexer/src/lexer.cpp:10-122 | printing lexable tokens one space apart and lexing the text gives back the same types and values followed by end of file |
| ChronoLexer.LayoutRelexes | src/3lexer/src/lexer.cpp:10-122 | from any cursor at a printed token layout, lexing gives back those tokens' types and values followed by end of file |
| ChronoLexer.TypeNameRoundTrip | src/3lexer/src/lexer.cpp:124-174 | the printed name of every token type reads back as that type |
| ChronoLexer.TypeNameInjective | src/3lexer/src/lexer.cpp:124-174 | different token types print different names |
| ChronoLexer.KeywordNames | src/3lexer/src/lexer.cpp:124-174 | a keyword prints as its own spelling, except `Prophet`, which prints as `PROPHET` |
| PatternLexer.FinalKind | src/6parser/lexer.cpp:69-76 | only an `ID` match is looked up in the keyword map; every other pattern keeps its own type, and no lexeme becomes end-of-file |
| PatternLexer.WordKinds | src/6parser/lexer.cpp:70-76 | a word is either a keyword type or an identifier |
| PatternLexer.KeywordMap | src/6parser/lexer.cpp:34-47 | the keyword map finds type `k` under `u` exactly when `k` is a keyword type and `u` is its upper-case spelling |
| PatternLexer.ClassifyWordIff | src/6parser/lexer.cpp:70-76 | a word gets keyword type `k` iff its upper-cased spelling is that keyword's; it stays an identifier iff its upper-cased spelling is no keyword's |
| PatternLexer.ClassifyExamples | src/6parser/lexer.cpp:72-74 | keyword lookup ignores case: `load` and `Load` are both `LOAD` |
| PatternLexer.IdentifierExample | src/6parser/lexer.cpp:73-75 | `d`, a time-unit letter on its own, is an identifier |
| PatternLexer.TwoCharKind | src/6parser/lexer.cpp:11-15 | a two-character pattern that matches has exactly those two characters as its text |
| PatternLexer.OneCharKind | src/6parser/lexer.cpp:16-26 | a one-character pattern that matches has exactly that character as its text |
| PatternLexer.SymbolMatch | src/6parser/lexer.cpp:11-26 | a fixed pattern matches at the cursor iff the text there is its spelling; no match iff neither a one-character nor (when two characters remain) a two-character pattern applies |
| PatternLexer.QuoteRun | src/6parser/lexer.cpp:27 | the run of characters that are neither a quote nor a newline, ending at the end, a quote or a newline |
| PatternLexer.StringLength | src/6parser/lexer.cpp:27 | a string lexeme runs from a quote to the next quote with no newline in between; an opening quote whose run hits a newline or the end matches nothing |
| PatternLexer.TimeUnitLength | src/6parser/lexer.cpp:28 | a time unit matches iff one or more digits are followed by `d`, `h` or `m`, and the lexeme is those digits and that letter |
| PatternLexer.FloatLength | src/6parser/lexer.cpp:29 | a float matches iff digits, a dot and a digit follow; the lexeme is digits, dot, digits and is not followed by a digit |
| PatternLexer.IntLength | src/6parser/lexer.cpp:30 | an integer matches iff a digit is at the cursor; the lexeme is the whole digit run |
| PatternLexer.IdLength | src/6parser/lexer.cpp:31 | an identifier matches iff a letter or `_` is at the cursor; the lexeme is the whole word run |
| PatternLexer.Lexeme | src/6parser/lexer.cpp:64-83 | the first pattern in table order that matches gives a non-empty lexeme inside the input and a type other than end-of-file |
| PatternLexer.OperatorExamples | src/6parser/lexer.cpp:11-16 | `==` and `->` are two-character operators, and `=x` starts with a single `=` |
| PatternLexer.TimeUnitExample | src/6parser/lexer.cpp:28-30 | `7d` is one time unit, not an integer |
| PatternLexer.FloatExample | src/6parser/lexer.cpp:29-30 | `12.5` is one float, not an integer |
| PatternLexer.IntExample | src/6parser/lexer.cpp:29-30 | `12.` is only the integer `12` |
| PatternLexer.OpenStringExample | src/6parser/lexer.cpp:27 | a quote whose closing quote is on the next line matches no pattern |
| PatternLexer.StrayExamples | src/6parser/lexer.cpp:85-88 | a lone `!` or `-` matches no pattern |
| PatternLexer.TokenizeFrom | src/6parser/lexer.cpp:54-92 | the token list ends with one empty end-of-file token at the position reached after the whole input; every token before it has a non-empty lexeme and another type |
| PatternLexer.Tokenize | src/6parser/lexer.cpp:50-93 | the last token is the empty end-of-file token, on line one plus the number of newlines in the input; all earlier tokens are real and non-empty |
| PatternLexer.SkipSpace | src/6parser/lexer.cpp:59-62 | a white-space character produces no token and only moves the position |
| PatternLexer.TakeToken | src/6parser/lexer.cpp:64-81 | a matched lexeme becomes one token at the current line and column, and lexing goes on after it at the advanced position |
| PatternLexer.LayoutRelexes | src/6parser/lexer.cpp:50-105 | tokens printed one space apart are lexed back into the same types and lexemes, each at the line and column where it was printed, followed by end-of-file |
| ChronoParser.Advance | src/6parser/parser.cpp:10-14 | `advance` moves one token unless the cursor is on END_OF_FILE, and returns the token just before the new cursor |
| ChronoParser.Match | src/6parser/parser.cpp:12-22 | `match` moves exactly when the current token has the wanted type and is not END_OF_FILE |
| ChronoParser.Expect | src/6parser/parser.cpp:24-30 | `expect` succeeds iff the current token has the wanted type, and then moves past it; otherwise it is an error |
| ChronoParser.Column | src/6parser/parser.cpp:32-42 | a column reference is an identifier, optionally `.` and a second identifier, giving `table.column`; a dot without an identifier after it fails |
| ChronoParser.ValueToken | src/6parser/parser.cpp:46-51 | a value is accepted iff the token is a string, an integer or a float, and its text is returned |
| ChronoParser.TableAndColumn | src/6parser/parser.cpp:62-73 | a table name with an optional `.column`; the column is present iff a dot follows the table |
| ChronoParser.TimeInterval | src/6parser/parser.cpp:300-318 | a time interval is accepted iff the token is a time unit with a non-empty digit prefix and a non-empty rest; the amount is that prefix's decimal value and the unit is the rest |
| ChronoParser.IntervalRoundTrip | src/6parser/parser.cpp:300-318 | a time unit printed as a number and a unit that does not start with a digit is read back as that number and that unit |
| ChronoParser.KeyValue | src/6parser/parser.cpp:320-329 | `key = value` is accepted iff an identifier, `=` and a value token follow, and gives the key, the value text and the cursor after them |
| ChronoParser.Params | src/6parser/parser.cpp:331-345 | without an identifier at the cursor the parameter list is empty and nothing is consumed |
| ChronoParser.MoreParams | src/6parser/parser.cpp:338-341 | the comma loop of the parameter list stops at the first token that is not a comma |
| ChronoParser.ParamsReadBack | src/6parser/parser.cpp:331-345 | printed `key = <int>` pairs separated by commas are read back as exactly those pairs, with each integer through `std::stoi`, up to the `)` |
| ChronoParser.MoreParamsReadBack | src/6parser/parser.cpp:338-341 | printed `, key = <int>` steps are read back as exactly those pairs, stopping at the first non-comma |
| ChronoParser.PlotValue | src/6parser/parser.cpp:179-204 | a plot value that is a string, integer or float token is that token's text; any other token except `[` is an error |
| ChronoParser.BracketedValue | src/6parser/parser.cpp:182-201 | a bracketed plot value succeeds iff the brackets balance before END_OF_FILE; it stops at the shortest balanced run and its text is the run's token values glued together |
| ChronoParser.PlotArgs | src/6parser/parser.cpp:174-213 | the argument loop ends on a `)` |
| ChronoParser.ArgsReadBack | src/6parser/parser.cpp:174-211 | printed `key = <string>` arguments separated by commas are read back as exactly those arguments, up to the `)` |
| ChronoParser.SourceStatement | src/6parser/parser.cpp:94-99 | LOAD, and STREAM at lines 142-147 with the same code, succeed iff a token and then FROM follow; the node holds the identifier's text, the path token's text and the identifier's line and column |
| ChronoParser.SourceParsed | src/6parser/parser.cpp:94-99 | `LOAD id FROM "path"`, and `STREAM id FROM "path"` at lines 142-147, parse to that statement and consume four tokens |
| ChronoParser.SetStatement | src/6parser/parser.cpp:101-106 | a SET statement is placed at the line and column of the token after it |
| ChronoParser.SetParsed | src/6parser/parser.cpp:101-106 | `SET WINDOW = <n><unit>` parses to that window, placed at the next token |
| ChronoParser.TransformStatement | src/6parser/parser.cpp:108-124 | TREND succeeds only on a `table.column` reference, and keeps that table and column |
| ChronoParser.TransformParsed | src/6parser/parser.cpp:108-124 | `TREND ( t . c ) -> forecast_next ( <n><unit> )` parses to that trend, placed at the next token, and consumes eleven tokens |
| ChronoParser.ForecastStatement | src/6parser/parser.cpp:126-140 | FORECAST succeeds only on a `table.column` reference, and keeps that table and column |
| ChronoParser.ForecastParsed | src/6parser/parser.cpp:126-140 | `FORECAST t . c USING m ( params )` parses to that forecast with the parameters the list yields |
| ChronoParser.SelectStatement | src/6parser/parser.cpp:149-166 | SELECT succeeds only on a `table.column` reference; the operator and the date are present iff WHERE follows |
| ChronoParser.SelectWhereParsed | src/6parser/parser.cpp:149-166 | `SELECT t . c WHERE DATE op "d"` parses to that selection with both the operator and the date, placed at the next token |
| ChronoParser.PlotStatement | src/6parser/parser.cpp:168-216 | a PLOT statement yields a plot node |
| ChronoParser.PlotParsed | src/6parser/parser.cpp:168-216 | `PLOT f (` and an argument list closed by `)` parse to that plot with exactly those arguments |
| ChronoParser.ExportStatement | src/6parser/parser.cpp:219-233 | EXPORT keeps the table name; the column is present iff a dot follows; the line field holds the table name's length and the column field the target's column |
| ChronoParser.ExportParsed | src/6parser/parser.cpp:219-233 | `EXPORT t TO "f"` parses to that export with no column and with line equal to the length of `t` |
| ChronoParser.ExportColumnParsed | src/6parser/parser.cpp:219-233 | `EXPORT t . c TO "f"` parses to that export with column `c` |
| ChronoParser.CleanStatement | src/6parser/parser.cpp:266-297 | after REMOVE, FROM must follow and the action is Remove with an empty replacement; after REPLACE or ANALYZE, IN must follow and the action is Replace |
| ChronoParser.RemoveParsed | src/6parser/parser.cpp:266-282 | `REMOVE t FROM c` parses to a Remove clean step |
| ChronoParser.ReplaceParsed | src/6parser/parser.cpp:283-296 | `REPLACE t IN c WITH "w"` parses to a Replace clean step with replacement `w` |
| ChronoParser.LoopStatement | src/6parser/parser.cpp:237-263 | FOR needs an identifier, IN, a token, TO, a token and `{`; the bounds are the two tokens through `std::stoi` |
| ChronoParser.LoopClose | src/6parser/parser.cpp:253-262 | the loop closes iff a `}` follows the body and both bounds pass `std::stoi`; the node keeps the body |
| ChronoParser.LoopParsed | src/6parser/parser.cpp:237-263 | `FOR v IN <f> TO <t> {` and a body closed by `}` parse to that loop with that body |
| ChronoParser.Body | src/6parser/parser.cpp:249-251 | the body loop stops on a `}` or END_OF_FILE |
| ChronoParser.BodyReadBack | src/6parser/parser.cpp:249-253 | printed statements followed by `}` or END_OF_FILE are read back as the same statements up to positions, stopping exactly at that token |
| ChronoParser.Parse | src/6parser/parser.cpp:54-60 | a successful parse is a program node |
| ChronoParser.StatementKeyword | src/6parser/parser.cpp:78-91 | a statement parses only if its first token is one of the statement keywords |
| ChronoParser.ParseRejects | src/6parser/parser.cpp:91 | a program whose first token is no statement keyword is rejected |
| ChronoParser.ParseEmpty | src/6parser/parser.cpp:54-60 | a token list holding only END_OF_FILE is the empty program |
| ChronoParser.StatementRoundTrip | src/6parser/parser.cpp:78-297 | every printable statement, printed as tokens, parses back to itself up to positions and consumes exactly its tokens |
| ChronoParser.StatementsReadBack | src/6parser/parser.cpp:56-58 | printed statements up to END_OF_FILE are read back as the same statements up to positions |
| ChronoParser.ParseRoundTrip | src/6parser/parser.cpp:54-60 | `parse` of a printed program succeeds and returns the same statements, up to line and column numbers |
| Text.Stoi | src/6parser/parser.cpp:257-258 | `std::stoi` fails on empty text and on text starting with anything other than white space, a sign or a digit; text starting with digits reads their decimal value and ignores the rest |
| Text.StoiReadsDecimal | src/6parser/parser.cpp:336 | `std::stoi` reads back a printed natural number whatever non-digit follows it |
| Text.NatToString | src/6parser/parser.cpp:257-258 | the decimal text of a natural number is non-empty, all digits, and has that number as its decimal value |
| Text.NatToStringInjective | src/6parser/parser.cpp:257-258 | different numbers print differently |
| Text.UpperString | src/6parser/lexer.cpp:71-72 | upper-casing keeps the length and upper-cases each ASCII letter, leaving other characters alone |
| AstJson.IntFields | src/lab6/astToJson.cpp:34-36 | forecast parameters become an object whose every field is a number |
| AstJson.StrFields | src/lab6/astToJson.cpp:68-70 | plot arguments become an object whose every field is a string |
| AstJson.AllToJson | src/lab6/astToJson.cpp:8-9 | a statement list (also a loop body, lines 89-90) becomes an array of the same length, holding each statement's JSON in order |
| AstJson.TypeTagged | src/lab6/astToJson.cpp:3-120 | every node becomes an object whose "type" field names its kind, and "Unknown" for the nodes without a case |
| AstJson.IntFieldsLastWins | src/lab6/astToJson.cpp:34-36 | a key is in the parameter object iff some parameter has it, and its value is that of the last parameter with that key |
| AstJson.StrFieldsLastWins | src/lab6/astToJson.cpp:68-70 | a key is in the argument object iff some argument has it, and its value is that of the last argument with that key |
| AstJson.StatementsInOrder | src/lab6/astToJson.cpp:5-98 | a program's "statements" and a loop's "body" are arrays holding the statements' JSON, one per statement, in order |
| AstJson.SelectCondition | src/lab6/astToJson.cpp:51-65 | a selection has a "condition" iff both the operator and the date are present, and then it holds exactly those two |
| AstJson.ExportColumn | src/lab6/astToJson.cpp:73-84 | an export has a "column" iff the statement names one, and always has its target under "to" |
| AstJson.CleanWith | src/lab6/astToJson.cpp:99-117 | a clean step has a "with" iff it is a replacement, and its "action" is "remove" or "replace" accordingly |
| AstJson.ForecastParams | src/lab6/astToJson.cpp:32-45 | a forecast's "params" is null exactly when it has no parameters, and otherwise an object holding the last value given to each key |
| AstJson.PlotArgsObject | src/lab6/astToJson.cpp:66-72 | a plot's "args" is always an object, with a field for each argument key holding the last value given to it |
| AstJson.TransformInterval | src/lab6/astToJson.cpp:20-30 | a trend's amount and unit sit inside a nested "interval" object, not at the top |
| AstJson.UnknownNodes | src/lab6/astToJson.cpp:118-119 | expression and value nodes become `{"type": "Unknown"}` |
| AstJson.PositionFree | src/lab6/astToJson.cpp:3-120 | line and column numbers never reach the JSON |
| AstJson.AllPositionFree | src/lab6/astToJson.cpp:8-9 | the same for a statement list |
| AstJson.DumpAfterReparse | src/lab6/astToJson.cpp:3-120 | printing a program as tokens, parsing it and dumping it gives the JSON of the original program |

## Left out

- Console and file output is not modelled:
  - `printDFA` and `visualizeAutomaton` (src/lab2.cpp:143-191);
  - `PrintDFA` and the `.dot` file writing (src/lab2/FiniteAutomaton.hpp:147-198);
  - `generateMultipleStrings`;
  - the lab-3 `runREPL` (src/3lexer/src/lexer.cpp:176-188);
  - the lab-6 `main.cpp` JSON dump;
  - the `main` drivers, except the automata and patterns they build, which are modelled as constants.
- Text.Stoi: does not model the `std::out_of_range` exception. A digit run above 2147483647 is read as its unbounded value where `std::stoi` throws. So `^99999999999` in a pattern (src/4regex/regex.cpp:121) parses in the model, and so do FOR bounds and FORECAST parameters above that limit (src/6parser/parser.cpp:257-258, 336).
- Regex.ApplyPower: inherits the missing `out_of_range` case of Text.Stoi.
- ChronoParser.TimeInterval: inherits the missing `out_of_range` case of Text.Stoi (src/6parser/parser.cpp:313). An interval such as `99999999999d` is read as its unbounded amount, so SET WINDOW and TREND intervals (src/6parser/parser.cpp:104, 115) above 2147483647 parse in the model where the source throws.
- ChronoParser.LoopStatement: inherits the missing `out_of_range` case of Text.Stoi.
- ChronoParser.Params: inherits the missing `out_of_range` case of Text.Stoi.
- PatternLexer.TokenizeFrom: counts one column per Dafny character. The source counts one per byte, so a multi-byte UTF-8 character moves the source's column further.
- ChronoLexer.NextToken: counts columns the same way as PatternLexer.TokenizeFrom. Character classes are ASCII only, while `isalpha`, `isdigit` and `isspace` on a negative `char` (bytes from 0x80 up) are undefined behaviour in the source.
- SubsetConstruction.ConvertToDFA: names the explored sets through a parameter `join` that must give distinct non-empty sets distinct non-empty names (GoodNames), in place of `JoinStates` (src/2DFA/FiniteAutomaton.cpp:128-134). `JoinStates` concatenates the member names with no separator in hash order. With states `q`, `0` and `q0`, the set `{q, 0}` can be named `q0` and collide with `{q0}`, so the source can merge two subsets. Automata where that happens are outside the model.
- FiniteAutomata.ToDot: lists states and edges in ascending code-point order, standing in for the iteration order of the source's hash containers.
- AutomatonGrammar.NonTerminalMap: hands out the letters to states in ascending order, not in hash-set order. The letter assignment therefore matches the source only up to a renaming. The console echo of each assignment (src/lab2/FiniteAutomaton.hpp:123) is left out.
- AutomatonGrammar.ToGrammarIsRegular: requires at most 223 states. The source's `char` letter counter starting at `A` reaches a space at the 224th state (see AutomatonGrammar.LetterOfSpace) and wraps after 256.
- Cnf.ConvertLong: numbers the new `X<n>` variables in ascending order of the left-hand sides, not in `unordered_map` order. The result is the same up to a renaming of the new variables.
- Cnf.ConvertTerminals: visits the left-hand sides in ascending order too. The same renaming caveat applies.
- Cnf.TerminalVariables: requires that no input key is of the form `X<n>` with `n` above the counter; otherwise a new variable could clash with an existing one.
- Cnf.LongFoldsBack: requires comma-free symbols as well, because the pair key `left,right` of src/5cnf/cnf.cpp:204 collides otherwise (Cnf.CommaKeysCollide).
- Cnf.Reachable: the least fixed point is the model. The source inserts into the `unordered_set` it is range-iterating (src/5cnf/cnf.cpp:157-163), and a rehash during that loop invalidates the iterator, which is undefined behaviour.
- Cnf.CopyUnits: the copy for a unit pair `(A, A)` reads the list as it was before the copy. The source appends to the vector it is iterating (src/5cnf/cnf.cpp:117-123), which is undefined behaviour.
- RegexWords.Generate: the random draws are a parameter `picks`. A pick outside the range the draw respects gives `None`, as does running out of picks. The same goes for an alternation with no options, where `uniform_int_distribution(0, -1)` is undefined behaviour in the source.
- Grammars.GenerateString: the body loop (src/2DFA/Grammar.hpp:52-59) looks up one character at a time where the source looks up one byte at a time. A non-ASCII character in a body matches none of the source's one-byte strings and is dropped there, while the model copies it when it is a terminal. On ASCII bodies the two agree.
- Grammars.GenerateString: the draws are a parameter too. A symbol with an empty rule list gives `None`, where `distrib(0, rules.size()-1)` is undefined behaviour (src/2DFA/Grammar.hpp:48).
- Lab1.GenerateStep: draws come from a list of picks in place of the Mersenne Twister, and a pick is taken modulo the number of bodies.
- Regex.ParseAtom: reads one character as a literal where `parse_literal` (src/4regex/regex.cpp:97-102) reads one byte. In `é^2` the source's power applies to the last byte of the letter alone, while the model repeats the whole letter. On ASCII patterns the two agree.
- Regex.Parse: the trace log of src/4regex/regex.cpp:19-23 is left out; it only records messages. src/lab4/regex.cpp is the same parser without the log.
- PatternLexer.Lexeme: each pattern of the `std::regex` table is written out as a prefix matcher. The regex engine itself is not modelled.
- `parseListOfLists`, `parseListOfNumbers` and `parseListOfStrings` (src/6parser/parser.cpp:347-403) are left out: `parse` never calls them, and they read floating point through `std::stod`.
- The `Grammar` class at src/lab2.cpp:9-65 is left out. It is the lab-1 generator with the rules passed in, and its `validateString` looks the input up among the strings generated so far. That file's `main` does not use it; Lab1 models the generator.
- `HashSetComparer` (src/lab2/hashSetCompar.hpp) is left out: the model compares state sets as Dafny sets.
- The duplicate copies are not cited separately, because they are the same text:
  - src/lab3/src/lexer.cpp, src/lab5/cnf.cpp, src/lab2/Grammar.hpp and src/lab6/lexer.cpp duplicate files cited here;
  - src/lab6/include/ast.h duplicates src/6parser/include/ast.h.
  - src/lab2/FiniteAutomaton.hpp:36-108 repeats src/2DFA/FiniteAutomaton.cpp:30-102, adding only the `HashSetComparer` for the set-to-name map;
  - src/lab2/main.cpp duplicates src/2DFA/main.cpp.

## Findings

| source | as written | input that shows it | evidently intended | confidence | as-written member | corrected member |
|---|---|---|---|---|---|---|
| src/lab2.cpp:140 | `convertToDFA` builds `newTransitions` but returns the automaton with the input's own `transitions` | the driver's automaton (src/lab2.cpp:197-205), where `(q0, a)` goes to both `q0` and `q1`: the "DFA" still has that key with two targets | return `newTransitions`, so that each explored set and symbol has the one name of its successor set | high (by reading; not executed) | OrderedSubsetConstruction.AsWrittenResultIsNotDeterministic | OrderedSubsetConstruction.CorrectedTransitions |

=== FILE: automaton.dfy ===
/** The `FiniteAutomaton` class of the automaton labs: states and symbols
    are strings, the transition map sends a state and a symbol to a set of
    states, and a word is read one character at a time, each character
    being looked up as the one-character symbol. */
module FiniteAutomata {
  import opened Text

  type State = string
  type Symbol = string
  type TransitionMap = map<State, map<Symbol, set<State>>>

  datatype Automaton = Automaton(
    states: set<State>,
    alphabet: set<Symbol>,
    transitions: TransitionMap,
    start: State,
    finals: set<State>)

  /** The targets of `q` on `x`; a missing entry has none. */
  function Targets(t: TransitionMap, q: State, x: Symbol): set<State>
  {
    if q in t && x in t[q] then t[q][x] else {}
  }

  /** The states reached from any state of `current` on `x`. */
  function Step(t: TransitionMap, current: set<State>, x: Symbol): (next: set<State>)
    ensures forall q :: q in next <==> exists p :: p in current && q in Targets(t, p, x)
  {
    set p, q | p in current && q in Targets(t, p, x) :: q
  }

  /** `ContainsFinalState`. */
  predicate ContainsFinal(finals: set<State>, current: set<State>)
  {
    current * finals != {}
  }

  /** The loop of `StringBelongsToLanguage` from the active set `current`:
      it gives up as soon as no state is active. */
  function Simulate(t: TransitionMap, finals: set<State>, current: set<State>, input: string): bool
    decreases |input|
  {
    if |input| == 0 then ContainsFinal(finals, current)
    else
      var next := Step(t, current, [input[0]]);
      if next == {} then false else Simulate(t, finals, next, input[1..])
  }

  /** `FiniteAutomaton::StringBelongsToLanguage`. */
  function StringBelongsToLanguage(a: Automaton, input: string): (r: bool)
    ensures |input| == 0 ==> (r <==> a.start in a.finals)
  {
    assert a.start in a.finals ==> a.start in {a.start} * a.finals;
    Simulate(a.transitions, a.finals, {a.start}, input)
  }

  // ---------------------------------------------------------------------
  // Runs: the textbook acceptance condition.

  /** `path` visits one state per position of `input`, each following the
      previous one on the character read there. */
  predicate IsRun(t: TransitionMap, input: string, path: seq<State>)
  {
    |path| == |input| + 1
    && forall i :: 0 <= i < |input| ==> path[i + 1] in Targets(t, path[i], [input[i]])
  }

  /** An accepting simulation has an accepting run behind it. */
  lemma {:induction false} SimulateHasRun(t: TransitionMap, finals: set<State>, current: set<State>, input: string)
      returns (path: seq<State>)
    requires Simulate(t, finals, current, input)
    ensures IsRun(t, input, path) && path[0] in current && path[|input|] in finals
    decreases |input|
  {
    if |input| == 0 {
      var q :| q in current * finals;
      path := [q];
    } else {
      var next := Step(t, current, [input[0]]);
      var rest := SimulateHasRun(t, finals, next, input[1..]);
      var p :| p in current && rest[0] in Targets(t, p, [input[0]]);
      path := [p] + rest;
      forall i | 0 <= i < |input|
        ensures path[i + 1] in Targets(t, path[i], [input[i]])
      {
        if i > 0 {
          assert input[1..][i - 1] == input[i];
        }
      }
    }
  }

  /** Every accepting run is found by the simulation. */
  lemma {:induction false} RunMakesSimulate(t: TransitionMap, finals: set<State>, current: set<State>, input: string, path: seq<State>)
    requires IsRun(t, input, path) && path[0] in current && path[|input|] in finals
    ensures Simulate(t, finals, current, input)
    decreases |input|
  {
    if |input| == 0 {
      assert path[0] in current * finals;
    } else {
      var next := Step(t, current, [input[0]]);
      assert path[1] in next;
      var rest := path[1..];
      forall i | 0 <= i < |input[1..]|
        ensures rest[i + 1] in Targets(t, rest[i], [input[1..][i]])
      {
        assert path[i + 2] in Targets(t, path[i + 1], [input[i + 1]]);
      }
      RunMakesSimulate(t, finals, next, input[1..], rest);
    }
  }

  /** A word is accepted exactly when some run over it leads from the start
      state to a final state. */
  lemma AcceptsIffRun(a: Automaton, input: string)
    ensures StringBelongsToLanguage(a, input)
        <==> exists path :: IsRun(a.transitions, input, path) && path[0] == a.start && path[|input|] in a.finals
  {
    if StringBelongsToLanguage(a, input) {
      var path := SimulateHasRun(a.transitions, a.finals, {a.start}, input);
    }
    if exists path :: IsRun(a.transitions, input, path) && path[0] == a.start && path[|input|] in a.finals {
      var path :| IsRun(a.transitions, input, path) && path[0] == a.start && path[|input|] in a.finals;
      RunMakesSimulate(a.transitions, a.finals, {a.start}, input, path);
    }
  }

  // ---------------------------------------------------------------------
  // Determinism.

  /** No entry of the transition map lists two targets. A missing entry
      does not count against determinism. */
  predicate Deterministic(t: TransitionMap)
  {
    forall q, x :: q in t && x in t[q] ==> |t[q][x]| <= 1
  }

  /** `FiniteAutomaton::IsDeterministic`: walks the hash map in whatever
      order it holds its entries and stops at the first entry with more
      than one target. */
  method IsDeterministic(a: Automaton) returns (r: bool)
    ensures r <==> Deterministic(a.transitions)
  {
    var t := a.transitions;
    var todo := t.Keys;
    while todo != {}
      invariant todo <= t.Keys
      invariant forall q, x :: q in t && q !in todo && x in t[q] ==> |t[q][x]| <= 1
      decreases |todo|
    {
      var state :| state in todo;
      var row := t[state];
      var symbols := row.Keys;
      while symbols != {}
        invariant symbols <= row.Keys
        invariant forall x :: x in row && x !in symbols ==> |row[x]| <= 1
        decreases |symbols|
      {
        var symbol :| symbol in symbols;
        if |row[symbol]| > 1 {
          return false;
        }
        symbols := symbols - {symbol};
      }
      todo := todo - {state};
    }
    return true;
  }

  /** In a deterministic automaton two runs over the same word from the
      same state are the same run. */
  lemma {:induction false} DeterministicRunsAgree(t: TransitionMap, input: string, p1: seq<State>, p2: seq<State>, n: nat)
    requires Deterministic(t)
    requires IsRun(t, input, p1) && IsRun(t, input, p2) && p1[0] == p2[0]
    requires n <= |input|
    ensures p1[..n + 1] == p2[..n + 1]
  {
    if n > 0 {
      DeterministicRunsAgree(t, input, p1, p2, n - 1);
      assert p1[n - 1] == p2[n - 1] by { assert p1[..n][n - 1] == p2[..n][n - 1]; }
      var q, x := p1[n - 1], [input[n - 1]];
      assert p1[n] in Targets(t, q, x) && p2[n] in Targets(t, q, x);
      if p1[n] != p2[n] {
        assert {p1[n], p2[n]} <= t[q][x];
        assert |{p1[n], p2[n]}| == 2;
        SubsetCard({p1[n], p2[n]}, t[q][x]);
        assert false;
      }
      assert p1[..n + 1] == p1[..n] + [p1[n]];
      assert p2[..n + 1] == p2[..n] + [p2[n]];
    }
  }

  /** Every run of a deterministic automaton is the only run over its word
      from its first state. */
  lemma DeterministicRunUnique(t: TransitionMap, input: string, p1: seq<State>, p2: seq<State>)
    requires Deterministic(t)
    requires IsRun(t, input, p1) && IsRun(t, input, p2) && p1[0] == p2[0]
    ensures p1 == p2
  {
    DeterministicRunsAgree(t, input, p1, p2, |input|);
    assert p1 == p1[..|input| + 1] && p2 == p2[..|input| + 1];
  }

  // ---------------------------------------------------------------------
  // Listing the transitions. The hash maps are visited here in ascending
  // order, standing in for the unspecified order of the source.

  datatype Edge = Edge(from: State, symbol: Symbol, to: State)

  predicate HasEdge(t: TransitionMap, e: Edge)
  {
    e.from in t && e.symbol in t[e.from] && e.to in t[e.from][e.symbol]
  }

  function EdgesTo(q: State, x: Symbol, targets: seq<State>): (r: seq<Edge>)
    ensures |r| == |targets|
    ensures forall e :: e in r <==> e.from == q && e.symbol == x && e.to in targets
    ensures NoDup(targets) ==> NoDup(r)
  {
    if |targets| == 0 then []
    else
      var rest := EdgesTo(q, x, targets[1..]);
      assert NoDup(targets) ==> NoDup(targets[1..]) && targets[0] !in targets[1..] by {
        if NoDup(targets) {
          forall k | 0 <= k < |targets[1..]| ensures targets[1..][k] != targets[0] {
            assert targets[1..][k] == targets[k + 1];
          }
        }
      }
      NoDupConcatIf([Edge(q, x, targets[0])], rest, NoDup(targets));
      [Edge(q, x, targets[0])] + rest
  }

  /** `NoDupConcat` under a condition that is only known at the call site. */
  lemma NoDupConcatIf<T>(a: seq<T>, b: seq<T>, c: bool)
    requires c ==> NoDup(a) && NoDup(b) && forall x :: x in a ==> x !in b
    ensures c ==> NoDup(a + b)
  {
    if c {
      NoDupConcat(a, b);
    }
  }

  function EdgesOn(t: TransitionMap, q: State, xs: seq<Symbol>): (r: seq<Edge>)
    requires q in t && forall k :: 0 <= k < |xs| ==> xs[k] in t[q]
    ensures forall e :: e in r <==> e.from == q && e.symbol in xs && HasEdge(t, e)
    ensures NoDup(xs) ==> NoDup(r)
  {
    if |xs| == 0 then []
    else
      var here := EdgesTo(q, xs[0], SortedSet(t[q][xs[0]]));
      var rest := EdgesOn(t, q, xs[1..]);
      assert NoDup(xs) ==> NoDup(xs[1..]) && xs[0] !in xs[1..] by {
        if NoDup(xs) {
          forall k | 0 <= k < |xs[1..]| ensures xs[1..][k] != xs[0] {
            assert xs[1..][k] == xs[k + 1];
          }
        }
      }
      NoDupConcatIf(here, rest, NoDup(xs));
      here + rest
  }

  function EdgesFrom(t: TransitionMap, qs: seq<State>): (r: seq<Edge>)
    requires forall k :: 0 <= k < |qs| ==> qs[k] in t
    ensures forall e :: e in r <==> e.from in qs && HasEdge(t, e)
    ensures NoDup(qs) ==> NoDup(r)
  {
    if |qs| == 0 then []
    else
      var here := EdgesOn(t, qs[0], SortedSet(t[qs[0]].Keys));
      var rest := EdgesFrom(t, qs[1..]);
      assert NoDup(qs) ==> NoDup(qs[1..]) && qs[0] !in qs[1..] by {
        if NoDup(qs) {
          forall k | 0 <= k < |qs[1..]| ensures qs[1..][k] != qs[0] {
            assert qs[1..][k] == qs[k + 1];
          }
        }
      }
      NoDupConcatIf(here, rest, NoDup(qs));
      here + rest
  }

  /** Every (state, symbol, target) triple of the map, once each. */
  function Edges(t: TransitionMap): (r: seq<Edge>)
    ensures forall e :: e in r <==> HasEdge(t, e)
    ensures NoDup(r)
  {
    EdgesFrom(t, SortedSet(t.Keys))
  }

  /** The triples of the map as a set. */
  function EdgeSet(t: TransitionMap): (r: set<Edge>)
    ensures forall e :: e in r <==> HasEdge(t, e)
  {
    set q, x, p | q in t && x in t[q] && p in t[q][x] :: Edge(q, x, p)
  }

  /** The listing has exactly as many entries as the map has triples. */
  lemma EdgesCount(t: TransitionMap)
    ensures |Edges(t)| == |EdgeSet(t)|
  {
    NoDupCard(Edges(t));
    assert Elems(Edges(t)) == EdgeSet(t);
  }

  // ---------------------------------------------------------------------
  // Graphviz output.

  /** The statements `ToDot` writes, one per line. */
  datatype DotStatement =
    | Header
    | FinalNode(q: State)
    | StartArrow(q: State)
    | Arrow(e: Edge)
    | Close

  function Quote(s: string): string { "\"" + s + "\"" }

  const DotHeader := "digraph DFA {\n  rankdir=LR;\n  node [shape=circle];\n"

  /** The text of one statement. */
  function Render(st: DotStatement): string
  {
    match st
    case Header => DotHeader
    case FinalNode(q) => "  " + Quote(q) + " [shape=doublecircle];\n"
    case StartArrow(q) => "  " + Quote("") + " -> " + Quote(q) + " [label=" + Quote("start") + "];\n"
    case Arrow(e) => "  " + Quote(e.from) + " -> " + Quote(e.to) + " [label=" + Quote(e.symbol) + "];\n"
    case Close => "}"
  }

  function FinalNodes(qs: seq<State>): (r: seq<DotStatement>)
    ensures |r| == |qs|
    ensures forall k :: 0 <= k < |qs| ==> r[k] == FinalNode(qs[k])
    ensures forall st :: st in r <==> st.FinalNode? && st.q in qs
  {
    if |qs| == 0 then [] else [FinalNode(qs[0])] + FinalNodes(qs[1..])
  }

  function Arrows(es: seq<Edge>): (r: seq<DotStatement>)
    ensures |r| == |es|
    ensures forall k :: 0 <= k < |es| ==> r[k] == Arrow(es[k])
    ensures forall st :: st in r <==> st.Arrow? && st.e in es
  {
    if |es| == 0 then [] else [Arrow(es[0])] + Arrows(es[1..])
  }

  /** The statements of the graph in the order `ToDot` writes them: the
      header, a double circle for every final state, the arrow into the
      start state, one arrow per transition triple, the closing brace. */
  function DotStatements(a: Automaton): (r: seq<DotStatement>)
    ensures |r| == 3 + |a.finals| + |EdgeSet(a.transitions)|
    ensures r[0] == Header && r[|r| - 1] == Close
    ensures r[1 + |a.finals|] == StartArrow(a.start)
    ensures forall q :: q in a.finals <==> FinalNode(q) in r
    ensures forall e :: HasEdge(a.transitions, e) <==> Arrow(e) in r
    ensures forall k :: 1 <= k < 1 + |a.finals| ==> r[k].FinalNode?
    ensures forall k :: 2 + |a.finals| <= k < |r| - 1 ==> r[k].Arrow?
    ensures forall i, j :: 2 + |a.finals| <= i < j < |r| - 1 ==> r[i] != r[j]
  {
    var qs := SortedSet(a.finals);
    var es := Edges(a.transitions);
    EdgesCount(a.transitions);
    DotFrame(qs, es, a.start)
  }

  function DotFrame(qs: seq<State>, es: seq<Edge>, start: State): (r: seq<DotStatement>)
    ensures |r| == 3 + |qs| + |es|
    ensures r[0] == Header && r[|r| - 1] == Close
    ensures r[1 + |qs|] == StartArrow(start)
    ensures forall q :: q in qs <==> FinalNode(q) in r
    ensures forall e :: e in es <==> Arrow(e) in r
    ensures forall k :: 1 <= k < 1 + |qs| ==> r[k].FinalNode?
    ensures forall k :: 2 + |qs| <= k < |r| - 1 ==> r[k].Arrow?
    ensures NoDup(es) ==> forall i, j :: 2 + |qs| <= i < j < |r| - 1 ==> r[i] != r[j]
  {
    var fl := FinalNodes(qs);
    var el := Arrows(es);
    FrameSlices(Header, fl, StartArrow(start), el, Close);
    [Header] + fl + [StartArrow(start)] + el + [Close]
  }

  lemma FrameSlices<T>(h: T, xs: seq<T>, m: T, ys: seq<T>, z: T)
    ensures var r := [h] + xs + [m] + ys + [z];
      && |r| == |xs| + |ys| + 3
      && r[0] == h && r[1 + |xs|] == m && r[|r| - 1] == z
      && (forall k :: 1 <= k < 1 + |xs| ==> r[k] == xs[k - 1])
      && (forall k :: 2 + |xs| <= k < |r| - 1 ==> r[k] == ys[k - 2 - |xs|])
  {
  }

  function RenderAll(sts: seq<DotStatement>): (r: seq<string>)
    ensures |r| == |sts|
    ensures forall k :: 0 <= k < |sts| ==> r[k] == Render(sts[k])
  {
    if |sts| == 0 then [] else [Render(sts[0])] + RenderAll(sts[1..])
  }

  /** `FiniteAutomaton::ToDot`: the statements, rendered and concatenated
      (writing the text to a file is not modelled). */
  function ToDot(a: Automaton): (r: string)
    ensures r == Concat(RenderAll(DotStatements(a)))
    ensures DotFramed(r)
  {
    DotEnds(a);
    DotText(RenderAll(DotStatements(a)));
    Concat(RenderAll(DotStatements(a)))
  }

  lemma DotEnds(a: Automaton)
    ensures |RenderAll(DotStatements(a))| >= 2
    ensures RenderAll(DotStatements(a))[0] == DotHeader
    ensures RenderAll(DotStatements(a))[|RenderAll(DotStatements(a))| - 1] == "}"
  {
    var sts := DotStatements(a);
    assert Render(sts[0]) == DotHeader;
    assert Render(sts[|sts| - 1]) == "}";
  }

  /** A graph text: the header first, the closing brace last. */
  predicate DotFramed(text: string)
  {
    |text| > |DotHeader| && text[..|DotHeader|] == DotHeader && text[|text| - 1] == '}'
  }

  /** Lines that open with the header and end with the closing brace make a
      text that does too. */
  lemma DotText(lines: seq<string>)
    requires |lines| >= 2 && lines[0] == DotHeader && lines[|lines| - 1] == "}"
    ensures DotFramed(Concat(lines))
  {
    ConcatFrame(lines);
    var mid := Concat(lines[1..|lines| - 1]);
    assert Concat(lines) == DotHeader + mid + "}";
    assert (DotHeader + mid + "}")[..|DotHeader|] == DotHeader;
  }
}

=== FILE: bridge.dfy ===
/** `FiniteAutomaton::ToGrammar` and `VerifyGeneratedString`: the right-linear
    grammar read off an automaton, and the check that a word the grammar
    generates is accepted. */
module AutomatonGrammar {
  import opened Wrappers
  import opened Text
  import opened FiniteAutomata
  import opened Grammars
  import SubsetConstruction

  /** The non-terminal of the `i`-th state: the one-character string
      `'A' + i`. The counter is a `char`, so it wraps after 256 states. */
  function Letter(i: nat): string
  {
    [((65 + i) % 256) as char]
  }

  lemma LetterInjective(i: nat, j: nat)
    requires i < 256 && j < 256 && Letter(i) == Letter(j)
    ensures i == j
  {
    assert Letter(i)[0] == Letter(j)[0];
  }

  /** The position of `q` in `qs`. */
  function IndexOf(qs: seq<State>, q: State): (k: nat)
    requires q in qs
    ensures k < |qs| && qs[k] == q
  {
    if qs[0] == q then 0 else 1 + IndexOf(qs[1..], q)
  }

  lemma IndexOfUnique(qs: seq<State>, k: nat)
    requires k < |qs|
    requires forall i, j :: 0 <= i < j < |qs| ==> LexLess(qs[i], qs[j])
    ensures IndexOf(qs, qs[k]) == k
  {
    var i := IndexOf(qs, qs[k]);
    if i < k {
      LexLessIrreflexive(qs[k]);
    } else if k < i {
      LexLessIrreflexive(qs[k]);
    }
  }

  /** `stateToNonTerminal`: the states, visited in ascending order (standing
      in for the hash set's order), get the letters `A`, `B`, ... in turn. */
  function NonTerminalMap(a: Automaton): (m: map<State, string>)
    ensures m.Keys == a.states
    ensures forall q :: q in m ==> |m[q]| == 1
  {
    var qs := SortedSet(a.states);
    map q | q in a.states :: Letter(IndexOf(qs, q))
  }

  /** The letter of a state is the letter of its position. */
  lemma NonTerminalIsLetter(a: Automaton, q: State) returns (i: nat)
    requires q in a.states
    ensures i < |a.states| && NonTerminalMap(a)[q] == Letter(i)
  {
    i := IndexOf(SortedSet(a.states), q);
  }

  lemma LetterOutside(a: Automaton, q: State, xs: set<string>)
    requires q in a.states
    requires forall i: nat :: i < |a.states| ==> Letter(i) !in xs
    ensures NonTerminalMap(a)[q] !in xs
  {
    var i := NonTerminalIsLetter(a, q);
  }

  /** `stateToNonTerminal[state]`: a state outside `States` is looked up
      with `operator[]`, which inserts and yields the empty string. */
  function NonTerminalOf(m: map<State, string>, q: State): string
  {
    if q in m then m[q] else ""
  }

  /** The bodies one transition triple contributes to the production list
      of its source: the symbol followed by the target's non-terminal, and
      the bare symbol as well when the target is final. */
  function BodiesOf(a: Automaton, m: map<State, string>, e: Edge): seq<string>
  {
    [e.symbol + NonTerminalOf(m, e.to)] + (if e.to in a.finals then [e.symbol] else [])
  }

  /** The bodies listed for `h`; none when `h` has no entry. */
  function BodiesIn(prods: map<string, seq<string>>, h: string): seq<string>
  {
    if h in prods then prods[h] else []
  }

  /** The production map after the triples `es` have been visited in order. */
  function CollectProductions(a: Automaton, m: map<State, string>, es: seq<Edge>): (prods: map<string, seq<string>>)
    ensures forall h :: h in prods ==> exists k :: 0 <= k < |es| && NonTerminalOf(m, es[k].from) == h
    ensures forall k :: 0 <= k < |es| ==> NonTerminalOf(m, es[k].from) in prods
    ensures forall h, b :: b in BodiesIn(prods, h) ==>
      exists k :: 0 <= k < |es| && NonTerminalOf(m, es[k].from) == h && b in BodiesOf(a, m, es[k])
    ensures forall k, b :: 0 <= k < |es| && b in BodiesOf(a, m, es[k]) ==> b in BodiesIn(prods, NonTerminalOf(m, es[k].from))
    decreases |es|
  {
    if |es| == 0 then map[]
    else
      var init := es[..|es| - 1];
      var before := CollectProductions(a, m, init);
      var e := es[|es| - 1];
      var h := NonTerminalOf(m, e.from);
      var prods := before[h := BodiesIn(before, h) + BodiesOf(a, m, e)];
      CollectStep(a, m, es, before, prods);
      prods
  }

  lemma CollectStep(a: Automaton, m: map<State, string>, es: seq<Edge>, before: map<string, seq<string>>, prods: map<string, seq<string>>)
    requires |es| > 0
    requires var init := es[..|es| - 1];
      && (forall h :: h in before ==> exists k :: 0 <= k < |init| && NonTerminalOf(m, init[k].from) == h)
      && (forall k :: 0 <= k < |init| ==> NonTerminalOf(m, init[k].from) in before)
      && (forall h, b :: b in BodiesIn(before, h) ==>
            exists k :: 0 <= k < |init| && NonTerminalOf(m, init[k].from) == h && b in BodiesOf(a, m, init[k]))
      && (forall k, b :: 0 <= k < |init| && b in BodiesOf(a, m, init[k]) ==> b in BodiesIn(before, NonTerminalOf(m, init[k].from)))
    requires var e := es[|es| - 1]; var h := NonTerminalOf(m, e.from);
      prods == before[h := BodiesIn(before, h) + BodiesOf(a, m, e)]
    ensures forall h :: h in prods ==> exists k :: 0 <= k < |es| && NonTerminalOf(m, es[k].from) == h
    ensures forall k :: 0 <= k < |es| ==> NonTerminalOf(m, es[k].from) in prods
    ensures forall h, b :: b in BodiesIn(prods, h) ==>
      exists k :: 0 <= k < |es| && NonTerminalOf(m, es[k].from) == h && b in BodiesOf(a, m, es[k])
    ensures forall k, b :: 0 <= k < |es| && b in BodiesOf(a, m, es[k]) ==> b in BodiesIn(prods, NonTerminalOf(m, es[k].from))
  {
    var init := es[..|es| - 1];
    var n := |es| - 1;
    var e := es[n];
    var he := NonTerminalOf(m, e.from);
    assert forall k :: 0 <= k < n ==> init[k] == es[k];
    forall h | h in prods
      ensures exists k :: 0 <= k < |es| && NonTerminalOf(m, es[k].from) == h
    {
      if h != he {
        var k :| 0 <= k < |init| && NonTerminalOf(m, init[k].from) == h;
        assert es[k] == init[k];
      }
    }
    forall h, b | b in BodiesIn(prods, h)
      ensures exists k :: 0 <= k < |es| && NonTerminalOf(m, es[k].from) == h && b in BodiesOf(a, m, es[k])
    {
      if h != he || b in BodiesIn(before, h) {
        assert b in BodiesIn(before, h);
        var k :| 0 <= k < |init| && NonTerminalOf(m, init[k].from) == h && b in BodiesOf(a, m, init[k]);
        assert es[k] == init[k];
      } else {
        assert b in BodiesOf(a, m, e);
      }
    }
    forall k, b | 0 <= k < |es| && b in BodiesOf(a, m, es[k])
      ensures b in BodiesIn(prods, NonTerminalOf(m, es[k].from))
    {
      if k < n {
        assert es[k] == init[k];
        assert b in BodiesIn(before, NonTerminalOf(m, init[k].from));
      }
    }
  }

  /** `FiniteAutomaton::ToGrammar`. */
  function ToGrammar(a: Automaton): (g: Grammar)
    ensures g.terminals == a.alphabet
    ensures g.nonTerminals == NonTerminalMap(a).Values
    ensures g.start == NonTerminalOf(NonTerminalMap(a), a.start)
    ensures forall h :: h in g.productions ==>
      exists e :: HasEdge(a.transitions, e) && NonTerminalOf(NonTerminalMap(a), e.from) == h
    ensures forall h, b :: b in BodiesIn(g.productions, h) ==>
      exists e :: HasEdge(a.transitions, e) && NonTerminalOf(NonTerminalMap(a), e.from) == h
        && b in BodiesOf(a, NonTerminalMap(a), e)
    ensures forall e, b :: HasEdge(a.transitions, e) && b in BodiesOf(a, NonTerminalMap(a), e) ==>
      b in BodiesIn(g.productions, NonTerminalOf(NonTerminalMap(a), e.from))
  {
    var m := NonTerminalMap(a);
    var es := Edges(a.transitions);
    var prods := CollectProductions(a, m, es);
    ToGrammarFacts(a, m, es, prods);
    Grammar(m.Values, a.alphabet, prods, NonTerminalOf(m, a.start))
  }

  lemma ToGrammarFacts(a: Automaton, m: map<State, string>, es: seq<Edge>, prods: map<string, seq<string>>)
    requires forall e :: e in es <==> HasEdge(a.transitions, e)
    requires forall h :: h in prods ==> exists k :: 0 <= k < |es| && NonTerminalOf(m, es[k].from) == h
    requires forall h, b :: b in BodiesIn(prods, h) ==>
      exists k :: 0 <= k < |es| && NonTerminalOf(m, es[k].from) == h && b in BodiesOf(a, m, es[k])
    requires forall k, b :: 0 <= k < |es| && b in BodiesOf(a, m, es[k]) ==> b in BodiesIn(prods, NonTerminalOf(m, es[k].from))
    ensures forall h :: h in prods ==> exists e :: HasEdge(a.transitions, e) && NonTerminalOf(m, e.from) == h
    ensures forall h, b :: b in BodiesIn(prods, h) ==>
      exists e :: HasEdge(a.transitions, e) && NonTerminalOf(m, e.from) == h && b in BodiesOf(a, m, e)
    ensures forall e, b :: HasEdge(a.transitions, e) && b in BodiesOf(a, m, e) ==> b in BodiesIn(prods, NonTerminalOf(m, e.from))
  {
    forall h | h in prods
      ensures exists e :: HasEdge(a.transitions, e) && NonTerminalOf(m, e.from) == h
    {
      var k :| 0 <= k < |es| && NonTerminalOf(m, es[k].from) == h;
      assert es[k] in es;
    }
    forall h, b | b in BodiesIn(prods, h)
      ensures exists e :: HasEdge(a.transitions, e) && NonTerminalOf(m, e.from) == h && b in BodiesOf(a, m, e)
    {
      var k :| 0 <= k < |es| && NonTerminalOf(m, es[k].from) == h && b in BodiesOf(a, m, es[k]);
      assert es[k] in es;
    }
    forall e, b | HasEdge(a.transitions, e) && b in BodiesOf(a, m, e)
      ensures b in BodiesIn(prods, NonTerminalOf(m, e.from))
    {
      var k :| 0 <= k < |es| && es[k] == e;
    }
  }

  /** `FiniteAutomaton::VerifyGeneratedString`: the grammar argument is not
      consulted. */
  function VerifyGeneratedString(a: Automaton, s: string, g: Grammar): (r: bool)
    ensures r <==> exists path :: IsRun(a.transitions, s, path) && path[0] == a.start && path[|s|] in a.finals
  {
    AcceptsIffRun(a, s);
    StringBelongsToLanguage(a, s)
  }

  // ---------------------------------------------------------------------
  // The grammar generates what the automaton accepts.

  /** The shape under which the grammar mirrors the automaton: at most 256
      states, so the letters do not repeat; every transition joins listed
      states on a one-character symbol of the alphabet; no letter of a
      state is itself a symbol of the alphabet. */
  ghost predicate Mirrorable(a: Automaton)
  {
    && |a.states| <= 256
    && a.start in a.states
    && (forall e :: HasEdge(a.transitions, e) ==>
          e.from in a.states && e.to in a.states && |e.symbol| == 1 && e.symbol in a.alphabet)
    && (forall q :: q in a.states ==> NonTerminalMap(a)[q] !in a.alphabet)
  }

  /** Every character of `w` is a terminal. */
  predicate AllTerminal(w: string, terminals: set<string>)
  {
    forall i :: 0 <= i < |w| ==> [w[i]] in terminals
  }

  lemma NonTerminalMapInjective(a: Automaton, p: State, q: State)
    requires |a.states| <= 256 && p in a.states && q in a.states
    requires NonTerminalMap(a)[p] == NonTerminalMap(a)[q]
    ensures p == q
  {
    var qs := SortedSet(a.states);
    var i, j := IndexOf(qs, p), IndexOf(qs, q);
    LetterInjective(i, j);
  }

  /** What the inductive proofs below need of the letter map `m` and the
      grammar `g` of an automaton `a`. */
  ghost predicate Mirrors(a: Automaton, m: map<State, string>, g: Grammar)
  {
    && m.Keys == a.states
    && g.terminals == a.alphabet
    && (forall q :: q in a.states ==> |m[q]| == 1 && m[q] in g.nonTerminals && m[q] !in g.terminals)
    && (forall p, q :: p in a.states && q in a.states && m[p] == m[q] ==> p == q)
    && (forall e :: HasEdge(a.transitions, e) ==>
          e.from in a.states && e.to in a.states && |e.symbol| == 1 && e.symbol in a.alphabet)
    && (forall h, b :: b in BodiesIn(g.productions, h) ==>
          exists e :: HasEdge(a.transitions, e) && NonTerminalOf(m, e.from) == h && b in BodiesOf(a, m, e))
    && (forall e, b :: HasEdge(a.transitions, e) && b in BodiesOf(a, m, e) ==>
          b in BodiesIn(g.productions, NonTerminalOf(m, e.from)))
  }

  lemma MirrorableMirrors(a: Automaton)
    requires Mirrorable(a)
    ensures Mirrors(a, NonTerminalMap(a), ToGrammar(a))
    ensures ToGrammar(a).start == NonTerminalMap(a)[a.start]
  {
    var m := NonTerminalMap(a);
    var g := ToGrammar(a);
    forall q | q in a.states
      ensures m[q] in g.nonTerminals && m[q] !in g.terminals
    {
      assert m[q] in m.Values;
    }
    forall p, q | p in a.states && q in a.states && m[p] == m[q]
      ensures p == q
    {
      NonTerminalMapInjective(a, p, q);
    }
  }

  /** A body listed for the letter of `q` comes from a transition out of
      `q`: it is its symbol, or its symbol followed by its target's letter. */
  lemma BodyFromEdge(a: Automaton, m: map<State, string>, g: Grammar, q: State, b: string) returns (e: Edge)
    requires Mirrors(a, m, g) && q in a.states
    requires b in BodiesIn(g.productions, m[q])
    ensures HasEdge(a.transitions, e) && e.from == q && e.to in a.states
    ensures (b == e.symbol && e.to in a.finals) || b == e.symbol + m[e.to]
  {
    e :| HasEdge(a.transitions, e) && NonTerminalOf(m, e.from) == m[q] && b in BodiesOf(a, m, e);
  }

  /** Conversely, a transition lists its bodies under the letter of its
      source. */
  lemma EdgeGivesBodies(a: Automaton, m: map<State, string>, g: Grammar, e: Edge)
    requires Mirrors(a, m, g) && HasEdge(a.transitions, e)
    ensures e.symbol + m[e.to] in BodiesIn(g.productions, m[e.from])
    ensures e.to in a.finals ==> e.symbol in BodiesIn(g.productions, m[e.from])
  {
    assert e.symbol + m[e.to] in BodiesOf(a, m, e);
    if e.to in a.finals {
      assert e.symbol in BodiesOf(a, m, e);
    }
  }

  /** Prefixing a state to a run from its successor on `c`. */
  lemma RunCons(a: Automaton, q: State, c: char, w': string, path': seq<State>)
    requires |path'| > 0 && path'[0] in Targets(a.transitions, q, [c])
    requires IsRun(a.transitions, w', path')
    ensures IsRun(a.transitions, [c] + w', [q] + path')
  {
    var w, path := [c] + w', [q] + path';
    forall i | 0 <= i < |w|
      ensures path[i + 1] in Targets(a.transitions, path[i], [w[i]])
    {
      if i > 0 {
        assert w[i] == w'[i - 1] && path[i] == path'[i - 1] && path[i + 1] == path'[i];
      }
    }
  }

  /** Dropping the first step of a run. */
  lemma RunTail(a: Automaton, w: string, path: seq<State>)
    requires |w| > 0 && IsRun(a.transitions, w, path)
    ensures IsRun(a.transitions, w[1..], path[1..])
    ensures path[1] in Targets(a.transitions, path[0], [w[0]])
  {
    var w', path' := w[1..], path[1..];
    forall i | 0 <= i < |w'|
      ensures path'[i + 1] in Targets(a.transitions, path'[i], [w'[i]])
    {
      assert path[i + 2] in Targets(a.transitions, path[i + 1], [w[i + 1]]);
    }
  }

  lemma AllTerminalHead(w: string, terminals: set<string>)
    ensures |w| > 0 && AllTerminal(w, terminals) ==> [w[0]] in terminals
  {
  }

  lemma AllTerminalTail(w: string, terminals: set<string>)
    requires |w| > 0 && AllTerminal(w, terminals)
    ensures AllTerminal(w[1..], terminals)
  {
    forall i | 0 <= i < |w[1..]| ensures [w[1..][i]] in terminals { assert w[1..][i] == w[i + 1]; }
  }

  /** A word generated from the letter of `q` with terminals only is read
      by a run from `q` to a final state. */
  lemma {:induction false} GeneratedHasRun(a: Automaton, m: map<State, string>, g: Grammar,
                                           q: State, picks: seq<nat>, w: string, rest: seq<nat>)
    requires Mirrors(a, m, g) && q in a.states
    requires GenerateString(g, m[q], picks) == Some(Derived(w, rest))
    requires AllTerminal(w, a.alphabet)
    ensures exists path :: IsRun(a.transitions, w, path) && path[0] == q && path[|w|] in a.finals
    decreases |picks|
  {
    var h := m[q];
    var dq := LetterOf(a, m, g, q);
    if h !in g.productions {
      AllTerminalHead(w, a.alphabet);
      assert false;
    }
    var bodies := g.productions[h];
    var b := bodies[picks[0] % |bodies|];
    var picks' := picks[1..];
    GenerateChoice(g, h, picks);
    assert b in BodiesIn(g.productions, h);
    var e := BodyFromEdge(a, m, g, q, b);
    var c := e.symbol[0];
    assert e.symbol == [c];
    if b == e.symbol && e.to in a.finals {
      GenerateTerminal(g, c, picks');
      var path := [q, e.to];
      assert IsRun(a.transitions, w, path);
    } else {
      var d := m[e.to][0];
      assert m[e.to] == [d];
      assert b == [c, d];
      GenerateTerminalThen(g, c, d, picks');
      var head := GenerateString(g, [d], picks');
      var w' := head.value.text;
      assert w == [c] + w';
      AllTerminalTail(w, a.alphabet);
      assert w[1..] == w';
      GeneratedHasRun(a, m, g, e.to, picks', w', head.value.rest);
      var path' :| IsRun(a.transitions, w', path') && path'[0] == e.to && path'[|w'|] in a.finals;
      RunCons(a, q, c, w', path');
      assert ([q] + path')[|w|] == path'[|w'|];
    }
  }

  /** Every word the grammar generates from its start symbol with
      terminals only passes `VerifyGeneratedString`. */
  lemma GeneratedWordsAreAccepted(a: Automaton, picks: seq<nat>, w: string, rest: seq<nat>)
    requires Mirrorable(a)
    requires GenerateString(ToGrammar(a), ToGrammar(a).start, picks) == Some(Derived(w, rest))
    requires AllTerminal(w, a.alphabet)
    ensures VerifyGeneratedString(a, w, ToGrammar(a))
  {
    MirrorableMirrors(a);
    GeneratedHasRun(a, NonTerminalMap(a), ToGrammar(a), a.start, picks, w, rest);
    AcceptsIffRun(a, w);
  }

  /** What the lab's driver checks: the words generated from the grammar
      of the automaton are accepted by the automaton `ConvertToDFA`
      builds. */
  lemma GeneratedWordsAreValidForDfa(a: Automaton, join: set<State> -> State, picks: seq<nat>, w: string, rest: seq<nat>)
    requires Mirrorable(a)
    requires !Deterministic(a.transitions) ==> SubsetConstruction.GoodNames(join, SubsetConstruction.Universe(a))
    requires GenerateString(ToGrammar(a), ToGrammar(a).start, picks) == Some(Derived(w, rest))
    requires AllTerminal(w, a.alphabet)
    ensures StringBelongsToLanguage(SubsetConstruction.ConvertToDFA(a, join), w)
  {
    GeneratedWordsAreAccepted(a, picks, w, rest);
    assert SubsetConstruction.WordOver(w, a.alphabet) by {
      forall i | 0 <= i < |w| ensures [w[i]] in a.alphabet {}
    }
    SubsetConstruction.ConvertToDFAPreservesLanguage(a, join, w);
  }

  /** The position of `b` in `bodies`. */
  lemma BodyIndex(bodies: seq<string>, b: string) returns (k: nat)
    requires b in bodies
    ensures k < |bodies| && bodies[k] == b && k % |bodies| == k
  {
    k :| 0 <= k < |bodies| && bodies[k] == b;
    SmallMod(k, |bodies|);
  }

  /** A draw below the number of bodies selects itself. */
  lemma SmallMod(k: nat, n: nat)
    requires k < n
    ensures k % n == k
  {
  }

  /** A transition on `c` into a final state: its bare symbol is one
      derivation of the source's letter. */
  lemma LastStepGenerated(a: Automaton, m: map<State, string>, g: Grammar, q: State, c: char, p: State)
    returns (picks: seq<nat>)
    requires Mirrors(a, m, g) && HasEdge(a.transitions, Edge(q, [c], p)) && p in a.finals
    ensures GenerateString(g, m[q], picks) == Some(Derived([c], []))
  {
    var e := Edge(q, [c], p);
    EdgeGivesBodies(a, m, g, e);
    var h := m[q];
    var k := BodyIndex(g.productions[h], [c]);
    picks := [k];
    GenerateChoice(g, h, picks);
    GenerateTerminal(g, c, []);
  }

  /** A transition on `c` from `q` to `p`, followed by a derivation of the
      letter of `p`, is a derivation of the letter of `q`. */
  lemma StepGenerated(a: Automaton, m: map<State, string>, g: Grammar, q: State, c: char, p: State,
                      picks': seq<nat>, w': string)
    returns (picks: seq<nat>)
    requires Mirrors(a, m, g) && HasEdge(a.transitions, Edge(q, [c], p))
    requires GenerateString(g, m[p], picks') == Some(Derived(w', []))
    ensures GenerateString(g, m[q], picks) == Some(Derived([c] + w', []))
  {
    var e := Edge(q, [c], p);
    EdgeGivesBodies(a, m, g, e);
    var h := m[q];
    var d := LetterOf(a, m, g, p);
    var dq := LetterOf(a, m, g, q);
    var b := [c, d];
    assert b == e.symbol + m[p];
    var bodies := g.productions[h];
    var k := BodyIndex(bodies, b);
    picks := [k] + picks';
    GenerateChoice(g, h, picks);
    assert picks[1..] == picks';
    assert [c] in g.terminals;
    GenerateTerminalThen(g, c, d, picks');
  }

  /** The letter of a state is a one-character non-terminal, not a
      terminal. */
  lemma LetterOf(a: Automaton, m: map<State, string>, g: Grammar, q: State) returns (d: char)
    requires Mirrors(a, m, g) && q in a.states
    ensures m[q] == [d] && [d] in g.nonTerminals && [d] !in g.terminals
  {
    d := m[q][0];
    assert m[q] == [d];
  }

  /** Conversely, a run from `q` to a final state over a non-empty word
      is generated from the letter of `q` by some draws, all used up. */
  lemma {:induction false} RunIsGenerated(a: Automaton, m: map<State, string>, g: Grammar,
                                          q: State, w: string, path: seq<State>)
    returns (picks: seq<nat>)
    requires Mirrors(a, m, g) && q in a.states && |w| > 0
    requires IsRun(a.transitions, w, path) && path[0] == q && path[|w|] in a.finals
    ensures GenerateString(g, m[q], picks) == Some(Derived(w, []))
    decreases |w|
  {
    RunTail(a, w, path);
    assert HasEdge(a.transitions, Edge(q, [w[0]], path[1]));
    if |w| == 1 {
      picks := LastStepGenerated(a, m, g, q, w[0], path[1]);
      assert w == [w[0]];
    } else {
      var w', path' := w[1..], path[1..];
      assert path'[|w'|] == path[|w|];
      var picks' := RunIsGenerated(a, m, g, path[1], w', path');
      picks := StepGenerated(a, m, g, q, w[0], path[1], picks', w');
      assert w == [w[0]] + w';
    }
  }

  /** Every non-empty word the automaton accepts is generated from the
      start symbol by some draws. */
  lemma AcceptedWordsAreGenerated(a: Automaton, w: string)
    requires Mirrorable(a) && |w| > 0
    requires StringBelongsToLanguage(a, w)
    ensures exists picks :: GenerateString(ToGrammar(a), ToGrammar(a).start, picks) == Some(Derived(w, []))
  {
    MirrorableMirrors(a);
    AcceptsIffRun(a, w);
    var path :| IsRun(a.transitions, w, path) && path[0] == a.start && path[|w|] in a.finals;
    var picks := RunIsGenerated(a, NonTerminalMap(a), ToGrammar(a), a.start, w, path);
  }

  // ---------------------------------------------------------------------
  // The grammar read off an automaton is regular.

  /** The letters of the first 223 states are not the space character;
      the 224th, `'A' + 223`, wraps round to it. */
  lemma LetterNotSpace(i: nat)
    requires i < 223
    ensures ' ' !in Letter(i)
  {
    assert Letter(i)[0] != ' ';
  }

  lemma LetterOfSpace()
    ensures Letter(223) == " "
  {
  }

  lemma NoSpaceConcat(x: string, y: string)
    requires ' ' !in x && ' ' !in y
    ensures ' ' !in x + y
  {
  }

  /** Every body of the grammar of an automaton whose symbols hold no space
      and which has at most 223 states is free of spaces. */
  lemma ToGrammarBodyHasNoSpace(a: Automaton, h: string, b: string)
    requires |a.states| <= 223
    requires forall e :: HasEdge(a.transitions, e) ==> ' ' !in e.symbol
    requires b in BodiesIn(ToGrammar(a).productions, h)
    ensures ' ' !in b
  {
    var e := SourceEdge(a, h, b);
    var nt := NonTerminalOf(NonTerminalMap(a), e.to);
    LetterOfStateNotSpace(a, e.to);
    assert b == e.symbol + nt || b == e.symbol;
    NoSpaceConcat(e.symbol, nt);
  }

  /** The transition a body of the grammar comes from. */
  lemma SourceEdge(a: Automaton, h: string, b: string) returns (e: Edge)
    requires b in BodiesIn(ToGrammar(a).productions, h)
    ensures HasEdge(a.transitions, e) && NonTerminalOf(NonTerminalMap(a), e.from) == h
    ensures b in BodiesOf(a, NonTerminalMap(a), e)
  {
    e :| HasEdge(a.transitions, e) && NonTerminalOf(NonTerminalMap(a), e.from) == h && b in BodiesOf(a, NonTerminalMap(a), e);
  }

  lemma LetterOfStateNotSpace(a: Automaton, q: State)
    requires |a.states| <= 223
    ensures ' ' !in NonTerminalOf(NonTerminalMap(a), q)
  {
    if q in a.states {
      var qs := SortedSet(a.states);
      LetterNotSpace(IndexOf(qs, q));
    }
  }

  /** `ClassifyGrammar` reports the grammar of such an automaton as
      regular: every body is a single symbol. */
  lemma ToGrammarIsRegular(a: Automaton)
    requires |a.states| <= 223
    requires forall e :: HasEdge(a.transitions, e) ==> ' ' !in e.symbol
    ensures ChomskyType(ToGrammar(a)) == 3
  {
    var g := ToGrammar(a);
    forall h | h in g.productions
      ensures AllRegular(g.productions[h])
    {
      var rules := g.productions[h];
      forall k | 0 <= k < |rules| && rules[k] != ""
        ensures RegularBody(rules[k])
      {
        assert rules[k] in BodiesIn(g.productions, h);
        ToGrammarBodyHasNoSpace(a, h, rules[k]);
        WordsWithoutSpace(rules[k], "");
      }
    }
  }
}

=== FILE: cnf.dfy ===
/** The Chomsky-normal-form converter: five passes over a grammar whose
    symbols are strings and whose bodies are sequences of symbols. A symbol
    is a non-terminal when it starts with an upper-case letter; the body
    made of the single symbol `~` stands for the empty string. The passes
    iterate the grammar's keys in an order the hash map decides; the model
    iterates them in ascending order, which only affects which fresh name
    `X<n>` a new variable receives. */
module Cnf {
  import opened Text
  import FixedPoints

  type Symbol = string
  type Body = seq<Symbol>
  /** Left-hand side to its bodies, in the order they were added. */
  type Cfg = map<Symbol, seq<Body>>

  const Epsilon: Symbol := "~"

  predicate IsNonTerminal(s: Symbol)
  {
    |s| > 0 && IsUpper(s[0])
  }

  /** A body that is one non-terminal. */
  predicate IsUnit(b: Body)
  {
    |b| == 1 && IsNonTerminal(b[0])
  }

  /** `grammar[A]`: the bodies of `A`, none when `A` is not a key. */
  function Rules(g: Cfg, a: Symbol): (r: seq<Body>)
    ensures a in g ==> r == g[a]
    ensures a !in g ==> r == []
  {
    if a in g then g[a] else []
  }

  lemma PushGrows(g: Cfg, a: Symbol, b: Body)
    ensures Contains(g, Push(g, a, b))
  {
    forall k, x | x in Rules(g, k) ensures x in Rules(Push(g, a, b), k) {
      if k == a {
        assert Rules(Push(g, a, b), k) == Rules(g, a) + [b];
      }
    }
  }

  /** Append one body to the bodies of `a`, creating the entry if needed. */
  function Push(g: Cfg, a: Symbol, b: Body): (r: Cfg)
    ensures r.Keys == g.Keys + {a}
    ensures r[a] == Rules(g, a) + [b]
    ensures forall x :: x in g && x != a ==> r[x] == g[x]
  {
    g[a := Rules(g, a) + [b]]
  }

  /** The `n`-th fresh variable, `"X" + to_string(n)`. */
  function Fresh(n: nat): (v: Symbol)
    ensures IsNonTerminal(v)
  {
    "X" + NatToString(n)
  }

  lemma FreshInjective(m: nat, n: nat)
    requires Fresh(m) == Fresh(n)
    ensures m == n
  {
    assert NatToString(m) == Fresh(m)[1..];
    NatToStringInjective(m, n);
  }

  predicate AllIn(b: Body, s: set<Symbol>)
  {
    forall x :: x in b ==> x in s
  }

  /** A body that derives the empty word once the symbols of `n` do: `~`
      itself, or a body made only of symbols of `n`. */
  predicate ErasesWithin(b: Body, n: set<Symbol>)
  {
    b == [Epsilon] || AllIn(b, n)
  }

  // ---------------------------------------------------------------------
  // Nullable symbols
  // ---------------------------------------------------------------------

  /** One round of the nullable closure: the left-hand sides with a body
      `~` or a body made only of symbols already known nullable. */
  function NullStep(g: Cfg): set<Symbol> -> set<Symbol>
  {
    (n: set<Symbol>) =>
      set a | a in g && exists b :: b in g[a] && ErasesWithin(b, n)
  }

  lemma NullStepFacts(g: Cfg)
    ensures FixedPoints.Within(NullStep(g), g.Keys)
    ensures FixedPoints.Monotone(NullStep(g))
  {
    forall a: set<Symbol>, b: set<Symbol> | a <= b
      ensures NullStep(g)(a) <= NullStep(g)(b)
    {
      forall x | x in NullStep(g)(a) ensures x in NullStep(g)(b) {
        var y :| y in g[x] && ErasesWithin(y, a);
        assert y in g[x] && ErasesWithin(y, b);
      }
    }
  }

  /** The closed sets of the nullable rules. */
  ghost predicate NullClosed(g: Cfg, n: set<Symbol>)
  {
    forall a, b :: a in g && b in g[a] && ErasesWithin(b, n) ==> a in n
  }

  lemma NullClosedAt(g: Cfg, n: set<Symbol>, a: Symbol, b: Body)
    requires NullClosed(g, n) && a in g && b in g[a] && ErasesWithin(b, n)
    ensures a in n
  {
  }

  /** A set that one more round does not grow is closed. */
  lemma NullStepClosed(g: Cfg, n: set<Symbol>)
    requires NullStep(g)(n) <= n
    ensures NullClosed(g, n)
  {
    forall a, b | a in g && b in g[a] && ErasesWithin(b, n)
      ensures a in n
    {
      assert a in NullStep(g)(n);
    }
  }

  function Nullable(g: Cfg): (r: set<Symbol>)
    ensures r <= g.Keys
    ensures NullClosed(g, r)
  {
    NullStepFacts(g);
    var r := FixedPoints.Lfp(NullStep(g), g.Keys, {});
    NullStepClosed(g, r);
    r
  }

  /** Nullable is the least closed set: a symbol is nullable only when the
      rules force it. */
  lemma NullableIsLeast(g: Cfg, m: set<Symbol>)
    requires NullClosed(g, m)
    ensures Nullable(g) <= m
  {
    NullStepFacts(g);
    forall x | x in NullStep(g)(m)
      ensures x in m
    {
      assert x in g && exists b :: b in g[x] && ErasesWithin(b, m);
      var y :| y in g[x] && ErasesWithin(y, m);
      NullClosedAt(g, m, x, y);
    }
    FixedPoints.LfpLeast(NullStep(g), g.Keys, {}, m);
  }

  // ---------------------------------------------------------------------
  // Removing null productions
  // ---------------------------------------------------------------------

  /** `e + [s]` for every `e`, followed by `e` itself when `s` is nullable. */
  function Extend(es: seq<Body>, s: Symbol, nullable: set<Symbol>): (r: seq<Body>)
    ensures forall x :: x in r <==> exists e :: e in es && (x == e + [s] || (s in nullable && x == e))
  {
    if |es| == 0 then []
    else
      var here := if s in nullable then [es[0] + [s], es[0]] else [es[0] + [s]];
      var rest := Extend(es[1..], s, nullable);
      assert forall e :: e in es <==> e == es[0] || e in es[1..];
      here + rest
  }

  /** The bodies obtained from `body` by dropping nullable symbols. */
  function Expansions(body: Body, nullable: set<Symbol>): (r: seq<Body>)
    decreases |body|
  {
    if |body| == 0 then [[]]
    else Extend(Expansions(body[..|body| - 1], nullable), body[|body| - 1], nullable)
  }

  /** The symbols of `body` at the positions `keep` marks. */
  function Keep(body: Body, keep: seq<bool>): Body
    requires |keep| == |body|
    decreases |body|
  {
    if |body| == 0 then []
    else
      var n := |body| - 1;
      Keep(body[..n], keep[..n]) + (if keep[n] then [body[n]] else [])
  }

  /** A choice of positions to drop, all of them nullable. */
  ghost predicate Droppable(body: Body, keep: seq<bool>, nullable: set<Symbol>)
  {
    |keep| == |body| && forall i :: 0 <= i < |body| && !keep[i] ==> body[i] in nullable
  }

  lemma {:induction false} ExpansionIsKeep(body: Body, nullable: set<Symbol>, x: Body) returns (keep: seq<bool>)
    requires x in Expansions(body, nullable)
    ensures Droppable(body, keep, nullable) && x == Keep(body, keep)
    decreases |body|
  {
    if |body| == 0 {
      keep := [];
    } else {
      var n := |body| - 1;
      var e :| e in Expansions(body[..n], nullable) && (x == e + [body[n]] || (body[n] in nullable && x == e));
      var k := ExpansionIsKeep(body[..n], nullable, e);
      keep := k + [x == e + [body[n]]];
      assert keep[..n] == k;
    }
  }

  lemma {:induction false} KeepIsExpansion(body: Body, nullable: set<Symbol>, keep: seq<bool>)
    requires Droppable(body, keep, nullable)
    ensures Keep(body, keep) in Expansions(body, nullable)
    decreases |body|
  {
    if |body| > 0 {
      var n := |body| - 1;
      assert Droppable(body[..n], keep[..n], nullable);
      KeepIsExpansion(body[..n], nullable, keep[..n]);
    }
  }

  /** The expansions of each body in turn, without the empty body and `~`. */
  function KeptExpansions(bodies: seq<Body>, nullable: set<Symbol>): (r: seq<Body>)
    ensures forall x :: x in r <==>
      x != [] && x != [Epsilon] && exists b :: b in bodies && x in Expansions(b, nullable)
  {
    if |bodies| == 0 then []
    else
      var es := Expansions(bodies[0], nullable);
      var kept := Filter(es);
      var rest := KeptExpansions(bodies[1..], nullable);
      assert forall b :: b in bodies <==> b == bodies[0] || b in bodies[1..];
      assert forall x :: x in kept + rest <==> x in kept || x in rest;
      kept + rest
  }

  /** The bodies that are neither empty nor `~`, in order. */
  function Filter(es: seq<Body>): (r: seq<Body>)
    ensures forall x :: x in r <==> x in es && x != [] && x != [Epsilon]
  {
    if |es| == 0 then []
    else
      assert forall x :: x in es <==> x == es[0] || x in es[1..];
      (if es[0] != [] && es[0] != [Epsilon] then [es[0]] else []) + Filter(es[1..])
  }

  /** The first pass. A body stays in every form obtained by dropping
      nullable symbols from it, except the empty one and `~`. */
  function RemoveNull(g: Cfg): (r: Cfg)
    ensures r.Keys <= g.Keys
    ensures forall a, x :: a in r && x in r[a] ==> x != [] && x != [Epsilon]
    ensures forall a, x :: a in g ==>
      (x in Rules(r, a) <==>
        x != [] && x != [Epsilon] &&
        exists b, keep :: b in g[a] && Droppable(b, keep, Nullable(g)) && x == Keep(b, keep))
  {
    var n := Nullable(g);
    var r := map a | a in g && |KeptExpansions(g[a], n)| > 0 :: KeptExpansions(g[a], n);
    forall a, x | a in g
      ensures x in Rules(r, a) <==>
        x != [] && x != [Epsilon] &&
        exists b, keep :: b in g[a] && Droppable(b, keep, n) && x == Keep(b, keep)
    {
      if x in Rules(r, a) {
        var b :| b in g[a] && x in Expansions(b, n);
        var keep := ExpansionIsKeep(b, n, x);
      }
      if x != [] && x != [Epsilon] && exists b, keep :: b in g[a] && Droppable(b, keep, n) && x == Keep(b, keep) {
        var b, keep :| b in g[a] && Droppable(b, keep, n) && x == Keep(b, keep);
        KeepIsExpansion(b, n, keep);
        assert x in KeptExpansions(g[a], n);
      }
    }
    r
  }

  // ---------------------------------------------------------------------
  // Unit pairs
  // ---------------------------------------------------------------------

  type Pair = (Symbol, Symbol)

  /** The non-terminals that form a one-symbol body somewhere. */
  function UnitTargets(g: Cfg): set<Symbol>
  {
    set a, b | a in g && b in g[a] && IsUnit(b) :: b[0]
  }

  /** One round of the unit-pair closure: `(A, B)` for each body `B` of
      `A`, and `(A, C)` for each known pair `(A, B)` and body `C` of `B`. */
  function UnitStep(g: Cfg): set<Pair> -> set<Pair>
  {
    (p: set<Pair>) =>
      (set a, b | a in g && b in g[a] && IsUnit(b) :: (a, b[0]))
      + (set q, b | q in p && q.1 in g && b in g[q.1] && IsUnit(b) :: (q.0, b[0]))
  }

  function UnitUniverse(g: Cfg): set<Pair>
  {
    set a, t | a in g.Keys && t in UnitTargets(g) :: (a, t)
  }

  lemma UnitStepFacts(g: Cfg)
    ensures FixedPoints.Within(UnitStep(g), UnitUniverse(g))
    ensures FixedPoints.Monotone(UnitStep(g))
  {
    forall p: set<Pair> | p <= UnitUniverse(g)
      ensures UnitStep(g)(p) <= UnitUniverse(g)
    {
      forall q | q in UnitStep(g)(p) ensures q in UnitUniverse(g) {
        if q !in (set a, b | a in g && b in g[a] && IsUnit(b) :: (a, b[0])) {
          var q', b :| q' in p && q'.1 in g && b in g[q'.1] && IsUnit(b) && q == (q'.0, b[0]);
          assert q.1 in UnitTargets(g);
        }
      }
    }
  }

  ghost predicate UnitClosed(g: Cfg, p: set<Pair>)
  {
    (forall a, b :: a in g && b in g[a] && IsUnit(b) ==> (a, b[0]) in p)
    && (forall a, c, b {:trigger Link(p, a, c), b in g[c]} ::
          Link(p, a, c) && c in g && b in g[c] && IsUnit(b) ==> (a, b[0]) in p)
  }

  /** The pairs `(A, B)` with `A =>+ B` through one-symbol bodies. */
  function UnitPairs(g: Cfg): (r: set<Pair>)
    ensures forall q :: q in r ==> q.0 in g
  {
    UnitStepFacts(g);
    FixedPoints.Lfp(UnitStep(g), UnitUniverse(g), {})
  }

  /** The pairs are closed under both rules of the closure. */
  lemma UnitPairsClosed(g: Cfg)
    ensures UnitClosed(g, UnitPairs(g))
  {
    UnitStepFacts(g);
    var r := UnitPairs(g);
    assert UnitStep(g)(r) <= r;
    forall a, c, b | Link(r, a, c) && c in g && b in g[c] && IsUnit(b)
      ensures (a, b[0]) in r
    {
      assert (a, c) in r;
      assert (a, b[0]) in UnitStep(g)(r);
    }
  }

  lemma UnitPairsAreLeast(g: Cfg, m: set<Pair>)
    requires UnitClosed(g, m)
    ensures UnitPairs(g) <= m
  {
    UnitStepFacts(g);
    forall q | q in UnitStep(g)(m) ensures q in m {
      if q !in (set a, b | a in g && b in g[a] && IsUnit(b) :: (a, b[0])) {
        var q', b :| q' in m && q'.1 in g && b in g[q'.1] && IsUnit(b) && q == (q'.0, b[0]);
        assert Link(m, q'.0, q'.1);
      }
    }
    FixedPoints.LfpLeast(UnitStep(g), UnitUniverse(g), {}, m);
  }

  /** Two unit chains join into one. */
  lemma UnitPairsTransitive(g: Cfg, a: Symbol, b: Symbol, c: Symbol)
    requires (a, b) in UnitPairs(g) && (b, c) in UnitPairs(g)
    ensures (a, c) in UnitPairs(g)
  {
    var p := UnitPairs(g);
    UnitPairsClosed(g);
    var m := set q | q in p && forall x :: (x, q.0) in p ==> (x, q.1) in p;
    forall a', c', y | Link(m, a', c') && c' in g && y in g[c'] && IsUnit(y)
      ensures (a', y[0]) in m
    {
      forall x | (x, a') in p ensures (x, y[0]) in p {
        assert (x, c') in p;
        assert Link(p, x, c');
      }
      assert Link(p, a', c');
    }
    UnitPairsAreLeast(g, m);
    assert Link(p, b, c);
  }

  // ---------------------------------------------------------------------
  // Removing unit productions
  // ---------------------------------------------------------------------

  /** A set of pairs in `std::set` order: by first, then by second symbol. */
  function SortedPairs(p: set<Pair>): (r: seq<Pair>)
    ensures forall q :: q in r <==> q in p
  {
    PairsFrom(p, SortedSet(set q | q in p :: q.0))
  }

  function PairsFrom(p: set<Pair>, firsts: seq<Symbol>): (r: seq<Pair>)
    ensures forall q :: q in r <==> q in p && q.0 in firsts
  {
    if |firsts| == 0 then []
    else
      var a := firsts[0];
      var sec := set q | q in p && q.0 == a :: q.1;
      var seconds := SortedSet(sec);
      var here := seq(|seconds|, i requires 0 <= i < |seconds| => (a, seconds[i]));
      assert forall q :: q in here <==> q in p && q.0 == a by {
        forall q | q in p && q.0 == a ensures q in here {
          assert q.1 in sec;
          var i :| 0 <= i < |seconds| && seconds[i] == q.1;
          assert here[i] == q;
        }
        forall q | q in here ensures q in p && q.0 == a {
          var i :| 0 <= i < |here| && here[i] == q;
          assert seconds[i] in sec;
          var q' :| q' in p && q'.0 == a && q'.1 == seconds[i];
          assert q' == q;
        }
      }
      assert forall x :: x in firsts <==> x == a || x in firsts[1..];
      here + PairsFrom(p, firsts[1..])
  }

  /** The bodies that are not one non-terminal, in order. */
  function NonUnit(bs: seq<Body>): (r: seq<Body>)
    ensures forall x :: x in r <==> x in bs && !IsUnit(x)
  {
    if |bs| == 0 then []
    else
      assert forall x :: x in bs <==> x == bs[0] || x in bs[1..];
      (if IsUnit(bs[0]) then [] else [bs[0]]) + NonUnit(bs[1..])
  }

  /** Every body of `a` is still a body of the same symbol in `b`. */
  ghost predicate Contains(a: Cfg, b: Cfg)
  {
    forall k, x {:trigger x in Rules(b, k)} :: x in Rules(a, k) ==> x in Rules(b, k)
  }

  /** One pair `(A, B)` of the copy loop: `grammar[A]` receives the bodies
      of `grammar[B]` that are not unit bodies. `grammar[B]` is created
      empty when missing. When `A == B` the loop reads the bodies as they
      were before it started appending. */
  function CopyOne(cur: Cfg, q: Pair): (r: Cfg)
    ensures r.Keys == cur.Keys + {q.0, q.1}
    ensures Contains(cur, r)
    ensures forall x :: x in Rules(r, q.0) <==> x in Rules(cur, q.0) || (x in Rules(cur, q.1) && !IsUnit(x))
    ensures forall k :: k != q.0 ==> Rules(r, k) == Rules(cur, k)
  {
    var (a, b) := q;
    var withB := cur[b := Rules(cur, b)];
    withB[a := Rules(withB, a) + NonUnit(Rules(cur, b))]
  }

  /** The copy loop over the pairs in order. */
  function CopyUnits(cur: Cfg, ps: seq<Pair>): (r: Cfg)
    ensures Contains(cur, r)
    ensures forall q, x :: q in ps && x in Rules(cur, q.1) && !IsUnit(x) ==> x in Rules(r, q.0)
    decreases |ps|
  {
    if |ps| == 0 then cur
    else
      var next := CopyOne(cur, ps[0]);
      var r := CopyUnits(next, ps[1..]);
      CopyStep(cur, ps, next, r);
      r
  }

  lemma CopyStep(cur: Cfg, ps: seq<Pair>, next: Cfg, r: Cfg)
    requires |ps| > 0
    requires Contains(cur, next) && Contains(next, r)
    requires forall x :: x in Rules(cur, ps[0].1) && !IsUnit(x) ==> x in Rules(next, ps[0].0)
    requires forall q, x :: q in ps[1..] && x in Rules(next, q.1) && !IsUnit(x) ==> x in Rules(r, q.0)
    ensures Contains(cur, r)
    ensures forall q, x :: q in ps && x in Rules(cur, q.1) && !IsUnit(x) ==> x in Rules(r, q.0)
  {
    forall q, x | q in ps && x in Rules(cur, q.1) && !IsUnit(x) ensures x in Rules(r, q.0) {
      if q == ps[0] {
        assert x in Rules(next, q.0);
      } else {
        assert q in ps[1..];
        assert x in Rules(next, q.1);
      }
    }
  }

  predicate Link(p: set<Pair>, a: Symbol, b: Symbol)
  {
    (a, b) in p
  }

  ghost predicate Transitive(p: set<Pair>)
  {
    forall a, b, c {:trigger Link(p, a, b), Link(p, b, c)} :: Link(p, a, b) && Link(p, b, c) ==> (a, c) in p
  }

  lemma UnitPairsAreTransitive(g: Cfg)
    ensures Transitive(UnitPairs(g))
  {
    forall a, b, c | Link(UnitPairs(g), a, b) && Link(UnitPairs(g), b, c)
      ensures (a, c) in UnitPairs(g)
    {
      UnitPairsTransitive(g, a, b, c);
    }
  }

  /** What the pairs `p` let `A` derive: its own bodies, and the non-unit
      bodies of every `C` with `(A, C)` in `p`. */
  ghost predicate UnitSound(g: Cfg, p: set<Pair>, cur: Cfg)
  {
    forall k, x :: x in Rules(cur, k) ==> x in Rules(g, k) || (!IsUnit(x) && ViaPair(g, p, k, x))
  }

  /** `x` is a body of some `C` with `(k, C)` in `p`. */
  ghost predicate ViaPair(g: Cfg, p: set<Pair>, k: Symbol, x: Body)
  {
    exists c :: (k, c) in p && x in Rules(g, c)
  }

  lemma CopyOneSound(g: Cfg, p: set<Pair>, cur: Cfg, q: Pair)
    requires Transitive(p) && UnitSound(g, p, cur)
    requires q in p
    ensures UnitSound(g, p, CopyOne(cur, q))
  {
    var next := CopyOne(cur, q);
    forall k, x | x in Rules(next, k)
      ensures x in Rules(g, k) || (!IsUnit(x) && ViaPair(g, p, k, x))
    {
      CopyOneBody(g, p, cur, q, k, x);
    }
  }

  lemma CopyOneBody(g: Cfg, p: set<Pair>, cur: Cfg, q: Pair, k: Symbol, x: Body)
    requires Transitive(p) && UnitSound(g, p, cur)
    requires q in p
    requires x in Rules(CopyOne(cur, q), k)
    ensures x in Rules(g, k) || (!IsUnit(x) && ViaPair(g, p, k, x))
  {
    var a, b := q.0, q.1;
    if k == a && x !in Rules(cur, a) {
      assert x in Rules(cur, b) && !IsUnit(x);
      CopiedVia(g, p, cur, a, b, x);
    } else {
      assert x in Rules(cur, k);
    }
  }

  /** A non-unit body that `B` may derive, copied to `A` with `(A, B)` in
      `p`, is one that `A` may derive through `p`. */
  lemma CopiedVia(g: Cfg, p: set<Pair>, cur: Cfg, a: Symbol, b: Symbol, x: Body)
    requires Transitive(p) && UnitSound(g, p, cur)
    requires (a, b) in p && x in Rules(cur, b) && !IsUnit(x)
    ensures ViaPair(g, p, a, x)
  {
    if x !in Rules(g, b) {
      var c :| (b, c) in p && x in Rules(g, c);
      assert Link(p, a, b) && Link(p, b, c);
      assert (a, c) in p && x in Rules(g, c);
    } else {
      assert (a, b) in p && x in Rules(g, b);
    }
  }

  lemma {:induction false} CopyUnitsSound(g: Cfg, p: set<Pair>, cur: Cfg, ps: seq<Pair>)
    requires Transitive(p) && UnitSound(g, p, cur)
    requires forall q :: q in ps ==> q in p
    ensures UnitSound(g, p, CopyUnits(cur, ps))
    decreases |ps|
  {
    if |ps| > 0 {
      CopyOneSound(g, p, cur, ps[0]);
      CopyUnitsSound(g, p, CopyOne(cur, ps[0]), ps[1..]);
    }
  }

  /** After the copy loop a non-unit body belongs to `A` exactly when `A`
      or a unit successor of `A` had it. */
  lemma CopiedExact(g: Cfg, p: set<Pair>, copied: Cfg)
    requires Contains(g, copied) && UnitSound(g, p, copied)
    requires forall q, x :: q in p && x in Rules(g, q.1) && !IsUnit(x) ==> x in Rules(copied, q.0)
    ensures forall a, x :: x in Rules(copied, a) && !IsUnit(x) ==> x in Rules(g, a) || ViaPair(g, p, a, x)
    ensures forall a, c, x :: Link(p, a, c) && x in Rules(g, c) && !IsUnit(x) ==> x in Rules(copied, a)
  {
    forall a, c, x | Link(p, a, c) && x in Rules(g, c) && !IsUnit(x)
      ensures x in Rules(copied, a)
    {
      assert (a, c).1 == c && (a, c) in p;
    }
  }

  /** Copy along the pairs `p`, then erase every unit body. */
  function CopyThenErase(g: Cfg, p: set<Pair>): (r: Cfg)
    requires Transitive(p)
    ensures forall a, x :: x in Rules(r, a) ==> !IsUnit(x)
    ensures forall a, x :: x in Rules(r, a) ==> x in Rules(g, a) || ViaPair(g, p, a, x)
    ensures forall a, x {:trigger x in Rules(r, a)} :: x in Rules(g, a) && !IsUnit(x) ==> x in Rules(r, a)
    ensures forall a, c, x :: Link(p, a, c) && x in Rules(g, c) && !IsUnit(x) ==> x in Rules(r, a)
  {
    var copied := CopyUnits(g, SortedPairs(p));
    CopyFacts(g, p);
    var r := map a | a in copied :: NonUnit(copied[a]);
    EraseFacts(g, p, copied, r);
    r
  }

  lemma CopyFacts(g: Cfg, p: set<Pair>)
    requires Transitive(p)
    ensures var copied := CopyUnits(g, SortedPairs(p));
      && (forall a, x :: x in Rules(copied, a) && !IsUnit(x) ==> x in Rules(g, a) || ViaPair(g, p, a, x))
      && (forall a, c, x :: Link(p, a, c) && x in Rules(g, c) && !IsUnit(x) ==> x in Rules(copied, a))
  {
    var ps := SortedPairs(p);
    CopyUnitsSound(g, p, g, ps);
    CopiedExact(g, p, CopyUnits(g, ps));
  }

  lemma EraseFacts(g: Cfg, p: set<Pair>, copied: Cfg, r: Cfg)
    requires forall a, x :: x in Rules(copied, a) && !IsUnit(x) ==> x in Rules(g, a) || ViaPair(g, p, a, x)
    requires forall a, c, x :: Link(p, a, c) && x in Rules(g, c) && !IsUnit(x) ==> x in Rules(copied, a)
    requires Contains(g, copied)
    requires r == map a | a in copied :: NonUnit(copied[a])
    ensures forall a, x :: x in Rules(r, a) ==> !IsUnit(x)
    ensures forall a, x :: x in Rules(r, a) ==> x in Rules(g, a) || ViaPair(g, p, a, x)
    ensures forall a, x {:trigger x in Rules(r, a)} :: x in Rules(g, a) && !IsUnit(x) ==> x in Rules(r, a)
    ensures forall a, c, x :: Link(p, a, c) && x in Rules(g, c) && !IsUnit(x) ==> x in Rules(r, a)
  {
    forall a, x | x in Rules(r, a) ensures !IsUnit(x) {
      EraseAt(copied, r, a, x);
    }
    forall a, x | x in Rules(r, a) ensures x in Rules(g, a) || ViaPair(g, p, a, x) {
      EraseAt(copied, r, a, x);
    }
    forall a, x | x in Rules(g, a) && !IsUnit(x) ensures x in Rules(r, a) {
      EraseAt(copied, r, a, x);
    }
    forall a, c, x | Link(p, a, c) && x in Rules(g, c) && !IsUnit(x) ensures x in Rules(r, a) {
      EraseAt(copied, r, a, x);
    }
  }

  lemma EraseAt(copied: Cfg, r: Cfg, a: Symbol, x: Body)
    requires r == map a | a in copied :: NonUnit(copied[a])
    ensures x in Rules(r, a) <==> x in Rules(copied, a) && !IsUnit(x)
  {
  }

  /** The second pass. A body survives at `A` when it is not a unit body
      and belongs to `A` or to some `C` with `A =>+ C` by unit bodies;
      nothing else is added. */
  function RemoveUnits(g: Cfg): (r: Cfg)
    ensures forall a, x :: x in Rules(r, a) ==>
      !IsUnit(x) && (x in Rules(g, a) || ViaPair(g, UnitPairs(g), a, x))
    ensures forall a, x {:trigger x in Rules(r, a)} :: x in Rules(g, a) && !IsUnit(x) ==> x in Rules(r, a)
    ensures forall a, c, x :: Link(UnitPairs(g), a, c) && x in Rules(g, c) && !IsUnit(x) ==> x in Rules(r, a)
  {
    UnitPairsAreTransitive(g);
    CopyThenErase(g, UnitPairs(g))
  }

  // ---------------------------------------------------------------------
  // Generating and reachable symbols
  // ---------------------------------------------------------------------

  /** Every non-terminal of `b` is in `m`. */
  predicate NonTerminalsIn(b: Body, m: set<Symbol>)
  {
    forall s :: s in b ==> !IsNonTerminal(s) || s in m
  }

  /** One round of the generating closure: the left-hand sides with a body
      whose non-terminals are all known to generate. */
  function GenStep(g: Cfg): set<Symbol> -> set<Symbol>
  {
    (m: set<Symbol>) => set a | a in g && exists b :: b in g[a] && NonTerminalsIn(b, m)
  }

  lemma GenStepFacts(g: Cfg)
    ensures FixedPoints.Within(GenStep(g), g.Keys)
    ensures FixedPoints.Monotone(GenStep(g))
  {
    forall m1: set<Symbol>, m2: set<Symbol> | m1 <= m2
      ensures GenStep(g)(m1) <= GenStep(g)(m2)
    {
      forall a | a in GenStep(g)(m1) ensures a in GenStep(g)(m2) {
        var b :| b in g[a] && NonTerminalsIn(b, m1);
        assert NonTerminalsIn(b, m2);
      }
    }
  }

  ghost predicate GenClosed(g: Cfg, m: set<Symbol>)
  {
    forall a, b :: a in g && b in g[a] && NonTerminalsIn(b, m) ==> a in m
  }

  /** The non-terminals that derive a string of terminals. */
  function Generating(g: Cfg): (r: set<Symbol>)
    ensures r <= g.Keys
  {
    GenStepFacts(g);
    FixedPoints.Lfp(GenStep(g), g.Keys, {})
  }

  lemma GeneratingClosed(g: Cfg)
    ensures GenClosed(g, Generating(g))
  {
    GenStepFacts(g);
    var r := Generating(g);
    assert GenStep(g)(r) <= r;
    forall a, b | a in g && b in g[a] && NonTerminalsIn(b, r) ensures a in r {
      assert a in GenStep(g)(r);
    }
  }

  lemma GeneratingIsLeast(g: Cfg, m: set<Symbol>)
    requires GenClosed(g, m)
    ensures Generating(g) <= m
  {
    GenStepFacts(g);
    forall a | a in GenStep(g)(m) ensures a in m {
      var b :| b in g[a] && NonTerminalsIn(b, m);
    }
    FixedPoints.LfpLeast(GenStep(g), g.Keys, {}, m);
  }

  /** The non-terminals occurring in the bodies of `g`. */
  function BodySymbols(g: Cfg): set<Symbol>
  {
    set a, b, s | a in g && b in g[a] && s in b && IsNonTerminal(s) :: s
  }

  /** One round of the reachable closure: the start symbol, and every
      non-terminal in a body of a symbol already reached. */
  function ReachStep(g: Cfg, start: Symbol): set<Symbol> -> set<Symbol>
  {
    (m: set<Symbol>) =>
      {start} + set a, b, s | a in m && a in g && b in g[a] && s in b && IsNonTerminal(s) :: s
  }

  lemma ReachStepFacts(g: Cfg, start: Symbol)
    ensures FixedPoints.Within(ReachStep(g, start), {start} + BodySymbols(g))
    ensures FixedPoints.Monotone(ReachStep(g, start))
  {
  }

  ghost predicate ReachClosed(g: Cfg, start: Symbol, m: set<Symbol>)
  {
    start in m
    && forall a, b, s :: a in m && a in g && b in g[a] && s in b && IsNonTerminal(s) ==> s in m
  }

  /** The symbols reachable from `start`. */
  function Reachable(g: Cfg, start: Symbol): (r: set<Symbol>)
    ensures start in r
  {
    ReachStepFacts(g, start);
    var r := FixedPoints.Lfp(ReachStep(g, start), {start} + BodySymbols(g), {});
    assert start in ReachStep(g, start)(r);
    r
  }

  lemma ReachableClosed(g: Cfg, start: Symbol)
    ensures ReachClosed(g, start, Reachable(g, start))
  {
    ReachStepFacts(g, start);
    var r := Reachable(g, start);
    assert ReachStep(g, start)(r) <= r;
    forall a, b, s | a in r && a in g && b in g[a] && s in b && IsNonTerminal(s) ensures s in r {
      assert s in ReachStep(g, start)(r);
    }
  }

  lemma ReachableIsLeast(g: Cfg, start: Symbol, m: set<Symbol>)
    requires ReachClosed(g, start, m)
    ensures Reachable(g, start) <= m
  {
    ReachStepFacts(g, start);
    forall s | s in ReachStep(g, start)(m) ensures s in m {
      if s != start {
        var a, b :| a in m && a in g && b in g[a] && s in b && IsNonTerminal(s);
      }
    }
    FixedPoints.LfpLeast(ReachStep(g, start), {start} + BodySymbols(g), {}, m);
  }

  // ---------------------------------------------------------------------
  // Removing useless symbols
  // ---------------------------------------------------------------------

  /** The bodies whose non-terminals are all in `keep`, in order. */
  function Useful(bs: seq<Body>, keep: set<Symbol>): (r: seq<Body>)
    ensures forall x :: x in r <==> x in bs && NonTerminalsIn(x, keep)
  {
    if |bs| == 0 then []
    else
      assert forall x :: x in bs <==> x == bs[0] || x in bs[1..];
      (if NonTerminalsIn(bs[0], keep) then [bs[0]] else []) + Useful(bs[1..], keep)
  }

  /** The symbols that are both reachable and generating. */
  function Kept(g: Cfg, start: Symbol): set<Symbol>
  {
    Reachable(g, start) * Generating(g)
  }

  /** The third pass. A symbol keeps its bodies when it is reachable and
      generating, and a body stays when each of its non-terminals is both. */
  function RemoveUseless(g: Cfg, start: Symbol): (r: Cfg)
    ensures forall a :: a in r ==> a in g && a in Kept(g, start)
    ensures forall a, x :: x in Rules(r, a) <==>
      a in Kept(g, start) && x in Rules(g, a) && NonTerminalsIn(x, Kept(g, start))
  {
    var r := map a | a in g && a in Kept(g, start) && |Useful(g[a], Kept(g, start))| > 0 :: Useful(g[a], Kept(g, start));
    KeepAll(g, Kept(g, start), r);
    r
  }

  lemma KeepAll(g: Cfg, keep: set<Symbol>, r: Cfg)
    requires r == map a | a in g && a in keep && |Useful(g[a], keep)| > 0 :: Useful(g[a], keep)
    ensures forall a, x :: x in Rules(r, a) ==> a in keep
    ensures forall a, x :: x in Rules(r, a) ==> x in Rules(g, a)
    ensures forall a, x :: x in Rules(r, a) ==> NonTerminalsIn(x, keep)
    ensures forall a, x :: a in keep && x in Rules(g, a) && NonTerminalsIn(x, keep) ==> x in Rules(r, a)
  {
    forall a, x | x in Rules(r, a)
      ensures a in keep
    {
      KeepAt(g, keep, r, a, x);
    }
    forall a, x | x in Rules(r, a)
      ensures x in Rules(g, a)
    {
      KeepAt(g, keep, r, a, x);
    }
    forall a, x | x in Rules(r, a)
      ensures NonTerminalsIn(x, keep)
    {
      KeepAt(g, keep, r, a, x);
    }
    forall a, x | a in keep && x in Rules(g, a) && NonTerminalsIn(x, keep)
      ensures x in Rules(r, a)
    {
      KeepAt(g, keep, r, a, x);
    }
  }

  lemma KeepAt(g: Cfg, keep: set<Symbol>, r: Cfg, a: Symbol, x: Body)
    requires r == map a | a in g && a in keep && |Useful(g[a], keep)| > 0 :: Useful(g[a], keep)
    ensures x in Rules(r, a) <==> a in keep && x in Rules(g, a) && NonTerminalsIn(x, keep)
  {
    if a in keep && x in Rules(g, a) && NonTerminalsIn(x, keep) {
      assert x in Useful(g[a], keep);
    }
  }

  // ---------------------------------------------------------------------
  // Replacing terminals inside longer bodies
  // ---------------------------------------------------------------------

  predicate SingleTerminal(b: Body)
  {
    |b| == 1 && !IsNonTerminal(b[0])
  }

  predicate AllNonTerminal(b: Body)
  {
    forall s :: s in b ==> IsNonTerminal(s)
  }

  /** A body neither empty nor one non-terminal: what the first two passes
      leave behind. */
  predicate Proper(b: Body)
  {
    |b| > 0 && !IsUnit(b)
  }

  ghost predicate AllProper(g: Cfg)
  {
    forall a, b :: a in g && b in g[a] ==> Proper(b)
  }

  /** The state of the fourth pass: the counter behind the fresh names, the
      variable given to each terminal, and the grammar being built. */
  datatype TermState = TermState(count: nat, vars: map<Symbol, Symbol>, out: Cfg)

  /** Each variable is a non-terminal whose bodies include its terminal. */
  ghost predicate VarsGood(st: TermState)
  {
    forall t :: t in st.vars ==>
      !IsNonTerminal(t) && IsNonTerminal(st.vars[t]) && [t] in Rules(st.out, st.vars[t])
  }

  /** A body after the fourth pass: one terminal, or two or more
      non-terminals. */
  predicate TermShaped(b: Body)
  {
    SingleTerminal(b) || (|b| >= 2 && AllNonTerminal(b))
  }

  ghost predicate AllTermShaped(g: Cfg)
  {
    forall a, b :: a in g && b in g[a] ==> TermShaped(b)
  }

  /** `st'` continues `st`: the counter never goes back, variables are never
      reassigned and no body is lost. */
  ghost predicate Extends(st: TermState, st': TermState)
  {
    st.count <= st'.count
    && (forall t :: t in st.vars ==> t in st'.vars && st'.vars[t] == st.vars[t])
    && Contains(st.out, st'.out)
  }

  lemma ExtendsTransitive(st1: TermState, st2: TermState, st3: TermState)
    requires Extends(st1, st2) && Extends(st2, st3)
    ensures Extends(st1, st3)
  {
  }

  /** Every terminal of `b` has a variable. */
  predicate Mapped(b: Body, vars: map<Symbol, Symbol>)
  {
    forall s :: s in b ==> IsNonTerminal(s) || s in vars
  }

  /** `b` with each terminal replaced by its variable. */
  function Replace(b: Body, vars: map<Symbol, Symbol>): (r: Body)
    requires Mapped(b, vars)
    ensures |r| == |b|
  {
    seq(|b|, i requires 0 <= i < |b| => if IsNonTerminal(b[i]) then b[i] else vars[b[i]])
  }

  lemma ReplaceStable(b: Body, vars: map<Symbol, Symbol>, vars': map<Symbol, Symbol>)
    requires Mapped(b, vars)
    requires forall t :: t in vars ==> t in vars' && vars'[t] == vars[t]
    ensures Mapped(b, vars') && Replace(b, vars') == Replace(b, vars)
  {
  }

  /** `b`, a body of `a`, has its counterpart among the output rules of
      `a`: itself when it is a lone terminal, otherwise its copy with every
      terminal replaced by its variable. */
  predicate Converted(st: TermState, a: Symbol, b: Body)
  {
    if SingleTerminal(b) then b in Rules(st.out, a)
    else Mapped(b, st.vars) && Replace(b, st.vars) in Rules(st.out, a)
  }

  /** One symbol: a non-terminal stays; a terminal becomes its variable,
      created with the body `[t]` the first time the terminal is met. */
  function TermSymbol(st: TermState, s: Symbol): (r: (TermState, Symbol))
    ensures Extends(st, r.0)
    ensures IsNonTerminal(s) ==> r.1 == s
    ensures !IsNonTerminal(s) ==> s in r.0.vars && r.1 == r.0.vars[s]
    ensures VarsGood(st) ==> VarsGood(r.0) && IsNonTerminal(r.1)
    ensures AllTermShaped(st.out) ==> AllTermShaped(r.0.out)
  {
    if IsNonTerminal(s) then (st, s)
    else if s in st.vars then (st, st.vars[s])
    else
      var v := Fresh(st.count + 1);
      (TermState(st.count + 1, st.vars[s := v], Push(st.out, v, [s])), v)
  }

  /** The symbols of one body, left to right. */
  function TermSymbols(st: TermState, prod: Body): (r: (TermState, Body))
    ensures Extends(st, r.0)
    ensures Mapped(prod, r.0.vars) && r.1 == Replace(prod, r.0.vars)
    ensures VarsGood(st) ==> VarsGood(r.0) && AllNonTerminal(r.1)
    ensures AllTermShaped(st.out) ==> AllTermShaped(r.0.out)
    decreases |prod|
  {
    if |prod| == 0 then (st, [])
    else
      var (st1, s1) := TermSymbol(st, prod[0]);
      var (st2, rest) := TermSymbols(st1, prod[1..]);
      TermSymbolsStep(st, prod, st1, s1, st2, rest);
      (st2, [s1] + rest)
  }

  lemma TermSymbolsStep(st: TermState, prod: Body, st1: TermState, s1: Symbol, st2: TermState, rest: Body)
    requires |prod| > 0
    requires Extends(st, st1) && Extends(st1, st2)
    requires IsNonTerminal(prod[0]) ==> s1 == prod[0]
    requires !IsNonTerminal(prod[0]) ==> prod[0] in st1.vars && s1 == st1.vars[prod[0]]
    requires Mapped(prod[1..], st2.vars) && rest == Replace(prod[1..], st2.vars)
    requires VarsGood(st) ==> VarsGood(st1) && IsNonTerminal(s1)
    requires VarsGood(st1) ==> VarsGood(st2) && AllNonTerminal(rest)
    ensures Extends(st, st2)
    ensures Mapped(prod, st2.vars) && [s1] + rest == Replace(prod, st2.vars)
    ensures VarsGood(st) ==> VarsGood(st2) && AllNonTerminal([s1] + rest)
  {
    ExtendsTransitive(st, st1, st2);
    assert forall s :: s in prod ==> s == prod[0] || s in prod[1..];
    var r := Replace(prod, st2.vars);
    assert r[0] == s1;
    assert r[1..] == rest;
  }

  /** One body of `a`: a lone terminal is kept as it is; any other body is
      kept with its terminals replaced. */
  function TermBody(st: TermState, a: Symbol, prod: Body): (r: TermState)
    ensures Extends(st, r)
    ensures Converted(r, a, prod)
    ensures VarsGood(st) ==> VarsGood(r)
    ensures VarsGood(st) && AllTermShaped(st.out) && Proper(prod) ==> AllTermShaped(r.out)
  {
    if SingleTerminal(prod) then
      PushGrows(st.out, a, prod);
      st.(out := Push(st.out, a, prod))
    else
      var (st1, nb) := TermSymbols(st, prod);
      var r := st1.(out := Push(st1.out, a, nb));
      PushGrows(st1.out, a, nb);
      ExtendsTransitive(st, st1, r);
      r
  }

  /** The bodies of `a`, in order. */
  function TermBodies(st: TermState, a: Symbol, prods: seq<Body>): (r: TermState)
    ensures Extends(st, r)
    ensures forall b :: b in prods ==> Converted(r, a, b)
    ensures VarsGood(st) ==> VarsGood(r)
    ensures VarsGood(st) && AllTermShaped(st.out) && (forall b :: b in prods ==> Proper(b)) ==> AllTermShaped(r.out)
    decreases |prods|
  {
    if |prods| == 0 then st
    else
      var st1 := TermBody(st, a, prods[0]);
      var r := TermBodies(st1, a, prods[1..]);
      TermBodiesStep(st, a, prods, st1, r);
      r
  }

  lemma TermBodiesStep(st: TermState, a: Symbol, prods: seq<Body>, st1: TermState, r: TermState)
    requires |prods| > 0
    requires Extends(st, st1) && Extends(st1, r)
    requires Converted(st1, a, prods[0])
    requires forall b :: b in prods[1..] ==> Converted(r, a, b)
    ensures Extends(st, r)
    ensures forall b :: b in prods ==> Converted(r, a, b)
  {
    ExtendsTransitive(st, st1, r);
    ConvertedStable(st1, r, a, prods[0]);
    assert forall b :: b in prods ==> b == prods[0] || b in prods[1..];
  }

  /** A body once converted stays converted as the state grows. */
  lemma ConvertedStable(st: TermState, st': TermState, a: Symbol, b: Body)
    requires Extends(st, st') && Converted(st, a, b)
    ensures Converted(st', a, b)
  {
    if !SingleTerminal(b) {
      ReplaceStable(b, st.vars, st'.vars);
    }
  }

  /** The keys in `ks`, smallest first. */
  function TermKeys(st: TermState, g: Cfg, ks: set<Symbol>): (r: TermState)
    requires ks <= g.Keys
    ensures Extends(st, r)
    ensures forall a, b :: a in ks && b in g[a] ==> Converted(r, a, b)
    ensures VarsGood(st) ==> VarsGood(r)
    ensures VarsGood(st) && AllTermShaped(st.out) && AllProper(g) ==> AllTermShaped(r.out)
    decreases |ks|
  {
    if ks == {} then st
    else
      var k := Least(ks);
      var st1 := TermBodies(st, k, g[k]);
      var r := TermKeys(st1, g, ks - {k});
      TermKeysStep(st, g, ks, k, st1, r);
      r
  }

  lemma TermKeysStep(st: TermState, g: Cfg, ks: set<Symbol>, k: Symbol, st1: TermState, r: TermState)
    requires k in ks && ks <= g.Keys
    requires Extends(st, st1) && Extends(st1, r)
    requires forall b :: b in g[k] ==> Converted(st1, k, b)
    requires forall a, b :: a in ks - {k} && b in g[a] ==> Converted(r, a, b)
    ensures Extends(st, r)
    ensures forall a, b :: a in ks && b in g[a] ==> Converted(r, a, b)
  {
    ExtendsTransitive(st, st1, r);
    forall b | b in g[k]
      ensures Converted(r, k, b)
    {
      ConvertedStable(st1, r, k, b);
    }
  }

  /** The fourth pass, starting from the counter value `count`. Every lone
      terminal body is kept; every other body reappears with its terminals
      replaced by variables, each of which derives its own terminal. */
  function ConvertTerminals(g: Cfg, count: nat): (r: TermState)
    ensures count <= r.count
    ensures VarsGood(r)
    ensures forall a, b :: a in g && b in g[a] ==> Converted(r, a, b)
    ensures AllProper(g) ==> AllTermShaped(r.out)
  {
    TermKeys(TermState(count, map[], map[]), g, g.Keys)
  }

  // ---------------------------------------------------------------------
  // The variables of the fourth pass are its own
  // ---------------------------------------------------------------------

  /** No name `X<n>` past `count` is taken, neither among `keys` nor in
      `out`. */
  ghost predicate FreshFrom(count: nat, keys: set<Symbol>, out: Cfg)
  {
    forall n: nat :: n > count ==> Fresh(n) !in keys && Fresh(n) !in out
  }

  /** Each terminal's variable is a name outside `keys` whose only body is
      the terminal itself. */
  ghost predicate OwnTerminals(st: TermState, keys: set<Symbol>)
  {
    FreshFrom(st.count, keys, st.out)
    && forall t :: t in st.vars ==> st.vars[t] !in keys && Rules(st.out, st.vars[t]) == [[t]]
  }

  /** Adding a body to a key of the input leaves every variable alone. */
  lemma PushKeyOwn(st: TermState, a: Symbol, b: Body, keys: set<Symbol>)
    requires OwnTerminals(st, keys) && a in keys
    ensures OwnTerminals(st.(out := Push(st.out, a, b)), keys)
  {
  }

  lemma TermSymbolOwn(st: TermState, s: Symbol, keys: set<Symbol>)
    requires OwnTerminals(st, keys)
    ensures OwnTerminals(TermSymbol(st, s).0, keys)
  {
    if !IsNonTerminal(s) && s !in st.vars {
      var v := Fresh(st.count + 1);
      var st' := TermSymbol(st, s).0;
      forall n: nat | n > st'.count ensures Fresh(n) !in keys && Fresh(n) !in st'.out {
        if Fresh(n) == v {
          FreshInjective(n, st.count + 1);
        }
      }
      forall t | t in st'.vars ensures st'.vars[t] !in keys && Rules(st'.out, st'.vars[t]) == [[t]] {
        if t != s {
          assert st.vars[t] in st.out;
        }
      }
    }
  }

  lemma {:induction false} TermSymbolsOwn(st: TermState, prod: Body, keys: set<Symbol>)
    requires OwnTerminals(st, keys)
    ensures OwnTerminals(TermSymbols(st, prod).0, keys)
    decreases |prod|
  {
    if |prod| > 0 {
      TermSymbolOwn(st, prod[0], keys);
      TermSymbolsOwn(TermSymbol(st, prod[0]).0, prod[1..], keys);
    }
  }

  lemma TermBodyOwn(st: TermState, a: Symbol, prod: Body, keys: set<Symbol>)
    requires OwnTerminals(st, keys) && a in keys
    ensures OwnTerminals(TermBody(st, a, prod), keys)
  {
    if SingleTerminal(prod) {
      PushKeyOwn(st, a, prod, keys);
    } else {
      TermSymbolsOwn(st, prod, keys);
      var (st1, nb) := TermSymbols(st, prod);
      PushKeyOwn(st1, a, nb, keys);
    }
  }

  lemma {:induction false} TermBodiesOwn(st: TermState, a: Symbol, prods: seq<Body>, keys: set<Symbol>)
    requires OwnTerminals(st, keys) && a in keys
    ensures OwnTerminals(TermBodies(st, a, prods), keys)
    decreases |prods|
  {
    if |prods| > 0 {
      TermBodyOwn(st, a, prods[0], keys);
      TermBodiesOwn(TermBody(st, a, prods[0]), a, prods[1..], keys);
    }
  }

  lemma {:induction false} TermKeysOwn(st: TermState, g: Cfg, ks: set<Symbol>)
    requires ks <= g.Keys && OwnTerminals(st, g.Keys)
    ensures OwnTerminals(TermKeys(st, g, ks), g.Keys)
    decreases |ks|
  {
    if ks != {} {
      var k := Least(ks);
      TermBodiesOwn(st, k, g[k], g.Keys);
      TermKeysOwn(TermBodies(st, k, g[k]), g, ks - {k});
    }
  }

  /** When no key of the input is a name `X<n>` past `count`, the fourth
      pass gives each terminal its own variable: a name outside the input,
      different for different terminals, whose only body is the terminal. */
  lemma TerminalVariables(g: Cfg, count: nat)
    requires forall n: nat :: n > count ==> Fresh(n) !in g
    ensures var r := ConvertTerminals(g, count);
      && (forall t :: t in r.vars ==> r.vars[t] !in g && Rules(r.out, r.vars[t]) == [[t]])
      && (forall t, u :: t in r.vars && u in r.vars && t != u ==> r.vars[t] != r.vars[u])
  {
    var st := TermState(count, map[], map[]);
    TermKeysOwn(st, g, g.Keys);
    var r := ConvertTerminals(g, count);
    forall t, u | t in r.vars && u in r.vars && t != u ensures r.vars[t] != r.vars[u] {
      assert Rules(r.out, r.vars[t]) == [[t]] && Rules(r.out, r.vars[u]) == [[u]];
    }
  }

  // ---------------------------------------------------------------------
  // Splitting long bodies
  // ---------------------------------------------------------------------

  /** The state of the fifth pass: the counter, the variable made for each
      key `left + "," + right`, the rules made for those variables, and the
      grammar being built. */
  datatype LongState = LongState(count: nat, pairs: map<string, Symbol>, inter: Cfg, out: Cfg)

  /** A body in Chomsky normal form: one terminal or two non-terminals. */
  predicate CnfShaped(b: Body)
  {
    SingleTerminal(b) || (|b| == 2 && IsNonTerminal(b[0]) && IsNonTerminal(b[1]))
  }

  ghost predicate AllCnfShaped(g: Cfg)
  {
    forall a, b :: a in g && b in g[a] ==> CnfShaped(b)
  }

  /** Every pair variable is a non-terminal and every rule made so far is
      two non-terminals. */
  ghost predicate LongGood(st: LongState)
  {
    (forall k :: k in st.pairs ==> IsNonTerminal(st.pairs[k]))
    && (forall a, b :: a in st.inter && b in st.inter[a] ==> |b| == 2 && AllNonTerminal(b))
  }

  /** `st'` continues `st`: the counter never goes back, a key keeps its
      variable, and no rule is lost. */
  ghost predicate Continues(st: LongState, st': LongState)
  {
    st.count <= st'.count
    && (forall k :: k in st.pairs ==> k in st'.pairs && st'.pairs[k] == st.pairs[k])
    && Contains(st.inter, st'.inter)
  }

  /** The variable for the last two symbols, made on first use. */
  function PairVar(st: LongState, left: Symbol, right: Symbol): (r: (LongState, Symbol))
    ensures Continues(st, r.0) && r.0.out == st.out
    ensures var key := left + "," + right; key in r.0.pairs && r.1 == r.0.pairs[key]
    ensures left + "," + right !in st.pairs ==>
      r.1 == Fresh(st.count + 1) && [left, right] in Rules(r.0.inter, r.1)
    ensures LongGood(st) && IsNonTerminal(left) && IsNonTerminal(right) ==> LongGood(r.0) && IsNonTerminal(r.1)
  {
    var key := left + "," + right;
    if key in st.pairs then (st, st.pairs[key])
    else
      var v := Fresh(st.count + 1);
      PushGrows(st.inter, v, [left, right]);
      (st.(count := st.count + 1, pairs := st.pairs[key := v], inter := Push(st.inter, v, [left, right])), v)
  }

  /** Replace the last two symbols by their variable until two remain. */
  function FoldLong(st: LongState, symbols: Body): (r: (LongState, Body))
    ensures Continues(st, r.0) && r.0.out == st.out
    ensures |symbols| <= 2 ==> r.1 == symbols
    ensures |symbols| >= 2 ==> |r.1| == 2 && r.1[0] == symbols[0]
    ensures LongGood(st) && AllNonTerminal(symbols) ==> LongGood(r.0) && AllNonTerminal(r.1)
    decreases |symbols|
  {
    if |symbols| <= 2 then (st, symbols)
    else
      var n := |symbols|;
      var (st1, v) := PairVar(st, symbols[n - 2], symbols[n - 1]);
      var next := symbols[..n - 2] + [v];
      assert next[0] == symbols[0];
      var (st2, folded) := FoldLong(st1, next);
      FoldStep(st, st1, st2);
      (st2, folded)
  }

  lemma FoldStep(st: LongState, st1: LongState, st2: LongState)
    requires Continues(st, st1) && Continues(st1, st2)
    ensures Continues(st, st2)
  {
  }

  /** One body of `a`: kept when it has at most two symbols, folded
      otherwise. */
  function LongBody(st: LongState, a: Symbol, prod: Body): (r: LongState)
    ensures Continues(st, r)
    ensures |prod| <= 2 ==> prod in Rules(r.out, a)
    ensures Contains(st.out, r.out)
    ensures LongGood(st) && AllCnfShaped(st.out) && TermShaped(prod) ==> LongGood(r) && AllCnfShaped(r.out)
  {
    if |prod| <= 2 then
      PushGrows(st.out, a, prod);
      st.(out := Push(st.out, a, prod))
    else
      var (st1, folded) := FoldLong(st, prod);
      PushGrows(st1.out, a, folded);
      st1.(out := Push(st1.out, a, folded))
  }

  /** The bodies of `a`, in order. */
  function LongBodies(st: LongState, a: Symbol, prods: seq<Body>): (r: LongState)
    ensures Continues(st, r) && Contains(st.out, r.out)
    ensures forall b :: b in prods && |b| <= 2 ==> b in Rules(r.out, a)
    ensures LongGood(st) && AllCnfShaped(st.out) && (forall b :: b in prods ==> TermShaped(b)) ==>
      LongGood(r) && AllCnfShaped(r.out)
    decreases |prods|
  {
    if |prods| == 0 then st
    else
      var st1 := LongBody(st, a, prods[0]);
      var r := LongBodies(st1, a, prods[1..]);
      FoldStep(st, st1, r);
      assert forall b :: b in prods ==> b == prods[0] || b in prods[1..];
      r
  }

  /** The keys in `ks`, smallest first. */
  function LongKeys(st: LongState, g: Cfg, ks: set<Symbol>): (r: LongState)
    requires ks <= g.Keys
    ensures Continues(st, r) && Contains(st.out, r.out)
    ensures forall a, b :: a in ks && b in g[a] && |b| <= 2 ==> b in Rules(r.out, a)
    ensures LongGood(st) && AllCnfShaped(st.out) && AllTermShaped(g) ==> LongGood(r) && AllCnfShaped(r.out)
    decreases |ks|
  {
    if ks == {} then st
    else
      var k := Least(ks);
      var st1 := LongBodies(st, k, g[k]);
      var r := LongKeys(st1, g, ks - {k});
      FoldStep(st, st1, r);
      r
  }

  /** Append the rules made for each variable in `ks`, smallest first. */
  function MergeRules(out: Cfg, inter: Cfg, ks: set<Symbol>): (r: Cfg)
    requires ks <= inter.Keys
    ensures Contains(out, r)
    ensures forall t, b :: t in ks && b in inter[t] ==> b in Rules(r, t)
    ensures AllCnfShaped(out) && (forall a, b :: a in inter && b in inter[a] ==> |b| == 2 && AllNonTerminal(b)) ==>
      AllCnfShaped(r)
    decreases |ks|
  {
    if ks == {} then out
    else
      var t := Least(ks);
      var next := out[t := Rules(out, t) + inter[t]];
      MergeGrows(out, t, inter[t]);
      MergeShaped(out, t, inter[t]);
      MergeRules(next, inter, ks - {t})
  }

  /** Appending pairs of non-terminals keeps every body in normal form. */
  lemma MergeShaped(out: Cfg, t: Symbol, bs: seq<Body>)
    ensures AllCnfShaped(out) && (forall b :: b in bs ==> |b| == 2 && AllNonTerminal(b)) ==>
      AllCnfShaped(out[t := Rules(out, t) + bs])
  {
    var next := out[t := Rules(out, t) + bs];
    if AllCnfShaped(out) && (forall b :: b in bs ==> |b| == 2 && AllNonTerminal(b)) {
      forall a, b | a in next && b in next[a] ensures CnfShaped(b) {
        if a != t {
          assert b in out[a];
        } else if b !in Rules(out, t) {
          assert b in bs;
          assert b[0] in b && b[1] in b;
        }
      }
    }
  }

  lemma MergeGrows(out: Cfg, t: Symbol, bs: seq<Body>)
    ensures Contains(out, out[t := Rules(out, t) + bs])
    ensures forall b :: b in bs ==> b in Rules(out[t := Rules(out, t) + bs], t)
  {
    var next := out[t := Rules(out, t) + bs];
    forall k, x | x in Rules(out, k) ensures x in Rules(next, k) {
      if k == t {
        assert Rules(next, t) == Rules(out, t) + bs;
      }
    }
  }

  /** The fifth pass, starting from the counter value `count`: bodies of at
      most two symbols are kept, longer ones folded from the right, and the
      rules of the new variables appended at the end. */
  function ConvertLong(g: Cfg, count: nat): (r: LongState)
    ensures count <= r.count
    ensures forall a, b :: a in g && b in g[a] && |b| <= 2 ==> b in Rules(r.out, a)
    ensures AllTermShaped(g) ==> AllCnfShaped(r.out)
  {
    var st := LongKeys(LongState(count, map[], map[], map[]), g, g.Keys);
    st.(out := MergeRules(st.out, st.inter, st.inter.Keys))
  }

  // ---------------------------------------------------------------------
  // The variables of the fifth pass fold back to the bodies they replace
  // ---------------------------------------------------------------------

  /** What `s` stands for along its right spine: while at most `k`
      expansions are spent and the current last symbol has exactly one
      rule, a pair, that symbol is replaced by the pair. */
  ghost function Yield(g: Cfg, s: Symbol, k: nat): (r: Body)
    ensures 1 <= |r| <= k + 1
    decreases k
  {
    if k > 0 && s in g && |g[s]| == 1 && |g[s][0]| == 2 then [g[s][0][0]] + Yield(g, g[s][0][1], k - 1)
    else [s]
  }

  /** Every rule list of `g` is still there, unchanged, in `g'`. */
  ghost predicate Keeps(g: Cfg, g': Cfg)
  {
    forall v :: v in g ==> v in g' && g'[v] == g[v]
  }

  /** A yield that used all its expansions only looked at rules `g'`
      keeps. */
  lemma {:induction false} YieldKeeps(g: Cfg, g': Cfg, s: Symbol, k: nat)
    requires Keeps(g, g') && |Yield(g, s, k)| == k + 1
    ensures Yield(g', s, k) == Yield(g, s, k)
    decreases k
  {
    if k > 0 {
      YieldKeeps(g, g', g[s][0][1], k - 1);
    }
  }

  /** One more expansion replaces the last symbol `v` by its pair. */
  lemma {:induction false} YieldMore(g: Cfg, s: Symbol, k: nat, p: Body, v: Symbol, x: Symbol, y: Symbol)
    requires Yield(g, s, k) == p + [v] && |p| == k
    requires v in g && g[v] == [[x, y]]
    ensures Yield(g, s, k + 1) == p + [x, y]
    decreases k
  {
    if k > 0 {
      assert s in g && |g[s]| == 1 && |g[s][0]| == 2;
      var b := g[s][0][1];
      assert Yield(g, s, k) == [g[s][0][0]] + Yield(g, b, k - 1);
      assert (p + [v])[1..] == p[1..] + [v];
      YieldMore(g, b, k - 1, p[1..], v, x, y);
      assert Yield(g, s, k + 1) == [p[0]] + Yield(g, b, k);
      assert [p[0]] + (p[1..] + [x, y]) == p + [x, y];
    } else {
      assert p == [] && Yield(g, s, 0) == [s];
      assert [s] == [v];
      assert Yield(g, v, 1) == [x] + Yield(g, y, 0);
    }
  }

  /** Two pairs with the same key are the same pair when the left symbols
      hold no comma. */
  lemma PairKeyInjective(l: Symbol, r: Symbol, l': Symbol, r': Symbol)
    requires ',' !in l && ',' !in l' && l + "," + r == l' + "," + r'
    ensures l == l' && r == r'
  {
    var key := l + "," + r;
    FirstComma(l, r);
    FirstComma(l', r');
    if |l| < |l'| {
      assert false;
    } else if |l'| < |l| {
      assert false;
    }
    assert l == key[..|l|] == l';
    assert r == key[|l| + 1..] == r';
  }

  /** The first comma of a key follows the left symbol. */
  lemma FirstComma(l: Symbol, r: Symbol)
    requires ',' !in l
    ensures (l + "," + r)[|l|] == ','
    ensures forall i :: 0 <= i < |l| ==> (l + "," + r)[i] != ','
  {
    assert forall i :: 0 <= i < |l| ==> (l + "," + r)[i] == l[i];
  }

  /** Without that condition two different pairs share a key. */
  lemma CommaKeysCollide()
    ensures var l, r, l', r' := "A,B", "C", "A", "B,C";
      l + "," + r == l' + "," + r' && [l, r] != [l', r']
  {
    assert "A,B" != "A";
  }

  /** The variable made for `key`: one rule, the pair that `key` spells. */
  ghost predicate SpelledBy(inter: Cfg, v: Symbol, key: string)
  {
    v in inter && |inter[v]| == 1 && |inter[v][0]| == 2 && inter[v][0][0] + "," + inter[v][0][1] == key
  }

  /** The pair variables made so far: names outside `keys`, each the
      variable of the pair its one rule spells, that pair's left symbol
      free of commas; no name `X<n>` past the counter taken; the grammar
      built so far only on keys of the input. */
  ghost predicate OwnPairs(st: LongState, keys: set<Symbol>)
  {
    (forall n: nat :: n > st.count ==> Fresh(n) !in keys && Fresh(n) !in st.inter)
    && (forall key :: key in st.pairs ==> SpelledBy(st.inter, st.pairs[key], key))
    && (forall v :: v in st.inter ==> v !in keys && PairOf(st, v))
    && st.out.Keys <= keys
  }

  /** `v`'s one rule is a pair whose left symbol holds no comma, and `v` is
      the variable remembered for that pair's key. */
  ghost predicate PairOf(st: LongState, v: Symbol)
    requires v in st.inter
  {
    |st.inter[v]| == 1 && |st.inter[v][0]| == 2 && ',' !in st.inter[v][0][0]
    && var key := st.inter[v][0][0] + "," + st.inter[v][0][1]; key in st.pairs && st.pairs[key] == v
  }

  /** A fresh variable for a new pair keeps the invariant. */
  lemma NewPairOwn(st: LongState, left: Symbol, right: Symbol, keys: set<Symbol>)
    requires OwnPairs(st, keys) && ',' !in left && left + "," + right !in st.pairs
    ensures var v := Fresh(st.count + 1);
      && v !in st.inter
      && OwnPairs(LongState(st.count + 1, st.pairs[left + "," + right := v], st.inter[v := [[left, right]]], st.out), keys)
  {
    var key := left + "," + right;
    var v := Fresh(st.count + 1);
    var st' := LongState(st.count + 1, st.pairs[key := v], st.inter[v := [[left, right]]], st.out);
    forall n: nat | n > st'.count ensures Fresh(n) !in keys && Fresh(n) !in st'.inter {
      if Fresh(n) == v {
        FreshInjective(n, st.count + 1);
      }
    }
    forall w | w in st'.inter ensures w !in keys && PairOf(st', w) {
      if w != v {
        assert PairOf(st, w);
      }
    }
  }

  lemma PairVarOwn(st: LongState, left: Symbol, right: Symbol, keys: set<Symbol>)
    requires OwnPairs(st, keys) && ',' !in left
    ensures var (st', v) := PairVar(st, left, right);
      OwnPairs(st', keys) && Keeps(st.inter, st'.inter) && v in st'.inter && st'.inter[v] == [[left, right]]
  {
    var key := left + "," + right;
    var (st', v) := PairVar(st, left, right);
    if key in st.pairs {
      var b := st.inter[v][0];
      PairKeyInjective(b[0], b[1], left, right);
      assert b == [left, right];
      assert st.inter[v] == [b];
    } else {
      NewPairOwn(st, left, right, keys);
      assert Rules(st.inter, v) + [[left, right]] == [[left, right]];
    }
  }

  /** Folding a body: its first symbol stays, and the second symbol of the
      result yields the rest of the body. */
  lemma {:induction false} FoldLongOwn(st: LongState, symbols: Body, keys: set<Symbol>)
    requires OwnPairs(st, keys) && |symbols| >= 2
    requires forall i :: 0 <= i < |symbols| - 1 ==> ',' !in symbols[i]
    ensures var (st', f) := FoldLong(st, symbols);
      && OwnPairs(st', keys) && Keeps(st.inter, st'.inter)
      && |f| == 2 && f[0] == symbols[0] && Yield(st'.inter, f[1], |symbols| - 2) == symbols[1..]
    decreases |symbols|
  {
    var n := |symbols|;
    if n > 2 {
      var (st1, v) := PairVar(st, symbols[n - 2], symbols[n - 1]);
      PairVarOwn(st, symbols[n - 2], symbols[n - 1], keys);
      var next := symbols[..n - 2] + [v];
      FoldSlices(symbols, v);
      FoldLongOwn(st1, next, keys);
      var (st2, f) := FoldLong(st1, next);
      assert FoldLong(st, symbols) == (st2, f);
      YieldMore(st2.inter, f[1], n - 3, symbols[1..n - 2], v, symbols[n - 2], symbols[n - 1]);
    } else {
      assert symbols == [symbols[0], symbols[1]];
    }
  }

  /** How one folding step rearranges the body. */
  lemma FoldSlices(symbols: Body, v: Symbol)
    requires |symbols| > 2
    ensures var n := |symbols|; var next := symbols[..n - 2] + [v];
      && |next| == n - 1 && next[0] == symbols[0] && next[1..] == symbols[1..n - 2] + [v]
      && (forall i :: 0 <= i < n - 2 ==> next[i] == symbols[i])
      && symbols[1..n - 2] + [symbols[n - 2], symbols[n - 1]] == symbols[1..]
  {
    var n := |symbols|;
    assert symbols[1..n - 2] + [symbols[n - 2], symbols[n - 1]] == symbols[1..];
  }

  /** Some body of `a` in `out` keeps the first symbol of `b` and yields the
      rest of `b` through `inter`. */
  ghost predicate Folded(out: Cfg, inter: Cfg, a: Symbol, b: Body)
    requires |b| >= 2
  {
    exists f :: f in Rules(out, a) && |f| == 2 && f[0] == b[0] && Yield(inter, f[1], |b| - 2) == b[1..]
  }

  lemma FoldedStable(out: Cfg, inter: Cfg, out': Cfg, inter': Cfg, a: Symbol, b: Body)
    requires |b| >= 2 && Folded(out, inter, a, b)
    requires Contains(out, out') && Keeps(inter, inter')
    ensures Folded(out', inter', a, b)
  {
    var f :| f in Rules(out, a) && |f| == 2 && f[0] == b[0] && Yield(inter, f[1], |b| - 2) == b[1..];
    YieldKeeps(inter, inter', f[1], |b| - 2);
    assert f in Rules(out', a);
  }

  /** No symbol of `b` but the last holds a comma. */
  predicate CommaFree(b: Body)
  {
    forall i :: 0 <= i < |b| - 1 ==> ',' !in b[i]
  }

  lemma LongBodyOwn(st: LongState, a: Symbol, prod: Body, keys: set<Symbol>)
    requires OwnPairs(st, keys) && a in keys && CommaFree(prod)
    ensures var r := LongBody(st, a, prod);
      OwnPairs(r, keys) && Keeps(st.inter, r.inter) && (|prod| > 2 ==> Folded(r.out, r.inter, a, prod))
  {
    if |prod| > 2 {
      FoldLongOwn(st, prod, keys);
      var (st1, f) := FoldLong(st, prod);
      var r := LongBody(st, a, prod);
      assert f in Rules(r.out, a);
    }
  }

  lemma {:induction false} LongBodiesOwn(st: LongState, a: Symbol, prods: seq<Body>, keys: set<Symbol>)
    requires OwnPairs(st, keys) && a in keys && forall b :: b in prods ==> CommaFree(b)
    ensures var r := LongBodies(st, a, prods);
      && OwnPairs(r, keys) && Keeps(st.inter, r.inter)
      && forall b :: b in prods && |b| > 2 ==> Folded(r.out, r.inter, a, b)
    decreases |prods|
  {
    if |prods| > 0 {
      var st1 := LongBody(st, a, prods[0]);
      var r := LongBodies(st1, a, prods[1..]);
      LongBodyOwn(st, a, prods[0], keys);
      LongBodiesOwn(st1, a, prods[1..], keys);
      if |prods[0]| > 2 {
        FoldedStable(st1.out, st1.inter, r.out, r.inter, a, prods[0]);
      }
      assert forall b :: b in prods ==> b == prods[0] || b in prods[1..];
    }
  }

  lemma {:induction false} LongKeysOwn(st: LongState, g: Cfg, ks: set<Symbol>)
    requires ks <= g.Keys && OwnPairs(st, g.Keys)
    requires forall a, b :: a in g && b in g[a] ==> CommaFree(b)
    ensures var r := LongKeys(st, g, ks);
      && OwnPairs(r, g.Keys) && Keeps(st.inter, r.inter)
      && forall a, b :: a in ks && b in g[a] && |b| > 2 ==> Folded(r.out, r.inter, a, b)
    decreases |ks|
  {
    if ks != {} {
      var k := Least(ks);
      var st1 := LongBodies(st, k, g[k]);
      var r := LongKeys(st1, g, ks - {k});
      LongBodiesOwn(st, k, g[k], g.Keys);
      LongKeysOwn(st1, g, ks - {k});
      forall b | b in g[k] && |b| > 2 ensures Folded(r.out, r.inter, k, b) {
        FoldedStable(st1.out, st1.inter, r.out, r.inter, k, b);
      }
    }
  }

  /** Appending the rules of variables that had none gives each exactly
      the rules made for it, and leaves every other key alone. */
  lemma {:induction false} MergeRulesKeep(out: Cfg, inter: Cfg, ks: set<Symbol>)
    requires ks <= inter.Keys && forall t :: t in ks ==> t !in out
    ensures forall t :: t in ks ==> Rules(MergeRules(out, inter, ks), t) == inter[t]
    ensures forall t :: t !in ks ==> Rules(MergeRules(out, inter, ks), t) == Rules(out, t)
    decreases |ks|
  {
    if ks != {} {
      var t := Least(ks);
      var next := out[t := Rules(out, t) + inter[t]];
      MergeRulesKeep(next, inter, ks - {t});
      assert Rules(next, t) == inter[t];
    }
  }

  /** The merged grammar holds each pair variable with its rules alone. */
  lemma MergedKeeps(out: Cfg, inter: Cfg, keys: set<Symbol>)
    requires out.Keys <= keys
    requires forall v :: v in inter ==> v !in keys && |inter[v]| > 0
    ensures Keeps(inter, MergeRules(out, inter, inter.Keys))
  {
    var r := MergeRules(out, inter, inter.Keys);
    MergeRulesKeep(out, inter, inter.Keys);
    forall v | v in inter ensures v in r && r[v] == inter[v] {
      assert Rules(r, v) == inter[v];
    }
  }

  /** When no key of the input is a name `X<n>` past `count` and no symbol
      of a body but the last holds a comma, the fifth pass keeps the first
      symbol of each long body and gives it one second symbol that yields,
      through the output grammar, the rest of the body. Each pair key has
      one variable, outside the input, whose only rule is the pair the key
      spells, and different keys have different variables. */
  lemma LongFoldsBack(g: Cfg, count: nat)
    requires forall n: nat :: n > count ==> Fresh(n) !in g
    requires forall a, b :: a in g && b in g[a] ==> CommaFree(b)
    ensures var r := ConvertLong(g, count);
      && (forall a, b :: a in g && b in g[a] && |b| > 2 ==> Folded(r.out, r.out, a, b))
      && (forall key :: key in r.pairs ==> r.pairs[key] !in g && SpelledBy(r.out, r.pairs[key], key))
      && (forall k1, k2 :: k1 in r.pairs && k2 in r.pairs && k1 != k2 ==> r.pairs[k1] != r.pairs[k2])
  {
    var st0 := LongState(count, map[], map[], map[]);
    var st := LongKeys(st0, g, g.Keys);
    LongKeysOwn(st0, g, g.Keys);
    LongFinish(g, st, ConvertLong(g, count));
  }

  /** The merge at the end of the fifth pass, on the state `st` the key
      loop left; `r` is the pass's result. */
  lemma LongFinish(g: Cfg, st: LongState, r: LongState)
    requires OwnPairs(st, g.Keys)
    requires forall a, b :: a in g && b in g[a] && |b| > 2 ==> Folded(st.out, st.inter, a, b)
    requires r.out == MergeRules(st.out, st.inter, st.inter.Keys) && r.pairs == st.pairs
    ensures forall a, b :: a in g && b in g[a] && |b| > 2 ==> Folded(r.out, r.out, a, b)
    ensures forall key :: key in r.pairs ==> r.pairs[key] !in g && SpelledBy(r.out, r.pairs[key], key)
    ensures forall k1, k2 :: k1 in r.pairs && k2 in r.pairs && k1 != k2 ==> r.pairs[k1] != r.pairs[k2]
  {
    MergedKeeps(st.out, st.inter, g.Keys);
    FoldedAll(g, st.out, st.inter, r.out);
    SpelledAll(st, g.Keys, r.out);
  }

  lemma FoldedAll(g: Cfg, out: Cfg, inter: Cfg, out': Cfg)
    requires forall a, b :: a in g && b in g[a] && |b| > 2 ==> Folded(out, inter, a, b)
    requires Contains(out, out') && Keeps(inter, out')
    ensures forall a, b :: a in g && b in g[a] && |b| > 2 ==> Folded(out', out', a, b)
  {
    forall a, b | a in g && b in g[a] && |b| > 2 ensures Folded(out', out', a, b) {
      FoldedStable(out, inter, out', out', a, b);
    }
  }

  lemma SpelledAll(st: LongState, keys: set<Symbol>, out': Cfg)
    requires OwnPairs(st, keys) && Keeps(st.inter, out')
    ensures forall key :: key in st.pairs ==> st.pairs[key] !in keys && SpelledBy(out', st.pairs[key], key)
    ensures forall k1, k2 :: k1 in st.pairs && k2 in st.pairs && k1 != k2 ==> st.pairs[k1] != st.pairs[k2]
  {
    forall key | key in st.pairs ensures st.pairs[key] !in keys && SpelledBy(out', st.pairs[key], key) {
      assert SpelledBy(st.inter, st.pairs[key], key);
    }
  }

  // ---------------------------------------------------------------------
  // The whole conversion
  // ---------------------------------------------------------------------

  /** `convertToCNF`: the five passes in the program's order, with one
      counter shared by the last two. */
  function ConvertToCnf(g: Cfg, start: Symbol): (r: Cfg)
  {
    var g1 := RemoveNull(g);
    var g2 := RemoveUnits(g1);
    var g3 := RemoveUseless(g2, start);
    var t := ConvertTerminals(g3, 0);
    ConvertLong(t.out, t.count).out
  }

  /** Whatever the input, every body of the result is one terminal or two
      non-terminals. */
  lemma ConvertToCnfShape(g: Cfg, start: Symbol)
    ensures AllCnfShaped(ConvertToCnf(g, start))
  {
    var g1 := RemoveNull(g);
    var g2 := RemoveUnits(g1);
    var g3 := RemoveUseless(g2, start);
    UnitsLeaveProper(g1);
    assert AllProper(g3) by {
      forall a, b | a in g3 && b in g3[a] ensures Proper(b) {
        assert b in Rules(g3, a);
        assert b in Rules(g2, a);
      }
    }
  }

  /** Unit removal keeps bodies non-empty, so what it returns is proper. */
  lemma UnitsLeaveProper(g1: Cfg)
    requires forall a, x :: a in g1 && x in g1[a] ==> x != []
    ensures AllProper(RemoveUnits(g1))
  {
    ProperVia(g1, UnitPairs(g1), RemoveUnits(g1));
  }

  lemma ProperVia(g1: Cfg, p: set<Pair>, g2: Cfg)
    requires forall a, x :: a in g1 && x in g1[a] ==> x != []
    requires forall a, x :: x in Rules(g2, a) ==> !IsUnit(x) && (x in Rules(g1, a) || ViaPair(g1, p, a, x))
    ensures AllProper(g2)
  {
    forall a, x | a in g2 && x in g2[a] ensures Proper(x) {
      assert x in Rules(g2, a);
      assert !IsUnit(x) && (x in Rules(g1, a) || ViaPair(g1, p, a, x));
      if x !in Rules(g1, a) {
        var c :| (a, c) in p && x in Rules(g1, c);
        assert c in g1 && x in g1[c];
      }
    }
  }

  /** The grammar in the program's `main`. */
  function SampleGrammar(): Cfg
  {
    map[
      "S" := [["b", "A", "C"], ["B"]],
      "A" := [["a"], ["a", "S"], ["b", "C", "a", "C", "b"]],
      "B" := [["A", "C"], ["b", "S"], ["a", "A", "a"]],
      "C" := [[Epsilon], ["A", "B"]],
      "E" := [["B", "A"]]
    ]
  }

  lemma SampleIsCnf()
    ensures AllCnfShaped(ConvertToCnf(SampleGrammar(), "S"))
  {
    ConvertToCnfShape(SampleGrammar(), "S");
  }
}

=== FILE: fixpoint.dfy ===
/** Least fixed points of monotone operators on finite sets, computed by
    rounds `s := s + f(s)` until nothing changes, the way the closures of
    the grammar converter iterate. */
module FixedPoints {
  import opened Text

  /** `f` never leaves the universe `u`. */
  ghost predicate Within<T(!new)>(f: set<T> -> set<T>, u: set<T>)
  {
    forall s :: s <= u ==> f(s) <= u
  }

  ghost predicate Monotone<T(!new)>(f: set<T> -> set<T>)
  {
    forall a, b :: a <= b ==> f(a) <= f(b)
  }

  lemma DiffShrinks<T>(u: set<T>, s: set<T>, s': set<T>)
    requires s <= s' <= u && s != s'
    ensures |u - s'| < |u - s|
  {
    var x :| x in s' && x !in s;
    assert u - s' <= (u - s) - {x};
    SubsetCard(u - s', (u - s) - {x});
  }

  /** The rounds from `s`: stop when a round adds nothing. */
  function Lfp<T(!new)>(f: set<T> -> set<T>, u: set<T>, s: set<T>): (r: set<T>)
    requires Within(f, u) && s <= u
    ensures s <= r <= u
    ensures f(r) <= r
    decreases |u - s|
  {
    var s' := s + f(s);
    if s' == s then s
    else
      DiffShrinks(u, s, s');
      Lfp(f, u, s')
  }

  /** The rounds never overshoot a set closed under a monotone `f` that
      contains the start: the result is the least such set. */
  lemma {:induction false} LfpLeast<T(!new)>(f: set<T> -> set<T>, u: set<T>, s: set<T>, m: set<T>)
    requires Within(f, u) && s <= u && Monotone(f)
    requires s <= m && f(m) <= m
    ensures Lfp(f, u, s) <= m
    decreases |u - s|
  {
    var s' := s + f(s);
    if s' != s {
      assert f(s) <= f(m);
      DiffShrinks(u, s, s');
      LfpLeast(f, u, s', m);
    }
  }
}

=== FILE: generate.dfy ===
/** The word generator over pattern trees. The source draws every choice
    from a random number generator; here the choices are an explicit list
    `picks` that the generator consumes from the front: an alternation
    takes the index of the option it follows, a repetition takes the number
    of copies it writes. Running out of picks, or a pick outside the range
    the random draw would respect, yields `None`.

    The generator is compared with `Lang`, the set of words a tree
    describes: every generated word is in the language, and every word of
    the language is generated by some list of picks. */
module RegexWords {
  import opened Wrappers
  import opened Regex
  import opened RegexSamples

  /** `t` is what remains of `u` after some picks were taken from the front. */
  predicate Suffix(t: seq<nat>, u: seq<nat>) {
    |t| <= |u| && t == u[|u| - |t|..]
  }

  /** Every word of `a` followed by every word of `b`. */
  function Cat(a: set<string>, b: set<string>): (r: set<string>)
  {
    set x, y | x in a && y in b :: x + y
  }

  /** The words a tree describes. */
  function Lang(n: Node): (r: set<string>)
    decreases n, 2
  {
    match n
    case Literal(v) => {v}
    case Sequence(_) => LangItems(n, 0)
    case Alternation(cs) => set i, w | 0 <= i < |cs| && w in Lang(cs[i]) :: w
    case Repetition(_, lo, hi) => set k, w | lo <= k <= hi && w in LangCopies(n, k) :: w
  }

  /** The words of the items `i..` of a sequence, written one after the other. */
  function LangItems(n: Node, i: nat): (r: set<string>)
    requires n.Sequence? && i <= |n.children|
    decreases n, 1, |n.children| - i
  {
    if i == |n.children| then {""} else Cat(Lang(n.children[i]), LangItems(n, i + 1))
  }

  /** The words made of exactly `k` words of the repeated child. */
  function LangCopies(n: Node, k: nat): (r: set<string>)
    requires n.Repetition?
    decreases n, 1, k
  {
    if k == 0 then {""} else Cat(Lang(n.child), LangCopies(n, k - 1))
  }

  /** One word of the tree and the picks left over. */
  function Generate(n: Node, picks: seq<nat>): (r: Option<(string, seq<nat>)>)
    ensures r.Some? ==> Suffix(r.value.1, picks)
    ensures n.Literal? ==> r == Some((n.value, picks))
    decreases n, 2
  {
    match n
    case Literal(v) => Some((v, picks))
    case Sequence(_) => GenerateItems(n, 0, picks)
    case Alternation(cs) =>
      if |picks| == 0 || picks[0] >= |cs| then None
      else Generate(cs[picks[0]], picks[1..])
    case Repetition(_, lo, hi) =>
      if |picks| == 0 || picks[0] < lo || hi < picks[0] then None
      else GenerateCopies(n, picks[0], picks[1..])
  }

  /** The words of the items `i..` of a sequence, concatenated in order. */
  function GenerateItems(n: Node, i: nat, picks: seq<nat>): (r: Option<(string, seq<nat>)>)
    requires n.Sequence? && i <= |n.children|
    ensures r.Some? ==> Suffix(r.value.1, picks)
    ensures i == |n.children| ==> r == Some(("", picks))
    decreases n, 1, |n.children| - i
  {
    if i == |n.children| then Some(("", picks))
    else
      var first :- Generate(n.children[i], picks);
      var rest :- GenerateItems(n, i + 1, first.1);
      Some((first.0 + rest.0, rest.1))
  }

  /** `k` words of the repeated child, concatenated. */
  function GenerateCopies(n: Node, k: nat, picks: seq<nat>): (r: Option<(string, seq<nat>)>)
    requires n.Repetition?
    ensures r.Some? ==> Suffix(r.value.1, picks)
    ensures k == 0 ==> r == Some(("", picks))
    decreases n, 1, k
  {
    if k == 0 then Some(("", picks))
    else
      var first :- Generate(n.child, picks);
      var rest :- GenerateCopies(n, k - 1, first.1);
      Some((first.0 + rest.0, rest.1))
  }

  /** Every generated word belongs to the language of the tree. */
  lemma {:induction false} GenerateSound(n: Node, picks: seq<nat>)
    ensures Generate(n, picks).Some? ==> Generate(n, picks).value.0 in Lang(n)
    decreases n, 2
  {
    match n
    case Literal(_) =>
    case Sequence(_) =>
      ItemsSound(n, 0, picks);
    case Alternation(cs) =>
      if |picks| > 0 && picks[0] < |cs| {
        GenerateSound(cs[picks[0]], picks[1..]);
      }
    case Repetition(_, lo, hi) =>
      if |picks| > 0 && lo <= picks[0] <= hi {
        CopiesSound(n, picks[0], picks[1..]);
      }
  }

  lemma {:induction false} ItemsSound(n: Node, i: nat, picks: seq<nat>)
    requires n.Sequence? && i <= |n.children|
    ensures GenerateItems(n, i, picks).Some? ==> GenerateItems(n, i, picks).value.0 in LangItems(n, i)
    decreases n, 1, |n.children| - i
  {
    if i < |n.children| {
      var first := Generate(n.children[i], picks);
      if first.Some? {
        GenerateSound(n.children[i], picks);
        ItemsSound(n, i + 1, first.value.1);
      }
    }
  }

  lemma {:induction false} CopiesSound(n: Node, k: nat, picks: seq<nat>)
    requires n.Repetition?
    ensures GenerateCopies(n, k, picks).Some? ==> GenerateCopies(n, k, picks).value.0 in LangCopies(n, k)
    decreases n, 1, k
  {
    if k > 0 {
      var first := Generate(n.child, picks);
      if first.Some? {
        GenerateSound(n.child, picks);
        CopiesSound(n, k - 1, first.value.1);
      }
    }
  }

  lemma AppendAssoc(a: seq<nat>, b: seq<nat>, c: seq<nat>)
    ensures (a + b) + c == a + (b + c)
  {
  }

  /** A word of `Cat(a, b)` splits into a word of `a` and a word of `b`. */
  lemma CatSplit(a: set<string>, b: set<string>, w: string) returns (x: string, y: string)
    requires w in Cat(a, b)
    ensures x in a && y in b && w == x + y
  {
    x, y :| x in a && y in b && w == x + y;
  }

  lemma ItemsSplit(n: Node, i: nat, w: string) returns (x: string, y: string)
    requires n.Sequence? && i < |n.children| && w in LangItems(n, i)
    ensures x in Lang(n.children[i]) && y in LangItems(n, i + 1) && w == x + y
  {
    x, y := CatSplit(Lang(n.children[i]), LangItems(n, i + 1), w);
  }

  lemma CopiesSplit(n: Node, k: nat, w: string) returns (x: string, y: string)
    requires n.Repetition? && 0 < k && w in LangCopies(n, k)
    ensures x in Lang(n.child) && y in LangCopies(n, k - 1) && w == x + y
  {
    x, y := CatSplit(Lang(n.child), LangCopies(n, k - 1), w);
  }

  lemma OptionOf(n: Node, w: string) returns (i: nat)
    requires n.Alternation? && w in Lang(n)
    ensures i < |n.children| && w in Lang(n.children[i])
  {
    i :| 0 <= i < |n.children| && w in Lang(n.children[i]);
  }

  lemma CopiesOf(n: Node, w: string) returns (k: nat)
    requires n.Repetition? && w in Lang(n)
    ensures n.min <= k <= n.max && w in LangCopies(n, k)
  {
    k :| n.min <= k <= n.max && w in LangCopies(n, k);
  }

  // One step of each generating function, as the completeness proof uses it.

  lemma ChoiceStep(n: Node, i: nat, tail: seq<nat>)
    requires (n.Alternation? && i < |n.children|) || (n.Repetition? && n.min <= i <= n.max)
    ensures Generate(n, [i] + tail) ==
      if n.Alternation? then Generate(n.children[i], tail) else GenerateCopies(n, i, tail)
  {
    assert ([i] + tail)[0] == i && ([i] + tail)[1..] == tail;
  }

  lemma ItemsStep(n: Node, i: nat, picks: seq<nat>, x: string, mid: seq<nat>, y: string, rest: seq<nat>)
    requires n.Sequence? && i < |n.children|
    requires Generate(n.children[i], picks) == Some((x, mid))
    requires GenerateItems(n, i + 1, mid) == Some((y, rest))
    ensures GenerateItems(n, i, picks) == Some((x + y, rest))
  {
  }

  lemma CopiesStep(n: Node, k: nat, picks: seq<nat>, x: string, mid: seq<nat>, y: string, rest: seq<nat>)
    requires n.Repetition? && 0 < k
    requires Generate(n.child, picks) == Some((x, mid))
    requires GenerateCopies(n, k - 1, mid) == Some((y, rest))
    ensures GenerateCopies(n, k, picks) == Some((x + y, rest))
  {
  }

  /** Every word of the language is generated by some picks, whatever
      picks follow them. */
  lemma {:induction false} GenerateComplete(n: Node, w: string, rest: seq<nat>) returns (picks: seq<nat>)
    requires w in Lang(n)
    ensures Generate(n, picks + rest) == Some((w, rest))
    decreases n, 2
  {
    match n
    case Literal(_) =>
      picks := [];
      assert picks + rest == rest;
    case Sequence(_) =>
      picks := ItemsComplete(n, 0, w, rest);
    case Alternation(cs) =>
      var i := OptionOf(n, w);
      var tail := GenerateComplete(cs[i], w, rest);
      picks := [i] + tail;
      ChoiceStep(n, i, tail + rest);
      AppendAssoc([i], tail, rest);
    case Repetition(_, lo, hi) =>
      var k := CopiesOf(n, w);
      var tail := CopiesComplete(n, k, w, rest);
      picks := [k] + tail;
      ChoiceStep(n, k, tail + rest);
      AppendAssoc([k], tail, rest);
  }

  lemma {:induction false} ItemsComplete(n: Node, i: nat, w: string, rest: seq<nat>) returns (picks: seq<nat>)
    requires n.Sequence? && i <= |n.children| && w in LangItems(n, i)
    ensures GenerateItems(n, i, picks + rest) == Some((w, rest))
    decreases n, 1, |n.children| - i
  {
    if i == |n.children| {
      picks := [];
      assert picks + rest == rest;
    } else {
      var x, y := ItemsSplit(n, i, w);
      var later := ItemsComplete(n, i + 1, y, rest);
      var first := GenerateComplete(n.children[i], x, later + rest);
      picks := first + later;
      AppendAssoc(first, later, rest);
      assert Generate(n.children[i], picks + rest) == Some((x, later + rest));
      ItemsStep(n, i, picks + rest, x, later + rest, y, rest);
    }
  }

  lemma {:induction false} CopiesComplete(n: Node, k: nat, w: string, rest: seq<nat>) returns (picks: seq<nat>)
    requires n.Repetition? && w in LangCopies(n, k)
    ensures GenerateCopies(n, k, picks + rest) == Some((w, rest))
    decreases n, 1, k
  {
    if k == 0 {
      picks := [];
      assert picks + rest == rest;
    } else {
      var x, y := CopiesSplit(n, k, w);
      var j: nat := k - 1;
      var later := CopiesComplete(n, j, y, rest);
      var first := GenerateComplete(n.child, x, later + rest);
      picks := first + later;
      AppendAssoc(first, later, rest);
      assert Generate(n.child, picks + rest) == Some((x, later + rest));
      CopiesStep(n, k, picks + rest, x, later + rest, y, rest);
    }
  }

  lemma CatJoin(a: set<string>, b: set<string>, x: string, y: string)
    requires x in a && y in b
    ensures x + y in Cat(a, b)
  {
  }

  /** Every tree the parser can build describes at least one word: its
      alternations have an option and its repetition bounds are ordered. */
  lemma {:induction false} PatternWord(n: Node) returns (w: string)
    requires IsPattern(n)
    ensures w in Lang(n)
    decreases n, 2
  {
    match n
    case Literal(v) =>
      w := v;
    case Sequence(_) =>
      assert !IsItem(n);
      w := ItemsWord(n, 0);
    case Alternation(cs) =>
      assert IsAtom(n);
      w := PatternWord(cs[0]);
    case Repetition(c, lo, hi) =>
      assert IsItem(n) && !IsAtom(n);
      assert lo <= hi;
      w := CopiesWord(n, lo);
  }

  lemma {:induction false} ItemsWord(n: Node, i: nat) returns (w: string)
    requires n.Sequence? && i <= |n.children|
    requires forall j :: 0 <= j < |n.children| ==> IsItem(n.children[j])
    ensures w in LangItems(n, i)
    decreases n, 1, |n.children| - i
  {
    if i == |n.children| {
      w := "";
    } else {
      var x := PatternWord(n.children[i]);
      var y := ItemsWord(n, i + 1);
      CatJoin(Lang(n.children[i]), LangItems(n, i + 1), x, y);
      w := x + y;
    }
  }

  lemma {:induction false} CopiesWord(n: Node, k: nat) returns (w: string)
    requires n.Repetition? && IsAtom(n.child)
    ensures w in LangCopies(n, k)
    decreases n, 1, k
  {
    if k == 0 {
      w := "";
    } else {
      var x := PatternWord(n.child);
      var y := CopiesWord(n, k - 1);
      CatJoin(Lang(n.child), LangCopies(n, k - 1), x, y);
      w := x + y;
    }
  }

  /** The generator never gets stuck on a parsed tree: some picks make it
      produce a word and use all of them. */
  lemma GenerateTotal(n: Node) returns (picks: seq<nat>, w: string)
    requires IsPattern(n)
    ensures Generate(n, picks) == Some((w, []))
  {
    w := PatternWord(n);
    picks := GenerateComplete(n, w, []);
    assert picks + [] == picks;
  }

  /** The group of the first demonstration pattern, written twice:
      first as `Q2`, then as `P`. */
  lemma SampleOneGroupWord()
    ensures Generate(SampleOne().children[1], [2, 1, 0, 1]) == Some(("Q2P", [1]))
  {
    var group := SampleOne().children[1];
    var alt := group.child;
    var q := alt.children[1];
    assert [2, 1, 0, 1][1..] == [1, 0, 1] && [1, 0, 1][1..] == [0, 1] && [0, 1][1..] == [1];
    assert "2" + "" == "2" && "Q" + "2" == "Q2" && "P" + "" == "P" && "Q2" + "P" == "Q2P";
    ItemsStep(q, 1, [0, 1], "2", [0, 1], "", [0, 1]);
    ItemsStep(q, 0, [0, 1], "Q", [0, 1], "2", [0, 1]);
    assert Generate(alt, [1, 0, 1]) == Some(("Q2", [0, 1]));
    assert Generate(alt, [0, 1]) == Some(("P", [1]));
    CopiesStep(group, 1, [0, 1], "P", [1], "", [1]);
    CopiesStep(group, 2, [1, 0, 1], "Q2", [0, 1], "P", [1]);
  }

  /** One run of the demonstration program on its first pattern: two
      copies of the group, choosing `Q2` then `P`, and then `4`. */
  lemma SampleOneWord()
    ensures Generate(SampleOne(), [2, 1, 0, 1]) == Some(("OQ2P24", []))
  {
    var n := SampleOne();
    SampleOneGroupWord();
    assert "4" + "" == "4" && "2" + "4" == "24" && "Q2P" + "24" == "Q2P24" && "O" + "Q2P24" == "OQ2P24";
    assert [1][1..] == [];
    assert Generate(n.children[3], [1]) == Some(("4", []));
    ItemsStep(n, 3, [1], "4", [], "", []);
    ItemsStep(n, 2, [1], "2", [1], "4", []);
    ItemsStep(n, 1, [2, 1, 0, 1], "Q2P", [1], "24", []);
    ItemsStep(n, 0, [2, 1, 0, 1], "O", [2, 1, 0, 1], "Q2P24", []);
  }
}

=== FILE: grammar.dfy ===
/** The `Grammar` class shared by the automaton labs: a set of
    non-terminals, a set of terminals, a production map from a symbol to its
    bodies, and a start symbol. Bodies are plain strings read one character
    at a time; the classifier alone splits them at spaces. */
module Grammars {
  import opened Wrappers
  import opened Text

  datatype Grammar = Grammar(
    nonTerminals: set<string>,
    terminals: set<string>,
    productions: map<string, seq<string>>,
    start: string)

  /** `Grammar::NonTerminal`: an upper-case ASCII letter. */
  predicate NonTerminalChar(c: char) { 'A' <= c <= 'Z' }

  // ---------------------------------------------------------------------
  // Random generation. The source draws each body index from a
  // `std::mt19937`; the model takes the draws as a sequence `picks`, and
  // a draw `p` selects body `p % |bodies|`. Running out of draws means the
  // derivation has no outcome under these draws (the source may recurse
  // for ever); so does an empty body list, on which the source's uniform
  // distribution is undefined.

  /** Outcome of a derivation: the text produced and the unused draws. */
  datatype Derived = Derived(text: string, rest: seq<nat>)

  /** `Grammar::GenerateString(symbol)`: a terminal stands for itself; a
      symbol with productions expands one body chosen by the next draw;
      any other symbol stands for itself. */
  function GenerateString(g: Grammar, symbol: string, picks: seq<nat>): (r: Option<Derived>)
    ensures symbol in g.terminals ==> r == Some(Derived(symbol, picks))
    ensures symbol !in g.terminals && symbol !in g.productions ==> r == Some(Derived(symbol, picks))
    ensures symbol !in g.terminals && symbol in g.productions && |picks| == 0 ==> r.None?
    ensures r.Some? ==> |r.value.rest| <= |picks|
    decreases |picks|, 0
  {
    if symbol in g.terminals then Some(Derived(symbol, picks))
    else if symbol in g.productions then
      var bodies := g.productions[symbol];
      if |picks| == 0 || |bodies| == 0 then None
      else GenerateBody(g, bodies[picks[0] % |bodies|], 0, picks[1..])
    else Some(Derived(symbol, picks))
  }

  /** The loop of `GenerateString` over the characters `body[i..]` of a
      chosen body: a terminal character is copied, a non-terminal one is
      expanded, any other character is dropped. */
  function GenerateBody(g: Grammar, body: string, i: nat, picks: seq<nat>): (r: Option<Derived>)
    requires i <= |body|
    ensures r.Some? ==> |r.value.rest| <= |picks|
    decreases |picks|, |body| - i + 1
  {
    if i == |body| then Some(Derived("", picks))
    else
      var c := [body[i]];
      if c in g.terminals then
        var tail :- GenerateBody(g, body, i + 1, picks);
        Some(Derived(c + tail.text, tail.rest))
      else if c in g.nonTerminals then
        var head :- GenerateString(g, c, picks);
        var tail :- GenerateBody(g, body, i + 1, head.rest);
        Some(Derived(head.text + tail.text, tail.rest))
      else GenerateBody(g, body, i + 1, picks)
  }

  /** A one-character terminal body yields that character. */
  lemma GenerateTerminal(g: Grammar, c: char, picks: seq<nat>)
    requires [c] in g.terminals
    ensures GenerateBody(g, [c], 0, picks) == Some(Derived([c], picks))
  {
    var b := [c];
    assert [b[0]] == b && b + "" == b;
    assert GenerateBody(g, b, 1, picks) == Some(Derived("", picks));
  }

  /** A body of a terminal character followed by a non-terminal one yields
      the character followed by whatever the non-terminal derives. */
  lemma GenerateTerminalThen(g: Grammar, c: char, d: char, picks: seq<nat>)
    requires [c] in g.terminals && [d] !in g.terminals && [d] in g.nonTerminals
    ensures var head := GenerateString(g, [d], picks);
      GenerateBody(g, [c, d], 0, picks) ==
        if head.None? then None else Some(Derived([c] + head.value.text, head.value.rest))
  {
    var b := [c, d];
    assert [b[0]] == [c] && [b[1]] == [d];
    var head := GenerateString(g, [d], picks);
    if head.Some? {
      var text, rest := head.value.text, head.value.rest;
      assert GenerateBody(g, b, 2, rest) == Some(Derived("", rest));
      assert text + "" == text;
      assert GenerateBody(g, b, 1, picks) == Some(Derived(text, rest));
    } else {
      assert GenerateBody(g, b, 1, picks).None?;
    }
  }

  /** Expanding a symbol with productions runs the body its first draw picks. */
  lemma GenerateChoice(g: Grammar, symbol: string, picks: seq<nat>)
    requires symbol !in g.terminals && symbol in g.productions
    requires |picks| > 0 && |g.productions[symbol]| > 0
    ensures var bodies := g.productions[symbol];
      GenerateString(g, symbol, picks) == GenerateBody(g, bodies[picks[0] % |bodies|], 0, picks[1..])
  {
  }

  // ---------------------------------------------------------------------
  // Classification.

  /** The symbols of a body: the maximal runs of characters other than a
      space, in order. `cur` is the run read so far. */
  function Words(s: string, cur: string): (r: seq<string>)
    ensures forall k :: 0 <= k < |r| ==> |r[k]| > 0
    decreases |s|
  {
    if |s| == 0 then (if cur == "" then [] else [cur])
    else if s[0] == ' ' then (if cur == "" then [] else [cur]) + Words(s[1..], "")
    else Words(s[1..], cur + [s[0]])
  }

  function Symbols(body: string): seq<string>
  {
    Words(body, "")
  }

  /** A body without spaces is one symbol. */
  lemma {:induction false} WordsWithoutSpace(s: string, cur: string)
    requires ' ' !in s
    ensures Words(s, cur) == if cur + s == "" then [] else [cur + s]
    decreases |s|
  {
    if |s| > 0 {
      assert s[0] != ' ' by { assert s[0] in s; }
      assert ' ' !in s[1..] by {
        forall k | 0 <= k < |s[1..]| ensures s[1..][k] != ' ' { assert s[1..][k] == s[k + 1]; }
      }
      WordsWithoutSpace(s[1..], cur + [s[0]]);
      assert (cur + [s[0]]) + s[1..] == cur + s;
      assert Words(s, cur) == Words(s[1..], cur + [s[0]]);
    } else {
      assert cur + s == cur;
    }
  }

  /** A symbol run never holds a space, and every run of the body is one. */
  lemma {:induction false} WordsHaveNoSpace(s: string, cur: string)
    requires ' ' !in cur
    ensures forall k :: 0 <= k < |Words(s, cur)| ==> ' ' !in Words(s, cur)[k]
    decreases |s|
  {
    if |s| > 0 {
      if s[0] == ' ' {
        WordsHaveNoSpace(s[1..], "");
      } else {
        assert ' ' !in cur + [s[0]];
        WordsHaveNoSpace(s[1..], cur + [s[0]]);
      }
    }
  }

  /** The regularity test on one body: at most two symbols, the second one
      starting with a non-terminal. */
  predicate RegularBody(body: string)
  {
    var w := Symbols(body);
    |w| <= 2 && (|w| == 2 ==> NonTerminalChar(w[1][0]))
  }

  /** The context-freeness test on a left-hand side: exactly one character,
      a non-terminal. An empty left-hand side fails it, since `left[0]` of an
      empty `std::string` is the terminating null character. */
  predicate ContextFreeHead(head: string)
  {
    |head| == 1 && NonTerminalChar(head[0])
  }

  /** The context-sensitivity test: the body is at least as long as the
      left-hand side, both lengths counted in bytes of the UTF-8 text as
      `std::string::length` counts them, spaces included. */
  predicate NonContracting(head: string, body: string)
  {
    Utf8Length(head) <= Utf8Length(body)
  }

  /** Byte lengths, not character counts: `AB -> é` passes the test,
      although the body has fewer characters than the left-hand side. */
  lemma NonContractingCountsBytes()
    ensures NonContracting("AB", "\U{E9}") && |"\U{E9}"| < |"AB"|
  {
    assert Utf8Length("\U{E9}") == 2 by {
      assert "\U{E9}"[1..] == "";
    }
    assert Utf8Length("AB") == 2 by {
      assert "AB"[1..] == "B" && "B"[1..] == "";
    }
  }

  /** The tests over all bodies of one left-hand side; empty bodies are
      skipped. */
  predicate AllRegular(rules: seq<string>)
  {
    forall k :: 0 <= k < |rules| && rules[k] != "" ==> RegularBody(rules[k])
  }

  predicate AllContextFree(head: string, rules: seq<string>)
  {
    forall k :: 0 <= k < |rules| && rules[k] != "" ==> ContextFreeHead(head)
  }

  predicate AllNonContracting(head: string, rules: seq<string>)
  {
    forall k :: 0 <= k < |rules| && rules[k] != "" ==> NonContracting(head, rules[k])
  }

  /** The Chomsky type the classifier reports, from the three tests. */
  ghost function ChomskyType(g: Grammar): (t: nat)
    ensures t <= 3
  {
    if forall h :: h in g.productions ==> AllRegular(g.productions[h]) then 3
    else if forall h :: h in g.productions ==> AllContextFree(h, g.productions[h]) then 2
    else if forall h :: h in g.productions ==> AllNonContracting(h, g.productions[h]) then 1
    else 0
  }

  /** `g2` has every production of `g`, and possibly more. */
  predicate Extends(g: Grammar, g2: Grammar)
  {
    forall h :: h in g.productions ==>
      h in g2.productions && forall b :: b in g.productions[h] ==> b in g2.productions[h]
  }

  /** A body list that passes a test passes it for each of its bodies, so
      any list drawn from its bodies passes it too. */
  lemma SubRules(head: string, rules: seq<string>, more: seq<string>)
    requires forall b :: b in rules ==> b in more
    ensures AllRegular(more) ==> AllRegular(rules)
    ensures AllContextFree(head, more) ==> AllContextFree(head, rules)
    ensures AllNonContracting(head, more) ==> AllNonContracting(head, rules)
  {
    forall k | 0 <= k < |rules| && rules[k] != ""
      ensures exists m :: 0 <= m < |more| && more[m] == rules[k]
    {
      assert rules[k] in more;
    }
  }

  /** Adding productions never raises the reported type: each test only
      ever fails on a body, so the tests `g2` passes `g` passes too. */
  lemma MonotoneType(g: Grammar, g2: Grammar)
    requires Extends(g, g2)
    ensures ChomskyType(g2) <= ChomskyType(g)
  {
    forall h | h in g.productions
      ensures AllRegular(g2.productions[h]) ==> AllRegular(g.productions[h])
      ensures AllContextFree(h, g2.productions[h]) ==> AllContextFree(h, g.productions[h])
      ensures AllNonContracting(h, g2.productions[h]) ==> AllNonContracting(h, g.productions[h])
    {
      SubRules(h, g.productions[h], g2.productions[h]);
    }
  }

  function TypeName(t: nat): string
    requires t <= 3
  {
    if t == 3 then "Type 3: Regular Grammar"
    else if t == 2 then "Type 2: Context-Free Grammar"
    else if t == 1 then "Type 1: Context-Sensitive Grammar"
    else "Type 0: Unrestricted Grammar"
  }

  /** The split loop of `ClassifyGrammar`. */
  method SplitBody(body: string) returns (symbols: seq<string>)
    ensures symbols == Symbols(body)
  {
    symbols := [];
    var cur := "";
    var i := 0;
    while i < |body|
      invariant 0 <= i <= |body|
      invariant symbols + Words(body[i..], cur) == Symbols(body)
    {
      assert body[i..][1..] == body[i + 1..];
      if body[i] == ' ' {
        if cur != "" {
          symbols := symbols + [cur];
          cur := "";
        }
      } else {
        cur := cur + [body[i]];
      }
      i := i + 1;
    }
    if cur != "" {
      symbols := symbols + [cur];
    }
  }

  /** The three tests over the bodies of one left-hand side. */
  method ScanRules(left: string, rules: seq<string>) returns (regular: bool, contextFree: bool, contextSensitive: bool)
    ensures regular <==> AllRegular(rules)
    ensures contextFree <==> AllContextFree(left, rules)
    ensures contextSensitive <==> AllNonContracting(left, rules)
  {
    regular, contextFree, contextSensitive := true, true, true;
    var j := 0;
    while j < |rules|
      invariant 0 <= j <= |rules|
      invariant regular <==> AllRegular(rules[..j])
      invariant contextFree <==> AllContextFree(left, rules[..j])
      invariant contextSensitive <==> AllNonContracting(left, rules[..j])
    {
      var right := rules[j];
      if right != "" {
        var rhsSymbols := SplitBody(right);
        if |rhsSymbols| > 2 || (|rhsSymbols| == 2 && !NonTerminalChar(rhsSymbols[1][0])) {
          regular := false;
        }
        if |left| > 1 || |left| == 0 || !NonTerminalChar(left[0]) {
          contextFree := false;
        }
        if Utf8Length(left) > Utf8Length(right) {
          contextSensitive := false;
        }
      }
      assert rules[..j + 1][j] == right;
      j := j + 1;
    }
    assert rules[..j] == rules;
  }

  /** `Grammar::ClassifyGrammar`. The production map is a hash map, so the
      heads are visited in an unspecified order; the three flags only ever
      go from true to false, so the verdict does not depend on it. */
  method ClassifyGrammar(g: Grammar) returns (r: string)
    ensures r == TypeName(ChomskyType(g))
  {
    var isRegular, isContextFree, isContextSensitive := true, true, true;
    var todo := g.productions.Keys;
    while todo != {}
      invariant todo <= g.productions.Keys
      invariant isRegular <==> forall h :: h in g.productions && h !in todo ==> AllRegular(g.productions[h])
      invariant isContextFree <==> forall h :: h in g.productions && h !in todo ==> AllContextFree(h, g.productions[h])
      invariant isContextSensitive <==> forall h :: h in g.productions && h !in todo ==> AllNonContracting(h, g.productions[h])
      decreases |todo|
    {
      var left :| left in todo;
      var reg, cf, cs := ScanRules(left, g.productions[left]);
      isRegular := isRegular && reg;
      isContextFree := isContextFree && cf;
      isContextSensitive := isContextSensitive && cs;
      todo := todo - {left};
    }
    if isRegular {
      r := TypeName(3);
    } else if isContextFree {
      r := TypeName(2);
    } else if isContextSensitive {
      r := TypeName(1);
    } else {
      r := TypeName(0);
    }
  }
}

=== FILE: json.dfy ===
// The JSON dump of a ChronoParser syntax tree: every node becomes an
// object whose "type" names the node kind, with one key per field.

module AstJson {
  import opened Wrappers
  import opened ChronoParser

  /** A JSON value. An object maps each key to one value, as the object
      type of the JSON library does: keys are unique and a later assignment
      to a key replaces the earlier one. */
  datatype Json =
    | Null
    | Num(n: int)
    | Str(s: string)
    | Arr(items: seq<Json>)
    | Obj(fields: map<string, Json>)

  // ---------------------------------------------------------------------
  // The dump

  /** `paramsJson[p.first] = p.second` for each parameter in turn. */
  function IntFields(ps: seq<(string, int)>): (m: map<string, Json>)
    ensures forall k :: k in m ==> m[k].Num?
  {
    if |ps| == 0 then map[]
    else IntFields(ps[..|ps| - 1])[ps[|ps| - 1].0 := Num(ps[|ps| - 1].1)]
  }

  /** `argsJson[arg.first] = arg.second` for each argument in turn. */
  function StrFields(args: seq<(string, string)>): (m: map<string, Json>)
    ensures forall k :: k in m ==> m[k].Str?
  {
    if |args| == 0 then map[]
    else StrFields(args[..|args| - 1])[args[|args| - 1].0 := Str(args[|args| - 1].1)]
  }

  /** The forecast parameters: a JSON value that starts out null and
      becomes an object on the first assignment. */
  function ParamsJson(ps: seq<(string, int)>): (j: Json)
  {
    if |ps| == 0 then Null else Obj(IntFields(ps))
  }

  /** `astToJson`. */
  function AstToJson(n: Node): (j: Json)
    decreases n, 1
  {
    match n
    case Program(ss) => Obj(map["type" := Str("Program"), "statements" := Arr(AllToJson(ss))])
    case LoadStmt(id, path, _, _) => Obj(map["type" := Str("Load"), "id" := Str(id), "path" := Str(path)])
    case SetStmt(a, u, _, _) => Obj(map["type" := Str("Set"), "amount" := Num(a), "unit" := Str(u)])
    case TransformStmt(table, column, a, u, _, _) =>
      Obj(map["type" := Str("Transform"), "table" := Str(table), "column" := Str(column),
              "interval" := Obj(map["amount" := Num(a), "unit" := Str(u)])])
    case ForecastStmt(table, column, model, ps, _, _) =>
      Obj(map["type" := Str("Forecast"), "table" := Str(table), "column" := Str(column),
              "model" := Str(model), "params" := ParamsJson(ps)])
    case StreamStmt(id, path, _, _) => Obj(map["type" := Str("Stream"), "id" := Str(id), "path" := Str(path)])
    case SelectStmt(table, column, op, d, _, _) =>
      var base := map["type" := Str("Select"), "table" := Str(table), "column" := Str(column)];
      if op.Some? && d.Some? then Obj(base["condition" := Obj(map["op" := Str(op.value), "date" := Str(d.value)])])
      else Obj(base)
    case PlotStmt(fn, args, _, _) =>
      Obj(map["type" := Str("Plot"), "function" := Str(fn), "args" := Obj(StrFields(args))])
    case ExportStmt(table, column, target, _, _) =>
      var base := map["type" := Str("Export"), "table" := Str(table), "to" := Str(target)];
      if column.Some? then Obj(base["column" := Str(column.value)]) else Obj(base)
    case LoopStmt(v, f, t, body, _, _) =>
      Obj(map["type" := Str("Loop"), "var" := Str(v), "from" := Num(f), "to" := Num(t), "body" := Arr(AllToJson(body))])
    case CleanStmt(action, target, column, w, _, _) =>
      if action == RemoveAction then
        Obj(map["type" := Str("Clean"), "action" := Str("remove"), "target" := Str(target), "column" := Str(column)])
      else
        Obj(map["type" := Str("Clean"), "action" := Str("replace"), "target" := Str(target),
                "column" := Str(column), "with" := Str(w)])
    case _ => Obj(map["type" := Str("Unknown")])
  }

  /** The statements of a program or a loop body, pushed one by one. */
  function AllToJson(ns: seq<Node>): (r: seq<Json>)
    ensures |r| == |ns|
    ensures forall i :: 0 <= i < |ns| ==> r[i] == AstToJson(ns[i])
    decreases ns, 0
  {
    if |ns| == 0 then [] else [AstToJson(ns[0])] + AllToJson(ns[1..])
  }

  // ---------------------------------------------------------------------
  // Reference definitions

  /** The "type" string of each node kind. */
  function TypeName(n: Node): string
  {
    match n
    case Program(_) => "Program"
    case LoadStmt(_, _, _, _) => "Load"
    case SetStmt(_, _, _, _) => "Set"
    case TransformStmt(_, _, _, _, _, _) => "Transform"
    case ForecastStmt(_, _, _, _, _, _) => "Forecast"
    case StreamStmt(_, _, _, _) => "Stream"
    case SelectStmt(_, _, _, _, _, _) => "Select"
    case PlotStmt(_, _, _, _) => "Plot"
    case ExportStmt(_, _, _, _, _) => "Export"
    case LoopStmt(_, _, _, _, _, _) => "Loop"
    case CleanStmt(_, _, _, _, _, _) => "Clean"
    case _ => "Unknown"
  }

  /** Key `k` is assigned for the last time at index `i`. */
  predicate LastAt<V>(ps: seq<(string, V)>, k: string, i: int)
  {
    0 <= i < |ps| && ps[i].0 == k && forall j :: i < j < |ps| ==> ps[j].0 != k
  }

  // ---------------------------------------------------------------------
  // Properties

  /** Every node becomes an object whose "type" names its kind. */
  lemma TypeTagged(n: Node)
    ensures AstToJson(n).Obj? && "type" in AstToJson(n).fields
    ensures AstToJson(n).fields["type"] == Str(TypeName(n))
  {
  }

  /** The parameter object has exactly the keys of the parameter list,
      and each holds the value of the last pair with that key. */
  lemma {:induction false} IntFieldsLastWins(ps: seq<(string, int)>)
    ensures forall k :: k in IntFields(ps) <==> exists i :: 0 <= i < |ps| && ps[i].0 == k
    ensures forall k, i :: LastAt(ps, k, i) ==> k in IntFields(ps) && IntFields(ps)[k] == Num(ps[i].1)
  {
    if |ps| > 0 {
      var init := ps[..|ps| - 1];
      IntFieldsLastWins(init);
      forall k, i | LastAt(ps, k, i)
        ensures k in IntFields(ps) && IntFields(ps)[k] == Num(ps[i].1)
      {
        if i < |ps| - 1 {
          assert LastAt(init, k, i);
        }
      }
      forall k | k in IntFields(ps)
        ensures exists i :: 0 <= i < |ps| && ps[i].0 == k
      {
        if k != ps[|ps| - 1].0 {
          assert k in IntFields(init);
          var i :| 0 <= i < |init| && init[i].0 == k;
          assert ps[i].0 == k;
        }
      }
      forall k | exists i :: 0 <= i < |ps| && ps[i].0 == k
        ensures k in IntFields(ps)
      {
        var i :| 0 <= i < |ps| && ps[i].0 == k;
        if i < |ps| - 1 {
          assert init[i].0 == k;
        }
      }
    }
  }

  /** The same for the plot arguments. */
  lemma {:induction false} StrFieldsLastWins(args: seq<(string, string)>)
    ensures forall k :: k in StrFields(args) <==> exists i :: 0 <= i < |args| && args[i].0 == k
    ensures forall k, i :: LastAt(args, k, i) ==> k in StrFields(args) && StrFields(args)[k] == Str(args[i].1)
  {
    if |args| > 0 {
      var init := args[..|args| - 1];
      StrFieldsLastWins(init);
      forall k, i | LastAt(args, k, i)
        ensures k in StrFields(args) && StrFields(args)[k] == Str(args[i].1)
      {
        if i < |args| - 1 {
          assert LastAt(init, k, i);
        }
      }
      forall k | k in StrFields(args)
        ensures exists i :: 0 <= i < |args| && args[i].0 == k
      {
        if k != args[|args| - 1].0 {
          assert k in StrFields(init);
          var i :| 0 <= i < |init| && init[i].0 == k;
          assert args[i].0 == k;
        }
      }
      forall k | exists i :: 0 <= i < |args| && args[i].0 == k
        ensures k in StrFields(args)
      {
        var i :| 0 <= i < |args| && args[i].0 == k;
        if i < |args| - 1 {
          assert init[i].0 == k;
        }
      }
    }
  }

  /** A program's "statements" and a loop's "body" hold one element per
      statement, in order. */
  lemma StatementsInOrder(n: Node)
    requires n.Program? || n.LoopStmt?
    ensures var key := if n.Program? then "statements" else "body";
            var ss := if n.Program? then n.statements else n.body;
            && key in AstToJson(n).fields && AstToJson(n).fields[key].Arr?
            && |AstToJson(n).fields[key].items| == |ss|
            && forall i :: 0 <= i < |ss| ==> AstToJson(n).fields[key].items[i] == AstToJson(ss[i])
  {
  }

  /** A SELECT has a "condition" exactly when both the operator and the
      date are present; it then holds both. */
  lemma SelectCondition(n: Node)
    requires n.SelectStmt?
    ensures "condition" in AstToJson(n).fields <==> n.op.Some? && n.dateExpr.Some?
    ensures "condition" in AstToJson(n).fields ==>
              AstToJson(n).fields["condition"] == Obj(map["op" := Str(n.op.value), "date" := Str(n.dateExpr.value)])
  {
  }

  /** An EXPORT has a "column" exactly when the statement names one. */
  lemma ExportColumn(n: Node)
    requires n.ExportStmt?
    ensures "column" in AstToJson(n).fields <==> n.exportColumn.Some?
    ensures n.exportColumn.Some? ==> AstToJson(n).fields["column"] == Str(n.exportColumn.value)
    ensures AstToJson(n).fields["to"] == Str(n.target)
  {
  }

  /** REMOVE has no "with"; REPLACE carries its replacement there. */
  lemma CleanWith(n: Node)
    requires n.CleanStmt?
    ensures "with" in AstToJson(n).fields <==> n.action == ReplaceAction
    ensures n.action == ReplaceAction ==> AstToJson(n).fields["with"] == Str(n.replaceWith)
    ensures AstToJson(n).fields["action"] == Str(if n.action == RemoveAction then "remove" else "replace")
  {
  }

  /** FORECAST's "params" is null exactly when there are no parameters;
      otherwise an object whose keys are the parameter names, each with
      the value of its last occurrence. */
  lemma ForecastParams(n: Node)
    requires n.ForecastStmt?
    ensures AstToJson(n).fields["params"] == Null <==> |n.params| == 0
    ensures |n.params| > 0 ==> AstToJson(n).fields["params"].Obj?
    ensures forall k, i :: LastAt(n.params, k, i) ==>
              AstToJson(n).fields["params"].Obj? && k in AstToJson(n).fields["params"].fields
              && AstToJson(n).fields["params"].fields[k] == Num(n.params[i].1)
    ensures AstToJson(n).fields["params"].Obj? ==>
              forall k :: k in AstToJson(n).fields["params"].fields <==>
                exists i :: 0 <= i < |n.params| && n.params[i].0 == k
  {
    IntFieldsLastWins(n.params);
  }

  /** PLOT's "args" is always an object, empty when there are no
      arguments, with the value of each key's last occurrence. */
  lemma PlotArgsObject(n: Node)
    requires n.PlotStmt?
    ensures AstToJson(n).fields["args"].Obj?
    ensures forall k :: k in AstToJson(n).fields["args"].fields <==> exists i :: 0 <= i < |n.args| && n.args[i].0 == k
    ensures forall k, i :: LastAt(n.args, k, i) ==>
              k in AstToJson(n).fields["args"].fields && AstToJson(n).fields["args"].fields[k] == Str(n.args[i].1)
  {
    StrFieldsLastWins(n.args);
  }

  /** TREND nests its amount and unit under "interval"; they are not
      top-level keys. */
  lemma TransformInterval(n: Node)
    requires n.TransformStmt?
    ensures "amount" !in AstToJson(n).fields && "unit" !in AstToJson(n).fields
    ensures AstToJson(n).fields["interval"] == Obj(map["amount" := Num(n.amount), "unit" := Str(n.unit)])
  {
  }

  /** Expression and value nodes fall through to the default case. */
  lemma UnknownNodes(n: Node)
    requires n.Expression? || n.Value?
    ensures AstToJson(n) == Obj(map["type" := Str("Unknown")])
  {
  }

  /** Line and column numbers never reach the JSON. */
  lemma {:induction false} PositionFree(n: Node)
    ensures AstToJson(Erase(n)) == AstToJson(n)
    decreases n, 1
  {
    match n
    case Program(ss) => AllPositionFree(ss);
    case LoopStmt(_, _, _, body, _, _) => AllPositionFree(body);
    case _ =>
  }

  lemma {:induction false} AllPositionFree(ns: seq<Node>)
    ensures AllToJson(EraseAll(ns)) == AllToJson(ns)
    decreases ns, 0
  {
    if |ns| > 0 {
      PositionFree(ns[0]);
      AllPositionFree(ns[1..]);
    }
  }

  /** A printed program, parsed back and dumped, gives the dump of the
      program it was printed from. */
  lemma DumpAfterReparse(ns: seq<Node>)
    requires AllPrintable(ns)
    ensures Parse(ProgramTokens(ns)).Ok?
    ensures AstToJson(Parse(ProgramTokens(ns)).value) == AstToJson(Program(ns))
  {
    ParseRoundTrip(ns);
    var p := Parse(ProgramTokens(ns)).value;
    PositionFree(p);
    PositionFree(Program(ns));
  }
}

=== FILE: lab1.dfy ===
/** The first lab: the right-linear grammar of variant 23,
    S -> aB, B -> aC | bB, C -> bB | c | aS, and the three-state
    deterministic automaton built from it by hand. */
module Lab1 {
  import opened Wrappers

  // ---------------------------------------------------------------------
  // The automaton.

  /** The table filled in by the `FiniteAutomaton` constructor. */
  const Table: map<(char, char), char> := map[
    ('S', 'a') := 'B',
    ('B', 'a') := 'C',
    ('B', 'b') := 'B',
    ('C', 'b') := 'B',
    ('C', 'c') := 'C',
    ('C', 'a') := 'S']

  const Start: char := 'S'
  const Final: char := 'C'

  /** The state reached from `Start` after `w`, or `None` once a (state,
      symbol) pair without an entry is met. */
  function Run(w: string): (r: Option<char>)
    ensures r.Some? ==> r.value in {'S', 'B', 'C'}
    decreases |w|
  {
    if |w| == 0 then Some(Start)
    else
      var p := Run(w[..|w| - 1]);
      if p.None? || (p.value, w[|w| - 1]) !in Table then None
      else Some(Table[(p.value, w[|w| - 1])])
  }

  /** Once the run is stuck it stays stuck. */
  lemma {:induction false} StuckStaysStuck(w: string, n: nat)
    requires n <= |w| && Run(w[..n]).None?
    ensures Run(w).None?
    decreases |w| - n
  {
    if n < |w| {
      assert w[..n + 1][..n] == w[..n];
      StuckStaysStuck(w, n + 1);
    } else {
      assert w[..n] == w;
    }
  }

  /** `FiniteAutomaton::validateString`: follow the table from `S`; reject at
      the first missing entry; otherwise accept iff the run ends in `C`. */
  method ValidateString(input: string) returns (r: bool)
    ensures r <==> Run(input) == Some(Final)
  {
    var current := Start;
    for i := 0 to |input|
      invariant Run(input[..i]) == Some(current)
    {
      assert input[..i + 1][..i] == input[..i];
      var key := (current, input[i]);
      if key !in Table {
        StuckStaysStuck(input, i + 1);
        return false;
      }
      current := Table[key];
    }
    assert input[..|input|] == input;
    return current == Final;
  }

  /** The empty string is rejected: the start state is not final. */
  lemma EmptyIsRejected()
    ensures Run("") != Some(Final)
  {
  }

  // ---------------------------------------------------------------------
  // The grammar.

  const Rules: map<char, seq<string>> := map[
    'S' := ["aB"],
    'B' := ["aC", "bB"],
    'C' := ["bB", "c", "aS"]]

  predicate NonTerminal(c: char) { c in Rules }

  /** The position of the leftmost non-terminal of `s`, if any. */
  function Leftmost(s: string): (r: Option<nat>)
    ensures r.Some? ==> (r.value < |s| && NonTerminal(s[r.value])
                         && forall k :: 0 <= k < r.value ==> !NonTerminal(s[k]))
    ensures r.None? ==> forall k :: 0 <= k < |s| ==> !NonTerminal(s[k])
  {
    if |s| == 0 then None
    else if NonTerminal(s[0]) then Some(0)
    else
      var r := Leftmost(s[1..]);
      if r.None? then None else Some(r.value + 1)
  }

  /** One pass of the loop of `generateString`: the leftmost non-terminal is
      replaced by the body the draw `pick` selects; `None` when no
      non-terminal is left. */
  function Rewrite(s: string, pick: nat): (r: Option<string>)
    ensures r.None? <==> Leftmost(s).None?
  {
    var i :- Leftmost(s);
    var bodies := Rules[s[i]];
    Some(s[..i] + bodies[pick % |bodies|] + s[i + 1..])
  }

  /** A step keeps everything left and right of the leftmost non-terminal
      and puts one of its bodies in its place. */
  lemma RewriteReplacesLeftmost(s: string, pick: nat)
    requires Rewrite(s, pick).Some?
    ensures var t := Rewrite(s, pick).value; var i := Leftmost(s).value; var j := |t| - (|s| - i - 1);
      && i <= j <= |t|
      && t[..i] == s[..i]
      && t[i..j] in Rules[s[i]]
      && t[j..] == s[i + 1..]
  {
    var i := Leftmost(s).value;
    var b := Rules[s[i]][pick % |Rules[s[i]]|];
    var t := Rewrite(s, pick).value;
    assert t == s[..i] + b + s[i + 1..];
    assert t[..i] == s[..i] && t[i..i + |b|] == b && t[i + |b|..] == s[i + 1..];
  }

  /** `Grammar::generateString` under the draws `picks`: rewrite until no
      non-terminal is left. Running out of draws first means the
      derivation has no outcome under these draws. */
  function Generate(s: string, picks: seq<nat>): Option<string>
    decreases |picks|
  {
    match Rewrite(s, 0)
    case None => Some(s)
    case Some(_) =>
      if |picks| == 0 then None
      else Generate(Rewrite(s, picks[0]).value, picks[1..])
  }

  // ---------------------------------------------------------------------
  // Every generated string is accepted.

  predicate Terminals(w: string)
  {
    forall k :: 0 <= k < |w| ==> !NonTerminal(w[k])
  }

  /** The shape of every sentential form: terminals followed by the
      non-terminal the automaton reaches on them, or terminals alone on
      which it reaches `C`. */
  predicate Sentential(s: string)
  {
    || (|s| > 0 && Terminals(s[..|s| - 1]) && NonTerminal(s[|s| - 1]) && Run(s[..|s| - 1]) == Some(s[|s| - 1]))
    || (Terminals(s) && Run(s) == Some(Final))
  }

  /** Every body is a terminal followed by a non-terminal that the table
      reaches from the head on that terminal, or the terminal `c` on which
      `C` stays in `C`. */
  lemma BodyMatchesTable(n: char, k: nat)
    requires NonTerminal(n) && k < |Rules[n]|
    ensures var b := Rules[n][k];
      || (|b| == 2 && !NonTerminal(b[0]) && NonTerminal(b[1]) && (n, b[0]) in Table && Table[(n, b[0])] == b[1])
      || (b == "c" && n == Final && (n, 'c') in Table && Table[(n, 'c')] == Final)
  {
  }

  lemma RunSnoc(w: string, x: char)
    ensures Run(w + [x]) == if Run(w).None? || (Run(w).value, x) !in Table then None else Some(Table[(Run(w).value, x)])
  {
    assert (w + [x])[..|w|] == w;
  }

  /** A rewriting step keeps the shape. */
  lemma RewriteKeepsShape(s: string, pick: nat)
    requires Sentential(s) && Rewrite(s, pick).Some?
    ensures Sentential(Rewrite(s, pick).value)
  {
    var i := Leftmost(s).value;
    var w := s[..|s| - 1];
    var n := s[|s| - 1];
    assert i == |s| - 1;
    var bodies := Rules[n];
    var k := pick % |bodies|;
    var b := bodies[k];
    var s' := Rewrite(s, pick).value;
    assert s' == w + b by {
      assert s[..i] == w && s[i + 1..] == "";
    }
    BodyMatchesTable(n, k);
    RunSnoc(w, b[0]);
    if |b| == 2 {
      assert s'[..|s'| - 1] == w + [b[0]];
    } else {
      assert s' == w + [b[0]];
    }
  }

  /** Every string `generateString` can return is accepted by
      `validateString`. */
  lemma {:induction false} GeneratedIsAccepted(s: string, picks: seq<nat>)
    requires Sentential(s) && Generate(s, picks).Some?
    ensures Run(Generate(s, picks).value) == Some(Final)
    decreases |picks|
  {
    if Rewrite(s, 0).Some? {
      RewriteKeepsShape(s, picks[0]);
      GeneratedIsAccepted(Rewrite(s, picks[0]).value, picks[1..]);
    }
  }

  lemma GeneratedFromStartIsAccepted(picks: seq<nat>)
    requires Generate("S", picks).Some?
    ensures Run(Generate("S", picks).value) == Some(Final)
  {
    assert "S"[..0] == "";
    GeneratedIsAccepted("S", picks);
  }

  /** The automaton accepts more than the grammar generates: `aa` reaches
      `C`, but every derivation ends with the body `c`. */
  lemma AutomatonAcceptsAa()
    ensures Run("aa") == Some(Final)
  {
    assert "aa"[..1] == "a";
    assert "a"[..0] == "";
  }

  // ---------------------------------------------------------------------
  // Two derivations of the lab.

  /** A rewriting step at a known leftmost position. */
  lemma RewriteAt(s: string, i: nat, pick: nat, t: string)
    requires i < |s| && NonTerminal(s[i]) && forall k :: 0 <= k < i ==> !NonTerminal(s[k])
    requires t == s[..i] + Rules[s[i]][pick % |Rules[s[i]]|] + s[i + 1..]
    ensures Rewrite(s, pick) == Some(t)
  {
    LeftmostAt(s, i);
  }

  lemma {:induction false} LeftmostAt(s: string, i: nat)
    requires i < |s| && NonTerminal(s[i]) && forall k :: 0 <= k < i ==> !NonTerminal(s[k])
    ensures Leftmost(s) == Some(i)
    decreases i
  {
    if i > 0 {
      LeftmostAt(s[1..], i - 1);
    }
  }

  lemma DerivesAac()
    ensures Generate("S", [0, 0, 1]) == Some("aac")
    ensures Run("aac") == Some(Final)
  {
    AacGenerates();
    AacRuns();
  }

  lemma AacGenerates()
    ensures Generate("S", [0, 0, 1]) == Some("aac")
  {
    RewriteAt("S", 0, 0, "aB");
    RewriteAt("aB", 1, 0, "aaC");
    RewriteAt("aaC", 2, 1, "aac");
    GenerateStep("aaC", [1], "aac");
    GenerateStep("aB", [0, 1], "aaC");
    GenerateStep("S", [0, 0, 1], "aB");
  }

  lemma AacRuns()
    ensures Run("aac") == Some(Final)
  {
    assert "aac"[..2] == "aa" && "aa"[..1] == "a" && "a"[..0] == "";
  }

  lemma DerivesAbac()
    ensures Generate("S", [0, 1, 0, 1]) == Some("abac")
    ensures Run("abac") == Some(Final)
  {
    AbacHead();
    AbacTail();
    AbacRuns();
  }

  /** The first two steps: `S` to `aB` to `abB`. */
  lemma AbacHead()
    ensures Generate("S", [0, 1, 0, 1]) == Generate("abB", [0, 1])
  {
    RewriteAt("S", 0, 0, "aB");
    RewriteAt("aB", 1, 1, "abB");
    GenerateStep("aB", [1, 0, 1], "abB");
    GenerateStep("S", [0, 1, 0, 1], "aB");
  }

  /** The last two steps: `abB` to `abaC` to `abac`. */
  lemma AbacTail()
    ensures Generate("abB", [0, 1]) == Some("abac")
  {
    RewriteAt("abB", 2, 0, "abaC");
    RewriteAt("abaC", 3, 1, "abac");
    GenerateStep("abaC", [1], "abac");
    GenerateStep("abB", [0, 1], "abaC");
  }

  lemma GenerateStep(s: string, picks: seq<nat>, t: string)
    requires |picks| > 0 && Rewrite(s, picks[0]) == Some(t)
    ensures Generate(s, picks) == Generate(t, picks[1..])
  {
  }

  lemma AbacRuns()
    ensures Run("abac") == Some(Final)
  {
    assert "abac"[..3] == "aba" && "aba"[..2] == "ab" && "ab"[..1] == "a" && "a"[..0] == "";
  }
}

=== FILE: lexemes.dfy ===
/** Lexeme shapes both DSL lexers share: identifiers, decimal numbers with a
    fraction, and facts about slices of the input a lexeme occupies. */
module Lexemes {
  import opened Text

  predicate WordStart(c: char) { IsAlpha(c) || c == '_' }
  predicate WordChar(c: char) { IsAlnum(c) || c == '_' }

  /** Length of the longest run of word characters from `from`. */
  function WordRun(s: string, from: nat): (k: nat)
    requires from <= |s|
    ensures from + k <= |s|
    ensures forall i :: from <= i < from + k ==> WordChar(s[i])
    ensures from + k == |s| || !WordChar(s[from + k])
    decreases |s| - from
  {
    if from < |s| && WordChar(s[from]) then 1 + WordRun(s, from + 1) else 0
  }

  predicate IsWord(v: string)
  {
    |v| > 0 && WordStart(v[0]) && forall i :: 0 <= i < |v| ==> WordChar(v[i])
  }

  /** A float lexeme: digits, a dot, digits, both runs non-empty. */
  predicate FloatText(v: string)
  {
    var i := DigitRun(v, 0);
    0 < i < |v| - 1 && v[i] == '.' && AllDigits(v[i + 1..])
  }

  lemma FloatSpan(s: string, p: nat, q: nat, e: nat)
    requires p < q && q + 1 < e <= |s| && s[q] == '.'
    requires forall j :: p <= j < q ==> IsDigit(s[j])
    requires forall j :: q < j < e ==> IsDigit(s[j])
    ensures FloatText(s[p..e])
  {
    var v := s[p..e];
    assert forall j :: 0 <= j < |v| ==> v[j] == s[p + j];
    DigitRunStops(v, 0, q - p);
    assert AllDigits(v[q - p + 1..]) by {
      assert v[q - p + 1..] == s[q + 1..e];
    }
  }

  /** Digits of a lexeme are digits of the input it occurs in. */
  lemma DigitsCarry(s: string, p: nat, v: string, a: nat, b: nat)
    requires p + |v| <= |s| && s[p..p + |v|] == v && a <= b <= |v|
    requires forall j :: a <= j < b ==> IsDigit(v[j])
    ensures forall j :: p + a <= j < p + b ==> IsDigit(s[j])
  {
    forall j | p + a <= j < p + b ensures IsDigit(s[j]) {
      assert s[j] == v[j - p];
    }
  }

  /** The digits after the dot of a float lexeme. */
  lemma FractionDigits(v: string, i: nat)
    requires i < |v| && AllDigits(v[i + 1..])
    ensures forall j :: i < j < |v| ==> IsDigit(v[j])
  {
    forall j | i < j < |v| ensures IsDigit(v[j]) {
      assert v[i + 1..][j - i - 1] == v[j];
    }
  }

  /** A suffix that is a concatenation splits into a slice and a suffix. */
  lemma SuffixSplit(s: string, i: nat, a: string, b: string)
    requires i <= |s| && s[i..] == a + b
    ensures i + |a| <= |s| && s[i..i + |a|] == a && s[i + |a|..] == b
  {
    assert s[i..i + |a|] == s[i..][..|a|];
    assert s[i + |a|..] == s[i..][|a|..];
  }

  /** A slice that is a concatenation splits into two slices. */
  lemma SliceSplit(s: string, i: nat, j: nat, a: string, b: string)
    requires i <= j <= |s| && s[i..j] == a + b
    ensures s[i..i + |a|] == a && s[i + |a|..j] == b
  {
    assert s[i..i + |a|] == s[i..j][..|a|];
    assert s[i + |a|..j] == s[i..j][|a|..];
  }

  /** A lexeme after one space, followed by text that is empty or starts
      with a space. */
  lemma SpacedSplit(s: string, i: nat, r: string, rest: string)
    requires i <= |s| && s[i..] == " " + r + rest && (rest == "" || rest[0] == ' ')
    ensures i + 1 + |r| <= |s| && s[i] == ' ' && s[i + 1..i + 1 + |r|] == r
    ensures s[i + 1 + |r|..] == rest && (i + 1 + |r| == |s| || s[i + 1 + |r|] == ' ')
  {
    var e := i + 1 + |r|;
    SuffixSplit(s, i, " " + r, rest);
    SliceSplit(s, i, e, " ", r);
    assert s[i] == s[i..i + 1][0];
    if e < |s| {
      assert s[e] == s[e..][0];
    }
  }
}

=== FILE: lexer3.dfy ===
/** The hand-written ChronoLang lexer of `src/3lexer/src/lexer.cpp` (the
    same file as `src/lab3/src/lexer.cpp`): a cursor over the input that
    skips white space and then reads one identifier, number, string or
    symbol. Invalid symbols are dropped and the output ends with one
    end-of-file token. */
module ChronoLexer {
  import opened Wrappers
  import opened Text
  import opened SourcePos
  import opened Lexemes

  /** `TokenType` of `token.h`. */
  datatype Kind =
    | Load | From | Set | Window | Trend | Forecast | Using | Stream | Select | Where | Date
    | Plot | Export | To | For | In | Remove | Missing | Replace | With | Analyze
    | BasedOn | Below | Above | Mean | Median | Tendency | Arima | Prophet | Lstm
    | Equal | Arrow | LBrace | RBrace | LParen | RParen | Comma | Less | Greater
    | Id | StringLit | IntLit | FloatLit | TimeUnit
    | EndOfFile | Invalid

  /** A token carries the line and column the lexer had reached when it
      was made. */
  datatype Token = Token(kind: Kind, value: string, line: int, column: int)

  /** The lexer's state: the next index into the input and the current
      line and column. */
  datatype Cursor = Cursor(pos: nat, at: Pos)

  /** The keyword table of `makeIdentifierOrKeyword`. Lookup is exact, so
      `Prophet` is a keyword and `PROPHET` is not. */
  function KeywordKind(v: string): Option<Kind>
  {
    match v
    case "LOAD" => Some(Load) case "FROM" => Some(From) case "SET" => Some(Set)
    case "WINDOW" => Some(Window) case "TREND" => Some(Trend) case "FORECAST" => Some(Forecast)
    case "USING" => Some(Using) case "STREAM" => Some(Stream) case "SELECT" => Some(Select)
    case "WHERE" => Some(Where) case "DATE" => Some(Date) case "PLOT" => Some(Plot)
    case "EXPORT" => Some(Export) case "TO" => Some(To) case "FOR" => Some(For) case "IN" => Some(In)
    case "REMOVE" => Some(Remove) case "MISSING" => Some(Missing) case "REPLACE" => Some(Replace)
    case "WITH" => Some(With) case "ANALYZE" => Some(Analyze) case "BASED_ON" => Some(BasedOn)
    case "BELOW" => Some(Below) case "ABOVE" => Some(Above) case "MEAN" => Some(Mean)
    case "MEDIAN" => Some(Median) case "TENDENCY" => Some(Tendency) case "ARIMA" => Some(Arima)
    case "Prophet" => Some(Prophet) case "LSTM" => Some(Lstm)
    case _ => None
  }

  predicate IsKeyword(k: Kind)
  {
    || k.Load? || k.From? || k.Set? || k.Window? || k.Trend? || k.Forecast? || k.Using?
    || k.Stream? || k.Select? || k.Where? || k.Date? || k.Plot? || k.Export? || k.To?
    || k.For? || k.In? || k.Remove? || k.Missing? || k.Replace? || k.With? || k.Analyze?
    || k.BasedOn? || k.Below? || k.Above? || k.Mean? || k.Median? || k.Tendency?
    || k.Arima? || k.Prophet? || k.Lstm?
  }

  // ---------------------------------------------------------------------
  // The lexemes

  /** `skipWhitespace`: consumes white space, tracking lines and columns. */
  function SkipWhitespace(s: string, c: Cursor): (r: Cursor)
    ensures c.pos <= r.pos
    ensures c.pos >= |s| ==> r == c
    ensures c.pos < |s| ==> r.pos <= |s| && r.at == Walk(c.at, s[c.pos..r.pos])
    ensures forall i :: c.pos <= i < r.pos ==> i < |s| && IsSpace(s[i])
    ensures r.pos < |s| ==> !IsSpace(s[r.pos])
    decreases |s| - c.pos
  {
    if c.pos < |s| && IsSpace(s[c.pos]) then
      var r := SkipWhitespace(s, Cursor(c.pos + 1, Step(c.at, s[c.pos])));
      assert s[c.pos..r.pos][1..] == s[c.pos + 1..r.pos];
      r
    else c
  }

  /** `makeIdentifierOrKeyword`'s choice of type for the lexeme `v`: the
      keyword's type, else `TIME_UNIT` for `d`, `h` and `m`, else `ID`. */
  function Classify(v: string): Kind
  {
    if KeywordKind(v).Some? then KeywordKind(v).value
    else if v == "d" || v == "h" || v == "m" then TimeUnit
    else Id
  }

  /** `makeIdentifierOrKeyword`: the longest run of word characters. Each
      consumed character moves one column right. */
  function MakeWord(s: string, c: Cursor): (r: (Token, Cursor))
    requires c.pos < |s| && WordStart(s[c.pos])
    ensures c.pos < r.1.pos <= |s| && r.0.value == s[c.pos..r.1.pos]
    ensures forall i :: c.pos <= i < r.1.pos ==> WordChar(s[i])
    ensures r.1.pos == |s| || !WordChar(s[r.1.pos])
    ensures r.0.kind == Classify(r.0.value)
    ensures r.1.at == Pos(c.at.line, c.at.column + |r.0.value|)
    ensures r.0.line == r.1.at.line && r.0.column == r.1.at.column
  {
    var k := WordRun(s, c.pos);
    var v := s[c.pos..c.pos + k];
    var at := Pos(c.at.line, c.at.column + k);
    (Token(Classify(v), v, at.line, at.column), Cursor(c.pos + k, at))
  }

  /** The extent of the number lexeme at `p` and whether it is a float:
      a digit run, extended by a dot and a second digit run when a digit
      follows the dot. */
  function NumberSpan(s: string, p: nat): (r: (nat, bool))
    requires p < |s| && IsDigit(s[p])
    ensures p < r.0 <= |s|
    ensures !r.1 ==> AllDigits(s[p..r.0])
    ensures r.1 ==> FloatText(s[p..r.0])
    ensures var q := p + DigitRun(s, p);
      r.1 <==> q + 1 < |s| && s[q] == '.' && IsDigit(s[q + 1])
    ensures var q := p + DigitRun(s, p);
      r.0 == if r.1 then q + 1 + DigitRun(s, q + 1) else q
    ensures r.0 == |s| || !IsDigit(s[r.0])
  {
    var q := p + DigitRun(s, p);
    if q + 1 < |s| && s[q] == '.' && IsDigit(s[q + 1]) then
      var e := q + 1 + DigitRun(s, q + 1);
      FloatSpan(s, p, q, e);
      (e, true)
    else
      assert forall j :: 0 <= j < q - p ==> s[p..q][j] == s[p + j];
      (q, false)
  }

  /** `makeNumber`: an `INT` or `FLOAT` token over the number lexeme. */
  function MakeNumber(s: string, c: Cursor): (r: (Token, Cursor))
    requires c.pos < |s| && IsDigit(s[c.pos])
    ensures c.pos < r.1.pos <= |s| && r.0.value == s[c.pos..r.1.pos]
    ensures r.0.kind == IntLit ==> AllDigits(r.0.value)
    ensures r.0.kind == FloatLit ==> FloatText(r.0.value)
    ensures r.0.kind == IntLit || r.0.kind == FloatLit
    ensures r.1.pos == NumberSpan(s, c.pos).0 && (r.0.kind == FloatLit <==> NumberSpan(s, c.pos).1)
    ensures r.1.pos == |s| || !IsDigit(s[r.1.pos])
    ensures r.1.at == Pos(c.at.line, c.at.column + |r.0.value|)
    ensures r.0.line == r.1.at.line && r.0.column == r.1.at.column
  {
    var span := NumberSpan(s, c.pos);
    var e := span.0;
    var at := Pos(c.at.line, c.at.column + (e - c.pos));
    (Token(if span.1 then FloatLit else IntLit, s[c.pos..e], at.line, at.column), Cursor(e, at))
  }

  /** The loop of `makeString` from index `i`: it stops at a double quote
      or at the end of the input. A newline moves one line down but, unlike
      white space, does not reset the column. */
  function ScanString(s: string, i: nat, at: Pos): (r: (nat, Pos))
    requires i <= |s|
    ensures i <= r.0 <= |s| && (r.0 == |s| || s[r.0] == '"')
    ensures forall j :: i <= j < r.0 ==> s[j] != '"'
    ensures r.1 == Pos(at.line + Newlines(s[i..r.0]), at.column + (r.0 - i))
    decreases |s| - i
  {
    if i < |s| && s[i] != '"' then
      var r := ScanString(s, i + 1, Pos(if s[i] == '\n' then at.line + 1 else at.line, at.column + 1));
      assert s[i..r.0][0] == s[i] && s[i..r.0][1..] == s[i + 1..r.0];
      r
    else
      assert s[i..i] == "";
      (i, at)
  }

  /** `makeString`: the characters between the quotes. Both quotes count
      one column each; a missing closing quote is skipped all the same,
      which leaves the cursor one past the end of the input. */
  function MakeString(s: string, c: Cursor): (r: (Token, Cursor))
    requires c.pos < |s| && s[c.pos] == '"'
    ensures r.0.kind == StringLit
    ensures var e := c.pos + 1 + |r.0.value|;
      e <= |s| && r.0.value == s[c.pos + 1..e] && (e == |s| || s[e] == '"') && r.1.pos == e + 1
    ensures '"' !in r.0.value
    ensures r.1.at == Pos(c.at.line + Newlines(r.0.value), c.at.column + |r.0.value| + 2)
    ensures r.0.line == r.1.at.line && r.0.column == r.1.at.column
  {
    var (e, at) := ScanString(s, c.pos + 1, Pos(c.at.line, c.at.column + 1));
    var v := s[c.pos + 1..e];
    var at' := Pos(at.line, at.column + 1);
    assert forall j :: 0 <= j < |v| ==> v[j] == s[c.pos + 1 + j];
    (Token(StringLit, v, at'.line, at'.column), Cursor(e + 1, at'))
  }

  /** The single-character symbols of `makeSymbol`. */
  function SymbolKind(ch: char): Kind
  {
    match ch
    case '=' => Equal
    case '<' => Less
    case '>' => Greater
    case '{' => LBrace
    case '}' => RBrace
    case '(' => LParen
    case ')' => RParen
    case ',' => Comma
    case _ => Invalid
  }

  /** `makeSymbol`: `->`, one of `= < > { } ( ) ,`, or one invalid
      character (a lone `-` among them). */
  function MakeSymbol(s: string, c: Cursor): (r: (Token, Cursor))
    requires c.pos < |s|
    ensures c.pos < r.1.pos <= |s| && r.0.value == s[c.pos..r.1.pos]
    ensures r.0.kind == Arrow <==> s[c.pos] == '-' && c.pos + 1 < |s| && s[c.pos + 1] == '>'
    ensures r.0.kind == Invalid <==> s[c.pos] !in "=<>{}()," && r.0.kind != Arrow
    ensures r.0.kind != Arrow ==> r.0.value == [s[c.pos]]
    ensures r.1.at == Pos(c.at.line, c.at.column + |r.0.value|)
    ensures r.0.line == r.1.at.line && r.0.column == r.1.at.column
  {
    var ch := s[c.pos];
    if ch == '-' && c.pos + 1 < |s| && s[c.pos + 1] == '>' then
      var at := Pos(c.at.line, c.at.column + 2);
      (Token(Arrow, "->", at.line, at.column), Cursor(c.pos + 2, at))
    else
      var at := Pos(c.at.line, c.at.column + 1);
      (Token(SymbolKind(ch), [ch], at.line, at.column), Cursor(c.pos + 1, at))
  }

  /** `nextToken`: white space first, then one lexeme chosen by its first
      character; at the end of the input an empty end-of-file token. */
  function NextToken(s: string, c: Cursor): (r: (Token, Cursor))
    ensures var d := SkipWhitespace(s, c);
      && (r.0.kind == EndOfFile <==> d.pos >= |s|)
      && (r.0.kind == EndOfFile ==> r.0.value == "" && r.1 == d)
      && (r.0.kind != EndOfFile ==> d.pos < r.1.pos <= |s| + 1)
      && (r.0.kind == Invalid ==> r.1.pos <= |s|)
    ensures r.0.line == r.1.at.line && r.0.column == r.1.at.column
  {
    var d := SkipWhitespace(s, c);
    if d.pos >= |s| then (Token(EndOfFile, "", d.at.line, d.at.column), d)
    else if WordStart(s[d.pos]) then
      ClassifyNeverEnds(s[d.pos..WordRun(s, d.pos) + d.pos]);
      MakeWord(s, d)
    else if IsDigit(s[d.pos]) then MakeNumber(s, d)
    else if s[d.pos] == '"' then MakeString(s, d)
    else MakeSymbol(s, d)
  }

  /** Classification never yields the end-of-file or the invalid type. */
  lemma ClassifyNeverEnds(v: string)
    ensures Classify(v) != EndOfFile && Classify(v) != Invalid
  {
  }

  /** A token list as `tokenize` leaves it: one end-of-file token with an
      empty value, at the end, and no invalid token. */
  predicate Terminated(r: seq<Token>)
  {
    && |r| > 0 && r[|r| - 1].kind == EndOfFile && r[|r| - 1].value == ""
    && (forall i :: 0 <= i < |r| - 1 ==> r[i].kind != EndOfFile)
    && (forall i :: 0 <= i < |r| ==> r[i].kind != Invalid)
  }

  lemma TerminatedCons(t: Token, rest: seq<Token>)
    requires t.kind != EndOfFile && t.kind != Invalid && Terminated(rest)
    ensures Terminated([t] + rest)
  {
    var r := [t] + rest;
    assert forall i :: 0 < i < |r| ==> r[i] == rest[i - 1];
  }

  /** `tokenize` from the cursor `c`: invalid tokens are dropped and the
      loop stops after the end-of-file token. */
  function TokenizeFrom(s: string, c: Cursor): (r: seq<Token>)
    requires c.pos <= |s| + 1
    ensures Terminated(r)
    decreases |s| + 1 - c.pos
  {
    var (t, c') := NextToken(s, c);
    if t.kind == Invalid then TokenizeFrom(s, c')
    else if t.kind == EndOfFile then [t]
    else
      var rest := TokenizeFrom(s, c');
      TerminatedCons(t, rest);
      [t] + rest
  }

  /** `Lexer::tokenize` on the whole input, from line 1, column 1. */
  function Tokenize(s: string): (r: seq<Token>)
    ensures |r| > 0 && r[|r| - 1].kind == EndOfFile && r[|r| - 1].value == ""
    ensures forall i :: 0 <= i < |r| - 1 ==> r[i].kind != EndOfFile
    ensures forall i :: 0 <= i < |r| ==> r[i].kind != Invalid
  {
    TokenizeFrom(s, Cursor(0, Start))
  }

  // ---------------------------------------------------------------------
  // `tokenTypeToString`

  /** The printed name of a token type. */
  function TypeName(k: Kind): string
  {
    match k
    case Load => "LOAD" case From => "FROM" case Set => "SET" case Window => "WINDOW"
    case Trend => "TREND" case Forecast => "FORECAST" case Using => "USING"
    case Stream => "STREAM" case Select => "SELECT" case Where => "WHERE" case Date => "DATE"
    case Plot => "PLOT" case Export => "EXPORT" case To => "TO" case For => "FOR" case In => "IN"
    case Remove => "REMOVE" case Missing => "MISSING" case Replace => "REPLACE"
    case With => "WITH" case Analyze => "ANALYZE" case BasedOn => "BASED_ON"
    case Below => "BELOW" case Above => "ABOVE" case Mean => "MEAN" case Median => "MEDIAN"
    case Tendency => "TENDENCY" case Arima => "ARIMA" case Prophet => "PROPHET" case Lstm => "LSTM"
    case Equal => "=" case Arrow => "->" case LBrace => "{" case RBrace => "}"
    case LParen => "(" case RParen => ")" case Comma => "," case Less => "<" case Greater => ">"
    case Id => "ID" case StringLit => "STRING" case IntLit => "INT" case FloatLit => "FLOAT"
    case TimeUnit => "TIME_UNIT" case EndOfFile => "EOF" case Invalid => "INVALID"
  }

  /** Reading a printed name back. */
  function KindOfName(name: string): Option<Kind>
  {
    match name
    case "LOAD" => Some(Load) case "FROM" => Some(From) case "SET" => Some(Set)
    case "WINDOW" => Some(Window) case "TREND" => Some(Trend) case "FORECAST" => Some(Forecast)
    case "USING" => Some(Using) case "STREAM" => Some(Stream) case "SELECT" => Some(Select)
    case "WHERE" => Some(Where) case "DATE" => Some(Date) case "PLOT" => Some(Plot)
    case "EXPORT" => Some(Export) case "TO" => Some(To) case "FOR" => Some(For) case "IN" => Some(In)
    case "REMOVE" => Some(Remove) case "MISSING" => Some(Missing) case "REPLACE" => Some(Replace)
    case "WITH" => Some(With) case "ANALYZE" => Some(Analyze) case "BASED_ON" => Some(BasedOn)
    case "BELOW" => Some(Below) case "ABOVE" => Some(Above) case "MEAN" => Some(Mean)
    case "MEDIAN" => Some(Median) case "TENDENCY" => Some(Tendency) case "ARIMA" => Some(Arima)
    case "PROPHET" => Some(Prophet) case "LSTM" => Some(Lstm)
    case "=" => Some(Equal) case "->" => Some(Arrow) case "{" => Some(LBrace) case "}" => Some(RBrace)
    case "(" => Some(LParen) case ")" => Some(RParen) case "," => Some(Comma) case "<" => Some(Less)
    case ">" => Some(Greater) case "ID" => Some(Id) case "STRING" => Some(StringLit)
    case "INT" => Some(IntLit) case "FLOAT" => Some(FloatLit) case "TIME_UNIT" => Some(TimeUnit)
    case "EOF" => Some(EndOfFile) case "INVALID" => Some(Invalid)
    case _ => None
  }

  /** Every type has its own name, so the `UNKNOWN` default is never
      printed and no two types print alike. */
  lemma TypeNameRoundTrip(k: Kind)
    ensures KindOfName(TypeName(k)) == Some(k)
  {
    if IsKeyword(k) {
      KeywordNameRoundTrip(k);
    } else {
      OtherNameRoundTrip(k);
    }
  }

  lemma KeywordNameRoundTrip(k: Kind)
    requires IsKeyword(k)
    ensures KindOfName(TypeName(k)) == Some(k)
  {
  }

  lemma OtherNameRoundTrip(k: Kind)
    requires !IsKeyword(k)
    ensures KindOfName(TypeName(k)) == Some(k)
  {
  }

  lemma TypeNameInjective(k: Kind, k': Kind)
    requires TypeName(k) == TypeName(k')
    ensures k == k'
  {
    TypeNameRoundTrip(k);
    TypeNameRoundTrip(k');
  }

  /** A keyword's type prints as the keyword itself, except `Prophet`,
      whose type prints as `PROPHET`. */
  lemma KeywordNames(v: string)
    requires KeywordKind(v).Some?
    ensures TypeName(KeywordKind(v).value) == (if v == "Prophet" then "PROPHET" else v)
  {
  }

  // ---------------------------------------------------------------------
  // Classification

  /** The keyword types are exactly the ones the table produces. */
  lemma KeywordsAreKeywords(v: string)
    ensures IsKeyword(Classify(v)) <==> KeywordKind(v).Some?
  {
  }

  /** Lookup is case-sensitive. */
  lemma ClassifyExamples()
    ensures Classify("Prophet") == Prophet
    ensures Classify("PROPHET") == Id
    ensures Classify("load") == Id && Classify("LOAD") == Load
    ensures Classify("d") == TimeUnit && Classify("D") == Id && Classify("dd") == Id
  {
  }

  // ---------------------------------------------------------------------
  // Re-lexing printed tokens

  /** The fixed text of a symbol type. */
  function SymbolText(k: Kind): string
  {
    match k
    case Equal => "=" case Arrow => "->" case LBrace => "{" case RBrace => "}"
    case LParen => "(" case RParen => ")" case Comma => "," case Less => "<" case Greater => ">"
    case _ => ""
  }

  /** A token the lexer can produce with this type and value, on its own
      between spaces. */
  predicate Lexable(t: Token)
  {
    match t.kind
    case IntLit => |t.value| > 0 && AllDigits(t.value)
    case FloatLit => FloatText(t.value)
    case StringLit => '"' !in t.value
    case EndOfFile => false
    case Invalid => false
    case _ =>
      if SymbolText(t.kind) != "" then t.value == SymbolText(t.kind)
      else IsWord(t.value) && Classify(t.value) == t.kind
  }

  /** The source text of a token: string values get their quotes back. */
  function Render(t: Token): string
  {
    if t.kind == StringLit then "\"" + t.value + "\"" else t.value
  }

  /** Each token printed after one space. */
  function Layout(ts: seq<Token>): string
  {
    if |ts| == 0 then "" else " " + Render(ts[0]) + Layout(ts[1..])
  }

  /** What a token says apart from its position. */
  function Shapes(ts: seq<Token>): seq<(Kind, string)>
  {
    if |ts| == 0 then [] else [(ts[0].kind, ts[0].value)] + Shapes(ts[1..])
  }

  /** Printing lexable tokens one space apart and lexing the text gives
      back their types and values, followed by the end-of-file token. */
  lemma TokenizeLayout(ts: seq<Token>)
    requires forall i :: 0 <= i < |ts| ==> Lexable(ts[i])
    ensures Shapes(Tokenize(Layout(ts))) == Shapes(ts) + [(EndOfFile, "")]
  {
    var s := Layout(ts);
    assert s[0..] == s;
    LayoutRelexes(s, Cursor(0, Start), ts);
  }

  lemma {:induction false} LayoutRelexes(s: string, c: Cursor, ts: seq<Token>)
    requires c.pos <= |s| && s[c.pos..] == Layout(ts)
    requires forall i :: 0 <= i < |ts| ==> Lexable(ts[i])
    ensures Shapes(TokenizeFrom(s, c)) == Shapes(ts) + [(EndOfFile, "")]
    decreases |ts|
  {
    if |ts| == 0 {
      TokenizeEnd(s, c);
    } else {
      RelexHead(s, c, ts);
      LayoutRelexes(s, NextToken(s, c).1, ts[1..]);
      ShapesStep(s, c, ts);
    }
  }

  /** The first printed token lexes back, and the cursor stops where the
      layout of the others begins. */
  lemma RelexHead(s: string, c: Cursor, ts: seq<Token>)
    requires |ts| > 0 && Lexable(ts[0]) && c.pos <= |s| && s[c.pos..] == Layout(ts)
    ensures NextToken(s, c).0.kind == ts[0].kind && NextToken(s, c).0.value == ts[0].value
    ensures ts[0].kind != Invalid && ts[0].kind != EndOfFile
    ensures NextToken(s, c).1.pos <= |s| && s[NextToken(s, c).1.pos..] == Layout(ts[1..])
  {
    HeadLayout(s, c, ts);
    LexOne(s, c, ts[0]);
  }

  /** Where the first printed token sits in the layout. */
  lemma HeadLayout(s: string, c: Cursor, ts: seq<Token>)
    requires |ts| > 0 && Lexable(ts[0]) && c.pos <= |s| && s[c.pos..] == Layout(ts)
    ensures |Render(ts[0])| > 0 && !IsSpace(Render(ts[0])[0])
    ensures c.pos + 1 + |Render(ts[0])| <= |s| && s[c.pos] == ' '
    ensures s[c.pos + 1..c.pos + 1 + |Render(ts[0])|] == Render(ts[0])
    ensures s[c.pos + 1 + |Render(ts[0])|..] == Layout(ts[1..])
    ensures c.pos + 1 + |Render(ts[0])| == |s| || s[c.pos + 1 + |Render(ts[0])|] == ' '
  {
    var t := ts[0];
    var r := Render(t);
    var rest := Layout(ts[1..]);
    assert s[c.pos..] == " " + r + rest;
    LayoutStart(ts[1..]);
    SpacedSplit(s, c.pos, r, rest);
    RenderStart(t);
  }

  lemma ShapesStep(s: string, c: Cursor, ts: seq<Token>)
    requires |ts| > 0 && c.pos <= |s| + 1
    requires NextToken(s, c).0.kind == ts[0].kind && NextToken(s, c).0.value == ts[0].value
    requires ts[0].kind != Invalid && ts[0].kind != EndOfFile
    requires Shapes(TokenizeFrom(s, NextToken(s, c).1)) == Shapes(ts[1..]) + [(EndOfFile, "")]
    ensures Shapes(TokenizeFrom(s, c)) == Shapes(ts) + [(EndOfFile, "")]
  {
    TokenizeCons(s, c);
    var x := (ts[0].kind, ts[0].value);
    var b := Shapes(ts[1..]);
    assert Shapes(ts) == [x] + b;
    assert [x] + (b + [(EndOfFile, "")]) == [x] + b + [(EndOfFile, "")];
  }

  /** At the end of the input only the end-of-file token is left. */
  lemma TokenizeEnd(s: string, c: Cursor)
    requires c.pos == |s|
    ensures Shapes(TokenizeFrom(s, c)) == [(EndOfFile, "")]
  {
    assert SkipWhitespace(s, c) == c;
  }

  /** A valid, non-final token is kept and lexing goes on after it. */
  lemma TokenizeCons(s: string, c: Cursor)
    requires c.pos <= |s| + 1
    requires NextToken(s, c).0.kind != Invalid && NextToken(s, c).0.kind != EndOfFile
    ensures Shapes(TokenizeFrom(s, c))
      == [(NextToken(s, c).0.kind, NextToken(s, c).0.value)] + Shapes(TokenizeFrom(s, NextToken(s, c).1))
  {
    var (t, c') := NextToken(s, c);
    var rest := TokenizeFrom(s, c');
    assert TokenizeFrom(s, c) == [t] + rest;
    assert ([t] + rest)[1..] == rest;
  }

  /** A layout is empty or starts with a space. */
  lemma LayoutStart(ts: seq<Token>)
    ensures Layout(ts) == "" || Layout(ts)[0] == ' '
  {
  }

  /** A printed token starts with a non-space character. */
  lemma RenderStart(t: Token)
    requires Lexable(t)
    ensures |Render(t)| > 0 && !IsSpace(Render(t)[0])
  {
    if t.kind == FloatLit {
      assert IsDigit(t.value[0]);
    }
  }

  /** One token after one space. */
  lemma LexOne(s: string, c: Cursor, t: Token)
    requires Lexable(t) && |Render(t)| > 0 && !IsSpace(Render(t)[0])
    requires c.pos + 1 + |Render(t)| <= |s| && s[c.pos] == ' '
    requires s[c.pos + 1..c.pos + 1 + |Render(t)|] == Render(t)
    requires c.pos + 1 + |Render(t)| == |s| || s[c.pos + 1 + |Render(t)|] == ' '
    ensures NextToken(s, c).0.kind == t.kind && NextToken(s, c).0.value == t.value
    ensures NextToken(s, c).1.pos == c.pos + 1 + |Render(t)|
    ensures t.kind != Invalid && t.kind != EndOfFile
  {
    if t.kind == IntLit || t.kind == FloatLit || t.kind == StringLit {
      LexLiteral(s, c, t);
    } else {
      LexFixed(s, c, t);
    }
  }

  lemma LexLiteral(s: string, c: Cursor, t: Token)
    requires t.kind == IntLit || t.kind == FloatLit || t.kind == StringLit
    requires Lexable(t) && |Render(t)| > 0 && !IsSpace(Render(t)[0])
    requires c.pos + 1 + |Render(t)| <= |s| && s[c.pos] == ' '
    requires s[c.pos + 1..c.pos + 1 + |Render(t)|] == Render(t)
    requires c.pos + 1 + |Render(t)| == |s| || s[c.pos + 1 + |Render(t)|] == ' '
    ensures NextToken(s, c).0.kind == t.kind && NextToken(s, c).0.value == t.value
    ensures NextToken(s, c).1.pos == c.pos + 1 + |Render(t)|
    ensures t.kind != Invalid && t.kind != EndOfFile
  {
    if t.kind == IntLit {
      LexInt(s, c, t.value);
    } else if t.kind == FloatLit {
      LexFloat(s, c, t.value);
    } else {
      LexString(s, c, t.value);
    }
  }

  lemma LexFixed(s: string, c: Cursor, t: Token)
    requires t.kind != IntLit && t.kind != FloatLit && t.kind != StringLit
    requires Lexable(t) && |Render(t)| > 0 && !IsSpace(Render(t)[0])
    requires c.pos + 1 + |Render(t)| <= |s| && s[c.pos] == ' '
    requires s[c.pos + 1..c.pos + 1 + |Render(t)|] == Render(t)
    requires c.pos + 1 + |Render(t)| == |s| || s[c.pos + 1 + |Render(t)|] == ' '
    ensures NextToken(s, c).0.kind == t.kind && NextToken(s, c).0.value == t.value
    ensures NextToken(s, c).1.pos == c.pos + 1 + |Render(t)|
    ensures t.kind != Invalid && t.kind != EndOfFile
  {
    if SymbolText(t.kind) != "" {
      LexSymbol(s, c, t.kind);
    } else {
      LexWord(s, c, t.value);
    }
  }

  /** The white space before a lexeme that starts at `c.pos + 1`. */
  lemma SpaceThen(s: string, c: Cursor, w: string)
    requires |w| > 0 && !IsSpace(w[0]) && c.pos + 1 + |w| <= |s| && s[c.pos] == ' '
    requires s[c.pos + 1..c.pos + 1 + |w|] == w
    ensures SkipWhitespace(s, c).pos == c.pos + 1
  {
    assert s[c.pos + 1] == w[0];
    SkipOne(s, c);
  }

  lemma LexInt(s: string, c: Cursor, v: string)
    requires |v| > 0 && AllDigits(v) && c.pos + 1 + |v| <= |s| && s[c.pos] == ' '
    requires s[c.pos + 1..c.pos + 1 + |v|] == v
    requires c.pos + 1 + |v| == |s| || s[c.pos + 1 + |v|] == ' '
    ensures NextToken(s, c).0.kind == IntLit && NextToken(s, c).0.value == v
    ensures NextToken(s, c).1.pos == c.pos + 1 + |v|
  {
    assert IsDigit(v[0]);
    SpaceThen(s, c, v);
    IntAt(s, SkipWhitespace(s, c), v);
    NextIsNumber(s, c, SkipWhitespace(s, c));
  }

  lemma LexFloat(s: string, c: Cursor, v: string)
    requires FloatText(v) && c.pos + 1 + |v| <= |s| && s[c.pos] == ' '
    requires s[c.pos + 1..c.pos + 1 + |v|] == v
    requires c.pos + 1 + |v| == |s| || s[c.pos + 1 + |v|] == ' '
    ensures NextToken(s, c).0.kind == FloatLit && NextToken(s, c).0.value == v
    ensures NextToken(s, c).1.pos == c.pos + 1 + |v|
  {
    assert IsDigit(v[0]);
    SpaceThen(s, c, v);
    FloatAt(s, SkipWhitespace(s, c), v);
    NextIsNumber(s, c, SkipWhitespace(s, c));
  }

  lemma LexString(s: string, c: Cursor, v: string)
    requires '"' !in v && c.pos + 3 + |v| <= |s| && s[c.pos] == ' '
    requires s[c.pos + 1..c.pos + 3 + |v|] == "\"" + v + "\""
    ensures NextToken(s, c).0.kind == StringLit && NextToken(s, c).0.value == v
    ensures NextToken(s, c).1.pos == c.pos + 3 + |v|
  {
    SpaceThen(s, c, "\"" + v + "\"");
    StringAt(s, SkipWhitespace(s, c), v);
    NextIsString(s, c, SkipWhitespace(s, c));
  }

  lemma LexSymbol(s: string, c: Cursor, k: Kind)
    requires SymbolText(k) != "" && c.pos + 1 + |SymbolText(k)| <= |s| && s[c.pos] == ' '
    requires s[c.pos + 1..c.pos + 1 + |SymbolText(k)|] == SymbolText(k)
    ensures NextToken(s, c).0.kind == k && NextToken(s, c).0.value == SymbolText(k)
    ensures NextToken(s, c).1.pos == c.pos + 1 + |SymbolText(k)|
  {
    SpaceThen(s, c, SymbolText(k));
    SymbolAt(s, SkipWhitespace(s, c), k);
    NextIsSymbol(s, c, SkipWhitespace(s, c));
  }

  lemma LexWord(s: string, c: Cursor, v: string)
    requires IsWord(v) && c.pos + 1 + |v| <= |s| && s[c.pos] == ' '
    requires s[c.pos + 1..c.pos + 1 + |v|] == v
    requires c.pos + 1 + |v| == |s| || s[c.pos + 1 + |v|] == ' '
    ensures NextToken(s, c).0.kind == Classify(v) && NextToken(s, c).0.value == v
    ensures NextToken(s, c).1.pos == c.pos + 1 + |v|
  {
    SpaceThen(s, c, v);
    WordAt(s, SkipWhitespace(s, c), v);
    NextIsWord(s, c, SkipWhitespace(s, c));
  }

  /** The dispatch of `nextToken` on the first character after white
      space. */
  lemma NextIsWord(s: string, c: Cursor, d: Cursor)
    requires d == SkipWhitespace(s, c) && d.pos < |s| && WordStart(s[d.pos])
    ensures NextToken(s, c) == MakeWord(s, d)
  {
  }

  lemma NextIsNumber(s: string, c: Cursor, d: Cursor)
    requires d == SkipWhitespace(s, c) && d.pos < |s| && IsDigit(s[d.pos])
    ensures NextToken(s, c) == MakeNumber(s, d)
  {
  }

  lemma NextIsString(s: string, c: Cursor, d: Cursor)
    requires d == SkipWhitespace(s, c) && d.pos < |s| && s[d.pos] == '"'
    ensures NextToken(s, c) == MakeString(s, d)
  {
    var x := s[d.pos];
    assert !WordStart(x) && !IsDigit(x);
  }

  lemma NextIsSymbol(s: string, c: Cursor, d: Cursor)
    requires d == SkipWhitespace(s, c) && d.pos < |s| && s[d.pos] in "=<>{}(),-"
    ensures NextToken(s, c) == MakeSymbol(s, d)
  {
    var x := s[d.pos];
    assert !WordStart(x) && !IsDigit(x);
  }

  /** A single space before a non-space character is skipped. */
  lemma SkipOne(s: string, c: Cursor)
    requires c.pos + 1 < |s| && s[c.pos] == ' ' && !IsSpace(s[c.pos + 1])
    ensures SkipWhitespace(s, c).pos == c.pos + 1
  {
  }

  lemma WordAt(s: string, d: Cursor, v: string)
    requires IsWord(v) && d.pos + |v| <= |s| && s[d.pos..d.pos + |v|] == v
    requires d.pos + |v| == |s| || s[d.pos + |v|] == ' '
    ensures WordStart(s[d.pos])
    ensures MakeWord(s, d).0.value == v && MakeWord(s, d).1.pos == d.pos + |v|
  {
    assert forall j :: 0 <= j < |v| ==> s[d.pos + j] == v[j];
  }

  lemma IntAt(s: string, d: Cursor, v: string)
    requires |v| > 0 && AllDigits(v) && d.pos + |v| <= |s| && s[d.pos..d.pos + |v|] == v
    requires d.pos + |v| == |s| || s[d.pos + |v|] == ' '
    ensures IsDigit(s[d.pos])
    ensures MakeNumber(s, d).0.kind == IntLit
    ensures MakeNumber(s, d).0.value == v && MakeNumber(s, d).1.pos == d.pos + |v|
  {
    assert forall j :: 0 <= j < |v| ==> s[d.pos + j] == v[j];
    DigitRunStops(s, d.pos, d.pos + |v|);
  }

  lemma FloatAt(s: string, d: Cursor, v: string)
    requires FloatText(v) && d.pos + |v| <= |s| && s[d.pos..d.pos + |v|] == v
    requires d.pos + |v| == |s| || s[d.pos + |v|] == ' '
    ensures IsDigit(s[d.pos])
    ensures MakeNumber(s, d).0.kind == FloatLit
    ensures MakeNumber(s, d).0.value == v && MakeNumber(s, d).1.pos == d.pos + |v|
  {
    FloatSpanAt(s, d.pos, v);
  }

  lemma FloatSpanAt(s: string, p: nat, v: string)
    requires FloatText(v) && p + |v| <= |s| && s[p..p + |v|] == v
    requires p + |v| == |s| || s[p + |v|] == ' '
    ensures IsDigit(s[p]) && NumberSpan(s, p) == (p + |v|, true)
  {
    var i := DigitRun(v, 0);
    var q := p + i;
    DigitsCarry(s, p, v, 0, i);
    assert s[q] == v[i];
    DigitRunStops(s, p, q);
    FractionDigits(v, i);
    DigitsCarry(s, p, v, i + 1, |v|);
    DigitRunStops(s, q + 1, p + |v|);
  }

  lemma StringAt(s: string, d: Cursor, v: string)
    requires '"' !in v && d.pos + |v| + 2 <= |s|
    requires s[d.pos..d.pos + |v| + 2] == "\"" + v + "\""
    ensures s[d.pos] == '"'
    ensures MakeString(s, d).0.value == v && MakeString(s, d).1.pos == d.pos + |v| + 2
  {
    var e := d.pos + 1 + |v|;
    var u := s[d.pos..e + 1];
    assert s[d.pos] == u[0];
    assert s[e] == u[|v| + 1];
    assert s[d.pos + 1..e] == u[1..|v| + 1];
    QuoteStops(s, d.pos + 1, e, Pos(d.at.line, d.at.column + 1));
  }

  /** The string scan stops at the first double quote. */
  lemma QuoteStops(s: string, i: nat, e: nat, at: Pos)
    requires i <= e < |s| && s[e] == '"' && '"' !in s[i..e]
    ensures ScanString(s, i, at).0 == e
  {
  }

  lemma SymbolAt(s: string, d: Cursor, k: Kind)
    requires SymbolText(k) != ""
    requires d.pos + |SymbolText(k)| <= |s| && s[d.pos..d.pos + |SymbolText(k)|] == SymbolText(k)
    ensures s[d.pos] in "=<>{}(),-"
    ensures MakeSymbol(s, d).0.kind == k && MakeSymbol(s, d).0.value == SymbolText(k)
    ensures MakeSymbol(s, d).1.pos == d.pos + |SymbolText(k)|
  {
    var w := SymbolText(k);
    assert s[d.pos] == w[0];
    if k == Arrow {
      assert s[d.pos + 1] == w[1];
    } else {
      assert |w| == 1 && SymbolKind(w[0]) == k;
    }
  }
}

=== FILE: lexer6.dfy ===
/** The table-driven ChronoLang lexer of `src/6parser/lexer.cpp` (the same
    file as `src/lab6/lexer.cpp`). White space is skipped one character at a
    time; otherwise the first pattern of the table that matches at the
    cursor makes a token, and a character no pattern matches is skipped
    without a token. Each pattern is written out here as a prefix matcher. */
module PatternLexer {
  import opened Wrappers
  import opened Text
  import opened SourcePos
  import opened Lexemes

  /** The token types the table, the keyword map and the parser use. */
  datatype Kind =
    | Load | From | Set | Window | Trend | Forecast | Using | Stream | Select | Where | Date
    | Plot | Export | To | For | In | Remove | Missing | Replace | With | Analyze
    | BasedOn | Below | Above | Mean | Median | Tendency | Arima | Prophet | Lstm
    | LinePlot | Histogram | ScatterPlot | BarPlot
    | EqualEqual | LessEqual | GreaterEqual | NotEqual | Arrow | Equal | Less | Greater
    | LBrace | RBrace | LParen | RParen | LBracket | RBracket | Comma | Dot
    | StringLit | TimeUnit | FloatLit | IntLit | Id
    | EndOfFile

  /** A token carries the line and column at which its lexeme starts. */
  datatype Token = Token(kind: Kind, value: string, line: int, column: int)

  /** The keyword map, keyed by upper-case spelling. */
  function KeywordKind(u: string): Option<Kind>
  {
    match u
    case "LOAD" => Some(Load) case "FROM" => Some(From) case "SET" => Some(Set)
    case "WINDOW" => Some(Window) case "TREND" => Some(Trend) case "FORECAST" => Some(Forecast)
    case "USING" => Some(Using) case "STREAM" => Some(Stream) case "SELECT" => Some(Select)
    case "WHERE" => Some(Where) case "DATE" => Some(Date) case "PLOT" => Some(Plot)
    case "EXPORT" => Some(Export) case "TO" => Some(To) case "FOR" => Some(For)
    case "IN" => Some(In) case "REMOVE" => Some(Remove) case "MISSING" => Some(Missing)
    case "REPLACE" => Some(Replace) case "WITH" => Some(With) case "ANALYZE" => Some(Analyze)
    case "BASED_ON" => Some(BasedOn) case "BELOW" => Some(Below) case "ABOVE" => Some(Above)
    case "MEAN" => Some(Mean) case "MEDIAN" => Some(Median) case "TENDENCY" => Some(Tendency)
    case "ARIMA" => Some(Arima) case "PROPHET" => Some(Prophet) case "LSTM" => Some(Lstm)
    case "LINEPLOT" => Some(LinePlot) case "HISTOGRAM" => Some(Histogram)
    case "SCATTERPLOT" => Some(ScatterPlot) case "BARPLOT" => Some(BarPlot)
    case _ => None
  }

  predicate IsKeyword(k: Kind)
  {
    || k.Load? || k.From? || k.Set? || k.Window? || k.Trend? || k.Forecast? || k.Using?
    || k.Stream? || k.Select? || k.Where? || k.Date? || k.Plot? || k.Export? || k.To?
    || k.For? || k.In? || k.Remove? || k.Missing? || k.Replace? || k.With? || k.Analyze?
    || k.BasedOn? || k.Below? || k.Above? || k.Mean? || k.Median? || k.Tendency?
    || k.Arima? || k.Prophet? || k.Lstm? || k.LinePlot? || k.Histogram? || k.ScatterPlot?
    || k.BarPlot?
  }

  /** The spelling under which a keyword type is in the map. */
  function KeywordText(k: Kind): string
  {
    match k
    case Load => "LOAD" case From => "FROM" case Set => "SET" case Window => "WINDOW"
    case Trend => "TREND" case Forecast => "FORECAST" case Using => "USING"
    case Stream => "STREAM" case Select => "SELECT" case Where => "WHERE" case Date => "DATE"
    case Plot => "PLOT" case Export => "EXPORT" case To => "TO" case For => "FOR" case In => "IN"
    case Remove => "REMOVE" case Missing => "MISSING" case Replace => "REPLACE"
    case With => "WITH" case Analyze => "ANALYZE" case BasedOn => "BASED_ON"
    case Below => "BELOW" case Above => "ABOVE" case Mean => "MEAN" case Median => "MEDIAN"
    case Tendency => "TENDENCY" case Arima => "ARIMA" case Prophet => "PROPHET" case Lstm => "LSTM"
    case LinePlot => "LINEPLOT" case Histogram => "HISTOGRAM" case ScatterPlot => "SCATTERPLOT"
    case BarPlot => "BARPLOT"
    case _ => ""
  }

  /** The type an `ID` match finally gets: the keyword type of its
      upper-cased spelling, if there is one. */
  function ClassifyWord(v: string): Kind
  {
    var k := KeywordKind(UpperString(v));
    if k.Some? then k.value else Id
  }

  /** The type of a token whose lexeme `v` matched the pattern of `k`:
      only an `ID` match is looked up in the keyword map. */
  function FinalKind(k: Kind, v: string): (r: Kind)
    requires k != EndOfFile
    ensures r != EndOfFile
    ensures k != Id ==> r == k
  {
    if k == Id then
      WordKinds(v);
      ClassifyWord(v)
    else k
  }

  /** A word is a keyword or an identifier. */
  lemma WordKinds(v: string)
    ensures ClassifyWord(v) == Id || IsKeyword(ClassifyWord(v))
  {
  }

  // ---------------------------------------------------------------------
  // The patterns

  /** The two characters `a b` at `p`. */
  predicate Two(s: string, p: nat, a: char, b: char)
    requires p < |s|
  {
    s[p] == a && p + 1 < |s| && s[p + 1] == b
  }

  /** The two-character patterns, which come first in the table. */
  function TwoCharKind(a: char, b: char): (r: Option<Kind>)
    ensures r.Some? ==> SymbolText(r.value) == [a, b]
  {
    if a == '=' && b == '=' then Some(EqualEqual)
    else if a == '<' && b == '=' then Some(LessEqual)
    else if a == '>' && b == '=' then Some(GreaterEqual)
    else if a == '!' && b == '=' then Some(NotEqual)
    else if a == '-' && b == '>' then Some(Arrow)
    else None
  }

  /** The one-character patterns, after the two-character ones. */
  function OneCharKind(c: char): (r: Option<Kind>)
    ensures r.Some? ==> SymbolText(r.value) == [c]
  {
    match c
    case '=' => Some(Equal) case '<' => Some(Less) case '>' => Some(Greater)
    case '{' => Some(LBrace) case '}' => Some(RBrace) case '(' => Some(LParen)
    case ')' => Some(RParen) case '[' => Some(LBracket) case ']' => Some(RBracket)
    case ',' => Some(Comma) case '.' => Some(Dot)
    case _ => None
  }

  /** The fixed patterns of the table, in table order: a two-character
      pattern is tried before any one-character one. */
  function SymbolMatch(s: string, p: nat): (r: Option<(Kind, nat)>)
    requires p < |s|
    ensures r.Some? ==> r.value.1 == |SymbolText(r.value.0)| && p + r.value.1 <= |s|
    ensures r.Some? ==> s[p..p + r.value.1] == SymbolText(r.value.0)
    ensures r.None? <==> OneCharKind(s[p]).None? && (p + 1 < |s| ==> TwoCharKind(s[p], s[p + 1]).None?)
  {
    if p + 1 < |s| && TwoCharKind(s[p], s[p + 1]).Some? then
      assert s[p..p + 2] == [s[p], s[p + 1]];
      Some((TwoCharKind(s[p], s[p + 1]).value, 2))
    else if OneCharKind(s[p]).Some? then
      assert s[p..p + 1] == [s[p]];
      Some((OneCharKind(s[p]).value, 1))
    else None
  }

  /** The text of a fixed pattern. */
  function SymbolText(k: Kind): string
  {
    match k
    case EqualEqual => "==" case LessEqual => "<=" case GreaterEqual => ">=" case NotEqual => "!="
    case Arrow => "->" case Equal => "=" case Less => "<" case Greater => ">"
    case LBrace => "{" case RBrace => "}" case LParen => "(" case RParen => ")"
    case LBracket => "[" case RBracket => "]" case Comma => "," case Dot => "."
    case _ => ""
  }

  /** Length of the run of characters other than a double quote and a
      newline from `from`. */
  function QuoteRun(s: string, from: nat): (k: nat)
    requires from <= |s|
    ensures from + k <= |s|
    ensures forall i :: from <= i < from + k ==> s[i] != '"' && s[i] != '\n'
    ensures from + k == |s| || s[from + k] == '"' || s[from + k] == '\n'
    decreases |s| - from
  {
    if from < |s| && s[from] != '"' && s[from] != '\n' then 1 + QuoteRun(s, from + 1) else 0
  }

  /** `STRING`, `"([^"\n]*)"`: a closing quote on the same line. The match
      includes both quotes. */
  function StringLength(s: string, p: nat): (r: Option<nat>)
    requires p < |s|
    ensures r.Some? ==> 2 <= r.value && p + r.value <= |s|
    ensures r.Some? ==> s[p] == '"' && s[p + r.value - 1] == '"'
    ensures r.Some? ==> forall i :: p < i < p + r.value - 1 ==> s[i] != '"' && s[i] != '\n'
    ensures r.None? && s[p] == '"' ==> var e := p + 1 + QuoteRun(s, p + 1); e == |s| || s[e] == '\n'
  {
    if s[p] != '"' then None
    else
      var e := p + 1 + QuoteRun(s, p + 1);
      if e < |s| && s[e] == '"' then Some(e + 1 - p) else None
  }

  predicate IsUnit(c: char) { c == 'd' || c == 'h' || c == 'm' }

  /** `TIME_UNIT`, `\\d+(d|h|m)`: digits and one unit letter. */
  function TimeUnitLength(s: string, p: nat): (r: Option<nat>)
    requires p <= |s|
    ensures r.Some? ==> 2 <= r.value && p + r.value <= |s|
    ensures r.Some? ==> AllDigits(s[p..p + r.value - 1]) && IsUnit(s[p + r.value - 1])
    ensures r.Some? <==> 0 < DigitRun(s, p) && p + DigitRun(s, p) < |s| && IsUnit(s[p + DigitRun(s, p)])
  {
    var k := DigitRun(s, p);
    var v := s[p..p + k];
    assert forall j :: 0 <= j < k ==> v[j] == s[p + j];
    if k > 0 && p + k < |s| && IsUnit(s[p + k]) then Some(k + 1) else None
  }

  /** `k` digits at `p`, then a dot and a digit. */
  predicate DecimalAt(s: string, p: nat, k: nat)
    requires p + k <= |s|
  {
    0 < k && p + k + 1 < |s| && s[p + k] == '.' && IsDigit(s[p + k + 1])
  }

  /** `FLOAT`, `\d+\.\d+`. */
  function FloatLength(s: string, p: nat): (r: Option<nat>)
    requires p <= |s|
    ensures r.Some? ==> p + r.value <= |s| && FloatText(s[p..p + r.value])
    ensures r.Some? ==> p + r.value == |s| || !IsDigit(s[p + r.value])
    ensures r.Some? <==> DecimalAt(s, p, DigitRun(s, p))
  {
    var k := DigitRun(s, p);
    if DecimalAt(s, p, k) then
      var e := p + k + 1 + DigitRun(s, p + k + 1);
      FloatSpan(s, p, p + k, e);
      Some(e - p)
    else None
  }

  /** `INT`, `\d+`. */
  function IntLength(s: string, p: nat): (r: Option<nat>)
    requires p <= |s|
    ensures r.Some? ==> 0 < r.value && p + r.value <= |s| && AllDigits(s[p..p + r.value])
    ensures r.Some? ==> p + r.value == |s| || !IsDigit(s[p + r.value])
    ensures r.Some? <==> p < |s| && IsDigit(s[p])
  {
    var k := DigitRun(s, p);
    var v := s[p..p + k];
    assert forall j :: 0 <= j < k ==> v[j] == s[p + j];
    if k > 0 then Some(k) else None
  }

  /** `ID`, `[A-Za-z_][A-Za-z0-9_]*`. */
  function IdLength(s: string, p: nat): (r: Option<nat>)
    requires p <= |s|
    ensures r.Some? ==> p + r.value <= |s| && IsWord(s[p..p + r.value])
    ensures r.Some? ==> p + r.value == |s| || !WordChar(s[p + r.value])
    ensures r.Some? <==> p < |s| && WordStart(s[p])
  {
    if p < |s| && WordStart(s[p]) then
      var k := WordRun(s, p);
      var v := s[p..p + k];
      assert forall j :: 0 <= j < k ==> v[j] == s[p + j];
      Some(k)
    else None
  }

  /** The loop over the pattern table: the first pattern that matches at
      `p`, with the length of its match. */
  function Lexeme(s: string, p: nat): (r: Option<(Kind, nat)>)
    requires p < |s|
    ensures r.Some? ==> 0 < r.value.1 && p + r.value.1 <= |s| && r.value.0 != EndOfFile
  {
    var sym := SymbolMatch(s, p);
    if sym.Some? then sym
    else if StringLength(s, p).Some? then Some((StringLit, StringLength(s, p).value))
    else if TimeUnitLength(s, p).Some? then Some((TimeUnit, TimeUnitLength(s, p).value))
    else if FloatLength(s, p).Some? then Some((FloatLit, FloatLength(s, p).value))
    else if IntLength(s, p).Some? then Some((IntLit, IntLength(s, p).value))
    else if IdLength(s, p).Some? then Some((Id, IdLength(s, p).value))
    else None
  }

  // ---------------------------------------------------------------------
  // `tokenize`

  /** A token list that ends with one end-of-file token at `w`, after
      tokens with non-empty lexemes. */
  predicate Ended(r: seq<Token>, w: Pos)
  {
    && |r| > 0 && r[|r| - 1] == Token(EndOfFile, "", w.line, w.column)
    && (forall i :: 0 <= i < |r| - 1 ==> r[i].kind != EndOfFile)
    && (forall i :: 0 <= i < |r| - 1 ==> |r[i].value| > 0)
  }

  lemma EndedCons(t: Token, rest: seq<Token>, w: Pos)
    requires t.kind != EndOfFile && |t.value| > 0 && Ended(rest, w)
    ensures Ended([t] + rest, w)
  {
    var r := [t] + rest;
    assert forall i :: 0 < i < |r| ==> r[i] == rest[i - 1];
  }

  /** The loop of `tokenize` on the remaining input `r`, at position
      `at`. */
  function TokenizeFrom(r: string, at: Pos): (ts: seq<Token>)
    ensures Ended(ts, Walk(at, r))
    decreases |r|
  {
    if |r| == 0 then [Token(EndOfFile, "", at.line, at.column)]
    else if IsSpace(r[0]) || Lexeme(r, 0).None? then
      TokenizeFrom(r[1..], Step(at, r[0]))
    else
      var m := Lexeme(r, 0).value;
      var v := r[..m.1];
      var t := Token(FinalKind(m.0, v), v, at.line, at.column);
      var rest := TokenizeFrom(r[m.1..], Walk(at, v));
      assert r == v + r[m.1..];
      WalkAppend(at, v, r[m.1..]);
      EndedCons(t, rest, Walk(at, r));
      [t] + rest
  }

  /** `Lexer::tokenize` on the whole input, from line 1, column 1. */
  function Tokenize(s: string): (r: seq<Token>)
    ensures |r| > 0 && r[|r| - 1].kind == EndOfFile && r[|r| - 1].value == ""
    ensures r[|r| - 1].line == 1 + Newlines(s)
    ensures forall i :: 0 <= i < |r| - 1 ==> r[i].kind != EndOfFile && |r[i].value| > 0
  {
    WalkLine(Start, s);
    TokenizeFrom(s, Start)
  }

  // ---------------------------------------------------------------------
  // Examples from the pattern table

  /** Table order decides: a two-character operator wins over its first
      character. */
  lemma OperatorExamples()
    ensures Lexeme("==", 0) == Some((EqualEqual, 2))
    ensures Lexeme("->", 0) == Some((Arrow, 2))
    ensures Lexeme("=x", 0) == Some((Equal, 1))
  {
  }

  /** A time unit wins over the integer inside it. */
  lemma TimeUnitExample()
    ensures Lexeme("7d", 0) == Some((TimeUnit, 2))
  {
    assert DigitRun("7d", 0) == 1;
  }

  /** A float wins over the integer before its dot. */
  lemma FloatExample()
    ensures Lexeme("12.5", 0) == Some((FloatLit, 4))
  {
    assert DigitRun("12.5", 0) == 2 && DigitRun("12.5", 3) == 1;
  }

  /** Digits with a dot and no digit after it are only an integer. */
  lemma IntExample()
    ensures Lexeme("12.", 0) == Some((IntLit, 2))
  {
    assert DigitRun("12.", 0) == 2;
  }

  /** A quote without a closing quote on its line matches nothing. */
  lemma OpenStringExample()
    ensures Lexeme("\"a\nb\"", 0) == None
  {
    assert QuoteRun("\"a\nb\"", 1) == 1;
  }

  /** A lone `!` and a lone `-` match nothing. */
  lemma StrayExamples()
    ensures Lexeme("!", 0) == None && Lexeme("-x", 0) == None
  {
  }

  /** Keyword lookup ignores case; the lexeme keeps its spelling. */
  lemma ClassifyExamples()
    ensures ClassifyWord("load") == Load && ClassifyWord("Load") == Load
  {
    assert UpperString("load") == "LOAD" && UpperString("Load") == "LOAD";
  }

  /** A word that is no keyword in any case is an identifier. */
  lemma IdentifierExample()
    ensures ClassifyWord("d") == Id
  {
    assert UpperString("d") == "D";
  }

  // ---------------------------------------------------------------------
  // Keywords

  /** The keyword map sends exactly the upper-case spelling of a keyword
      type to that type. */
  lemma KeywordMap(u: string, k: Kind)
    ensures KeywordKind(u) == Some(k) <==> IsKeyword(k) && u == KeywordText(k)
  {
    if IsKeyword(k) {
      KeywordSpelling(k);
    }
    if KeywordKind(u).Some? {
      KeywordFound(u);
    }
  }

  /** Each keyword type is in the map under its spelling. */
  lemma KeywordSpelling(k: Kind)
    requires IsKeyword(k)
    ensures KeywordKind(KeywordText(k)) == Some(k)
  {
  }

  /** Whatever the map finds is a keyword type under its spelling. */
  lemma KeywordFound(u: string)
    requires KeywordKind(u).Some?
    ensures IsKeyword(KeywordKind(u).value) && u == KeywordText(KeywordKind(u).value)
  {
  }

  /** A word has keyword type `k` exactly when its upper-cased spelling is
      the spelling of `k`, and is an identifier exactly when no keyword is
      spelt that way. */
  lemma ClassifyWordIff(v: string, k: Kind)
    ensures IsKeyword(k) ==> (ClassifyWord(v) == k <==> UpperString(v) == KeywordText(k))
    ensures ClassifyWord(v) == Id <==> forall j: Kind :: IsKeyword(j) ==> UpperString(v) != KeywordText(j)
  {
    KeywordMap(UpperString(v), k);
    if ClassifyWord(v) != Id {
      KeywordMap(UpperString(v), ClassifyWord(v));
    } else {
      forall j: Kind | IsKeyword(j) ensures UpperString(v) != KeywordText(j) {
        KeywordMap(UpperString(v), j);
      }
    }
  }

  // ---------------------------------------------------------------------
  // Re-lexing laid-out tokens

  /** A token whose lexeme, between spaces, the table matches again with
      the token's type. */
  predicate Lexable(t: Token)
  {
    var v := t.value;
    match t.kind
    case StringLit =>
      && 2 <= |v| && v[0] == '"' && v[|v| - 1] == '"'
      && forall i :: 0 < i < |v| - 1 ==> v[i] != '"' && v[i] != '\n'
    case TimeUnit => 2 <= |v| && AllDigits(v[..|v| - 1]) && IsUnit(v[|v| - 1])
    case FloatLit => FloatText(v)
    case IntLit => |v| > 0 && AllDigits(v)
    case EndOfFile => false
    case _ => if SymbolText(t.kind) != "" then v == SymbolText(t.kind)
              else IsWord(v) && ClassifyWord(v) == t.kind
  }

  /** The lexemes of `ts`, each after one space. */
  function Layout(ts: seq<Token>): string
  {
    if |ts| == 0 then "" else " " + (ts[0].value + Layout(ts[1..]))
  }

  lemma LayoutStart(ts: seq<Token>)
    ensures Layout(ts) == "" || Layout(ts)[0] == ' '
  {
  }

  /** The tokens `ts` with the positions `tokenize` gives them in their
      layout from `at`, then the end-of-file token. */
  function Placed(ts: seq<Token>, at: Pos): seq<Token>
  {
    if |ts| == 0 then [Token(EndOfFile, "", at.line, at.column)]
    else
      [Token(ts[0].kind, ts[0].value, at.line, at.column + 1)]
      + Placed(ts[1..], Walk(Pos(at.line, at.column + 1), ts[0].value))
  }

  /** The type of the pattern that matches a lexeme: keywords match `ID`. */
  function PatternKind(k: Kind): Kind
  {
    if IsKeyword(k) then Id else k
  }

  /** A lexeme `v` at `q`, followed by a space or the end. */
  predicate Spaced(s: string, q: nat, v: string)
  {
    q + |v| <= |s| && s[q..q + |v|] == v && (q + |v| == |s| || s[q + |v|] == ' ')
  }

  /** Every token of `ts` is lexable. */
  predicate AllLexable(ts: seq<Token>)
  {
    forall i :: 0 <= i < |ts| ==> Lexable(ts[i])
  }

  /** `tokenize` on a layout gives back the tokens with their positions. */
  lemma {:induction false} LayoutRelexes(ts: seq<Token>, at: Pos)
    requires AllLexable(ts)
    ensures TokenizeFrom(Layout(ts), at) == Placed(ts, at)
    decreases |ts|
  {
    if |ts| > 0 {
      assert Lexable(ts[0]) && AllLexable(ts[1..]) by {
        assert forall i :: 0 <= i < |ts| - 1 ==> ts[1..][i] == ts[i + 1];
      }
      LayoutStart(ts[1..]);
      RelexHead(ts[0], Layout(ts[1..]), at);
      LayoutRelexes(ts[1..], Walk(Pos(at.line, at.column + 1), ts[0].value));
      PlacedCons(ts, at);
    }
  }

  lemma PlacedCons(ts: seq<Token>, at: Pos)
    requires |ts| > 0
    ensures Placed(ts, at)
         == [Token(ts[0].kind, ts[0].value, at.line, at.column + 1)]
            + Placed(ts[1..], Walk(Pos(at.line, at.column + 1), ts[0].value))
  {
  }

  /** One space, then a lexable token, then text that is empty or starts
      with a space. */
  lemma RelexHead(t: Token, rest: string, at: Pos)
    requires Lexable(t) && (rest == "" || rest[0] == ' ')
    ensures TokenizeFrom(" " + (t.value + rest), at)
         == [Token(t.kind, t.value, at.line, at.column + 1)]
            + TokenizeFrom(rest, Walk(Pos(at.line, at.column + 1), t.value))
  {
    var v := t.value;
    LexableShape(t);
    HeadSpaced(v, rest);
    HeadMatch(v + rest, 0, t);
    TokenStep(v, rest, at, PatternKind(t.kind), t.kind);
  }

  /** The lexeme of a layout step lies between spaces. */
  lemma HeadSpaced(v: string, rest: string)
    requires rest == "" || rest[0] == ' '
    ensures Spaced(v + rest, 0, v)
  {
    assert (v + rest)[0..|v|] == v;
    if rest != "" {
      assert (v + rest)[|v|] == rest[0];
    }
  }

  /** How the table matches a lexable token between spaces. */
  lemma HeadMatch(s: string, q: nat, t: Token)
    requires Lexable(t) && Spaced(s, q, t.value)
    ensures |t.value| > 0 && !IsSpace(t.value[0])
    ensures Lexeme(s, q) == Some((PatternKind(t.kind), |t.value|))
    ensures FinalKind(PatternKind(t.kind), t.value) == t.kind
  {
    RelexOne(s, q, t);
    LexableShape(t);
  }

  /** One space, then a lexeme the table matches. */
  lemma TokenStep(v: string, rest: string, at: Pos, k0: Kind, k: Kind)
    requires |v| > 0 && !IsSpace(v[0]) && (rest == "" || rest[0] == ' ')
    requires Lexeme(v + rest, 0) == Some((k0, |v|)) && FinalKind(k0, v) == k
    ensures TokenizeFrom(" " + (v + rest), at)
         == [Token(k, v, at.line, at.column + 1)]
            + TokenizeFrom(rest, Walk(Pos(at.line, at.column + 1), v))
  {
    LeadingSpace(v + rest);
    SkipSpace(" " + (v + rest), at);
    TakeToken(v, rest, Pos(at.line, at.column + 1), k0, k);
  }

  /** The string after a prepended space is the original one. */
  lemma LeadingSpace(r: string)
    ensures (" " + r)[0] == ' ' && (" " + r)[1..] == r
  {
  }

  /** A leading space is skipped. */
  lemma SkipSpace(r: string, at: Pos)
    requires |r| > 0 && IsSpace(r[0])
    ensures TokenizeFrom(r, at) == TokenizeFrom(r[1..], Step(at, r[0]))
  {
  }

  /** A match of the pattern of `k0` whose lexeme `v` ends up with type
      `k`, followed by `rest`. */
  lemma TakeToken(v: string, rest: string, at: Pos, k0: Kind, k: Kind)
    requires |v| > 0 && !IsSpace(v[0]) && (rest == "" || rest[0] == ' ')
    requires Lexeme(v + rest, 0) == Some((k0, |v|)) && FinalKind(k0, v) == k
    ensures TokenizeFrom(v + rest, at) == [Token(k, v, at.line, at.column)] + TokenizeFrom(rest, Walk(at, v))
  {
    var r := v + rest;
    assert r[0] == v[0] && r[..|v|] == v && r[|v|..] == rest;
  }

  /** A lexable token, between spaces, is matched again with its type. */
  lemma RelexOne(s: string, q: nat, t: Token)
    requires Lexable(t) && Spaced(s, q, t.value)
    ensures Lexeme(s, q) == Some((PatternKind(t.kind), |t.value|))
  {
    var v := t.value;
    match t.kind
    case StringLit => StringLexeme(s, q, v);
    case TimeUnit => TimeUnitLexeme(s, q, v);
    case FloatLit => FloatLexeme(s, q, v);
    case IntLit => IntLexeme(s, q, v);
    case _ =>
      if SymbolText(t.kind) != "" {
        SymbolLexeme(s, q, t.kind);
      } else {
        WordKinds(v);
        WordLexeme(s, q, v);
      }
  }

  /** A lexable token's lexeme is one line that starts with no space, and
      the keyword lookup after an `ID` match gives its type back. */
  lemma LexableShape(t: Token)
    requires Lexable(t)
    ensures |t.value| > 0 && !IsSpace(t.value[0]) && '\n' !in t.value
    ensures FinalKind(PatternKind(t.kind), t.value) == t.kind
  {
    var v := t.value;
    match t.kind
    case StringLit => OneLine(v);
    case TimeUnit =>
      assert v[0] == v[..|v| - 1][0];
      forall i | 0 <= i < |v| ensures v[i] != '\n' {
        if i < |v| - 1 {
          assert v[..|v| - 1][i] == v[i];
        }
      }
      OneLine(v);
    case FloatLit =>
      var i := DigitRun(v, 0);
      FractionDigits(v, i);
      OneLine(v);
    case IntLit => OneLine(v);
    case _ =>
      if SymbolText(t.kind) != "" {
        SymbolPattern(t.kind);
      } else {
        WordKinds(v);
        OneLine(v);
      }
  }

  /** A character that starts a literal or a word starts no fixed
      pattern. */
  lemma NotSymbolStart(c: char)
    requires IsDigit(c) || WordStart(c) || c == '"'
    ensures OneCharKind(c).None? && forall x :: TwoCharKind(c, x).None?
  {
  }

  /** A lexeme without a newline character. */
  lemma OneLine(v: string)
    requires forall i :: 0 <= i < |v| ==> v[i] != '\n'
    ensures '\n' !in v
  {
  }

  /** The fixed patterns: a one-character pattern is no prefix of a
      two-character one that ends in a space. */
  lemma SymbolPattern(k: Kind)
    requires SymbolText(k) != ""
    ensures var w := SymbolText(k);
      && (|w| == 1 || |w| == 2) && !IsKeyword(k) && k != Id && !IsSpace(w[0]) && '\n' !in w
      && (|w| == 1 ==> OneCharKind(w[0]) == Some(k) && TwoCharKind(w[0], ' ').None?)
      && (|w| == 2 ==> TwoCharKind(w[0], w[1]) == Some(k))
  {
  }

  lemma SymbolLexeme(s: string, q: nat, k: Kind)
    requires SymbolText(k) != "" && Spaced(s, q, SymbolText(k))
    ensures Lexeme(s, q) == Some((k, |SymbolText(k)|))
  {
    var w := SymbolText(k);
    SymbolPattern(k);
    assert s[q] == w[0];
    if |w| == 2 {
      assert s[q + 1] == w[1];
    }
  }

  lemma StringLexeme(s: string, q: nat, v: string)
    requires 2 <= |v| && v[0] == '"' && v[|v| - 1] == '"'
    requires forall i :: 0 < i < |v| - 1 ==> v[i] != '"' && v[i] != '\n'
    requires Spaced(s, q, v)
    ensures Lexeme(s, q) == Some((StringLit, |v|))
  {
    assert forall j :: 0 <= j < |v| ==> s[q + j] == v[j];
    NotSymbolStart(s[q]);
    assert QuoteRun(s, q + 1) == |v| - 2;
  }

  lemma TimeUnitLexeme(s: string, q: nat, v: string)
    requires 2 <= |v| && AllDigits(v[..|v| - 1]) && IsUnit(v[|v| - 1])
    requires Spaced(s, q, v)
    ensures Lexeme(s, q) == Some((TimeUnit, |v|))
  {
    var n := |v| - 1;
    forall j | 0 <= j < n ensures IsDigit(v[j]) {
      assert v[..n][j] == v[j];
    }
    DigitsCarry(s, q, v, 0, n);
    assert s[q + n] == v[n];
    DigitRunStops(s, q, q + n);
    assert s[q] == v[0];
    NotSymbolStart(s[q]);
  }

  lemma FloatLexeme(s: string, q: nat, v: string)
    requires FloatText(v) && Spaced(s, q, v)
    ensures Lexeme(s, q) == Some((FloatLit, |v|))
  {
    var i := DigitRun(v, 0);
    DigitsCarry(s, q, v, 0, i);
    assert s[q + i] == v[i];
    DigitRunStops(s, q, q + i);
    FractionDigits(v, i);
    DigitsCarry(s, q, v, i + 1, |v|);
    DigitRunStops(s, q + i + 1, q + |v|);
    NotSymbolStart(s[q]);
    assert SymbolMatch(s, q).None? && StringLength(s, q).None?;
    assert TimeUnitLength(s, q).None?;
    assert FloatLength(s, q) == Some(|v|);
  }

  lemma IntLexeme(s: string, q: nat, v: string)
    requires |v| > 0 && AllDigits(v) && Spaced(s, q, v)
    ensures Lexeme(s, q) == Some((IntLit, |v|))
  {
    DigitsCarry(s, q, v, 0, |v|);
    DigitRunStops(s, q, q + |v|);
    NotSymbolStart(s[q]);
    assert SymbolMatch(s, q).None? && StringLength(s, q).None?;
    assert TimeUnitLength(s, q).None? && FloatLength(s, q).None?;
    assert IntLength(s, q) == Some(|v|);
  }

  lemma WordLexeme(s: string, q: nat, v: string)
    requires IsWord(v) && Spaced(s, q, v)
    ensures Lexeme(s, q) == Some((Id, |v|))
  {
    assert forall j :: 0 <= j < |v| ==> s[q + j] == v[j];
    NotSymbolStart(s[q]);
    DigitRunStops(s, q, q);
  }
}

=== FILE: ordered.dfy ===
/** The stand-alone automaton of `lab2.cpp`: ordered containers, symbols
    are characters, a transition map keyed by (state, symbol) pairs, and a
    subset construction that names each set of states by its members in
    ascending order, `"{q0,q1}"`. */
module OrderedSubsetConstruction {
  import opened Text
  import opened SubsetWorklist

  type State = string
  type TransitionMap = map<(State, char), set<State>>

  datatype OrderedAutomaton = OrderedAutomaton(
    states: set<State>,
    alphabet: set<char>,
    transitions: TransitionMap,
    start: State,
    finals: set<State>)

  /** `FiniteAutomaton::isDeterministic`: no key of the map has two or more
      targets. The map is visited in key order and the loop stops at the
      first offending key; the verdict does not depend on the order. */
  method IsDeterministic(a: OrderedAutomaton) returns (r: bool)
    ensures r <==> forall k :: k in a.transitions ==> |a.transitions[k]| <= 1
    ensures !r <==> exists k :: k in a.transitions && |a.transitions[k]| > 1
  {
    var todo := a.transitions.Keys;
    while todo != {}
      invariant todo <= a.transitions.Keys
      invariant forall k :: k in a.transitions && k !in todo ==> |a.transitions[k]| <= 1
      decreases |todo|
    {
      var key :| key in todo;
      if |a.transitions[key]| > 1 {
        return false;
      }
      todo := todo - {key};
    }
    return true;
  }

  /** The successor set of `s` on `x`: the union of the targets of its
      members; a pair without an entry contributes nothing. */
  function Successors(t: TransitionMap, s: set<State>, x: char): (next: set<State>)
    ensures forall q :: q in next <==> exists p :: p in s && (p, x) in t && q in t[(p, x)]
  {
    set p, q | p in s && (p, x) in t && q in t[(p, x)] :: q
  }

  function StepFn(t: TransitionMap): (f: (set<State>, char) -> set<State>)
    ensures forall s, x :: f(s, x) == Successors(t, s, x)
  {
    (s: set<State>, x: char) => Successors(t, s, x)
  }

  function Universe(a: OrderedAutomaton): set<State>
  {
    {a.start} + set k, q | k in a.transitions && q in a.transitions[k] :: q
  }

  lemma StepFnWithin(a: OrderedAutomaton)
    ensures StepWithin(StepFn(a.transitions), Universe(a))
    ensures EmptyIsDead(StepFn(a.transitions))
  {
    var f := StepFn(a.transitions);
    forall s, x | s <= Universe(a)
      ensures f(s, x) <= Universe(a)
    {
      forall q | q in f(s, x)
        ensures q in Universe(a)
      {
        var p :| p in s && (p, x) in a.transitions && q in a.transitions[(p, x)];
      }
    }
  }

  /** The sets the queue of `convertToDFA` holds, in the order they are
      enqueued: the start set first; the alphabet is visited in ascending
      order, as a `std::set<char>` iterates; every set enqueued once. */
  function Subsets(a: OrderedAutomaton): (r: seq<set<State>>)
    ensures |r| > 0 && r[0] == {a.start} && NoDup(r)
    ensures forall k :: 0 <= k < |r| ==> r[k] != {} && r[k] <= Universe(a)
    ensures ClosedFrom(StepFn(a.transitions), SortedChars(a.alphabet), r, 0, |r|)
    ensures |r| <= |PowerSet(Universe(a))|
  {
    StepFnWithin(a);
    var r := Reachable(StepFn(a.transitions), SortedChars(a.alphabet), Universe(a), {a.start});
    WithinPowerSet(Universe(a), r);
    r
  }

  /** The name of a non-empty set of states: its members in ascending order
      (a `std::set<std::string>` iterates so), separated by commas, in
      braces. */
  function Name(s: set<State>): (r: string)
    ensures |r| >= 2 && r[0] == '{' && r[|r| - 1] == '}'
  {
    "{" + JoinWith(SortedSet(s), ",") + "}"
  }

  /** The start set's name, `"{" + startState + "}"`, is its name as a
      set of one state. */
  lemma NameOfSingleton(q: State)
    ensures Name({q}) == "{" + q + "}"
  {
    var qs := SortedSet({q});
    assert qs[0] == q;
    assert qs == [q];
  }

  /** The states of the result: the names of the sets met, starting with
      the start set's. */
  function Names(fam: set<set<State>>): (r: set<State>)
    ensures forall s :: s in fam ==> Name(s) in r
    ensures forall n :: n in r ==> exists s :: s in fam && n == Name(s)
  {
    set s | s in fam :: Name(s)
  }

  /** The names of the sets met that hold a final state. */
  function FinalNames(fam: set<set<State>>, finals: set<State>): (r: set<State>)
    ensures forall s :: s in fam && s * finals != {} ==> Name(s) in r
    ensures forall n :: n in r ==> exists s :: s in fam && s * finals != {} && n == Name(s)
  {
    set s | s in fam && s * finals != {} :: Name(s)
  }

  /** `FiniteAutomaton::convertToDFA` as written: new states, the alphabet,
      the start set's name and the new final states, but the ORIGINAL
      transition map; `newTransitions` is built and then dropped. */
  function ConvertAsWritten(a: OrderedAutomaton): (d: OrderedAutomaton)
    ensures d.transitions == a.transitions
    ensures d.alphabet == a.alphabet && d.start == "{" + a.start + "}"
    ensures d.start in d.states
    ensures forall n :: n in d.finals <==>
      exists k :: 0 <= k < |Subsets(a)| && Subsets(a)[k] * a.finals != {} && n == Name(Subsets(a)[k])
  {
    var fam := Elems(Subsets(a));
    NameOfSingleton(a.start);
    assert Subsets(a)[0] in fam;
    OrderedAutomaton(Names(fam), a.alphabet, a.transitions, "{" + a.start + "}", FinalNames(fam, a.finals))
  }

  // ---------------------------------------------------------------------
  // The transition map the construction builds, `newTransitions`.

  /** The inner loop over the symbols `xs` for the dequeued set `s`, named
      `n`: each non-empty successor set is recorded under (`n`, symbol); an
      empty one is not recorded. */
  function Row(t: TransitionMap, n: State, s: set<State>, xs: seq<char>, m: map<(State, char), set<State>>): (r: map<(State, char), set<State>>)
    ensures forall key :: key in r <==>
      key in m || (key.0 == n && key.1 in xs && Successors(t, s, key.1) != {})
    ensures forall key :: key in r && key.0 == n && key.1 in xs && Successors(t, s, key.1) != {} ==> r[key] == {Name(Successors(t, s, key.1))}
    ensures forall key :: key in r && !(key.0 == n && key.1 in xs && Successors(t, s, key.1) != {}) ==> r[key] == m[key]
    decreases |xs|
  {
    if |xs| == 0 then m
    else
      var x := xs[0];
      var next := Successors(t, s, x);
      var m' := if next != {} then m[(n, x) := {Name(next)}] else m;
      var r := Row(t, n, s, xs[1..], m');
      RowStep(t, n, s, xs, m, m', r);
      r
  }

  lemma RowStep(t: TransitionMap, n: State, s: set<State>, xs: seq<char>, m: map<(State, char), set<State>>,
                m': map<(State, char), set<State>>, r: map<(State, char), set<State>>)
    requires |xs| > 0
    requires var next := Successors(t, s, xs[0]);
      m' == if next != {} then m[(n, xs[0]) := {Name(next)}] else m
    requires forall key :: key in r <==>
      key in m' || (key.0 == n && key.1 in xs[1..] && Successors(t, s, key.1) != {})
    requires forall key :: key in r && key.0 == n && key.1 in xs[1..] && Successors(t, s, key.1) != {} ==> r[key] == {Name(Successors(t, s, key.1))}
    requires forall key :: key in r && !(key.0 == n && key.1 in xs[1..] && Successors(t, s, key.1) != {}) ==> r[key] == m'[key]
    ensures forall key :: key in r <==>
      key in m || (key.0 == n && key.1 in xs && Successors(t, s, key.1) != {})
    ensures forall key :: key in r && key.0 == n && key.1 in xs && Successors(t, s, key.1) != {} ==> r[key] == {Name(Successors(t, s, key.1))}
    ensures forall key :: key in r && !(key.0 == n && key.1 in xs && Successors(t, s, key.1) != {}) ==> r[key] == m[key]
  {
    assert forall y :: y in xs <==> y == xs[0] || y in xs[1..];
  }

  /** The key `key` is recorded while the set `s` is dequeued. */
  predicate Written(t: TransitionMap, s: set<State>, xs: seq<char>, key: (State, char))
  {
    key.0 == Name(s) && key.1 in xs && Successors(t, s, key.1) != {}
  }

  /** The sets of `fam` have pairwise different names. */
  predicate DistinctNames(fam: seq<set<State>>)
  {
    forall i, j :: 0 <= i < j < |fam| ==> Name(fam[i]) != Name(fam[j])
  }

  /** The outer loop over the dequeued sets `fam`, in queue order; a later
      write to the same key overwrites an earlier one. */
  function NewTransitions(t: TransitionMap, fam: seq<set<State>>, xs: seq<char>, m: map<(State, char), set<State>>): (r: map<(State, char), set<State>>)
    ensures forall key :: key in r <==> key in m || exists k :: 0 <= k < |fam| && Written(t, fam[k], xs, key)
    ensures forall key :: key in r && (forall k :: 0 <= k < |fam| ==> !Written(t, fam[k], xs, key)) ==> key in m && r[key] == m[key]
    ensures (forall key :: key in m ==> |m[key]| == 1) ==> forall key :: key in r ==> |r[key]| == 1
    ensures DistinctNames(fam) ==> forall k, key :: 0 <= k < |fam| && Written(t, fam[k], xs, key) ==>
      key in r && r[key] == {Name(Successors(t, fam[k], key.1))}
    decreases |fam|
  {
    if |fam| == 0 then m
    else
      var m' := Row(t, Name(fam[0]), fam[0], xs, m);
      var r := NewTransitions(t, fam[1..], xs, m');
      StepKeys(t, fam, xs, m, m', r);
      StepFrame(t, fam, xs, m, m', r);
      StepSingles(t, fam, xs, m, m', r);
      StepValues(t, fam, xs, m', r);
      r
  }

  /** A key is written by some set of `fam` exactly when it is written by
      the first or by some set of the rest. */
  lemma WrittenCons(t: TransitionMap, fam: seq<set<State>>, xs: seq<char>, key: (State, char))
    requires |fam| > 0
    ensures (exists k :: 0 <= k < |fam| && Written(t, fam[k], xs, key)) <==>
      Written(t, fam[0], xs, key) || exists k :: 0 <= k < |fam[1..]| && Written(t, fam[1..][k], xs, key)
  {
    var tail := fam[1..];
    if exists k :: 0 <= k < |tail| && Written(t, tail[k], xs, key) {
      var k :| 0 <= k < |tail| && Written(t, tail[k], xs, key);
      assert tail[k] == fam[k + 1];
    }
    if exists k :: 0 <= k < |fam| && Written(t, fam[k], xs, key) {
      var k :| 0 <= k < |fam| && Written(t, fam[k], xs, key);
      if k > 0 {
        assert tail[k - 1] == fam[k];
      }
    }
  }

  lemma StepKeys(t: TransitionMap, fam: seq<set<State>>, xs: seq<char>, m: map<(State, char), set<State>>,
                 m': map<(State, char), set<State>>, r: map<(State, char), set<State>>)
    requires |fam| > 0
    requires forall key :: key in m' <==> key in m || Written(t, fam[0], xs, key)
    requires forall key :: key in r <==> key in m' || exists k :: 0 <= k < |fam[1..]| && Written(t, fam[1..][k], xs, key)
    ensures forall key :: key in r <==> key in m || exists k :: 0 <= k < |fam| && Written(t, fam[k], xs, key)
  {
    forall key
      ensures key in r <==> key in m || exists k :: 0 <= k < |fam| && Written(t, fam[k], xs, key)
    {
      WrittenCons(t, fam, xs, key);
    }
  }

  lemma StepFrame(t: TransitionMap, fam: seq<set<State>>, xs: seq<char>, m: map<(State, char), set<State>>,
                  m': map<(State, char), set<State>>, r: map<(State, char), set<State>>)
    requires |fam| > 0
    requires forall key :: key in m' && !Written(t, fam[0], xs, key) ==> key in m && m'[key] == m[key]
    requires forall key :: key in r && (forall k :: 0 <= k < |fam[1..]| ==> !Written(t, fam[1..][k], xs, key)) ==> key in m' && r[key] == m'[key]
    requires forall key :: key in r <==> key in m' || exists k :: 0 <= k < |fam[1..]| && Written(t, fam[1..][k], xs, key)
    ensures forall key :: key in r && (forall k :: 0 <= k < |fam| ==> !Written(t, fam[k], xs, key)) ==> key in m && r[key] == m[key]
  {
    var tail := fam[1..];
    forall key | key in r && (forall k :: 0 <= k < |fam| ==> !Written(t, fam[k], xs, key))
      ensures key in m && r[key] == m[key]
    {
      forall k | 0 <= k < |tail| ensures !Written(t, tail[k], xs, key) {
        assert tail[k] == fam[k + 1];
      }
      assert !Written(t, fam[0], xs, key);
    }
  }

  lemma StepSingles(t: TransitionMap, fam: seq<set<State>>, xs: seq<char>, m: map<(State, char), set<State>>,
                    m': map<(State, char), set<State>>, r: map<(State, char), set<State>>)
    requires |fam| > 0
    requires forall key :: key in m' && !Written(t, fam[0], xs, key) ==> key in m && m'[key] == m[key]
    requires forall key :: Written(t, fam[0], xs, key) ==> key in m' && m'[key] == {Name(Successors(t, fam[0], key.1))}
    requires (forall key :: key in m' ==> |m'[key]| == 1) ==> forall key :: key in r ==> |r[key]| == 1
    ensures (forall key :: key in m ==> |m[key]| == 1) ==> forall key :: key in r ==> |r[key]| == 1
  {
  }

  lemma StepValues(t: TransitionMap, fam: seq<set<State>>, xs: seq<char>,
                   m': map<(State, char), set<State>>, r: map<(State, char), set<State>>)
    requires |fam| > 0
    requires forall key :: Written(t, fam[0], xs, key) ==> key in m' && m'[key] == {Name(Successors(t, fam[0], key.1))}
    requires forall key :: key in r <==> key in m' || exists k :: 0 <= k < |fam[1..]| && Written(t, fam[1..][k], xs, key)
    requires forall key :: key in r && (forall k :: 0 <= k < |fam[1..]| ==> !Written(t, fam[1..][k], xs, key)) ==> key in m' && r[key] == m'[key]
    requires DistinctNames(fam[1..]) ==> forall k, key :: 0 <= k < |fam[1..]| && Written(t, fam[1..][k], xs, key) ==>
      key in r && r[key] == {Name(Successors(t, fam[1..][k], key.1))}
    ensures DistinctNames(fam) ==> forall k, key :: 0 <= k < |fam| && Written(t, fam[k], xs, key) ==>
      key in r && r[key] == {Name(Successors(t, fam[k], key.1))}
  {
    if !DistinctNames(fam) {
      return;
    }
    var tail := fam[1..];
    assert DistinctNames(tail) by {
      forall i, j | 0 <= i < j < |tail| ensures Name(tail[i]) != Name(tail[j]) {
        assert tail[i] == fam[i + 1] && tail[j] == fam[j + 1];
      }
    }
    forall k, key | 0 <= k < |fam| && Written(t, fam[k], xs, key)
      ensures key in r && r[key] == {Name(Successors(t, fam[k], key.1))}
    {
      if k > 0 {
        assert tail[k - 1] == fam[k];
      } else {
        forall k' | 0 <= k' < |tail| ensures !Written(t, tail[k'], xs, key) {
          assert tail[k'] == fam[k' + 1];
          assert Name(fam[0]) != Name(fam[k' + 1]);
        }
      }
    }
  }

  /** `FiniteAutomaton::convertToDFA` as evidently intended: the same
      automaton as `ConvertAsWritten` but with `newTransitions`, each
      target name made a one-element set. */
  function ConvertCorrected(a: OrderedAutomaton): (d: OrderedAutomaton)
    ensures d.states == ConvertAsWritten(a).states && d.finals == ConvertAsWritten(a).finals
    ensures d.alphabet == a.alphabet && d.start == "{" + a.start + "}"
    ensures forall key :: key in d.transitions <==>
      exists k :: 0 <= k < |Subsets(a)| && key.0 == Name(Subsets(a)[k]) && key.1 in a.alphabet
        && Successors(a.transitions, Subsets(a)[k], key.1) != {}
    ensures forall key :: key in d.transitions ==> |d.transitions[key]| == 1
  {
    var w := ConvertAsWritten(a);
    OrderedAutomaton(w.states, a.alphabet, SingletonTargets(a.transitions, Subsets(a), a.alphabet), w.start, w.finals)
  }

  /** `newTransitions` built from the empty map over the dequeued sets
      `fam`, with the letters of `alphabet` in order. */
  function SingletonTargets(t: TransitionMap, fam: seq<set<State>>, alphabet: set<char>): (nt: map<(State, char), set<State>>)
    ensures forall key :: key in nt <==>
      exists k :: 0 <= k < |fam| && key.0 == Name(fam[k]) && key.1 in alphabet
        && Successors(t, fam[k], key.1) != {}
    ensures forall key :: key in nt ==> |nt[key]| == 1
  {
    var xs := SortedChars(alphabet);
    var nt := NewTransitions(t, fam, xs, map[]);
    WrittenKeys(t, fam, xs, alphabet, nt);
    nt
  }

  /** With the letters of `alphabet` listed in `xs`, the keys written by
      the outer loop are the named sets paired with letters they move on. */
  lemma WrittenKeys(t: TransitionMap, fam: seq<set<State>>, xs: seq<char>, alphabet: set<char>,
                    nt: map<(State, char), set<State>>)
    requires forall x :: x in alphabet <==> x in xs
    requires forall key :: key in nt <==> exists k :: 0 <= k < |fam| && Written(t, fam[k], xs, key)
    ensures forall key :: key in nt <==>
      exists k :: 0 <= k < |fam| && key.0 == Name(fam[k]) && key.1 in alphabet
        && Successors(t, fam[k], key.1) != {}
  {
  }

  // ---------------------------------------------------------------------
  // Names are unambiguous when no state name holds a comma.

  predicate NoComma(ps: seq<string>)
  {
    forall k :: 0 <= k < |ps| ==> ',' !in ps[k]
  }

  /** The first comma of a join of at least two comma-free parts ends the
      first part. */
  lemma JoinSplit(ps: seq<string>)
    requires |ps| > 1 && NoComma(ps)
    ensures var j := JoinWith(ps, ",");
      |ps[0]| < |j| && j[|ps[0]|] == ',' && j[..|ps[0]|] == ps[0] && j[|ps[0]| + 1..] == JoinWith(ps[1..], ",")
  {
  }

  lemma JoinOneNoComma(ps: seq<string>)
    requires |ps| == 1 && NoComma(ps)
    ensures ',' !in JoinWith(ps, ",")
  {
  }

  /** A join of comma-free parts holds a comma iff there are two parts or
      more. */
  lemma OneIffNoComma(ps: seq<string>)
    requires |ps| > 0 && NoComma(ps)
    ensures |ps| == 1 <==> ',' !in JoinWith(ps, ",")
  {
    if |ps| > 1 {
      JoinSplit(ps);
      var j := JoinWith(ps, ",");
      assert j[|ps[0]|] in j;
    }
  }

  lemma FirstCommaUnique(j: string, i: nat, i': nat)
    requires i < |j| && i' < |j| && j[i] == ',' && j[i'] == ','
    requires ',' !in j[..i] && ',' !in j[..i']
    ensures i == i'
  {
  }

  /** Comma-free parts are recovered from their join. */
  lemma {:induction false} JoinInjective(ps: seq<string>, qs: seq<string>)
    requires |ps| > 0 && |qs| > 0 && NoComma(ps) && NoComma(qs)
    requires JoinWith(ps, ",") == JoinWith(qs, ",")
    ensures ps == qs
    decreases |ps|
  {
    var j := JoinWith(ps, ",");
    OneIffNoComma(ps);
    OneIffNoComma(qs);
    if |ps| > 1 {
      JoinSplit(ps);
      JoinSplit(qs);
      FirstCommaUnique(j, |ps[0]|, |qs[0]|);
      assert NoComma(ps[1..]) by {
        forall k | 0 <= k < |ps[1..]| ensures ',' !in ps[1..][k] { assert ps[1..][k] == ps[k + 1]; }
      }
      assert NoComma(qs[1..]) by {
        forall k | 0 <= k < |qs[1..]| ensures ',' !in qs[1..][k] { assert qs[1..][k] == qs[k + 1]; }
      }
      JoinInjective(ps[1..], qs[1..]);
      assert ps == [ps[0]] + ps[1..] && qs == [qs[0]] + qs[1..];
    }
  }

  /** Two non-empty sets of comma-free state names with the same name are
      the same set. */
  lemma NameInjective(s1: set<State>, s2: set<State>)
    requires s1 != {} && s2 != {}
    requires forall q :: q in s1 + s2 ==> ',' !in q
    requires Name(s1) == Name(s2)
    ensures s1 == s2
  {
    var p1, p2 := SortedSet(s1), SortedSet(s2);
    var j1, j2 := JoinWith(p1, ","), JoinWith(p2, ",");
    assert Name(s1)[1..|Name(s1)| - 1] == j1;
    assert Name(s2)[1..|Name(s2)| - 1] == j2;
    assert NoComma(p1) by {
      forall k | 0 <= k < |p1| ensures ',' !in p1[k] { assert p1[k] in s1; }
    }
    assert NoComma(p2) by {
      forall k | 0 <= k < |p2| ensures ',' !in p2[k] { assert p2[k] in s2; }
    }
    JoinInjective(p1, p2);
  }

  /** No state the construction can meet has a comma in its name. */
  ghost predicate CommaFree(a: OrderedAutomaton)
  {
    forall q :: q in Universe(a) ==> ',' !in q
  }

  lemma SubsetsDistinctNames(a: OrderedAutomaton)
    requires CommaFree(a)
    ensures DistinctNames(Subsets(a))
  {
    var fam := Subsets(a);
    forall i, j | 0 <= i < j < |fam|
      ensures Name(fam[i]) != Name(fam[j])
    {
      if Name(fam[i]) == Name(fam[j]) {
        NameInjective(fam[i], fam[j]);
      }
    }
  }

  /** With comma-free state names, the corrected result has, for every set
      the construction meets and every symbol with a non-empty successor
      set, exactly the transition to that successor set's name, and is
      deterministic. */
  lemma CorrectedTransitions(a: OrderedAutomaton, k: nat, x: char)
    requires CommaFree(a)
    requires k < |Subsets(a)| && x in a.alphabet && Successors(a.transitions, Subsets(a)[k], x) != {}
    ensures var d := ConvertCorrected(a); var key := (Name(Subsets(a)[k]), x);
      key in d.transitions && d.transitions[key] == {Name(Successors(a.transitions, Subsets(a)[k], x))}
  {
    SubsetsDistinctNames(a);
    var xs := SortedChars(a.alphabet);
    assert Written(a.transitions, Subsets(a)[k], xs, (Name(Subsets(a)[k]), x));
  }

  // ---------------------------------------------------------------------
  // The program's automaton.

  function MainNfa(): OrderedAutomaton
  {
    OrderedAutomaton(
      {"q0", "q1", "q2"},
      {'a', 'b'},
      map[("q0", 'a') := {"q0", "q1"},
          ("q1", 'b') := {"q2"},
          ("q0", 'b') := {"q0"},
          ("q2", 'b') := {"q2"},
          ("q1", 'a') := {"q0"}],
      "q0",
      {"q2"})
  }

  /** The entry (`q0`, `a`) has two targets. */
  lemma MainNfaHasTwoTargets()
    ensures ("q0", 'a') in MainNfa().transitions && |MainNfa().transitions[("q0", 'a')]| == 2
  {
    assert "q0" != "q1";
  }

  /** What `convertToDFA` returns for the program's automaton still has
      that entry, so it is not deterministic, although the program goes on
      to print that it is. */
  lemma AsWrittenResultIsNotDeterministic()
    ensures exists k :: k in ConvertAsWritten(MainNfa()).transitions && |ConvertAsWritten(MainNfa()).transitions[k]| > 1
  {
    MainNfaHasTwoTargets();
    assert ("q0", 'a') in ConvertAsWritten(MainNfa()).transitions;
  }

  /** The name of a two-state set lists the smaller name first. */
  lemma NameOfPair(x: State, y: State)
    requires LexLess(x, y)
    ensures Name({x, y}) == "{" + x + "," + y + "}"
  {
    var qs := SortedSet({x, y});
    LexLessIrreflexive(x);
    assert |qs| == 2;
    assert qs[0] in {x, y} && qs[1] in {x, y};
    if qs[0] == y {
      LexLessAsymmetric(x, y);
    }
    assert qs == [x, y];
    assert JoinWith(qs, ",") == x + "," + JoinWith([y], ",");
  }

  /** The start set's row in the corrected result. */
  lemma StartTransition(a: OrderedAutomaton, x: char)
    requires CommaFree(a) && x in a.alphabet && Successors(a.transitions, {a.start}, x) != {}
    ensures var key := ("{" + a.start + "}", x);
      key in ConvertCorrected(a).transitions
      && ConvertCorrected(a).transitions[key] == {Name(Successors(a.transitions, {a.start}, x))}
  {
    NameOfSingleton(a.start);
    CorrectedTransitions(a, 0, x);
  }

  /** The program's start set is named `{q0}`, and the set it reaches on
      `a` is named `{q0,q1}`. */
  lemma MainNames()
    ensures Name({"q0"}) == "{q0}" && Name({"q0", "q1"}) == "{q0,q1}"
  {
    NameOfSingleton("q0");
    assert LexLess("q0", "q1") by {
      assert "q0"[1..] == "0" && "q1"[1..] == "1";
    }
    NameOfPair("q0", "q1");
  }
}

=== FILE: parser.dfy ===
/** The recursive-descent ChronoLang parser of `src/6parser/parser.cpp`:
    a cursor over the token vector of the pattern lexer, one function per
    statement form, and the abstract syntax tree of `ast.h`. A thrown
    `std::runtime_error` (or the `std::invalid_argument` of `std::stoi`) is
    an `Err`; the cursor a parser leaves behind is part of its `Ok`. */
module ChronoParser {
  import opened Wrappers
  import opened Text
  import opened PatternLexer

  datatype CleanAction = RemoveAction | ReplaceAction

  /** The nodes of `ast.h`. Every statement keeps the line and column the
      parser gave it; the program node sits at line 0, column 0. */
  datatype Node =
    | Program(statements: seq<Node>)
    | LoadStmt(id: string, path: string, line: int, col: int)
    | SetStmt(amount: int, unit: string, line: int, col: int)
    | TransformStmt(table: string, column: string, amount: int, unit: string, line: int, col: int)
    | ForecastStmt(table: string, column: string, model: string, params: seq<(string, int)>, line: int, col: int)
    | StreamStmt(id: string, path: string, line: int, col: int)
    | SelectStmt(table: string, column: string, op: Option<string>, dateExpr: Option<string>, line: int, col: int)
    | PlotStmt(func: string, args: seq<(string, string)>, line: int, col: int)
    | ExportStmt(table: string, exportColumn: Option<string>, target: string, line: int, col: int)
    | LoopStmt(variable: string, from: int, to: int, body: seq<Node>, line: int, col: int)
    | CleanStmt(action: CleanAction, target: string, column: string, replaceWith: string, line: int, col: int)
    | Expression(line: int, col: int)
    | Value(line: int, col: int)

  // ---------------------------------------------------------------------
  // Cursor primitives

  /** A token vector as the lexer hands it over: it ends with END_OF_FILE. */
  predicate Terminated(ts: seq<Token>)
  {
    |ts| > 0 && ts[|ts| - 1].kind == EndOfFile
  }

  predicate AtEnd(ts: seq<Token>, c: nat)
    requires c < |ts|
  {
    ts[c].kind == EndOfFile
  }

  /** `check`: the current token has type `k`; never at the end. */
  predicate Check(ts: seq<Token>, c: nat, k: Kind)
    requires c < |ts|
  {
    !AtEnd(ts, c) && ts[c].kind == k
  }

  /** `advance` followed by the token it returns: `previous()`, which at
      the end is the token before the unmoved cursor. */
  function Advance(ts: seq<Token>, c: nat): (r: (Token, nat))
    requires Terminated(ts) && c < |ts| && (0 < c || !AtEnd(ts, c))
    ensures 0 < r.1 < |ts| && c <= r.1 <= c + 1
    ensures r.0 == ts[r.1 - 1]
    ensures r.1 == c <==> AtEnd(ts, c)
  {
    var d := if AtEnd(ts, c) then c else c + 1;
    (ts[d - 1], d)
  }

  /** `match`: the cursor after an optional token of type `k`. */
  function Match(ts: seq<Token>, c: nat, k: Kind): (d: nat)
    requires Terminated(ts) && c < |ts|
    ensures d < |ts|
    ensures d == c + 1 <==> Check(ts, c, k)
    ensures d == c || d == c + 1
  {
    if Check(ts, c, k) then c + 1 else c
  }

  /** `expect`: a token of type `k` is consumed, or the parse fails. */
  function Expect(ts: seq<Token>, c: nat, k: Kind): (r: Result<nat>)
    requires Terminated(ts) && c < |ts|
    ensures r.Ok? <==> Check(ts, c, k)
    ensures r.Ok? ==> r.value == c + 1 < |ts|
  {
    if Check(ts, c, k) then Ok(c + 1) else Err("expected token")
  }

  // ---------------------------------------------------------------------
  // Small parsers

  /** `parseTableAndColumn`: `ID`, then optionally `.` and a second `ID`. */
  function TableAndColumn(ts: seq<Token>, c: nat): (r: Result<(string, Option<string>, nat)>)
    requires Terminated(ts) && c < |ts|
    ensures r.Ok? <==> Check(ts, c, Id) && (Check(ts, c + 1, Dot) ==> Check(ts, c + 2, Id))
    ensures r.Ok? ==> r.value.0 == ts[c].value
    ensures r.Ok? ==> (r.value.1.Some? <==> Check(ts, c + 1, Dot))
    ensures r.Ok? && r.value.1.Some? ==> r.value.1.value == ts[c + 2].value && r.value.2 == c + 3
    ensures r.Ok? && r.value.1.None? ==> r.value.2 == c + 1
  {
    var c1 :- Expect(ts, c, Id);
    if Check(ts, c1, Dot) then
      var c2 :- Expect(ts, c1 + 1, Id);
      Ok((ts[c].value, Some(ts[c1 + 1].value), c2))
    else
      Ok((ts[c].value, None, c1))
  }

  /** `parseColumn`: `ID`, or `ID . ID` joined with a dot. */
  function Column(ts: seq<Token>, c: nat): (r: Result<(string, nat)>)
    requires Terminated(ts) && c < |ts|
    ensures r.Ok? <==> Check(ts, c, Id) && (Check(ts, c + 1, Dot) ==> Check(ts, c + 2, Id))
    ensures r.Ok? && Check(ts, c + 1, Dot) ==> r.value == (ts[c].value + "." + ts[c + 2].value, c + 3)
    ensures r.Ok? && !Check(ts, c + 1, Dot) ==> r.value == (ts[c].value, c + 1)
  {
    var c1 :- Expect(ts, c, Id);
    if Check(ts, c1, Dot) then
      var c2 :- Expect(ts, c1 + 1, Id);
      Ok((ts[c].value + "." + ts[c1 + 1].value, c2))
    else
      Ok((ts[c].value, c1))
  }

  predicate IsValueKind(k: Kind)
  {
    k == StringLit || k == IntLit || k == FloatLit
  }

  /** `parseValue`: the value of one STRING, INT or FLOAT token. */
  function ValueToken(ts: seq<Token>, c: nat): (r: Result<(string, nat)>)
    requires Terminated(ts) && c < |ts|
    ensures r.Ok? <==> IsValueKind(ts[c].kind)
    ensures r.Ok? ==> r.value == (ts[c].value, c + 1) && c + 1 < |ts|
  {
    if Check(ts, c, StringLit) || Check(ts, c, IntLit) || Check(ts, c, FloatLit) then
      Ok((ts[c].value, c + 1))
    else
      Err("expected a value")
  }

  /** `parseTimeInterval`: a TIME_UNIT lexeme split after its leading
      digits into an amount and a unit, both non-empty. */
  function TimeInterval(ts: seq<Token>, c: nat): (r: Result<(int, string, nat)>)
    requires Terminated(ts) && c < |ts|
    ensures r.Ok? <==> Check(ts, c, TimeUnit) && 0 < DigitRun(ts[c].value, 0) < |ts[c].value|
    ensures r.Ok? ==> r.value.2 == c + 1
    ensures r.Ok? ==> ts[c].value == ts[c].value[..DigitRun(ts[c].value, 0)] + r.value.1
    ensures r.Ok? ==> AllDigits(ts[c].value[..DigitRun(ts[c].value, 0)])
                      && r.value.0 == DecimalValue(ts[c].value[..DigitRun(ts[c].value, 0)])
    ensures r.Ok? ==> r.value.1 != "" && !IsDigit(r.value.1[0])
  {
    var c1 :- Expect(ts, c, TimeUnit);
    var v := ts[c].value;
    var i := DigitRun(v, 0);
    if i == 0 || i >= |v| then Err("invalid time interval")
    else
      DigitPrefix(v);
      // `std::stoi` sees only digits here and reads their decimal value
      // (StoiDigits); its `out_of_range` above 2147483647 is not modelled
      Ok((DecimalValue(v[..i]), v[i..], c1))
  }

  /** The leading digits of `v` and what follows them. */
  lemma DigitPrefix(v: string)
    requires 0 < DigitRun(v, 0) < |v|
    ensures AllDigits(v[..DigitRun(v, 0)])
    ensures v == v[..DigitRun(v, 0)] + v[DigitRun(v, 0)..]
    ensures !IsDigit(v[DigitRun(v, 0)..][0])
  {
    PrefixDigits(v);
    PrefixSplit(v);
    PrefixStops(v);
  }

  lemma PrefixDigits(v: string)
    requires 0 < DigitRun(v, 0) < |v|
    ensures AllDigits(v[..DigitRun(v, 0)])
  {
    var d := v[..DigitRun(v, 0)];
    assert AllDigits(d) by {
      forall j | 0 <= j < |d| ensures IsDigit(d[j]) { assert d[j] == v[j]; }
    }
  }

  lemma PrefixSplit(v: string)
    requires 0 < DigitRun(v, 0) < |v|
    ensures v == v[..DigitRun(v, 0)] + v[DigitRun(v, 0)..]
  {
  }

  lemma PrefixStops(v: string)
    requires 0 < DigitRun(v, 0) < |v|
    ensures !IsDigit(v[DigitRun(v, 0)..][0])
  {
  }

  /** `std::stoi` of a non-empty digit string is its decimal value. */
  lemma StoiDigits(d: string)
    requires |d| > 0 && AllDigits(d)
    ensures Stoi(d) == Ok(DecimalValue(d))
  {
    DigitRunStops(d, 0, |d|);
    assert d[..|d|] == d;
  }

  /** `parseIDEqualsValue`: `ID = value`. */
  function KeyValue(ts: seq<Token>, c: nat): (r: Result<(string, string, nat)>)
    requires Terminated(ts) && c < |ts|
    ensures r.Ok? <==> Check(ts, c, Id) && Check(ts, c + 1, Equal) && IsValueKind(ts[c + 2].kind)
    ensures r.Ok? ==> r.value == (ts[c].value, ts[c + 2].value, c + 3)
  {
    var c1 :- Expect(ts, c, Id);
    var c2 :- Expect(ts, c1, Equal);
    var v :- ValueToken(ts, c2);
    Ok((ts[c].value, v.0, v.1))
  }

  /** `parseParams`: nothing unless an `ID` comes first; then
      comma-separated `ID = value` pairs, each value read by `std::stoi`. */
  function Params(ts: seq<Token>, c: nat): (r: Result<(seq<(string, int)>, nat)>)
    requires Terminated(ts) && c < |ts|
    ensures r.Ok? ==> c <= r.value.1 < |ts|
    ensures !Check(ts, c, Id) ==> r == Ok(([], c))
  {
    if Check(ts, c, Id) then
      var kv :- KeyValue(ts, c);
      var n :- Stoi(kv.1);
      var rest :- MoreParams(ts, kv.2);
      Ok(([(kv.0, n)] + rest.0, rest.1))
    else
      Ok(([], c))
  }

  /** The `while (match(COMMA))` loop of `parseParams`. */
  function MoreParams(ts: seq<Token>, c: nat): (r: Result<(seq<(string, int)>, nat)>)
    requires Terminated(ts) && c < |ts|
    ensures r.Ok? ==> c <= r.value.1 < |ts|
    ensures r.Ok? ==> !Check(ts, r.value.1, Comma)
    decreases |ts| - c
  {
    if Check(ts, c, Comma) then
      var kv :- KeyValue(ts, c + 1);
      var n :- Stoi(kv.1);
      var rest :- MoreParams(ts, kv.2);
      Ok(([(kv.0, n)] + rest.0, rest.1))
    else
      Ok(([], c))
  }

  /** The bracket loop of `parsePlotStatement`: tokens are consumed and
      their values appended until the bracket count is back to zero; the
      end of input with an open bracket fails. */
  function Bracketed(ts: seq<Token>, c: nat, depth: int, buf: string): (r: Result<(string, nat)>)
    requires Terminated(ts) && c < |ts|
    ensures r.Ok? ==> c <= r.value.1 < |ts|
    decreases |ts| - c
  {
    if AtEnd(ts, c) then
      if depth != 0 then Err("mismatched brackets") else Ok((buf, c))
    else
      var t := ts[c];
      var d := depth + (if t.kind == LBracket then 1 else 0) - (if t.kind == RBracket then 1 else 0);
      if d == 0 then Ok((buf + t.value, c + 1))
      else Bracketed(ts, c + 1, d, buf + t.value)
  }

  /** One plot argument value: a STRING, INT or FLOAT value, or a bracketed
      token run glued together. */
  function PlotValue(ts: seq<Token>, c: nat): (r: Result<(string, nat)>)
    requires Terminated(ts) && c < |ts|
    ensures r.Ok? ==> c < r.value.1 < |ts|
    ensures IsValueKind(ts[c].kind) ==> r == Ok((ts[c].value, c + 1))
    ensures !IsValueKind(ts[c].kind) && !Check(ts, c, LBracket) ==> r.Err?
  {
    if Check(ts, c, StringLit) || Check(ts, c, IntLit) || Check(ts, c, FloatLit) then
      Ok((ts[c].value, c + 1))
    else if Check(ts, c, LBracket) then
      Bracketed(ts, c, 0, "")
    else
      Err("unexpected plot parameter value")
  }

  /** The argument loop of `parsePlotStatement`, up to the `)`. */
  function PlotArgs(ts: seq<Token>, c: nat): (r: Result<(seq<(string, string)>, nat)>)
    requires Terminated(ts) && c < |ts|
    ensures r.Ok? ==> c <= r.value.1 < |ts| && Check(ts, r.value.1, RParen)
    decreases |ts| - c
  {
    if Check(ts, c, RParen) then Ok(([], c))
    else
      var c1 :- Expect(ts, c, Id);
      var c2 :- Expect(ts, c1, Equal);
      var v :- PlotValue(ts, c2);
      var c3 :- if Check(ts, v.1, RParen) then Ok(v.1) else Expect(ts, v.1, Comma);
      var rest :- PlotArgs(ts, c3);
      Ok(([(ts[c].value, v.0)] + rest.0, rest.1))
  }

  // ---------------------------------------------------------------------
  // Statements; each starts just after its keyword

  /** The statement keywords `parseStatement` dispatches on. */
  predicate StartsStatement(k: Kind)
  {
    || k == Load || k == Set || k == Trend || k == Forecast || k == Stream || k == Select
    || k == Plot || k == Export || k == For || k == Remove || k == Replace || k == Analyze
  }

  /** `LOAD` and `STREAM`: any token, `FROM`, any token. At the end of
      input the last `advance` does not move and hands back `FROM` itself. */
  function SourceStatement(ts: seq<Token>, c: nat, stream: bool): (r: Result<(Node, nat)>)
    requires Terminated(ts) && 0 < c < |ts|
    ensures r.Ok? <==> c + 1 < |ts| && !AtEnd(ts, c) && Check(ts, c + 1, From)
    ensures r.Ok? ==> c + 1 < r.value.1 <= c + 3 && r.value.1 < |ts|
    ensures r.Ok? && stream ==> r.value.0 == StreamStmt(ts[c].value, ts[r.value.1 - 1].value, ts[c].line, ts[c].column)
    ensures r.Ok? && !stream ==> r.value.0 == LoadStmt(ts[c].value, ts[r.value.1 - 1].value, ts[c].line, ts[c].column)
  {
    var (id, c1) := Advance(ts, c);
    var c2 :- Expect(ts, c1, From);
    var (path, c3) := Advance(ts, c2);
    Ok((if stream then StreamStmt(id.value, path.value, id.line, id.column)
        else LoadStmt(id.value, path.value, id.line, id.column), c3))
  }

  /** `SET WINDOW = <interval>`, placed at the token after it. */
  function SetStatement(ts: seq<Token>, c: nat): (r: Result<(Node, nat)>)
    requires Terminated(ts) && 0 < c < |ts|
    ensures r.Ok? ==> c < r.value.1 < |ts|
    ensures r.Ok? ==> r.value.0.SetStmt? && r.value.0.line == ts[r.value.1].line && r.value.0.col == ts[r.value.1].column
  {
    var c1 :- Expect(ts, c, Window);
    var c2 :- Expect(ts, c1, Equal);
    var t :- TimeInterval(ts, c2);
    Ok((SetStmt(t.0, t.1, ts[t.2].line, ts[t.2].column), t.2))
  }

  /** `TREND(table.column) -> ID(<interval>)`. */
  function TransformStatement(ts: seq<Token>, c: nat): (r: Result<(Node, nat)>)
    requires Terminated(ts) && 0 < c < |ts|
    ensures r.Ok? ==> c < r.value.1 < |ts|
    ensures r.Ok? ==> c + 3 < |ts| && Check(ts, c + 2, Dot) && Check(ts, c + 3, Id)
    ensures r.Ok? ==> r.value.0.TransformStmt? && r.value.0.table == ts[c + 1].value
                      && r.value.0.column == ts[c + 3].value
  {
    var c1 :- Expect(ts, c, LParen);
    var tc :- TableAndColumn(ts, c1);
    var c2 :- Expect(ts, tc.2, RParen);
    var c3 :- Expect(ts, c2, Arrow);
    var c4 :- Expect(ts, c3, Id);
    var c5 :- Expect(ts, c4, LParen);
    var t :- TimeInterval(ts, c5);
    var c6 :- Expect(ts, t.2, RParen);
    if tc.1.None? then Err("TREND requires a table.column reference")
    else Ok((TransformStmt(tc.0, tc.1.value, t.0, t.1, ts[c6].line, ts[c6].column), c6))
  }

  /** `FORECAST table.column USING <model> ( params )`, placed at the
      model token. */
  function ForecastStatement(ts: seq<Token>, c: nat): (r: Result<(Node, nat)>)
    requires Terminated(ts) && 0 < c < |ts|
    ensures r.Ok? ==> c < r.value.1 < |ts|
    ensures r.Ok? ==> c + 2 < |ts| && Check(ts, c + 1, Dot) && Check(ts, c + 2, Id)
    ensures r.Ok? ==> r.value.0.ForecastStmt? && r.value.0.table == ts[c].value
                      && r.value.0.column == ts[c + 2].value
  {
    var tc :- TableAndColumn(ts, c);
    var c1 :- Expect(ts, tc.2, Using);
    var (model, c2) := Advance(ts, c1);
    var c3 :- Expect(ts, c2, LParen);
    var ps :- Params(ts, c3);
    var c4 :- Expect(ts, ps.1, RParen);
    if tc.1.None? then Err("FORECAST requires a table.column reference")
    else Ok((ForecastStmt(tc.0, tc.1.value, model.value, ps.0, model.line, model.column), c4))
  }

  /** The optional `WHERE DATE <op> <expr>` of a `SELECT`. */
  function DateCondition(ts: seq<Token>, c: nat): (r: Result<(Option<string>, Option<string>, nat)>)
    requires Terminated(ts) && 0 < c < |ts|
    ensures r.Ok? ==> c <= r.value.2 < |ts|
    ensures r.Ok? ==> (r.value.0.Some? <==> Check(ts, c, Where)) && (r.value.1.Some? <==> Check(ts, c, Where))
    ensures !Check(ts, c, Where) ==> r == Ok((None, None, c))
  {
    if Check(ts, c, Where) then
      var c2 :- Expect(ts, c + 1, Date);
      var (oper, c3) := Advance(ts, c2);
      var (expr, c4) := Advance(ts, c3);
      Ok((Some(oper.value), Some(expr.value), c4))
    else Ok((None, None, c))
  }

  /** `SELECT table.column`, optionally `WHERE DATE <op> <expr>`. */
  function SelectStatement(ts: seq<Token>, c: nat): (r: Result<(Node, nat)>)
    requires Terminated(ts) && 0 < c < |ts|
    ensures r.Ok? ==> c < r.value.1 < |ts|
    ensures r.Ok? ==> c + 2 < |ts| && Check(ts, c + 1, Dot) && Check(ts, c + 2, Id)
    ensures r.Ok? ==> r.value.0.SelectStmt? && r.value.0.table == ts[c].value
                      && r.value.0.column == ts[c + 2].value
    ensures r.Ok? ==> (r.value.0.op.Some? <==> Check(ts, c + 3, Where))
                      && (r.value.0.dateExpr.Some? <==> Check(ts, c + 3, Where))
  {
    var tc :- TableAndColumn(ts, c);
    var cond :- DateCondition(ts, tc.2);
    if tc.1.None? then Err("SELECT requires a table.column reference")
    else Ok((SelectStmt(tc.0, tc.1.value, cond.0, cond.1, ts[cond.2].line, ts[cond.2].column), cond.2))
  }

  /** `PLOT <function> ( key = value, ... )`. */
  function PlotStatement(ts: seq<Token>, c: nat): (r: Result<(Node, nat)>)
    requires Terminated(ts) && 0 < c < |ts|
    ensures r.Ok? ==> c < r.value.1 < |ts|
    ensures r.Ok? ==> r.value.0.PlotStmt?
  {
    var (fn, c1) := Advance(ts, c);
    var c2 :- Expect(ts, c1, LParen);
    var args :- PlotArgs(ts, c2);
    // the argument loop stops only at `)`, so the closing `expect` succeeds
    Ok((PlotStmt(fn.value, args.0, fn.line, fn.column), args.1 + 1))
  }

  /** `EXPORT ID [. ID] TO <target>`; the node's line is the length of the
      table name and its column that of the target token. */
  function ExportStatement(ts: seq<Token>, c: nat): (r: Result<(Node, nat)>)
    requires Terminated(ts) && 0 < c < |ts|
    ensures r.Ok? ==> c < r.value.1 < |ts| && Check(ts, c, Id)
    ensures r.Ok? ==> r.value.0.ExportStmt? && r.value.0.table == ts[c].value
    ensures r.Ok? ==> (r.value.0.exportColumn.Some? <==> Check(ts, c + 1, Dot))
    ensures r.Ok? ==> r.value.0.line == |ts[c].value|
    ensures r.Ok? ==> r.value.0.target == ts[r.value.1 - 1].value && r.value.0.col == ts[r.value.1 - 1].column
  {
    var c1 :- Expect(ts, c, Id);
    var col :- if Check(ts, c1, Dot) then
                 var c2 :- Expect(ts, c1 + 1, Id);
                 Ok((Some(ts[c1 + 1].value), c2))
               else Ok((None, c1));
    var c3 :- Expect(ts, col.1, To);
    var (target, c4) := Advance(ts, c3);
    Ok((ExportStmt(ts[c].value, col.0, target.value, |ts[c].value|, target.column), c4))
  }

  /** `REMOVE <target> FROM <column>`, or `REPLACE`/`ANALYZE <target> IN
      <column> WITH <value>`; `c - 1` is the keyword. */
  function CleanStatement(ts: seq<Token>, c: nat): (r: Result<(Node, nat)>)
    requires Terminated(ts) && 0 < c < |ts|
    ensures r.Ok? ==> c < r.value.1 < |ts| && c + 1 < |ts|
    ensures r.Ok? ==> r.value.0.CleanStmt? && r.value.0.target == ts[c].value
    ensures r.Ok? && ts[c - 1].kind == Remove ==>
              Check(ts, c + 1, From) && r.value.0.action == RemoveAction && r.value.0.replaceWith == ""
    ensures r.Ok? && ts[c - 1].kind != Remove ==>
              Check(ts, c + 1, In) && r.value.0.action == ReplaceAction
  {
    var first := ts[c - 1];
    var (target, c1) := Advance(ts, c);
    if first.kind == Remove then
      var c2 :- Expect(ts, c1, From);
      var col :- Column(ts, c2);
      Ok((CleanStmt(RemoveAction, target.value, col.0, "", first.line, first.column), col.1))
    else
      var c2 :- Expect(ts, c1, In);
      var col :- Column(ts, c2);
      var c3 :- Expect(ts, col.1, With);
      var v :- ValueToken(ts, c3);
      Ok((CleanStmt(ReplaceAction, target.value, col.0, v.0, first.line, first.column), v.1))
  }

  /** `parseStatement`: the keyword at the cursor picks the statement. */
  function Statement(ts: seq<Token>, c: nat): (r: Result<(Node, nat)>)
    requires Terminated(ts) && c < |ts|
    ensures r.Ok? ==> c < r.value.1 < |ts|
    decreases |ts| - c, 1
  {
    if Check(ts, c, Load) then SourceStatement(ts, c + 1, false)
    else if Check(ts, c, Set) then SetStatement(ts, c + 1)
    else if Check(ts, c, Trend) then TransformStatement(ts, c + 1)
    else if Check(ts, c, Forecast) then ForecastStatement(ts, c + 1)
    else if Check(ts, c, Stream) then SourceStatement(ts, c + 1, true)
    else if Check(ts, c, Select) then SelectStatement(ts, c + 1)
    else if Check(ts, c, Plot) then PlotStatement(ts, c + 1)
    else if Check(ts, c, Export) then ExportStatement(ts, c + 1)
    else if Check(ts, c, For) then LoopStatement(ts, c + 1)
    else if Check(ts, c, Remove) || Check(ts, c, Replace) || Check(ts, c, Analyze) then
      CleanStatement(ts, c + 1)
    else Err("unexpected token")
  }

  /** `FOR ID IN <start> TO <end> { statements }`; the bounds go through
      `std::stoi` once the body is parsed. */
  function LoopStatement(ts: seq<Token>, c: nat): (r: Result<(Node, nat)>)
    requires Terminated(ts) && 0 < c < |ts|
    ensures r.Ok? ==> c < r.value.1 < |ts|
    ensures r.Ok? ==> c + 5 < |ts| && Check(ts, c, Id) && Check(ts, c + 1, In) && Check(ts, c + 3, To)
                      && Check(ts, c + 5, LBrace)
    ensures r.Ok? ==> r.value.0.LoopStmt? && r.value.0.variable == ts[c].value
    ensures r.Ok? ==> Stoi(ts[c + 2].value) == Ok(r.value.0.from) && Stoi(ts[c + 4].value) == Ok(r.value.0.to)
    decreases |ts| - c, 0
  {
    var c1 :- Expect(ts, c, Id);
    var c2 :- Expect(ts, c1, In);
    var (start, c3) := Advance(ts, c2);
    var c4 :- Expect(ts, c3, To);
    var (end, c5) := Advance(ts, c4);
    var c6 :- Expect(ts, c5, LBrace);
    var body :- Body(ts, c6);
    LoopClose(ts, c, body.0, body.1)
  }

  /** The `}` after a loop body, then both bounds through `std::stoi`;
      `c` is the loop variable. */
  function LoopClose(ts: seq<Token>, c: nat, body: seq<Node>, close: nat): (r: Result<(Node, nat)>)
    requires Terminated(ts) && 0 < c && c + 4 < |ts| && close < |ts|
    ensures r.Ok? <==> Check(ts, close, RBrace) && Stoi(ts[c + 2].value).Ok? && Stoi(ts[c + 4].value).Ok?
    ensures r.Ok? ==> r.value.1 == close + 1 && ts[r.value.1 - 1].kind == RBrace
    ensures r.Ok? ==> r.value.0.LoopStmt? && r.value.0.body == body
    ensures r.Ok? ==> r.value.0.variable == ts[c].value
    ensures r.Ok? ==> Stoi(ts[c + 2].value) == Ok(r.value.0.from) && Stoi(ts[c + 4].value) == Ok(r.value.0.to)
  {
    var c7 :- Expect(ts, close, RBrace);
    var from :- Stoi(ts[c + 2].value);
    var to :- Stoi(ts[c + 4].value);
    Ok((LoopStmt(ts[c].value, from, to, body, ts[c].line, ts[c].column), c7))
  }

  /** The statements of a loop body, up to a `}` or the end. */
  function Body(ts: seq<Token>, c: nat): (r: Result<(seq<Node>, nat)>)
    requires Terminated(ts) && c < |ts|
    ensures r.Ok? ==> c <= r.value.1 < |ts|
    ensures r.Ok? ==> Check(ts, r.value.1, RBrace) || AtEnd(ts, r.value.1)
    decreases |ts| - c, 2
  {
    if Check(ts, c, RBrace) || AtEnd(ts, c) then Ok(([], c))
    else
      var s :- Statement(ts, c);
      var rest :- Body(ts, s.1);
      Ok(([s.0] + rest.0, rest.1))
  }

  /** The loop of `parse`: statements up to END_OF_FILE. */
  function Statements(ts: seq<Token>, c: nat): (r: Result<seq<Node>>)
    requires Terminated(ts) && c < |ts|
    decreases |ts| - c
  {
    if AtEnd(ts, c) then Ok([])
    else
      var s :- Statement(ts, c);
      var rest :- Statements(ts, s.1);
      Ok([s.0] + rest)
  }

  /** `parse`. */
  function Parse(ts: seq<Token>): (r: Result<Node>)
    requires Terminated(ts)
    ensures r.Ok? ==> r.value.Program?
  {
    var ss :- Statements(ts, 0);
    Ok(Program(ss))
  }

  // ---------------------------------------------------------------------
  // Properties of the statement parsers

  /** Only the twelve statement keywords start a statement; anything else
      fails, and so does a program that holds such a token where a
      statement is due. */
  lemma StatementKeyword(ts: seq<Token>, c: nat)
    requires Terminated(ts) && c < |ts|
    ensures Statement(ts, c).Ok? ==> !AtEnd(ts, c) && StartsStatement(ts[c].kind)
  {
  }

  lemma ParseRejects(ts: seq<Token>)
    requires Terminated(ts) && !AtEnd(ts, 0) && !StartsStatement(ts[0].kind)
    ensures Parse(ts).Err?
  {
    StatementKeyword(ts, 0);
  }

  /** A token vector holding only END_OF_FILE is the empty program. */
  lemma ParseEmpty(eof: Token)
    requires eof.kind == EndOfFile
    ensures Parse([eof]) == Ok(Program([]))
  {
  }

  // ---------------------------------------------------------------------
  // Bracketed plot values

  /** Opening minus closing brackets among `ts[i..j]`. */
  function Depth(ts: seq<Token>, i: nat, j: nat): int
    requires i <= j <= |ts|
    decreases j - i
  {
    if j == i then 0
    else Depth(ts, i, j - 1) + (if ts[j - 1].kind == LBracket then 1 else 0)
                             - (if ts[j - 1].kind == RBracket then 1 else 0)
  }

  /** The values of `ts[i..j]` glued together. */
  function Glued(ts: seq<Token>, i: nat, j: nat): string
    requires i <= j <= |ts|
    decreases j - i
  {
    if j == i then "" else Glued(ts, i, j - 1) + ts[j - 1].value
  }

  /** `ts[c..e]` is the shortest run from `c` whose brackets balance, and
      it does not reach END_OF_FILE. */
  predicate Closes(ts: seq<Token>, c: nat, e: nat)
  {
    && c < e < |ts|
    && Depth(ts, c, e) == 0
    && (forall j :: c < j < e ==> Depth(ts, c, j) != 0)
    && (forall j :: c <= j < e ==> !AtEnd(ts, j))
  }

  /** A bracketed plot value is the text of the tokens up to the matching
      `]`; without one before the end of input the statement fails. */
  lemma BracketedValue(ts: seq<Token>, c: nat)
    requires Terminated(ts) && c < |ts| && Check(ts, c, LBracket)
    ensures PlotValue(ts, c).Ok? <==> exists e :: Closes(ts, c, e)
    ensures PlotValue(ts, c).Ok? ==> Closes(ts, c, PlotValue(ts, c).value.1)
    ensures PlotValue(ts, c).Ok? ==> PlotValue(ts, c).value.0 == Glued(ts, c, PlotValue(ts, c).value.1)
  {
    BracketLoop(ts, c, c);
  }

  /** The bracket loop after `ts[c..j]`, whose brackets have not balanced
      yet. */
  lemma {:induction false} BracketLoop(ts: seq<Token>, c: nat, j: nat)
    requires Terminated(ts) && c <= j < |ts| && Check(ts, c, LBracket)
    requires forall k :: c < k <= j ==> Depth(ts, c, k) != 0
    requires forall k :: c <= k < j ==> !AtEnd(ts, k)
    ensures Bracketed(ts, j, Depth(ts, c, j), Glued(ts, c, j)).Ok? <==> exists e :: Closes(ts, c, e)
    ensures Bracketed(ts, j, Depth(ts, c, j), Glued(ts, c, j)).Ok? ==>
              Closes(ts, c, Bracketed(ts, j, Depth(ts, c, j), Glued(ts, c, j)).value.1)
              && Bracketed(ts, j, Depth(ts, c, j), Glued(ts, c, j)).value.0
                 == Glued(ts, c, Bracketed(ts, j, Depth(ts, c, j), Glued(ts, c, j)).value.1)
    decreases |ts| - j
  {
    if AtEnd(ts, j) {
      if j == c {
        assert false;
      } else {
        forall e: nat | Closes(ts, c, e) ensures e > j { }
        forall e: nat | Closes(ts, c, e) ensures e <= j { }
      }
    } else {
      var d := Depth(ts, c, j + 1);
      if d == 0 {
        assert Closes(ts, c, j + 1);
      } else {
        BracketLoop(ts, c, j + 1);
      }
    }
  }

  // ---------------------------------------------------------------------
  // Printing statements as tokens and parsing them back

  /** A printed token; positions play no part in parsing. */
  function Tok(k: Kind, v: string): Token
  {
    Token(k, v, 0, 0)
  }

  /** The statements the parser can produce, with what printing needs:
      non-negative numbers, a unit that does not start with a digit, a
      `WHERE` condition that is complete or absent, no replacement on a
      REMOVE. */
  predicate Printable(n: Node)
    decreases n
  {
    match n
    case LoadStmt(_, _, _, _) => true
    case StreamStmt(_, _, _, _) => true
    case SetStmt(a, u, _, _) => a >= 0 && u != "" && !IsDigit(u[0])
    case TransformStmt(_, _, a, u, _, _) => a >= 0 && u != "" && !IsDigit(u[0])
    case ForecastStmt(_, _, _, ps, _, _) => forall i :: 0 <= i < |ps| ==> ps[i].1 >= 0
    case SelectStmt(_, _, op, d, _, _) => op.Some? == d.Some?
    case PlotStmt(_, _, _, _) => true
    case ExportStmt(_, _, _, _, _) => true
    case LoopStmt(_, f, t, b, _, _) => f >= 0 && t >= 0 && forall i :: 0 <= i < |b| ==> Printable(b[i])
    case CleanStmt(a, _, _, w, _, _) => a == RemoveAction ==> w == ""
    case _ => false
  }

  predicate AllPrintable(ns: seq<Node>)
  {
    forall i :: 0 <= i < |ns| ==> Printable(ns[i])
  }

  function KeyTokens(key: string, v: Token): seq<Token>
  {
    [Tok(Id, key), Tok(Equal, "="), v]
  }

  /** FORECAST parameters: `key = <int>` pairs separated by commas. */
  function ParamTokens(ps: seq<(string, int)>): (r: seq<Token>)
    requires forall i :: 0 <= i < |ps| ==> ps[i].1 >= 0
  {
    if |ps| == 0 then [] else KeyTokens(ps[0].0, Tok(IntLit, NatToString(ps[0].1))) + MoreParamTokens(ps[1..])
  }

  function MoreParamTokens(ps: seq<(string, int)>): (r: seq<Token>)
    requires forall i :: 0 <= i < |ps| ==> ps[i].1 >= 0
  {
    if |ps| == 0 then []
    else [Tok(Comma, ",")] + KeyTokens(ps[0].0, Tok(IntLit, NatToString(ps[0].1))) + MoreParamTokens(ps[1..])
  }

  /** PLOT arguments: `key = <string>` pairs separated by commas. */
  function ArgTokens(args: seq<(string, string)>): (r: seq<Token>)
  {
    if |args| == 0 then []
    else KeyTokens(args[0].0, Tok(StringLit, args[0].1))
         + (if |args| > 1 then [Tok(Comma, ",")] else []) + ArgTokens(args[1..])
  }

  /** One statement printed as the tokens the parser reads. */
  function StmtTokens(n: Node): (r: seq<Token>)
    requires Printable(n)
    decreases n, 1
  {
    match n
    case LoadStmt(id, path, _, _) => [Tok(Load, "LOAD"), Tok(Id, id), Tok(From, "FROM"), Tok(StringLit, path)]
    case StreamStmt(id, path, _, _) => [Tok(Stream, "STREAM"), Tok(Id, id), Tok(From, "FROM"), Tok(StringLit, path)]
    case SetStmt(a, u, _, _) =>
      [Tok(Set, "SET"), Tok(Window, "WINDOW"), Tok(Equal, "="), Tok(TimeUnit, NatToString(a) + u)]
    case TransformStmt(table, column, a, u, _, _) =>
      [Tok(Trend, "TREND"), Tok(LParen, "("), Tok(Id, table), Tok(Dot, "."), Tok(Id, column), Tok(RParen, ")"),
       Tok(Arrow, "->"), Tok(Id, "forecast_next"), Tok(LParen, "("), Tok(TimeUnit, NatToString(a) + u), Tok(RParen, ")")]
    case ForecastStmt(table, column, model, ps, _, _) => ForecastTokens(table, column, model, ps)
    case SelectStmt(table, column, op, d, _, _) =>
      [Tok(Select, "SELECT"), Tok(Id, table), Tok(Dot, "."), Tok(Id, column)]
      + (if op.Some? then [Tok(Where, "WHERE"), Tok(Date, "DATE"), Tok(Greater, op.value), Tok(StringLit, d.value)]
         else [])
    case PlotStmt(fn, args, _, _) => PlotTokens(fn, args)
    case ExportStmt(table, column, target, _, _) =>
      [Tok(Export, "EXPORT"), Tok(Id, table)]
      + (if column.Some? then [Tok(Dot, "."), Tok(Id, column.value)] else [])
      + [Tok(To, "TO"), Tok(StringLit, target)]
    case LoopStmt(v, f, t, body, _, _) => LoopTokens(v, f, t, body)
    case CleanStmt(a, target, column, w, _, _) =>
      if a == RemoveAction then [Tok(Remove, "REMOVE"), Tok(Id, target), Tok(From, "FROM"), Tok(Id, column)]
      else [Tok(Replace, "REPLACE"), Tok(Id, target), Tok(In, "IN"), Tok(Id, column), Tok(With, "WITH"), Tok(StringLit, w)]
  }

  function ForecastTokens(table: string, column: string, model: string, ps: seq<(string, int)>): (r: seq<Token>)
    requires forall i :: 0 <= i < |ps| ==> ps[i].1 >= 0
  {
    [Tok(Forecast, "FORECAST"), Tok(Id, table), Tok(Dot, "."), Tok(Id, column), Tok(Using, "USING"),
     Tok(Id, model), Tok(LParen, "(")] + ParamTokens(ps) + [Tok(RParen, ")")]
  }

  function PlotTokens(fn: string, args: seq<(string, string)>): (r: seq<Token>)
  {
    [Tok(Plot, "PLOT"), Tok(Id, fn), Tok(LParen, "(")] + ArgTokens(args) + [Tok(RParen, ")")]
  }

  function LoopTokens(v: string, f: nat, t: nat, body: seq<Node>): (r: seq<Token>)
    requires AllPrintable(body)
    decreases body, 1
  {
    [Tok(For, "FOR"), Tok(Id, v), Tok(In, "IN"), Tok(IntLit, NatToString(f)), Tok(To, "TO"),
     Tok(IntLit, NatToString(t)), Tok(LBrace, "{")] + BodyTokens(body) + [Tok(RBrace, "}")]
  }

  function BodyTokens(ns: seq<Node>): (r: seq<Token>)
    requires AllPrintable(ns)
    decreases ns, 0
  {
    if |ns| == 0 then [] else StmtTokens(ns[0]) + BodyTokens(ns[1..])
  }

  /** A node with every position set to line 0, column 0. */
  function Erase(n: Node): (r: Node)
    decreases n, 1
  {
    match n
    case Program(ss) => Program(EraseAll(ss))
    case LoadStmt(id, path, _, _) => LoadStmt(id, path, 0, 0)
    case SetStmt(a, u, _, _) => SetStmt(a, u, 0, 0)
    case TransformStmt(t, c, a, u, _, _) => TransformStmt(t, c, a, u, 0, 0)
    case ForecastStmt(t, c, m, ps, _, _) => ForecastStmt(t, c, m, ps, 0, 0)
    case StreamStmt(id, path, _, _) => StreamStmt(id, path, 0, 0)
    case SelectStmt(t, c, op, d, _, _) => SelectStmt(t, c, op, d, 0, 0)
    case PlotStmt(fn, args, _, _) => PlotStmt(fn, args, 0, 0)
    case ExportStmt(t, c, target, _, _) => ExportStmt(t, c, target, 0, 0)
    case LoopStmt(v, f, t, b, _, _) => LoopStmt(v, f, t, EraseAll(b), 0, 0)
    case CleanStmt(a, t, c, w, _, _) => CleanStmt(a, t, c, w, 0, 0)
    case Expression(_, _) => Expression(0, 0)
    case Value(_, _) => Value(0, 0)
  }

  function EraseAll(ns: seq<Node>): (r: seq<Node>)
    decreases ns, 0
  {
    if |ns| == 0 then [] else [Erase(ns[0])] + EraseAll(ns[1..])
  }

  /** `ts` holds `r` from index `c` on. */
  predicate At(ts: seq<Token>, c: nat, r: seq<Token>)
  {
    SliceIs(ts, c, r)
  }

  /** The body of `At`, kept apart so that asserting `At` does not expand
      into the slice equality. */
  predicate SliceIs(ts: seq<Token>, c: nat, r: seq<Token>)
  {
    c + |r| <= |ts| && ts[c..c + |r|] == r
  }

  /** The tokens of `r`, one by one. */
  lemma AtTokens(ts: seq<Token>, c: nat, r: seq<Token>)
    requires At(ts, c, r)
    ensures forall i :: 0 <= i < |r| ==> ts[c + i] == r[i]
  {
    forall i | 0 <= i < |r|
      ensures ts[c + i] == r[i]
    {
      assert ts[c..c + |r|][i] == ts[c + i];
    }
  }

  /** What may follow a statement: the next statement, the `}` of a loop
      body or the end of input. */
  predicate Stops(k: Kind)
  {
    StartsStatement(k) || k == RBrace || k == EndOfFile
  }

  /** Statement `n`, printed from `c` on, is parsed back up to positions. */
  predicate ReadsBack(ts: seq<Token>, c: nat, n: Node)
    requires Terminated(ts) && c < |ts| && Printable(n)
  {
    var r := Statement(ts, c);
    r.Ok? && r.value.1 == c + |StmtTokens(n)| && Erase(r.value.0) == Erase(n)
  }

  lemma AtSplit(ts: seq<Token>, c: nat, a: seq<Token>, b: seq<Token>)
    requires At(ts, c, a + b)
    ensures At(ts, c, a) && At(ts, c + |a|, b)
  {
    var w := ts[c..c + |a| + |b|];
    assert w == a + b;
    assert forall i :: 0 <= i < |a| ==> ts[c..c + |a|][i] == w[i] == a[i];
    assert forall i :: 0 <= i < |b| ==> ts[c + |a|..c + |a| + |b|][i] == w[|a| + i] == b[i];
  }

  /** A printed interval splits back into its amount and unit. */
  lemma IntervalRoundTrip(ts: seq<Token>, c: nat, a: nat, u: string)
    requires Terminated(ts) && c < |ts| && ts[c] == Tok(TimeUnit, NatToString(a) + u)
    requires u != "" && !IsDigit(u[0])
    ensures TimeInterval(ts, c) == Ok((a, u, c + 1))
  {
    var d := NatToString(a);
    var v := d + u;
    DigitRunStops(v, 0, |d|);
    assert v[..|d|] == d;
    assert v[|d|..] == u;
  }

  lemma AtDrop(ts: seq<Token>, c: nat, r: seq<Token>, k: nat)
    requires At(ts, c, r) && k <= |r|
    ensures At(ts, c + k, r[k..])
  {
    assert r == r[..k] + r[k..];
    AtSplit(ts, c, r[..k], r[k..]);
  }

  /** `a` of length `k`, then `b`. */
  lemma AtSplitAt(ts: seq<Token>, c: nat, a: seq<Token>, b: seq<Token>, k: nat)
    requires At(ts, c, a + b) && |a| == k
    ensures At(ts, c, a) && At(ts, c + k, b)
  {
    AtSplit(ts, c, a, b);
  }

  /** `h` of length `k`, then `m`, then the single token `t`, from `c` on. */
  lemma AtFramed(ts: seq<Token>, c: nat, h: seq<Token>, m: seq<Token>, t: Token, k: nat)
    requires At(ts, c, h + m + [t]) && |h| == k
    ensures At(ts, c, h) && At(ts, c + k, m)
    ensures c + k + |m| < |ts| && ts[c + k + |m|] == t
  {
    AtSplit(ts, c, h + m, [t]);
    AtSplit(ts, c, h, m);
    AtTokens(ts, c + |h + m|, [t]);
    assert ts[c + |h + m| + 0] == [t][0];
  }

  /** Statement `n` is printed at `c`, and a token that may follow a
      statement comes after it. */
  predicate PrintedAt(ts: seq<Token>, c: nat, n: Node)
  {
    Terminated(ts) && Printable(n) && Followed(ts, c, StmtTokens(n))
  }

  /** `ts` holds `r` from `c` on, and a token that may follow a statement
      comes after it. */
  predicate Followed(ts: seq<Token>, c: nat, r: seq<Token>)
  {
    At(ts, c, r) && c + |r| < |ts| && Stops(ts[c + |r|].kind)
  }

  // The keyword picks the statement parser.

  lemma LiftLoad(ts: seq<Token>, c: nat)
    requires Terminated(ts) && c + 1 < |ts| && ts[c].kind == Load
    ensures Statement(ts, c) == SourceStatement(ts, c + 1, false)
  {
    assert Check(ts, c, Load);
  }

  lemma LiftSet(ts: seq<Token>, c: nat)
    requires Terminated(ts) && c + 1 < |ts| && ts[c].kind == Set
    ensures Statement(ts, c) == SetStatement(ts, c + 1)
  {
    assert !Check(ts, c, Load) && Check(ts, c, Set);
  }

  lemma LiftTrend(ts: seq<Token>, c: nat)
    requires Terminated(ts) && c + 1 < |ts| && ts[c].kind == Trend
    ensures Statement(ts, c) == TransformStatement(ts, c + 1)
  {
    assert !Check(ts, c, Load) && !Check(ts, c, Set) && Check(ts, c, Trend);
  }

  lemma LiftForecast(ts: seq<Token>, c: nat)
    requires Terminated(ts) && c + 1 < |ts| && ts[c].kind == Forecast
    ensures Statement(ts, c) == ForecastStatement(ts, c + 1)
  {
    assert !Check(ts, c, Load) && !Check(ts, c, Set) && !Check(ts, c, Trend) && Check(ts, c, Forecast);
  }

  lemma LiftStream(ts: seq<Token>, c: nat)
    requires Terminated(ts) && c + 1 < |ts| && ts[c].kind == Stream
    ensures Statement(ts, c) == SourceStatement(ts, c + 1, true)
  {
    assert !Check(ts, c, Load) && !Check(ts, c, Set) && !Check(ts, c, Trend) && !Check(ts, c, Forecast);
    assert Check(ts, c, Stream);
  }

  lemma LiftSelect(ts: seq<Token>, c: nat)
    requires Terminated(ts) && c + 1 < |ts| && ts[c].kind == Select
    ensures Statement(ts, c) == SelectStatement(ts, c + 1)
  {
    assert !Check(ts, c, Load) && !Check(ts, c, Set) && !Check(ts, c, Trend) && !Check(ts, c, Forecast);
    assert !Check(ts, c, Stream) && Check(ts, c, Select);
  }

  lemma LiftPlot(ts: seq<Token>, c: nat)
    requires Terminated(ts) && c + 1 < |ts| && ts[c].kind == Plot
    ensures Statement(ts, c) == PlotStatement(ts, c + 1)
  {
    assert !Check(ts, c, Load) && !Check(ts, c, Set) && !Check(ts, c, Trend) && !Check(ts, c, Forecast);
    assert !Check(ts, c, Stream) && !Check(ts, c, Select) && Check(ts, c, Plot);
  }

  lemma LiftExport(ts: seq<Token>, c: nat)
    requires Terminated(ts) && c + 1 < |ts| && ts[c].kind == Export
    ensures Statement(ts, c) == ExportStatement(ts, c + 1)
  {
    assert !Check(ts, c, Load) && !Check(ts, c, Set) && !Check(ts, c, Trend) && !Check(ts, c, Forecast);
    assert !Check(ts, c, Stream) && !Check(ts, c, Select) && !Check(ts, c, Plot) && Check(ts, c, Export);
  }

  lemma LiftFor(ts: seq<Token>, c: nat)
    requires Terminated(ts) && c + 1 < |ts| && ts[c].kind == For
    ensures Statement(ts, c) == LoopStatement(ts, c + 1)
  {
    assert !Check(ts, c, Load) && !Check(ts, c, Set) && !Check(ts, c, Trend) && !Check(ts, c, Forecast);
    assert !Check(ts, c, Stream) && !Check(ts, c, Select) && !Check(ts, c, Plot) && !Check(ts, c, Export);
    assert Check(ts, c, For);
  }

  lemma LiftClean(ts: seq<Token>, c: nat)
    requires Terminated(ts) && c + 1 < |ts| && ts[c].kind in {Remove, Replace, Analyze}
    ensures Statement(ts, c) == CleanStatement(ts, c + 1)
  {
    assert !Check(ts, c, Load) && !Check(ts, c, Set) && !Check(ts, c, Trend) && !Check(ts, c, Forecast);
    assert !Check(ts, c, Stream) && !Check(ts, c, Select) && !Check(ts, c, Plot) && !Check(ts, c, Export);
    assert !Check(ts, c, For) && (Check(ts, c, Remove) || Check(ts, c, Replace) || Check(ts, c, Analyze));
  }

  // Each statement parser, from just after its keyword, on printed tokens.

  lemma SourceTail(ts: seq<Token>, c: nat, id: string, path: string)
    requires Terminated(ts) && 0 < c && c + 3 < |ts|
    requires ts[c] == Tok(Id, id) && ts[c + 1] == Tok(From, "FROM") && ts[c + 2] == Tok(StringLit, path)
    ensures SourceStatement(ts, c, false) == Ok((LoadStmt(id, path, 0, 0), c + 3))
    ensures SourceStatement(ts, c, true) == Ok((StreamStmt(id, path, 0, 0), c + 3))
  {
    assert Advance(ts, c) == (ts[c], c + 1);
    assert Expect(ts, c + 1, From) == Ok(c + 2);
    assert Advance(ts, c + 2) == (ts[c + 2], c + 3);
  }

  lemma SetTail(ts: seq<Token>, c: nat, a: nat, u: string)
    requires Terminated(ts) && 0 < c && c + 3 < |ts| && u != "" && !IsDigit(u[0])
    requires ts[c] == Tok(Window, "WINDOW") && ts[c + 1] == Tok(Equal, "=")
    requires ts[c + 2] == Tok(TimeUnit, NatToString(a) + u)
    ensures SetStatement(ts, c) == Ok((SetStmt(a, u, ts[c + 3].line, ts[c + 3].column), c + 3))
  {
    IntervalRoundTrip(ts, c + 2, a, u);
    assert Expect(ts, c, Window) == Ok(c + 1);
    assert Expect(ts, c + 1, Equal) == Ok(c + 2);
  }

  lemma TransformTail(ts: seq<Token>, c: nat, table: string, column: string, a: nat, u: string)
    requires Terminated(ts) && 0 < c && c + 10 < |ts| && u != "" && !IsDigit(u[0])
    requires ts[c] == Tok(LParen, "(") && ts[c + 1] == Tok(Id, table)
    requires ts[c + 2] == Tok(Dot, ".") && ts[c + 3] == Tok(Id, column) && ts[c + 4] == Tok(RParen, ")")
    requires ts[c + 5] == Tok(Arrow, "->") && ts[c + 6] == Tok(Id, "forecast_next") && ts[c + 7] == Tok(LParen, "(")
    requires ts[c + 8] == Tok(TimeUnit, NatToString(a) + u) && ts[c + 9] == Tok(RParen, ")")
    ensures TransformStatement(ts, c) == Ok((TransformStmt(table, column, a, u, ts[c + 10].line, ts[c + 10].column), c + 10))
  {
    IntervalRoundTrip(ts, c + 8, a, u);
    assert TableAndColumn(ts, c + 1) == Ok((table, Some(column), c + 4));
    assert Expect(ts, c, LParen) == Ok(c + 1);
    assert Expect(ts, c + 4, RParen) == Ok(c + 5);
    assert Expect(ts, c + 5, Arrow) == Ok(c + 6);
    assert Expect(ts, c + 6, Id) == Ok(c + 7);
    assert Expect(ts, c + 7, LParen) == Ok(c + 8);
    assert Expect(ts, c + 9, RParen) == Ok(c + 10);
  }

  lemma ForecastTail(ts: seq<Token>, c: nat, table: string, column: string, model: string,
                     ps: seq<(string, int)>, e: nat)
    requires Terminated(ts) && 0 < c && c + 6 < |ts|
    requires ts[c] == Tok(Id, table) && ts[c + 1] == Tok(Dot, ".") && ts[c + 2] == Tok(Id, column)
    requires ts[c + 3] == Tok(Using, "USING") && ts[c + 4] == Tok(Id, model) && ts[c + 5] == Tok(LParen, "(")
    requires Params(ts, c + 6) == Ok((ps, e)) && e < |ts| && ts[e] == Tok(RParen, ")")
    ensures ForecastStatement(ts, c) == Ok((ForecastStmt(table, column, model, ps, 0, 0), e + 1))
  {
    assert TableAndColumn(ts, c) == Ok((table, Some(column), c + 3));
    assert Expect(ts, c + 3, Using) == Ok(c + 4);
    assert Advance(ts, c + 4) == (ts[c + 4], c + 5);
    assert Expect(ts, c + 5, LParen) == Ok(c + 6);
    assert Expect(ts, e, RParen) == Ok(e + 1);
  }

  lemma SelectTail(ts: seq<Token>, c: nat, table: string, column: string)
    requires Terminated(ts) && 0 < c && c + 3 < |ts|
    requires ts[c] == Tok(Id, table) && ts[c + 1] == Tok(Dot, ".") && ts[c + 2] == Tok(Id, column)
    requires !Check(ts, c + 3, Where)
    ensures SelectStatement(ts, c) == Ok((SelectStmt(table, column, None, None, ts[c + 3].line, ts[c + 3].column), c + 3))
  {
    assert TableAndColumn(ts, c) == Ok((table, Some(column), c + 3));
  }

  lemma SelectWhereTail(ts: seq<Token>, c: nat, table: string, column: string, op: string, d: string)
    requires Terminated(ts) && 0 < c && c + 7 < |ts|
    requires ts[c] == Tok(Id, table) && ts[c + 1] == Tok(Dot, ".") && ts[c + 2] == Tok(Id, column)
    requires ts[c + 3] == Tok(Where, "WHERE") && ts[c + 4] == Tok(Date, "DATE")
    requires ts[c + 5] == Tok(Greater, op) && ts[c + 6] == Tok(StringLit, d)
    ensures SelectStatement(ts, c)
            == Ok((SelectStmt(table, column, Some(op), Some(d), ts[c + 7].line, ts[c + 7].column), c + 7))
  {
    assert TableAndColumn(ts, c) == Ok((table, Some(column), c + 3));
    assert Expect(ts, c + 4, Date) == Ok(c + 5);
    assert Advance(ts, c + 5) == (ts[c + 5], c + 6);
    assert Advance(ts, c + 6) == (ts[c + 6], c + 7);
    assert DateCondition(ts, c + 3) == Ok((Some(op), Some(d), c + 7));
  }

  lemma PlotTail(ts: seq<Token>, c: nat, fn: string, args: seq<(string, string)>, e: nat)
    requires Terminated(ts) && 0 < c && c + 2 < |ts|
    requires ts[c] == Tok(Id, fn) && ts[c + 1] == Tok(LParen, "(")
    requires PlotArgs(ts, c + 2) == Ok((args, e))
    ensures PlotStatement(ts, c) == Ok((PlotStmt(fn, args, 0, 0), e + 1))
  {
    assert Advance(ts, c) == (ts[c], c + 1);
    assert Expect(ts, c + 1, LParen) == Ok(c + 2);
  }

  lemma ExportTail(ts: seq<Token>, c: nat, table: string, target: string)
    requires Terminated(ts) && 0 < c && c + 3 < |ts|
    requires ts[c] == Tok(Id, table) && ts[c + 1] == Tok(To, "TO") && ts[c + 2] == Tok(StringLit, target)
    ensures ExportStatement(ts, c) == Ok((ExportStmt(table, None, target, |table|, 0), c + 3))
  {
    assert Expect(ts, c, Id) == Ok(c + 1);
    assert Expect(ts, c + 1, To) == Ok(c + 2);
    assert Advance(ts, c + 2) == (ts[c + 2], c + 3);
  }

  lemma ExportColumnTail(ts: seq<Token>, c: nat, table: string, column: string, target: string)
    requires Terminated(ts) && 0 < c && c + 5 < |ts|
    requires ts[c] == Tok(Id, table) && ts[c + 1] == Tok(Dot, ".") && ts[c + 2] == Tok(Id, column)
    requires ts[c + 3] == Tok(To, "TO") && ts[c + 4] == Tok(StringLit, target)
    ensures ExportStatement(ts, c) == Ok((ExportStmt(table, Some(column), target, |table|, 0), c + 5))
  {
    assert Expect(ts, c, Id) == Ok(c + 1);
    assert Expect(ts, c + 2, Id) == Ok(c + 3);
    assert Expect(ts, c + 3, To) == Ok(c + 4);
    assert Advance(ts, c + 4) == (ts[c + 4], c + 5);
  }

  lemma RemoveTail(ts: seq<Token>, c: nat, target: string, column: string)
    requires Terminated(ts) && 0 < c && c + 3 < |ts| && ts[c - 1] == Tok(Remove, "REMOVE")
    requires ts[c] == Tok(Id, target) && ts[c + 1] == Tok(From, "FROM") && ts[c + 2] == Tok(Id, column)
    requires !Check(ts, c + 3, Dot)
    ensures CleanStatement(ts, c) == Ok((CleanStmt(RemoveAction, target, column, "", 0, 0), c + 3))
  {
    assert Advance(ts, c) == (ts[c], c + 1);
    assert Expect(ts, c + 1, From) == Ok(c + 2);
    assert Column(ts, c + 2) == Ok((column, c + 3));
  }

  lemma ReplaceTail(ts: seq<Token>, c: nat, target: string, column: string, w: string)
    requires Terminated(ts) && 0 < c && c + 5 < |ts| && ts[c - 1] == Tok(Replace, "REPLACE")
    requires ts[c] == Tok(Id, target) && ts[c + 1] == Tok(In, "IN") && ts[c + 2] == Tok(Id, column)
    requires ts[c + 3] == Tok(With, "WITH") && ts[c + 4] == Tok(StringLit, w)
    ensures CleanStatement(ts, c) == Ok((CleanStmt(ReplaceAction, target, column, w, 0, 0), c + 5))
  {
    assert Advance(ts, c) == (ts[c], c + 1);
    assert Expect(ts, c + 1, In) == Ok(c + 2);
    assert Column(ts, c + 2) == Ok((column, c + 3));
    assert Expect(ts, c + 3, With) == Ok(c + 4);
    assert ValueToken(ts, c + 4) == Ok((w, c + 5));
  }

  /** The cursor steps over a printed loop header, and both bounds read
      back through `std::stoi`. */
  lemma LoopHeader(ts: seq<Token>, c: nat, v: string, f: nat, t: nat)
    requires Terminated(ts) && 0 < c && c + 6 < |ts|
    requires ts[c] == Tok(Id, v) && ts[c + 1] == Tok(In, "IN") && ts[c + 2] == Tok(IntLit, NatToString(f))
    requires ts[c + 3] == Tok(To, "TO") && ts[c + 4] == Tok(IntLit, NatToString(t)) && ts[c + 5] == Tok(LBrace, "{")
    ensures Expect(ts, c, Id) == Ok(c + 1) && Expect(ts, c + 1, In) == Ok(c + 2)
    ensures Advance(ts, c + 2) == (ts[c + 2], c + 3) && Expect(ts, c + 3, To) == Ok(c + 4)
    ensures Advance(ts, c + 4) == (ts[c + 4], c + 5) && Expect(ts, c + 5, LBrace) == Ok(c + 6)
    ensures Stoi(ts[c + 2].value) == Ok(f) && Stoi(ts[c + 4].value) == Ok(t)
  {
    StoiNat(f);
    StoiNat(t);
  }

  lemma LoopTail(ts: seq<Token>, c: nat, v: string, f: nat, t: nat, body: seq<Node>, e: nat)
    requires Terminated(ts) && 0 < c && c + 6 < |ts|
    requires ts[c] == Tok(Id, v) && ts[c + 1] == Tok(In, "IN") && ts[c + 2] == Tok(IntLit, NatToString(f))
    requires ts[c + 3] == Tok(To, "TO") && ts[c + 4] == Tok(IntLit, NatToString(t)) && ts[c + 5] == Tok(LBrace, "{")
    requires Body(ts, c + 6) == Ok((body, e)) && e < |ts| && ts[e] == Tok(RBrace, "}")
    ensures LoopStatement(ts, c) == Ok((LoopStmt(v, f, t, body, 0, 0), e + 1))
  {
    LoopHeader(ts, c, v, f, t);
    LoopCloseTail(ts, c, v, f, t, body, e);
  }

  lemma LoopCloseTail(ts: seq<Token>, c: nat, v: string, f: nat, t: nat, body: seq<Node>, e: nat)
    requires Terminated(ts) && 0 < c && c + 4 < |ts| && e < |ts| && ts[e] == Tok(RBrace, "}")
    requires ts[c] == Tok(Id, v) && Stoi(ts[c + 2].value) == Ok(f) && Stoi(ts[c + 4].value) == Ok(t)
    ensures LoopClose(ts, c, body, e) == Ok((LoopStmt(v, f, t, body, 0, 0), e + 1))
  {
    assert Expect(ts, e, RBrace) == Ok(e + 1);
  }

  // ---------------------------------------------------------------------
  // Parameter and argument lists read back

  /** `ID = value` on printed tokens. */
  lemma KeyValueTokens(ts: seq<Token>, c: nat, key: string, v: Token)
    requires Terminated(ts) && c + 3 < |ts| && IsValueKind(v.kind)
    requires ts[c] == Tok(Id, key) && ts[c + 1] == Tok(Equal, "=") && ts[c + 2] == v
    ensures KeyValue(ts, c) == Ok((key, v.value, c + 3))
  {
  }

  /** `ts` holds the parameters `ps` from `c` up to `e`, each printed as
      `, key = <int>`. */
  predicate PairsAt(ts: seq<Token>, c: nat, ps: seq<(string, int)>, e: nat)
    decreases |ps|
  {
    if |ps| == 0 then c == e
    else
      && c + 4 <= |ts| && ps[0].1 >= 0
      && ts[c] == Tok(Comma, ",") && ts[c + 1] == Tok(Id, ps[0].0) && ts[c + 2] == Tok(Equal, "=")
      && ts[c + 3] == Tok(IntLit, NatToString(ps[0].1))
      && PairsAt(ts, c + 4, ps[1..], e)
  }

  /** The whole parameter list from `c` up to `e`: empty, or a first
      `key = <int>` pair followed by the rest. */
  predicate ParamsAt(ts: seq<Token>, c: nat, ps: seq<(string, int)>, e: nat)
  {
    if |ps| == 0 then c == e
    else
      && c + 3 <= |ts| && ps[0].1 >= 0
      && ts[c] == Tok(Id, ps[0].0) && ts[c + 1] == Tok(Equal, "=")
      && ts[c + 2] == Tok(IntLit, NatToString(ps[0].1))
      && PairsAt(ts, c + 3, ps[1..], e)
  }

  lemma {:induction false} PairsEnd(ts: seq<Token>, c: nat, ps: seq<(string, int)>, e: nat)
    requires PairsAt(ts, c, ps, e)
    ensures c <= e
    decreases |ps|
  {
    if |ps| > 0 {
      PairsEnd(ts, c + 4, ps[1..], e);
    }
  }

  /** The `, key = <int>` step of the parameter loop. */
  lemma MoreParamsStep(ts: seq<Token>, c: nat, p: (string, int), rest: seq<(string, int)>, e: nat)
    requires Terminated(ts) && c + 4 < |ts| && p.1 >= 0
    requires ts[c] == Tok(Comma, ",") && ts[c + 1] == Tok(Id, p.0) && ts[c + 2] == Tok(Equal, "=")
    requires ts[c + 3] == Tok(IntLit, NatToString(p.1))
    requires MoreParams(ts, c + 4) == Ok((rest, e))
    ensures MoreParams(ts, c) == Ok(([p] + rest, e))
  {
    KeyValueTokens(ts, c + 1, p.0, ts[c + 3]);
    StoiNat(p.1);
  }

  /** The parameter loop reads printed pairs back, and stops at the first
      token that is not a comma. */
  lemma {:induction false} MoreParamsReadBack(ts: seq<Token>, c: nat, ps: seq<(string, int)>, e: nat)
    requires Terminated(ts) && PairsAt(ts, c, ps, e) && e < |ts| && !Check(ts, e, Comma)
    ensures MoreParams(ts, c) == Ok((ps, e))
    decreases |ps|
  {
    if |ps| > 0 {
      PairsEnd(ts, c + 4, ps[1..], e);
      MoreParamsReadBack(ts, c + 4, ps[1..], e);
      MoreParamsStep(ts, c, ps[0], ps[1..], e);
      SplitHead(ps);
    }
  }

  /** The first `key = <int>` pair of the parameter list. */
  lemma ParamsStep(ts: seq<Token>, c: nat, p: (string, int), rest: seq<(string, int)>, e: nat)
    requires Terminated(ts) && c + 3 < |ts| && p.1 >= 0
    requires ts[c] == Tok(Id, p.0) && ts[c + 1] == Tok(Equal, "=") && ts[c + 2] == Tok(IntLit, NatToString(p.1))
    requires MoreParams(ts, c + 3) == Ok((rest, e))
    ensures Params(ts, c) == Ok(([p] + rest, e))
  {
    KeyValueTokens(ts, c, p.0, ts[c + 2]);
    StoiNat(p.1);
  }

  /** `parseParams` reads a printed parameter list back when a `)` follows. */
  lemma ParamsReadBack(ts: seq<Token>, c: nat, ps: seq<(string, int)>, e: nat)
    requires Terminated(ts) && ParamsAt(ts, c, ps, e) && e < |ts| && ts[e].kind == RParen
    ensures Params(ts, c) == Ok((ps, e))
  {
    if |ps| > 0 {
      PairsEnd(ts, c + 3, ps[1..], e);
      MoreParamsReadBack(ts, c + 3, ps[1..], e);
      ParamsStep(ts, c, ps[0], ps[1..], e);
      SplitHead(ps);
    }
  }

  /** Printed pairs are where `PairsAt` expects them. */
  lemma {:induction false} PrintedPairs(ts: seq<Token>, c: nat, ps: seq<(string, int)>)
    requires forall i :: 0 <= i < |ps| ==> ps[i].1 >= 0
    requires At(ts, c, MoreParamTokens(ps))
    ensures PairsAt(ts, c, ps, c + |MoreParamTokens(ps)|)
    decreases |ps|
  {
    if |ps| > 0 {
      var head := [Tok(Comma, ","), Tok(Id, ps[0].0), Tok(Equal, "="), Tok(IntLit, NatToString(ps[0].1))];
      var rest := MoreParamTokens(ps[1..]);
      assert MoreParamTokens(ps) == head + rest;
      AtSplitAt(ts, c, head, rest, 4);
      AtTokens(ts, c, head);
      assert ts[c + 0] == head[0] && ts[c + 1] == head[1] && ts[c + 2] == head[2] && ts[c + 3] == head[3];
      PrintedPairs(ts, c + 4, ps[1..]);
    }
  }

  lemma PrintedParams(ts: seq<Token>, c: nat, ps: seq<(string, int)>)
    requires forall i :: 0 <= i < |ps| ==> ps[i].1 >= 0
    requires At(ts, c, ParamTokens(ps))
    ensures ParamsAt(ts, c, ps, c + |ParamTokens(ps)|)
  {
    if |ps| > 0 {
      var head := [Tok(Id, ps[0].0), Tok(Equal, "="), Tok(IntLit, NatToString(ps[0].1))];
      var rest := MoreParamTokens(ps[1..]);
      assert ParamTokens(ps) == head + rest;
      AtSplitAt(ts, c, head, rest, 3);
      AtTokens(ts, c, head);
      assert ts[c + 0] == head[0] && ts[c + 1] == head[1] && ts[c + 2] == head[2];
      PrintedPairs(ts, c + 3, ps[1..]);
    }
  }

  /** `ts` holds the plot arguments `args` from `c` up to `e`: `key =
      <string>` pairs with a comma between neighbours. */
  predicate ArgsAt(ts: seq<Token>, c: nat, args: seq<(string, string)>, e: nat)
    decreases |args|
  {
    if |args| == 0 then c == e
    else
      && c + 3 <= |ts|
      && ts[c] == Tok(Id, args[0].0) && ts[c + 1] == Tok(Equal, "=") && ts[c + 2] == Tok(StringLit, args[0].1)
      && if |args| == 1 then e == c + 3
         else c + 4 <= |ts| && ts[c + 3] == Tok(Comma, ",") && ArgsAt(ts, c + 4, args[1..], e)
  }

  lemma {:induction false} ArgsEnd(ts: seq<Token>, c: nat, args: seq<(string, string)>, e: nat)
    requires ArgsAt(ts, c, args, e)
    ensures c <= e
    decreases |args|
  {
    if |args| > 1 {
      ArgsEnd(ts, c + 4, args[1..], e);
    }
  }

  /** The cursor steps over one printed `key = <string>` argument. */
  lemma ArgHead(ts: seq<Token>, c: nat, p: (string, string))
    requires Terminated(ts) && c + 3 < |ts|
    requires ts[c] == Tok(Id, p.0) && ts[c + 1] == Tok(Equal, "=") && ts[c + 2] == Tok(StringLit, p.1)
    ensures !Check(ts, c, RParen) && Expect(ts, c, Id) == Ok(c + 1) && Expect(ts, c + 1, Equal) == Ok(c + 2)
    ensures PlotValue(ts, c + 2) == Ok((p.1, c + 3))
  {
  }

  /** The last `key = <string>` argument, right before the `)`. */
  lemma LastArgStep(ts: seq<Token>, c: nat, p: (string, string))
    requires Terminated(ts) && c + 3 < |ts| && Check(ts, c + 3, RParen)
    requires ts[c] == Tok(Id, p.0) && ts[c + 1] == Tok(Equal, "=") && ts[c + 2] == Tok(StringLit, p.1)
    ensures PlotArgs(ts, c) == Ok(([p], c + 3))
  {
    ArgHead(ts, c, p);
    assert PlotArgs(ts, c + 3) == Ok(([], c + 3));
    assert [p] + [] == [p];
  }

  /** A `key = <string>` argument followed by a comma and more arguments. */
  lemma ArgsStep(ts: seq<Token>, c: nat, p: (string, string), rest: seq<(string, string)>, e: nat)
    requires Terminated(ts) && c + 4 < |ts| && ts[c + 3] == Tok(Comma, ",")
    requires ts[c] == Tok(Id, p.0) && ts[c + 1] == Tok(Equal, "=") && ts[c + 2] == Tok(StringLit, p.1)
    requires PlotArgs(ts, c + 4) == Ok((rest, e))
    ensures PlotArgs(ts, c) == Ok(([p] + rest, e))
  {
    ArgHead(ts, c, p);
    assert !Check(ts, c + 3, RParen) && Expect(ts, c + 3, Comma) == Ok(c + 4);
  }

  /** The plot argument loop reads printed arguments back up to the `)`. */
  lemma {:induction false} ArgsReadBack(ts: seq<Token>, c: nat, args: seq<(string, string)>, e: nat)
    requires Terminated(ts) && ArgsAt(ts, c, args, e) && e < |ts| && ts[e].kind == RParen
    ensures PlotArgs(ts, c) == Ok((args, e))
    decreases |args|
  {
    if |args| == 1 {
      LastArgStep(ts, c, args[0]);
      assert [args[0]] == args;
    } else if |args| > 1 {
      ArgsEnd(ts, c + 4, args[1..], e);
      ArgsReadBack(ts, c + 4, args[1..], e);
      ArgsStep(ts, c, args[0], args[1..], e);
      SplitHead(args);
    }
  }

  /** Printed arguments are where `ArgsAt` expects them. */
  lemma {:induction false} PrintedArgs(ts: seq<Token>, c: nat, args: seq<(string, string)>)
    requires At(ts, c, ArgTokens(args))
    ensures ArgsAt(ts, c, args, c + |ArgTokens(args)|)
    decreases |args|
  {
    if |args| > 0 {
      var head := [Tok(Id, args[0].0), Tok(Equal, "="), Tok(StringLit, args[0].1)];
      if |args| == 1 {
        assert ArgTokens(args[1..]) == [];
        assert ArgTokens(args) == head;
        AtTokens(ts, c, head);
        assert ts[c + 0] == head[0] && ts[c + 1] == head[1] && ts[c + 2] == head[2];
      } else {
        var rest := ArgTokens(args[1..]);
        var h4 := head + [Tok(Comma, ",")];
        assert ArgTokens(args) == h4 + rest;
        AtSplitAt(ts, c, h4, rest, 4);
        AtTokens(ts, c, h4);
        assert ts[c + 0] == h4[0] && ts[c + 1] == h4[1] && ts[c + 2] == h4[2] && ts[c + 3] == h4[3];
        PrintedArgs(ts, c + 4, args[1..]);
      }
    }
  }

  // ---------------------------------------------------------------------
  // Printed statements read back. For each statement: its printed tokens
  // one by one, the parser on those tokens from the keyword on, and the
  // two put together.

  /** `ReadsBack` from the statement the parser returns. */
  lemma ReadsBackFrom(ts: seq<Token>, c: nat, n: Node, m: Node)
    requires Terminated(ts) && c < |ts| && Printable(n)
    requires Statement(ts, c) == Ok((m, c + |StmtTokens(n)|)) && Erase(m) == Erase(n)
    ensures ReadsBack(ts, c, n)
  {
  }

  /** Every printed statement starts with its keyword. */
  lemma FirstToken(n: Node)
    requires Printable(n)
    ensures |StmtTokens(n)| > 0 && StartsStatement(StmtTokens(n)[0].kind)
  {
  }

  lemma SourcePrinted(ts: seq<Token>, c: nat, n: Node)
    requires PrintedAt(ts, c, n) && (n.LoadStmt? || n.StreamStmt?)
    ensures |StmtTokens(n)| == 4 && c + 4 < |ts|
    ensures ts[c].kind == (if n.StreamStmt? then Stream else Load)
    ensures ts[c + 1] == Tok(Id, n.id) && ts[c + 2] == Tok(From, "FROM") && ts[c + 3] == Tok(StringLit, n.path)
  {
    var r := StmtTokens(n);
    AtTokens(ts, c, r);
    assert ts[c + 0] == r[0] && ts[c + 1] == r[1] && ts[c + 2] == r[2] && ts[c + 3] == r[3];
  }

  lemma SourceParsed(ts: seq<Token>, c: nat, id: string, path: string, stream: bool)
    requires Terminated(ts) && c + 4 < |ts| && ts[c].kind == (if stream then Stream else Load)
    requires ts[c + 1] == Tok(Id, id) && ts[c + 2] == Tok(From, "FROM") && ts[c + 3] == Tok(StringLit, path)
    ensures Statement(ts, c) == Ok((if stream then StreamStmt(id, path, 0, 0) else LoadStmt(id, path, 0, 0), c + 4))
  {
    var k := c + 1;
    assert ts[k] == Tok(Id, id) && ts[k + 1] == Tok(From, "FROM") && ts[k + 2] == Tok(StringLit, path);
    SourceTail(ts, k, id, path);
    assert k + 3 == c + 4;
    if stream { LiftStream(ts, c); } else { LiftLoad(ts, c); }
  }

  lemma SourceReadBack(ts: seq<Token>, c: nat, n: Node)
    requires PrintedAt(ts, c, n) && (n.LoadStmt? || n.StreamStmt?)
    ensures ReadsBack(ts, c, n)
  {
    SourcePrinted(ts, c, n);
    SourceParsed(ts, c, n.id, n.path, n.StreamStmt?);
    ReadsBackFrom(ts, c, n, if n.StreamStmt? then StreamStmt(n.id, n.path, 0, 0) else LoadStmt(n.id, n.path, 0, 0));
  }

  lemma SetPrinted(ts: seq<Token>, c: nat, n: Node)
    requires PrintedAt(ts, c, n) && n.SetStmt?
    ensures |StmtTokens(n)| == 4 && c + 4 < |ts|
    ensures ts[c].kind == Set && ts[c + 1] == Tok(Window, "WINDOW") && ts[c + 2] == Tok(Equal, "=")
    ensures ts[c + 3] == Tok(TimeUnit, NatToString(n.amount) + n.unit)
  {
    var r := StmtTokens(n);
    AtTokens(ts, c, r);
    assert ts[c + 0] == r[0] && ts[c + 1] == r[1] && ts[c + 2] == r[2] && ts[c + 3] == r[3];
  }

  lemma SetParsed(ts: seq<Token>, c: nat, a: nat, u: string)
    requires Terminated(ts) && c + 4 < |ts| && ts[c].kind == Set && u != "" && !IsDigit(u[0])
    requires ts[c + 1] == Tok(Window, "WINDOW") && ts[c + 2] == Tok(Equal, "=")
    requires ts[c + 3] == Tok(TimeUnit, NatToString(a) + u)
    ensures Statement(ts, c) == Ok((SetStmt(a, u, ts[c + 4].line, ts[c + 4].column), c + 4))
  {
    var k := c + 1;
    assert ts[k] == Tok(Window, "WINDOW") && ts[k + 1] == Tok(Equal, "=");
    assert ts[k + 2] == Tok(TimeUnit, NatToString(a) + u);
    SetTail(ts, k, a, u);
    assert k + 3 == c + 4;
    LiftSet(ts, c);
  }

  lemma SetReadBack(ts: seq<Token>, c: nat, n: Node)
    requires PrintedAt(ts, c, n) && n.SetStmt?
    ensures ReadsBack(ts, c, n)
  {
    SetPrinted(ts, c, n);
    SetParsed(ts, c, n.amount, n.unit);
    ReadsBackFrom(ts, c, n, SetStmt(n.amount, n.unit, ts[c + 4].line, ts[c + 4].column));
  }

  lemma TransformPrinted(ts: seq<Token>, c: nat, n: Node)
    requires PrintedAt(ts, c, n) && n.TransformStmt?
    ensures |StmtTokens(n)| == 11 && c + 11 < |ts|
    ensures ts[c].kind == Trend && ts[c + 1] == Tok(LParen, "(") && ts[c + 2] == Tok(Id, n.table)
    ensures ts[c + 3] == Tok(Dot, ".") && ts[c + 4] == Tok(Id, n.column) && ts[c + 5] == Tok(RParen, ")")
    ensures ts[c + 6] == Tok(Arrow, "->") && ts[c + 7] == Tok(Id, "forecast_next") && ts[c + 8] == Tok(LParen, "(")
    ensures ts[c + 9] == Tok(TimeUnit, NatToString(n.amount) + n.unit) && ts[c + 10] == Tok(RParen, ")")
  {
    var r := StmtTokens(n);
    AtTokens(ts, c, r);
    assert ts[c + 0] == r[0] && ts[c + 1] == r[1] && ts[c + 2] == r[2] && ts[c + 3] == r[3];
    assert ts[c + 4] == r[4] && ts[c + 5] == r[5] && ts[c + 6] == r[6] && ts[c + 7] == r[7];
    assert ts[c + 8] == r[8] && ts[c + 9] == r[9] && ts[c + 10] == r[10];
  }

  lemma TransformParsed(ts: seq<Token>, c: nat, table: string, column: string, a: nat, u: string)
    requires Terminated(ts) && c + 11 < |ts| && ts[c].kind == Trend && u != "" && !IsDigit(u[0])
    requires ts[c + 1] == Tok(LParen, "(") && ts[c + 2] == Tok(Id, table)
    requires ts[c + 3] == Tok(Dot, ".") && ts[c + 4] == Tok(Id, column) && ts[c + 5] == Tok(RParen, ")")
    requires ts[c + 6] == Tok(Arrow, "->") && ts[c + 7] == Tok(Id, "forecast_next") && ts[c + 8] == Tok(LParen, "(")
    requires ts[c + 9] == Tok(TimeUnit, NatToString(a) + u) && ts[c + 10] == Tok(RParen, ")")
    ensures Statement(ts, c)
            == Ok((TransformStmt(table, column, a, u, ts[c + 11].line, ts[c + 11].column), c + 11))
  {
    var k := c + 1;
    assert ts[k] == Tok(LParen, "(") && ts[k + 1] == Tok(Id, table);
    assert ts[k + 2] == Tok(Dot, ".") && ts[k + 3] == Tok(Id, column) && ts[k + 4] == Tok(RParen, ")");
    assert ts[k + 5] == Tok(Arrow, "->") && ts[k + 6] == Tok(Id, "forecast_next") && ts[k + 7] == Tok(LParen, "(");
    assert ts[k + 8] == Tok(TimeUnit, NatToString(a) + u) && ts[k + 9] == Tok(RParen, ")");
    TransformTail(ts, k, table, column, a, u);
    assert k + 10 == c + 11;
    LiftTrend(ts, c);
  }

  lemma TransformReadBack(ts: seq<Token>, c: nat, n: Node)
    requires PrintedAt(ts, c, n) && n.TransformStmt?
    ensures ReadsBack(ts, c, n)
  {
    TransformPrinted(ts, c, n);
    TransformParsed(ts, c, n.table, n.column, n.amount, n.unit);
    ReadsBackFrom(ts, c, n, TransformStmt(n.table, n.column, n.amount, n.unit, ts[c + 11].line, ts[c + 11].column));
  }

  /** A printed FORECAST statement, token by token; the parameter list
      sits between the brackets. */
  lemma ForecastPrinted(ts: seq<Token>, c: nat, table: string, column: string, model: string,
                        ps: seq<(string, int)>)
    requires forall i :: 0 <= i < |ps| ==> ps[i].1 >= 0
    requires At(ts, c, ForecastTokens(table, column, model, ps))
    ensures ts[c] == Tok(Forecast, "FORECAST") && ts[c + 1] == Tok(Id, table) && ts[c + 2] == Tok(Dot, ".")
    ensures ts[c + 3] == Tok(Id, column) && ts[c + 4] == Tok(Using, "USING")
    ensures ts[c + 5] == Tok(Id, model) && ts[c + 6] == Tok(LParen, "(")
    ensures At(ts, c + 7, ParamTokens(ps))
    ensures |ForecastTokens(table, column, model, ps)| == 7 + |ParamTokens(ps)| + 1
    ensures c + 7 + |ParamTokens(ps)| < |ts| && ts[c + 7 + |ParamTokens(ps)|] == Tok(RParen, ")")
  {
    Framed7(ts, c, Tok(Forecast, "FORECAST"), Tok(Id, table), Tok(Dot, "."), Tok(Id, column),
            Tok(Using, "USING"), Tok(Id, model), Tok(LParen, "("), ParamTokens(ps), Tok(RParen, ")"));
  }

  /** Seven tokens, then `m`, then `t`, from `c` on. */
  lemma Framed7(ts: seq<Token>, c: nat, t0: Token, t1: Token, t2: Token, t3: Token, t4: Token, t5: Token,
                t6: Token, m: seq<Token>, t: Token)
    requires At(ts, c, [t0, t1, t2, t3, t4, t5, t6] + m + [t])
    ensures ts[c] == t0 && ts[c + 1] == t1 && ts[c + 2] == t2 && ts[c + 3] == t3
    ensures ts[c + 4] == t4 && ts[c + 5] == t5 && ts[c + 6] == t6
    ensures At(ts, c + 7, m) && c + 7 + |m| < |ts| && ts[c + 7 + |m|] == t
  {
    var h := [t0, t1, t2, t3, t4, t5, t6];
    AtFramed(ts, c, h, m, t, 7);
    AtTokens(ts, c, h);
    assert ts[c + 0] == h[0];
  }

  /** Three tokens, then `m`, then `t`, from `c` on. */
  lemma Framed3(ts: seq<Token>, c: nat, t0: Token, t1: Token, t2: Token, m: seq<Token>, t: Token)
    requires At(ts, c, [t0, t1, t2] + m + [t])
    ensures ts[c] == t0 && ts[c + 1] == t1 && ts[c + 2] == t2
    ensures At(ts, c + 3, m) && c + 3 + |m| < |ts| && ts[c + 3 + |m|] == t
  {
    var h := [t0, t1, t2];
    AtFramed(ts, c, h, m, t, 3);
    AtTokens(ts, c, h);
    assert ts[c + 0] == h[0];
  }

  lemma ForecastParsed(ts: seq<Token>, c: nat, table: string, column: string, model: string,
                       ps: seq<(string, int)>, e: nat)
    requires Terminated(ts) && c + 7 < |ts| && ts[c].kind == Forecast
    requires ts[c + 1] == Tok(Id, table) && ts[c + 2] == Tok(Dot, ".") && ts[c + 3] == Tok(Id, column)
    requires ts[c + 4] == Tok(Using, "USING") && ts[c + 5] == Tok(Id, model) && ts[c + 6] == Tok(LParen, "(")
    requires Params(ts, c + 7) == Ok((ps, e)) && e < |ts| && ts[e] == Tok(RParen, ")")
    ensures Statement(ts, c) == Ok((ForecastStmt(table, column, model, ps, 0, 0), e + 1))
  {
    var k := c + 1;
    assert ts[k] == Tok(Id, table) && ts[k + 1] == Tok(Dot, ".") && ts[k + 2] == Tok(Id, column);
    assert ts[k + 3] == Tok(Using, "USING") && ts[k + 4] == Tok(Id, model) && ts[k + 5] == Tok(LParen, "(");
    assert Params(ts, k + 6) == Ok((ps, e));
    ForecastTail(ts, k, table, column, model, ps, e);
    LiftForecast(ts, c);
  }

  lemma ForecastReadBack(ts: seq<Token>, c: nat, n: Node)
    requires PrintedAt(ts, c, n) && n.ForecastStmt?
    ensures ReadsBack(ts, c, n)
  {
    ForecastPrinted(ts, c, n.table, n.column, n.model, n.params);
    ForecastCore(ts, c, n, c + 7 + |ParamTokens(n.params)|);
  }

  lemma ForecastCore(ts: seq<Token>, c: nat, n: Node, e: nat)
    requires Terminated(ts) && Printable(n) && n.ForecastStmt? && c + 7 < |ts| && ts[c].kind == Forecast
    requires ts[c + 1] == Tok(Id, n.table) && ts[c + 2] == Tok(Dot, ".") && ts[c + 3] == Tok(Id, n.column)
    requires ts[c + 4] == Tok(Using, "USING") && ts[c + 5] == Tok(Id, n.model) && ts[c + 6] == Tok(LParen, "(")
    requires forall i :: 0 <= i < |n.params| ==> n.params[i].1 >= 0
    requires At(ts, c + 7, ParamTokens(n.params)) && e == c + 7 + |ParamTokens(n.params)|
    requires e < |ts| && ts[e] == Tok(RParen, ")") && c + |StmtTokens(n)| == e + 1
    ensures ReadsBack(ts, c, n)
  {
    PrintedParams(ts, c + 7, n.params);
    ParamsReadBack(ts, c + 7, n.params, e);
    ForecastParsed(ts, c, n.table, n.column, n.model, n.params, e);
    ReadsBackFrom(ts, c, n, ForecastStmt(n.table, n.column, n.model, n.params, 0, 0));
  }

  /** A printed SELECT statement, token by token; without a condition it
      is not followed by `WHERE`. */
  lemma SelectPrinted(ts: seq<Token>, c: nat, n: Node)
    requires PrintedAt(ts, c, n) && n.SelectStmt?
    ensures n.op.Some? == n.dateExpr.Some?
    ensures |StmtTokens(n)| == if n.op.Some? then 8 else 4
    ensures c + |StmtTokens(n)| < |ts|
    ensures ts[c].kind == Select && ts[c + 1] == Tok(Id, n.table) && ts[c + 2] == Tok(Dot, ".")
    ensures ts[c + 3] == Tok(Id, n.column)
    ensures n.op.None? ==> !Check(ts, c + 4, Where)
    ensures n.op.Some? ==> ts[c + 4] == Tok(Where, "WHERE") && ts[c + 5] == Tok(Date, "DATE")
    ensures n.op.Some? ==> ts[c + 6] == Tok(Greater, n.op.value) && ts[c + 7] == Tok(StringLit, n.dateExpr.value)
  {
    var r := StmtTokens(n);
    AtTokens(ts, c, r);
    assert ts[c + 0] == r[0] && ts[c + 1] == r[1] && ts[c + 2] == r[2] && ts[c + 3] == r[3];
    if n.op.Some? {
      assert ts[c + 4] == r[4] && ts[c + 5] == r[5] && ts[c + 6] == r[6] && ts[c + 7] == r[7];
    }
  }

  lemma SelectParsed(ts: seq<Token>, c: nat, table: string, column: string)
    requires Terminated(ts) && c + 4 < |ts| && ts[c].kind == Select
    requires ts[c + 1] == Tok(Id, table) && ts[c + 2] == Tok(Dot, ".") && ts[c + 3] == Tok(Id, column)
    requires !Check(ts, c + 4, Where)
    ensures Statement(ts, c) == Ok((SelectStmt(table, column, None, None, ts[c + 4].line, ts[c + 4].column), c + 4))
  {
    var k := c + 1;
    assert ts[k] == Tok(Id, table) && ts[k + 1] == Tok(Dot, ".") && ts[k + 2] == Tok(Id, column);
    assert k + 3 == c + 4 && !Check(ts, k + 3, Where);
    SelectTail(ts, k, table, column);
    LiftSelect(ts, c);
  }

  lemma SelectWhereParsed(ts: seq<Token>, c: nat, table: string, column: string, op: string, d: string)
    requires Terminated(ts) && c + 8 < |ts| && ts[c].kind == Select
    requires ts[c + 1] == Tok(Id, table) && ts[c + 2] == Tok(Dot, ".") && ts[c + 3] == Tok(Id, column)
    requires ts[c + 4] == Tok(Where, "WHERE") && ts[c + 5] == Tok(Date, "DATE")
    requires ts[c + 6] == Tok(Greater, op) && ts[c + 7] == Tok(StringLit, d)
    ensures Statement(ts, c)
            == Ok((SelectStmt(table, column, Some(op), Some(d), ts[c + 8].line, ts[c + 8].column), c + 8))
  {
    var k := c + 1;
    assert ts[k] == Tok(Id, table) && ts[k + 1] == Tok(Dot, ".") && ts[k + 2] == Tok(Id, column);
    assert ts[k + 3] == Tok(Where, "WHERE") && ts[k + 4] == Tok(Date, "DATE");
    assert ts[k + 5] == Tok(Greater, op) && ts[k + 6] == Tok(StringLit, d);
    SelectWhereTail(ts, k, table, column, op, d);
    assert k + 7 == c + 8;
    LiftSelect(ts, c);
  }

  lemma SelectReadBack(ts: seq<Token>, c: nat, n: Node)
    requires PrintedAt(ts, c, n) && n.SelectStmt?
    ensures ReadsBack(ts, c, n)
  {
    SelectPrinted(ts, c, n);
    if n.op.Some? {
      SelectWhereParsed(ts, c, n.table, n.column, n.op.value, n.dateExpr.value);
      ReadsBackFrom(ts, c, n, SelectStmt(n.table, n.column, n.op, n.dateExpr, ts[c + 8].line, ts[c + 8].column));
    } else {
      SelectParsed(ts, c, n.table, n.column);
      ReadsBackFrom(ts, c, n, SelectStmt(n.table, n.column, None, None, ts[c + 4].line, ts[c + 4].column));
    }
  }

  /** A printed PLOT statement, token by token; the arguments sit between
      the brackets. */
  lemma PlotPrinted(ts: seq<Token>, c: nat, fn: string, args: seq<(string, string)>)
    requires At(ts, c, PlotTokens(fn, args))
    ensures ts[c] == Tok(Plot, "PLOT") && ts[c + 1] == Tok(Id, fn) && ts[c + 2] == Tok(LParen, "(")
    ensures ArgsAt(ts, c + 3, args, c + 3 + |ArgTokens(args)|)
    ensures |PlotTokens(fn, args)| == 3 + |ArgTokens(args)| + 1
    ensures c + 3 + |ArgTokens(args)| < |ts| && ts[c + 3 + |ArgTokens(args)|] == Tok(RParen, ")")
  {
    Framed3(ts, c, Tok(Plot, "PLOT"), Tok(Id, fn), Tok(LParen, "("), ArgTokens(args), Tok(RParen, ")"));
    PrintedArgs(ts, c + 3, args);
  }

  lemma PlotParsed(ts: seq<Token>, c: nat, fn: string, args: seq<(string, string)>, e: nat)
    requires Terminated(ts) && c + 3 < |ts| && ts[c].kind == Plot
    requires ts[c + 1] == Tok(Id, fn) && ts[c + 2] == Tok(LParen, "(")
    requires PlotArgs(ts, c + 3) == Ok((args, e))
    ensures Statement(ts, c) == Ok((PlotStmt(fn, args, 0, 0), e + 1))
  {
    var k := c + 1;
    assert ts[k] == Tok(Id, fn) && ts[k + 1] == Tok(LParen, "(") && PlotArgs(ts, k + 2) == Ok((args, e));
    PlotTail(ts, k, fn, args, e);
    LiftPlot(ts, c);
  }

  lemma PlotReadBack(ts: seq<Token>, c: nat, n: Node)
    requires PrintedAt(ts, c, n) && n.PlotStmt?
    ensures ReadsBack(ts, c, n)
  {
    PlotPrinted(ts, c, n.func, n.args);
    PlotCore(ts, c, n, c + 3 + |ArgTokens(n.args)|);
  }

  lemma PlotCore(ts: seq<Token>, c: nat, n: Node, e: nat)
    requires Terminated(ts) && Printable(n) && n.PlotStmt? && c + 3 < |ts| && ts[c].kind == Plot
    requires ts[c + 1] == Tok(Id, n.func) && ts[c + 2] == Tok(LParen, "(")
    requires ArgsAt(ts, c + 3, n.args, e)
    requires e < |ts| && ts[e] == Tok(RParen, ")") && c + |StmtTokens(n)| == e + 1
    ensures ReadsBack(ts, c, n)
  {
    ArgsReadBack(ts, c + 3, n.args, e);
    PlotParsed(ts, c, n.func, n.args, e);
    ReadsBackFrom(ts, c, n, PlotStmt(n.func, n.args, 0, 0));
  }

  lemma ExportPrinted(ts: seq<Token>, c: nat, n: Node)
    requires PrintedAt(ts, c, n) && n.ExportStmt?
    ensures |StmtTokens(n)| == if n.exportColumn.Some? then 6 else 4
    ensures c + |StmtTokens(n)| < |ts|
    ensures ts[c].kind == Export && ts[c + 1] == Tok(Id, n.table)
    ensures n.exportColumn.None? ==> ts[c + 2] == Tok(To, "TO") && ts[c + 3] == Tok(StringLit, n.target)
    ensures n.exportColumn.Some? ==> ts[c + 2] == Tok(Dot, ".") && ts[c + 3] == Tok(Id, n.exportColumn.value)
    ensures n.exportColumn.Some? ==> ts[c + 4] == Tok(To, "TO") && ts[c + 5] == Tok(StringLit, n.target)
  {
    var r := StmtTokens(n);
    AtTokens(ts, c, r);
    assert ts[c + 0] == r[0] && ts[c + 1] == r[1] && ts[c + 2] == r[2] && ts[c + 3] == r[3];
    if n.exportColumn.Some? {
      assert ts[c + 4] == r[4] && ts[c + 5] == r[5];
    }
  }

  lemma ExportParsed(ts: seq<Token>, c: nat, table: string, target: string)
    requires Terminated(ts) && c + 4 < |ts| && ts[c].kind == Export
    requires ts[c + 1] == Tok(Id, table) && ts[c + 2] == Tok(To, "TO") && ts[c + 3] == Tok(StringLit, target)
    ensures Statement(ts, c) == Ok((ExportStmt(table, None, target, |table|, 0), c + 4))
  {
    var k := c + 1;
    assert ts[k] == Tok(Id, table) && ts[k + 1] == Tok(To, "TO") && ts[k + 2] == Tok(StringLit, target);
    ExportTail(ts, k, table, target);
    assert k + 3 == c + 4;
    LiftExport(ts, c);
  }

  lemma ExportColumnParsed(ts: seq<Token>, c: nat, table: string, column: string, target: string)
    requires Terminated(ts) && c + 6 < |ts| && ts[c].kind == Export
    requires ts[c + 1] == Tok(Id, table) && ts[c + 2] == Tok(Dot, ".") && ts[c + 3] == Tok(Id, column)
    requires ts[c + 4] == Tok(To, "TO") && ts[c + 5] == Tok(StringLit, target)
    ensures Statement(ts, c) == Ok((ExportStmt(table, Some(column), target, |table|, 0), c + 6))
  {
    var k := c + 1;
    assert ts[k] == Tok(Id, table) && ts[k + 1] == Tok(Dot, ".") && ts[k + 2] == Tok(Id, column);
    assert ts[k + 3] == Tok(To, "TO") && ts[k + 4] == Tok(StringLit, target);
    ExportColumnTail(ts, k, table, column, target);
    assert k + 5 == c + 6;
    LiftExport(ts, c);
  }

  lemma ExportReadBack(ts: seq<Token>, c: nat, n: Node)
    requires PrintedAt(ts, c, n) && n.ExportStmt?
    ensures ReadsBack(ts, c, n)
  {
    ExportPrinted(ts, c, n);
    if n.exportColumn.Some? {
      ExportColumnParsed(ts, c, n.table, n.exportColumn.value, n.target);
      ReadsBackFrom(ts, c, n, ExportStmt(n.table, n.exportColumn, n.target, |n.table|, 0));
    } else {
      ExportParsed(ts, c, n.table, n.target);
      ReadsBackFrom(ts, c, n, ExportStmt(n.table, None, n.target, |n.table|, 0));
    }
  }

  /** A printed REMOVE or REPLACE statement, token by token; a REMOVE is not
      followed by `.`. */
  lemma CleanPrinted(ts: seq<Token>, c: nat, n: Node)
    requires PrintedAt(ts, c, n) && n.CleanStmt?
    ensures |StmtTokens(n)| == if n.action == RemoveAction then 4 else 6
    ensures c + |StmtTokens(n)| < |ts|
    ensures ts[c + 1] == Tok(Id, n.target) && ts[c + 3] == Tok(Id, n.column)
    ensures n.action == RemoveAction ==>
              ts[c] == Tok(Remove, "REMOVE") && ts[c + 2] == Tok(From, "FROM") && !Check(ts, c + 4, Dot)
              && n.replaceWith == ""
    ensures n.action == ReplaceAction ==>
              ts[c] == Tok(Replace, "REPLACE") && ts[c + 2] == Tok(In, "IN")
              && ts[c + 4] == Tok(With, "WITH") && ts[c + 5] == Tok(StringLit, n.replaceWith)
  {
    var r := StmtTokens(n);
    AtTokens(ts, c, r);
    assert ts[c + 0] == r[0] && ts[c + 1] == r[1] && ts[c + 2] == r[2] && ts[c + 3] == r[3];
    if n.action == ReplaceAction {
      assert ts[c + 4] == r[4] && ts[c + 5] == r[5];
    }
  }

  lemma RemoveParsed(ts: seq<Token>, c: nat, target: string, column: string)
    requires Terminated(ts) && c + 4 < |ts| && ts[c] == Tok(Remove, "REMOVE")
    requires ts[c + 1] == Tok(Id, target) && ts[c + 2] == Tok(From, "FROM") && ts[c + 3] == Tok(Id, column)
    requires !Check(ts, c + 4, Dot)
    ensures Statement(ts, c) == Ok((CleanStmt(RemoveAction, target, column, "", 0, 0), c + 4))
  {
    var k := c + 1;
    assert ts[k - 1] == Tok(Remove, "REMOVE");
    assert ts[k] == Tok(Id, target) && ts[k + 1] == Tok(From, "FROM") && ts[k + 2] == Tok(Id, column);
    assert k + 3 == c + 4 && !Check(ts, k + 3, Dot);
    RemoveTail(ts, k, target, column);
    LiftClean(ts, c);
  }

  lemma ReplaceParsed(ts: seq<Token>, c: nat, target: string, column: string, w: string)
    requires Terminated(ts) && c + 6 < |ts| && ts[c] == Tok(Replace, "REPLACE")
    requires ts[c + 1] == Tok(Id, target) && ts[c + 2] == Tok(In, "IN") && ts[c + 3] == Tok(Id, column)
    requires ts[c + 4] == Tok(With, "WITH") && ts[c + 5] == Tok(StringLit, w)
    ensures Statement(ts, c) == Ok((CleanStmt(ReplaceAction, target, column, w, 0, 0), c + 6))
  {
    var k := c + 1;
    assert ts[k - 1] == Tok(Replace, "REPLACE");
    assert ts[k] == Tok(Id, target) && ts[k + 1] == Tok(In, "IN") && ts[k + 2] == Tok(Id, column);
    assert ts[k + 3] == Tok(With, "WITH") && ts[k + 4] == Tok(StringLit, w);
    ReplaceTail(ts, k, target, column, w);
    assert k + 5 == c + 6;
    LiftClean(ts, c);
  }

  lemma CleanReadBack(ts: seq<Token>, c: nat, n: Node)
    requires PrintedAt(ts, c, n) && n.CleanStmt?
    ensures ReadsBack(ts, c, n)
  {
    CleanPrinted(ts, c, n);
    if n.action == RemoveAction {
      RemoveParsed(ts, c, n.target, n.column);
      ReadsBackFrom(ts, c, n, CleanStmt(RemoveAction, n.target, n.column, "", 0, 0));
    } else {
      ReplaceParsed(ts, c, n.target, n.column, n.replaceWith);
      ReadsBackFrom(ts, c, n, CleanStmt(ReplaceAction, n.target, n.column, n.replaceWith, 0, 0));
    }
  }

  /** A printed loop, token by token; the body's tokens are followed by
      the closing brace. */
  lemma LoopPrinted(ts: seq<Token>, c: nat, v: string, f: nat, t: nat, body: seq<Node>)
    requires AllPrintable(body) && At(ts, c, LoopTokens(v, f, t, body))
    ensures ts[c] == Tok(For, "FOR") && ts[c + 1] == Tok(Id, v) && ts[c + 2] == Tok(In, "IN")
    ensures ts[c + 3] == Tok(IntLit, NatToString(f)) && ts[c + 4] == Tok(To, "TO")
    ensures ts[c + 5] == Tok(IntLit, NatToString(t)) && ts[c + 6] == Tok(LBrace, "{")
    ensures At(ts, c + 7, BodyTokens(body))
    ensures |LoopTokens(v, f, t, body)| == 7 + |BodyTokens(body)| + 1
    ensures c + 7 + |BodyTokens(body)| < |ts| && ts[c + 7 + |BodyTokens(body)|] == Tok(RBrace, "}")
  {
    Framed7(ts, c, Tok(For, "FOR"), Tok(Id, v), Tok(In, "IN"), Tok(IntLit, NatToString(f)),
            Tok(To, "TO"), Tok(IntLit, NatToString(t)), Tok(LBrace, "{"), BodyTokens(body), Tok(RBrace, "}"));
  }

  lemma LoopParsed(ts: seq<Token>, c: nat, v: string, f: nat, t: nat, body: seq<Node>, e: nat)
    requires Terminated(ts) && c + 7 < |ts| && ts[c].kind == For
    requires ts[c + 1] == Tok(Id, v) && ts[c + 2] == Tok(In, "IN") && ts[c + 3] == Tok(IntLit, NatToString(f))
    requires ts[c + 4] == Tok(To, "TO") && ts[c + 5] == Tok(IntLit, NatToString(t)) && ts[c + 6] == Tok(LBrace, "{")
    requires Body(ts, c + 7) == Ok((body, e)) && e < |ts| && ts[e] == Tok(RBrace, "}")
    ensures Statement(ts, c) == Ok((LoopStmt(v, f, t, body, 0, 0), e + 1))
  {
    var k := c + 1;
    assert ts[k] == Tok(Id, v) && ts[k + 1] == Tok(In, "IN") && ts[k + 2] == Tok(IntLit, NatToString(f));
    assert ts[k + 3] == Tok(To, "TO") && ts[k + 4] == Tok(IntLit, NatToString(t)) && ts[k + 5] == Tok(LBrace, "{");
    assert Body(ts, k + 6) == Ok((body, e));
    LoopTail(ts, k, v, f, t, body, e);
    LiftFor(ts, c);
  }

  /** A loop statement reads back, its body by `BodyReadBack`. */
  lemma LoopReadBack(ts: seq<Token>, c: nat, n: Node)
    requires PrintedAt(ts, c, n) && n.LoopStmt?
    ensures ReadsBack(ts, c, n)
    decreases n, 1
  {
    LoopPrinted(ts, c, n.variable, n.from, n.to, n.body);
    LoopCore(ts, c, n, c + 7 + |BodyTokens(n.body)|);
  }

  lemma LoopCore(ts: seq<Token>, c: nat, n: Node, e: nat)
    requires Terminated(ts) && Printable(n) && n.LoopStmt? && c + 7 < |ts| && ts[c].kind == For
    requires ts[c + 1] == Tok(Id, n.variable) && ts[c + 2] == Tok(In, "IN")
    requires ts[c + 3] == Tok(IntLit, NatToString(n.from)) && ts[c + 4] == Tok(To, "TO")
    requires ts[c + 5] == Tok(IntLit, NatToString(n.to)) && ts[c + 6] == Tok(LBrace, "{")
    requires AllPrintable(n.body) && At(ts, c + 7, BodyTokens(n.body)) && e == c + 7 + |BodyTokens(n.body)|
    requires e < |ts| && ts[e] == Tok(RBrace, "}") && c + |StmtTokens(n)| == e + 1
    ensures ReadsBack(ts, c, n)
    decreases n, 0
  {
    BodyReadBack(ts, c + 7, n.body, e);
    var b := Body(ts, c + 7).value.0;
    LoopParsed(ts, c, n.variable, n.from, n.to, b, e);
    ReadsBackFrom(ts, c, n, LoopStmt(n.variable, n.from, n.to, b, 0, 0));
  }

  /** The parser reads every printed statement back: the same statement up
      to positions, and exactly its tokens. */
  lemma StatementRoundTrip(ts: seq<Token>, c: nat, n: Node)
    requires PrintedAt(ts, c, n)
    ensures ReadsBack(ts, c, n)
    decreases n, 2
  {
    match n
    case LoadStmt(_, _, _, _) => SourceReadBack(ts, c, n);
    case StreamStmt(_, _, _, _) => SourceReadBack(ts, c, n);
    case SetStmt(_, _, _, _) => SetReadBack(ts, c, n);
    case TransformStmt(_, _, _, _, _, _) => TransformReadBack(ts, c, n);
    case ForecastStmt(_, _, _, _, _, _) => ForecastReadBack(ts, c, n);
    case SelectStmt(_, _, _, _, _, _) => SelectReadBack(ts, c, n);
    case PlotStmt(_, _, _, _) => PlotReadBack(ts, c, n);
    case ExportStmt(_, _, _, _, _) => ExportReadBack(ts, c, n);
    case LoopStmt(_, _, _, _, _, _) => LoopReadBack(ts, c, n);
    case CleanStmt(_, _, _, _, _, _) => CleanReadBack(ts, c, n);
  }

  /** A printed statement sequence is its first statement's tokens, then
      the rest's, and starts with a statement keyword. */
  lemma BodyShape(ns: seq<Node>)
    requires |ns| > 0 && AllPrintable(ns)
    ensures Printable(ns[0]) && AllPrintable(ns[1..])
    ensures |BodyTokens(ns)| == |StmtTokens(ns[0])| + |BodyTokens(ns[1..])|
    ensures |StmtTokens(ns[0])| > 0 && StartsStatement(StmtTokens(ns[0])[0].kind)
    ensures |ns| > 1 ==> |BodyTokens(ns[1..])| > 0 && StartsStatement(BodyTokens(ns[1..])[0].kind)
  {
    FirstToken(ns[0]);
    if |ns| > 1 {
      FirstToken(ns[1]);
      assert ns[1..][0] == ns[1];
    }
  }

  /** Printed statements are the first one's tokens, then the rest's. */
  lemma BodyAt(ts: seq<Token>, c: nat, ns: seq<Node>)
    requires |ns| > 0 && AllPrintable(ns) && At(ts, c, BodyTokens(ns))
    ensures AllPrintable(ns[1..]) && At(ts, c, StmtTokens(ns[0]) + BodyTokens(ns[1..]))
  {
    assert BodyTokens(ns) == StmtTokens(ns[0]) + BodyTokens(ns[1..]);
  }

  /** The statements after the first are printed right after it. */
  lemma BodyRest(ts: seq<Token>, c: nat, ns: seq<Node>)
    requires |ns| > 0 && AllPrintable(ns) && At(ts, c, BodyTokens(ns))
    ensures AllPrintable(ns[1..]) && At(ts, c + |StmtTokens(ns[0])|, BodyTokens(ns[1..]))
  {
    BodyAt(ts, c, ns);
    AtSplit(ts, c, StmtTokens(ns[0]), BodyTokens(ns[1..]));
  }

  /** Tokens `a` then `b` at `c`, where `a` and any non-empty `b` start
      with a statement keyword and a stopping token follows. */
  lemma SplitStops(ts: seq<Token>, c: nat, a: seq<Token>, b: seq<Token>, e: nat)
    requires At(ts, c, a + b) && |a| > 0 && StartsStatement(a[0].kind)
    requires |b| > 0 ==> StartsStatement(b[0].kind)
    requires e == c + |a| + |b| && e < |ts| && Stops(ts[e].kind)
    ensures StartsStatement(ts[c].kind) && Followed(ts, c, a)
  {
    AtSplit(ts, c, a, b);
    AtTokens(ts, c, a);
    assert ts[c + 0] == a[0];
    if |b| > 0 {
      AtTokens(ts, c + |a|, b);
      assert ts[c + |a| + 0] == b[0];
    }
  }

  /** The first statement of a printed sequence is printed, followed by
      the rest of the sequence. */
  lemma BodySplit(ts: seq<Token>, c: nat, ns: seq<Node>, e: nat)
    requires Terminated(ts) && |ns| > 0 && AllPrintable(ns) && At(ts, c, BodyTokens(ns))
    requires e == c + |BodyTokens(ns)| && e < |ts| && Stops(ts[e].kind)
    ensures StartsStatement(ts[c].kind)
    ensures PrintedAt(ts, c, ns[0])
  {
    BodyShape(ns);
    BodyAt(ts, c, ns);
    PrintedFirst(ts, c, ns[0], BodyTokens(ns[1..]), e);
  }

  /** A printed statement followed by tokens that start with a statement
      keyword, or by nothing, before a stopping token. */
  lemma PrintedFirst(ts: seq<Token>, c: nat, n: Node, b: seq<Token>, e: nat)
    requires Terminated(ts) && Printable(n) && At(ts, c, StmtTokens(n) + b)
    requires |b| > 0 ==> StartsStatement(b[0].kind)
    requires e == c + |StmtTokens(n)| + |b| && e < |ts| && Stops(ts[e].kind)
    ensures StartsStatement(ts[c].kind) && PrintedAt(ts, c, n)
  {
    FirstToken(n);
    SplitStops(ts, c, StmtTokens(n), b, e);
  }

  /** One statement, then the rest of a loop body. */
  lemma BodyStep(ts: seq<Token>, c: nat, s: (Node, nat), rest: (seq<Node>, nat))
    requires Terminated(ts) && c < |ts| && StartsStatement(ts[c].kind) && !AtEnd(ts, c)
    requires Statement(ts, c) == Ok(s) && s.1 < |ts| && Body(ts, s.1) == Ok(rest)
    ensures Body(ts, c) == Ok(([s.0] + rest.0, rest.1))
  {
  }

  lemma EraseCons(n: Node, ns: seq<Node>)
    ensures EraseAll([n] + ns) == [Erase(n)] + EraseAll(ns)
  {
    assert ([n] + ns)[1..] == ns;
  }

  /** The statements of a loop body read back up to the `}` or the end. */
  lemma {:induction false} BodyReadBack(ts: seq<Token>, c: nat, ns: seq<Node>, e: nat)
    requires Terminated(ts) && AllPrintable(ns) && At(ts, c, BodyTokens(ns))
    requires e == c + |BodyTokens(ns)| && e < |ts| && (ts[e].kind == RBrace || ts[e].kind == EndOfFile)
    ensures Body(ts, c).Ok? && Body(ts, c).value.1 == e && EraseAll(Body(ts, c).value.0) == EraseAll(ns)
    decreases ns, 1
  {
    if |ns| == 0 {
      assert Check(ts, c, RBrace) || AtEnd(ts, c);
    } else {
      BodyShape(ns);
      BodyRest(ts, c, ns);
      var k := c + |StmtTokens(ns[0])|;
      BodyReadBack(ts, k, ns[1..], e);
      BodyCons(ts, c, ns, k, e);
    }
  }

  /** The first statement reads back, and with it the rest of the body. */
  lemma BodyCons(ts: seq<Token>, c: nat, ns: seq<Node>, k: nat, e: nat)
    requires Terminated(ts) && |ns| > 0 && AllPrintable(ns) && At(ts, c, BodyTokens(ns))
    requires e == c + |BodyTokens(ns)| && e < |ts| && Stops(ts[e].kind)
    requires k == c + |StmtTokens(ns[0])| && k < |ts|
    requires Body(ts, k).Ok? && Body(ts, k).value.1 == e && EraseAll(Body(ts, k).value.0) == EraseAll(ns[1..])
    ensures Body(ts, c).Ok? && Body(ts, c).value.1 == e && EraseAll(Body(ts, c).value.0) == EraseAll(ns)
    decreases ns, 0
  {
    BodySplit(ts, c, ns, e);
    StatementRoundTrip(ts, c, ns[0]);
    var s := Statement(ts, c).value;
    assert Statement(ts, c) == Ok(s) && s.1 == k;
    var rest := Body(ts, k).value;
    assert Body(ts, k) == Ok(rest);
    assert !AtEnd(ts, c);
    BodyStep(ts, c, s, rest);
    EraseCons(s.0, rest.0);
  }

  // ---------------------------------------------------------------------
  // Whole programs read back

  /** The statement loop of `parse`: one statement, then the rest. */
  lemma StatementsStep(ts: seq<Token>, c: nat, s: (Node, nat), rest: seq<Node>)
    requires Terminated(ts) && c < |ts| && !AtEnd(ts, c)
    requires Statement(ts, c) == Ok(s) && s.1 < |ts| && Statements(ts, s.1) == Ok(rest)
    ensures Statements(ts, c) == Ok([s.0] + rest)
  {
  }

  /** The statements of a printed program read back up to the end. */
  lemma {:induction false} StatementsReadBack(ts: seq<Token>, c: nat, ns: seq<Node>)
    requires Terminated(ts) && AllPrintable(ns) && At(ts, c, BodyTokens(ns))
    requires c + |BodyTokens(ns)| == |ts| - 1
    ensures Statements(ts, c).Ok? && EraseAll(Statements(ts, c).value) == EraseAll(ns)
    decreases ns, 1
  {
    if |ns| == 0 {
      assert AtEnd(ts, c);
    } else {
      BodyShape(ns);
      BodyRest(ts, c, ns);
      var k := c + |StmtTokens(ns[0])|;
      StatementsReadBack(ts, k, ns[1..]);
      StatementsCons(ts, c, ns, k);
    }
  }

  /** The first statement of a printed program reads back, and with it
      the rest. */
  lemma StatementsCons(ts: seq<Token>, c: nat, ns: seq<Node>, k: nat)
    requires Terminated(ts) && |ns| > 0 && AllPrintable(ns) && At(ts, c, BodyTokens(ns))
    requires c + |BodyTokens(ns)| == |ts| - 1
    requires k == c + |StmtTokens(ns[0])| && k < |ts|
    requires Statements(ts, k).Ok? && EraseAll(Statements(ts, k).value) == EraseAll(ns[1..])
    ensures Statements(ts, c).Ok? && EraseAll(Statements(ts, c).value) == EraseAll(ns)
    decreases ns, 0
  {
    BodySplit(ts, c, ns, |ts| - 1);
    StatementRoundTrip(ts, c, ns[0]);
    var s := Statement(ts, c).value;
    assert Statement(ts, c) == Ok(s) && s.1 == k;
    var rest := Statements(ts, k).value;
    assert Statements(ts, k) == Ok(rest);
    assert !AtEnd(ts, c);
    StatementsStep(ts, c, s, rest);
    EraseCons(s.0, rest);
  }

  /** A printed program: its statements' tokens, then the end of input. */
  function ProgramTokens(ns: seq<Node>): (r: seq<Token>)
    requires AllPrintable(ns)
  {
    BodyTokens(ns) + [Tok(EndOfFile, "")]
  }

  /** `parse` reads every printed program back: the same statements, up
      to line and column numbers. */
  lemma ParseRoundTrip(ns: seq<Node>)
    requires AllPrintable(ns)
    ensures Parse(ProgramTokens(ns)).Ok?
    ensures Erase(Parse(ProgramTokens(ns)).value) == Program(EraseAll(ns))
  {
    var b := BodyTokens(ns);
    var ts := b + [Tok(EndOfFile, "")];
    assert ts[|ts| - 1] == Tok(EndOfFile, "");
    assert ts[0..|b|] == b;
    StatementsReadBack(ts, 0, ns);
    var ss := Statements(ts, 0).value;
    assert Parse(ts) == Ok(Program(ss));
  }
}

=== FILE: position.dfy ===
/** Line and column bookkeeping of the two DSL lexers. Both start at line 1,
    column 1; a consumed newline moves to the next line and back to column
    1, any other consumed character moves one column right. */
module SourcePos {

  datatype Pos = Pos(line: int, column: int)

  const Start := Pos(1, 1)

  /** One consumed character. */
  function Step(p: Pos, c: char): Pos
  {
    if c == '\n' then Pos(p.line + 1, 1) else Pos(p.line, p.column + 1)
  }

  /** The characters of `t` consumed one after the other. */
  function Walk(p: Pos, t: string): Pos
    decreases |t|
  {
    if |t| == 0 then p else Walk(Step(p, t[0]), t[1..])
  }

  /** The number of newlines in `t`. */
  function Newlines(t: string): (n: nat)
    ensures n <= |t|
    ensures n == 0 <==> '\n' !in t
    decreases |t|
  {
    if |t| == 0 then 0 else (if t[0] == '\n' then 1 else 0) + Newlines(t[1..])
  }

  lemma {:induction false} NewlinesAppend(a: string, b: string)
    ensures Newlines(a + b) == Newlines(a) + Newlines(b)
    decreases |a|
  {
    if |a| > 0 {
      assert (a + b)[0] == a[0] && (a + b)[1..] == a[1..] + b;
      NewlinesAppend(a[1..], b);
    } else {
      assert a + b == b;
    }
  }

  /** Consuming `a + b` is consuming `a`, then `b`. */
  lemma {:induction false} WalkAppend(p: Pos, a: string, b: string)
    ensures Walk(p, a + b) == Walk(Walk(p, a), b)
    decreases |a|
  {
    if |a| > 0 {
      assert (a + b)[0] == a[0] && (a + b)[1..] == a[1..] + b;
      WalkAppend(Step(p, a[0]), a[1..], b);
    } else {
      assert a + b == b;
    }
  }

  /** The line moves down once per newline. */
  lemma {:induction false} WalkLine(p: Pos, t: string)
    ensures Walk(p, t).line == p.line + Newlines(t)
    decreases |t|
  {
    if |t| > 0 {
      WalkLine(Step(p, t[0]), t[1..]);
    }
  }

  /** Without a newline only the column moves, by the length of `t`. */
  lemma {:induction false} WalkFlat(p: Pos, t: string)
    requires '\n' !in t
    ensures Walk(p, t) == Pos(p.line, p.column + |t|)
    decreases |t|
  {
    if |t| > 0 {
      assert t[0] in t;
      assert forall c :: c in t[1..] ==> c in t;
      WalkFlat(Step(p, t[0]), t[1..]);
    }
  }

  /** After the last newline of `t` the column counts the characters that
      follow it, from 1. */
  lemma WalkAfterNewline(p: Pos, a: string, b: string)
    requires '\n' !in b
    ensures Walk(p, a + "\n" + b).column == 1 + |b|
  {
    WalkAppend(p, a + "\n", b);
    WalkAppend(p, a, "\n");
    WalkFlat(Walk(p, a + "\n"), b);
  }

  /** Consuming a suffix of `s` is consuming its first character, then the
      rest. */
  lemma WalkSuffix(p: Pos, s: string, i: nat)
    requires i < |s|
    ensures Walk(p, s[i..]) == Walk(Step(p, s[i]), s[i + 1..])
  {
    assert s[i..][0] == s[i] && s[i..][1..] == s[i + 1..];
  }

  /** Consuming a suffix of `s` in two parts split at `j`. */
  lemma WalkSplit(p: Pos, s: string, i: nat, j: nat)
    requires i <= j <= |s|
    ensures Walk(p, s[i..]) == Walk(Walk(p, s[i..j]), s[j..])
  {
    assert s[i..] == s[i..j] + s[j..];
    WalkAppend(p, s[i..j], s[j..]);
  }
}

=== FILE: regex.dfy ===
/** The regular-expression-like pattern language of the generator: a
    recursive-descent parser into a tree of literals, sequences, alternations
    and repetitions, with the postfix powers `^+`, `^*`, `^n` and `?`, and
    the word generator over such trees.

    The parser is a cursor over the pattern: every parsing function takes
    the pattern and a position and returns the node it built together with
    the position where it stopped, or an `Err` for a thrown exception. */
module Regex {
  import opened Wrappers
  import opened Text

  /** Upper bound of the unbounded powers `^+` and `^*`. */
  const MaxRepetition: nat := 5

  /** A parse tree node. A repetition has exactly one child. The source
      also stores repetition bounds in the repeated atom itself; the
      generator never reads them there, so they are not modelled. */
  datatype Node =
    | Literal(value: string)
    | Sequence(children: seq<Node>)
    | Alternation(children: seq<Node>)
    | Repetition(child: Node, min: nat, max: nat)

  /** The character under the cursor, `'\0'` past the end. */
  function Peek(s: string, pos: nat): (c: char)
    ensures pos < |s| ==> c == s[pos]
    ensures pos >= |s| ==> c == '\0'
  {
    if pos < |s| then s[pos] else '\0'
  }

  /** Where a sequence loop halts: at the end, at its closing character or
      at a `|`. */
  predicate Stops(s: string, pos: nat, until: char) {
    pos == |s| || Peek(s, pos) == until || Peek(s, pos) == '|'
  }

  // ---------------------------------------------------------------------
  // Shapes the parser produces
  // ---------------------------------------------------------------------

  /** An operand of a postfix power: a one-character literal or a
      parenthesised alternation of one or more patterns. */
  predicate IsAtom(n: Node)
    decreases n, 0
  {
    match n
    case Literal(v) => |v| == 1
    case Alternation(cs) => |cs| >= 1 && forall i :: 0 <= i < |cs| ==> IsPattern(cs[i])
    case _ => false
  }

  /** Bounds one of the four postfix powers can produce. */
  predicate PowerBounds(lo: nat, hi: nat) {
    (lo == 1 && hi == MaxRepetition) || (lo == 0 && hi == MaxRepetition)
    || (lo == 0 && hi == 1) || lo == hi
  }

  /** One element of a sequence: an atom, possibly under one power. */
  predicate IsItem(n: Node)
    decreases n, 1
  {
    IsAtom(n) || (n.Repetition? && IsAtom(n.child) && PowerBounds(n.min, n.max))
  }

  /** What a sequence parse returns: a single item unwrapped, or a sequence
      node whose number of items is anything but one. */
  predicate IsPattern(n: Node)
    decreases n, 2
  {
    IsItem(n) || (n.Sequence? && |n.children| != 1 && forall i :: 0 <= i < |n.children| ==> IsItem(n.children[i]))
  }

  // ---------------------------------------------------------------------
  // The parser
  // ---------------------------------------------------------------------

  /** `Parser::parse`: one sequence up to the end of the pattern (or a
      `'\0'`) or the first `|` outside parentheses; the rest of the pattern
      is ignored. */
  function Parse(s: string): (r: Result<Node>)
    ensures r.Ok? ==> IsPattern(r.value)
  {
    var res :- ParseSequence(s, 0, '\0');
    Ok(res.0)
  }

  /** `Parser::parse_sequence`: the items up to the halting character, the
      only item itself when there is exactly one. */
  function ParseSequence(s: string, pos: nat, until: char): (r: Result<(Node, nat)>)
    requires pos <= |s|
    ensures r.Ok? ==> pos <= r.value.1 <= |s| && Stops(s, r.value.1, until)
    ensures r.Ok? ==> IsPattern(r.value.0)
    decreases |s| - pos, 4
  {
    var res :- SeqItems(s, pos, until);
    Ok((if |res.0| == 1 then res.0[0] else Sequence(res.0), res.1))
  }

  /** The loop of `parse_sequence`. */
  function SeqItems(s: string, pos: nat, until: char): (r: Result<(seq<Node>, nat)>)
    requires pos <= |s|
    ensures r.Ok? ==> pos <= r.value.1 <= |s| && Stops(s, r.value.1, until)
    ensures r.Ok? ==> forall i :: 0 <= i < |r.value.0| ==> IsItem(r.value.0[i])
    decreases |s| - pos, 3
  {
    if pos < |s| && Peek(s, pos) != until && Peek(s, pos) != '|' then
      var first :- ParseItem(s, pos);
      var rest :- SeqItems(s, first.1, until);
      Ok(([first.0] + rest.0, rest.1))
    else
      Ok(([], pos))
  }

  /** One iteration of the sequence loop: an atom and its optional power.
      It always consumes at least one character. */
  function ParseItem(s: string, pos: nat): (r: Result<(Node, nat)>)
    requires pos < |s|
    ensures r.Ok? ==> pos < r.value.1 <= |s|
    ensures r.Ok? ==> IsItem(r.value.0)
    decreases |s| - pos, 2
  {
    var atom :- ParseAtom(s, pos);
    ApplyPower(s, atom.1, atom.0)
  }

  /** A parenthesised alternation, which must be closed by `)`, or else
      `parse_literal`: the one character under the cursor. */
  function ParseAtom(s: string, pos: nat): (r: Result<(Node, nat)>)
    requires pos < |s|
    ensures r.Ok? ==> pos < r.value.1 <= |s|
    ensures r.Ok? ==> IsAtom(r.value.0)
    ensures s[pos] != '(' ==> r == Ok((Literal([s[pos]]), pos + 1))
    ensures s[pos] == '(' && r.Ok? ==> r.value.0.Alternation? && s[r.value.1 - 1] == ')'
    decreases |s| - pos, 1
  {
    if s[pos] == '(' then
      var alt :- ParseAlternation(s, pos + 1);
      if Peek(s, alt.1) == ')' then Ok((alt.0, alt.1 + 1))
      else Err("Expected )")
    else
      Ok((Literal([s[pos]]), pos + 1))
  }

  /** `Parser::parse_alternation`: one or more `|`-separated sequences,
      each halting at `)`. It stops at the end or in front of a `)`. */
  function ParseAlternation(s: string, pos: nat): (r: Result<(Node, nat)>)
    requires pos <= |s|
    ensures r.Ok? ==> pos <= r.value.1 <= |s| && (r.value.1 == |s| || s[r.value.1] == ')')
    ensures r.Ok? ==> r.value.0.Alternation? && IsAtom(r.value.0)
    decreases |s| - pos, 5
  {
    var first :- ParseSequence(s, pos, ')');
    AltRest(s, first.1, [first.0])
  }

  /** The `while (match('|'))` loop of `parse_alternation`. */
  function AltRest(s: string, pos: nat, acc: seq<Node>): (r: Result<(Node, nat)>)
    requires pos <= |s|
    ensures r.Ok? ==> pos <= r.value.1 <= |s| && Peek(s, r.value.1) != '|'
    ensures r.Ok? && r.value.1 != pos ==> r.value.1 == |s| || s[r.value.1] == ')'
    ensures r.Ok? ==> r.value.0.Alternation? && |acc| <= |r.value.0.children|
    ensures r.Ok? ==> r.value.0.children[..|acc|] == acc
    ensures r.Ok? ==> forall i :: |acc| <= i < |r.value.0.children| ==> IsPattern(r.value.0.children[i])
    decreases |s| - pos, 0
  {
    if Peek(s, pos) == '|' then
      var next :- ParseSequence(s, pos + 1, ')');
      var r := AltRest(s, next.1, acc + [next.0]);
      assert r.Ok? ==> r.value.0.children[..|acc|] == (acc + [next.0])[..|acc|];
      r
    else
      Ok((Alternation(acc), pos))
  }

  /** `Parser::apply_power`: `^+`, `^*`, `^` with a decimal count, or `?`
      wraps the atom in a repetition; anything else leaves it alone. A `^`
      followed by none of these fails in `std::stoi`. */
  function ApplyPower(s: string, pos: nat, atom: Node): (r: Result<(Node, nat)>)
    requires pos <= |s|
    ensures r.Ok? ==> pos <= r.value.1 <= |s|
    ensures r.Ok? ==> r.value.0 == atom || (r.value.0.Repetition? && r.value.0.child == atom)
    ensures IsAtom(atom) && r.Ok? ==> IsItem(r.value.0)
    ensures Peek(s, pos) != '^' && Peek(s, pos) != '?' ==> r == Ok((atom, pos))
    ensures Peek(s, pos) == '?' ==> r == Ok((Repetition(atom, 0, 1), pos + 1))
    ensures Peek(s, pos) == '^' && Peek(s, pos + 1) == '+' ==> r == Ok((Repetition(atom, 1, MaxRepetition), pos + 2))
    ensures Peek(s, pos) == '^' && Peek(s, pos + 1) == '*' ==> r == Ok((Repetition(atom, 0, MaxRepetition), pos + 2))
    ensures Peek(s, pos) == '^' && Peek(s, pos + 1) != '+' && Peek(s, pos + 1) != '*' ==>
              (r.Ok? <==> IsDigit(Peek(s, pos + 1)))
    ensures Peek(s, pos) == '^' && IsDigit(Peek(s, pos + 1)) && r.Ok? ==>
              r.value.0.Repetition? && r.value.0.min == r.value.0.max
  {
    if Peek(s, pos) == '^' then
      if Peek(s, pos + 1) == '+' then Ok((Repetition(atom, 1, MaxRepetition), pos + 2))
      else if Peek(s, pos + 1) == '*' then Ok((Repetition(atom, 0, MaxRepetition), pos + 2))
      else
        var k := DigitRun(s, pos + 1);
        if k == 0 then Err("stoi: no digits")
        else
          var n := DecimalValue(s[pos + 1..pos + 1 + k]);
          Ok((Repetition(atom, n, n), pos + 1 + k))
    else if Peek(s, pos) == '?' then Ok((Repetition(atom, 0, 1), pos + 1))
    else Ok((atom, pos))
  }

  /** The count of a `^n` power is what `std::stoi` reads after the `^`. */
  lemma PowerCountIsStoi(s: string, pos: nat, atom: Node)
    requires pos < |s| && s[pos] == '^' && pos + 1 < |s| && IsDigit(s[pos + 1])
    ensures ApplyPower(s, pos, atom).Ok?
    ensures Stoi(s[pos + 1..]) == Ok(ApplyPower(s, pos, atom).value.0.min)
  {
    StoiDigitRun(s, pos + 1);
  }

  /** `std::stoi` on the rest of the pattern reads exactly the digit run
      under the cursor. */
  lemma {:induction false} StoiDigitRun(s: string, pos: nat)
    requires pos < |s| && IsDigit(s[pos])
    ensures Stoi(s[pos..]) == Ok(DecimalValue(s[pos..pos + DigitRun(s, pos)]))
  {
    var t := s[pos..];
    var k := DigitRun(s, pos);
    DigitRunShift(s, pos);
    assert t[0] == s[pos];
    assert t[..k] == s[pos..pos + k];
    var d := t[..k];
    assert AllDigits(d);
    assert Stoi(t) == Ok(DecimalValue(d));
    assert d == s[pos..pos + DigitRun(s, pos)];
  }

  lemma {:induction false} DigitRunShift(s: string, pos: nat)
    requires pos <= |s|
    ensures DigitRun(s[pos..], 0) == DigitRun(s, pos)
  {
    var t := s[pos..];
    var k := DigitRun(s, pos);
    forall i | 0 <= i < k
      ensures IsDigit(t[i])
    {
      assert t[i] == s[pos + i];
    }
    if k < |t| {
      assert t[k] == s[pos + k];
    }
    DigitRunStops(t, 0, k);
  }

  // ---------------------------------------------------------------------
  // Printing a tree back into pattern syntax; the parser inverts it
  // ---------------------------------------------------------------------

  /** Characters the parser reads as a literal wherever they stand. */
  predicate Plain(c: char) {
    c != '(' && c != ')' && c != '|' && c != '^' && c != '?' && c != '\0'
  }

  /** The postfix power that produces the bounds `lo`, `hi`. */
  function PowerSuffix(lo: nat, hi: nat): string {
    if lo == 1 && hi == MaxRepetition then "^+"
    else if lo == 0 && hi == MaxRepetition then "^*"
    else if lo == 0 && hi == 1 then "?"
    else "^" + NatToString(lo)
  }

  /** A repetition written with a decimal count, `^n`. */
  predicate Counted(n: Node) {
    n.Repetition? && !(n.min == 1 && n.max == MaxRepetition)
    && !(n.min == 0 && n.max == MaxRepetition) && !(n.min == 0 && n.max == 1)
  }

  /** Pattern syntax for a tree: literals as themselves, a sequence as its
      items side by side, an alternation in parentheses with `|` between
      the options, a repetition as its child followed by its power. */
  function Print(n: Node): string
    decreases n, 2
  {
    match n
    case Literal(v) => v
    case Sequence(cs) => PrintItems(n, 0)
    case Alternation(cs) => "(" + (if |cs| == 0 then "" else Print(cs[0]) + PrintAlts(n, 1)) + ")"
    case Repetition(c, lo, hi) => Print(c) + PowerSuffix(lo, hi)
  }

  function PrintItems(n: Node, i: nat): string
    requires n.Sequence? && i <= |n.children|
    decreases n, 1, |n.children| - i
  {
    if i == |n.children| then "" else Print(n.children[i]) + PrintItems(n, i + 1)
  }

  function PrintAlts(n: Node, i: nat): string
    requires n.Alternation? && i <= |n.children|
    decreases n, 1, |n.children| - i
  {
    if i == |n.children| then "" else "|" + Print(n.children[i]) + PrintAlts(n, i + 1)
  }

  predicate StartsWithDigit(n: Node) {
    |Print(n)| > 0 && IsDigit(Print(n)[0])
  }

  /** Trees whose printed form reads back unambiguously: every literal
      character is plain, and no `^n` power is directly followed by an item
      that starts with a digit (which the count would swallow). */
  predicate Printable(n: Node)
    decreases n
  {
    match n
    case Literal(v) => forall i :: 0 <= i < |v| ==> Plain(v[i])
    case Sequence(cs) =>
      (forall i :: 0 <= i < |cs| ==> Printable(cs[i]))
      && forall i :: 0 < i < |cs| && Counted(cs[i - 1]) ==> !StartsWithDigit(cs[i])
    case Alternation(cs) => forall i :: 0 <= i < |cs| ==> Printable(cs[i])
    case Repetition(c, _, _) => Printable(c)
  }

  /** `t` is written in `s` from `pos` on. */
  predicate At(s: string, pos: nat, t: string) {
    pos + |t| <= |s| && forall k :: 0 <= k < |t| ==> s[pos + k] == t[k]
  }

  lemma {:induction false} AtConcat(s: string, pos: nat, a: string, b: string)
    requires At(s, pos, a + b)
    ensures At(s, pos, a) && At(s, pos + |a|, b)
  {
    forall k | 0 <= k < |a|
      ensures s[pos + k] == a[k]
    {
      assert (a + b)[k] == a[k];
    }
    forall k | 0 <= k < |b|
      ensures s[pos + |a| + k] == b[k]
    {
      assert (a + b)[|a| + k] == b[k];
    }
  }

  lemma {:induction false} AtHead(s: string, pos: nat, t: string)
    requires At(s, pos, t) && |t| > 0
    ensures pos < |s| && Peek(s, pos) == t[0]
  {
    assert s[pos + 0] == t[0];
  }

  /** An item prints to a non-empty string that starts with `(` or a plain
      character. */
  lemma {:induction false} ItemStart(n: Node)
    requires IsItem(n) && Printable(n)
    ensures |Print(n)| > 0 && (Print(n)[0] == '(' || Plain(Print(n)[0]))
  {
    if n.Repetition? {
      assert Print(n) == Print(n.child) + PowerSuffix(n.min, n.max);
      ItemStart(n.child);
    }
  }

  lemma {:induction false} PrintAltsStart(n: Node, i: nat)
    requires n.Alternation? && i < |n.children|
    ensures PrintAlts(n, i) == "|" + (Print(n.children[i]) + PrintAlts(n, i + 1))
  {
  }

  lemma {:induction false} PrintItemsStart(n: Node, i: nat)
    requires n.Sequence? && i < |n.children|
    ensures PrintItems(n, i) == Print(n.children[i]) + PrintItems(n, i + 1)
  {
  }

  // One step of each parsing function, as the round-trip proofs use it.

  lemma ParseAtomStep(s: string, pos: nat, a: Node, e: nat)
    requires pos < |s| && s[pos] == '(' && pos < e
    requires ParseAlternation(s, pos + 1) == Ok((a, e)) && Peek(s, e) == ')'
    ensures ParseAtom(s, pos) == Ok((a, e + 1))
  {
  }

  lemma ParseItemStep(s: string, pos: nat, a: Node, m: nat, r: Result<(Node, nat)>)
    requires pos < |s| && pos < m <= |s|
    requires ParseAtom(s, pos) == Ok((a, m)) && ApplyPower(s, m, a) == r
    ensures ParseItem(s, pos) == r
  {
  }

  lemma SeqItemsStep(s: string, pos: nat, until: char, cs: seq<Node>, i: nat, m: nat, e: nat)
    requires pos < |s| && Peek(s, pos) != until && Peek(s, pos) != '|' && pos < m <= |s| && i < |cs|
    requires ParseItem(s, pos) == Ok((cs[i], m)) && SeqItems(s, m, until) == Ok((cs[i + 1..], e))
    ensures SeqItems(s, pos, until) == Ok((cs[i..], e))
  {
    assert [cs[i]] + cs[i + 1..] == cs[i..];
  }

  lemma SeqItemsStop(s: string, pos: nat, until: char)
    requires pos <= |s| && Stops(s, pos, until)
    ensures SeqItems(s, pos, until) == Ok(([], pos))
  {
  }

  lemma ParseSequenceStep(s: string, pos: nat, until: char, items: seq<Node>, e: nat)
    requires pos <= e <= |s|
    requires SeqItems(s, pos, until) == Ok((items, e))
    ensures ParseSequence(s, pos, until) == Ok((if |items| == 1 then items[0] else Sequence(items), e))
  {
  }

  lemma ParseAlternationStep(s: string, pos: nat, x: Node, m: nat, r: Result<(Node, nat)>)
    requires pos <= m <= |s|
    requires ParseSequence(s, pos, ')') == Ok((x, m)) && AltRest(s, m, [x]) == r
    ensures ParseAlternation(s, pos) == r
  {
  }

  lemma AltRestStep(s: string, pos: nat, acc: seq<Node>, x: Node, m: nat, r: Result<(Node, nat)>)
    requires pos < |s| && Peek(s, pos) == '|' && pos + 1 <= m <= |s|
    requires ParseSequence(s, pos + 1, ')') == Ok((x, m)) && AltRest(s, m, acc + [x]) == r
    ensures AltRest(s, pos, acc) == r
  {
  }

  lemma AltRestStop(s: string, pos: nat, acc: seq<Node>)
    requires pos <= |s| && Peek(s, pos) != '|'
    ensures AltRest(s, pos, acc) == Ok((Alternation(acc), pos))
  {
  }

  /** A power reads back as the bounds it was printed from, provided a
      `^n` count is not followed by another digit. */
  lemma {:induction false} PowerRoundTrip(s: string, q: nat, a: Node, lo: nat, hi: nat)
    requires q <= |s| && PowerBounds(lo, hi)
    requires At(s, q, PowerSuffix(lo, hi))
    requires Counted(Repetition(a, lo, hi)) ==> !IsDigit(Peek(s, q + |PowerSuffix(lo, hi)|))
    ensures ApplyPower(s, q, a) == Ok((Repetition(a, lo, hi), q + |PowerSuffix(lo, hi)|))
  {
    if Counted(Repetition(a, lo, hi)) {
      CountRoundTrip(s, q, a, lo);
    } else if lo == 0 && hi == 1 {
      AtHead(s, q, "?");
    } else {
      var suf := PowerSuffix(lo, hi);
      assert suf == "^+" || suf == "^*";
      assert suf == [suf[0]] + [suf[1]];
      AtConcat(s, q, [suf[0]], [suf[1]]);
      AtHead(s, q, [suf[0]]);
      AtHead(s, q + 1, [suf[1]]);
    }
  }

  lemma {:induction false} CountRoundTrip(s: string, q: nat, a: Node, n: nat)
    requires At(s, q, "^" + NatToString(n))
    requires !IsDigit(Peek(s, q + 1 + |NatToString(n)|))
    ensures ApplyPower(s, q, a) == Ok((Repetition(a, n, n), q + 1 + |NatToString(n)|))
  {
    var digits := NatToString(n);
    AtConcat(s, q, "^", digits);
    AtHead(s, q, "^");
    AtHead(s, q + 1, digits);
    var e := q + 1 + |digits|;
    forall i | q + 1 <= i < e
      ensures IsDigit(s[i])
    {
      assert s[q + 1 + (i - q - 1)] == digits[i - q - 1];
    }
    DigitRunStops(s, q + 1, e);
    assert s[q + 1..e] == digits by {
      forall k | 0 <= k < |digits|
        ensures s[q + 1..e][k] == digits[k]
      {
        assert s[q + 1 + k] == digits[k];
      }
    }
  }

  lemma {:induction false} AtomRoundTrip(s: string, pos: nat, a: Node)
    requires IsAtom(a) && Printable(a) && At(s, pos, Print(a))
    ensures ParseAtom(s, pos) == Ok((a, pos + |Print(a)|))
    decreases a, 2
  {
    AtHead(s, pos, Print(a));
    if a.Literal? {
      assert a.value == [s[pos]];
    } else {
      var body := Print(a.children[0]) + PrintAlts(a, 1);
      assert Print(a) == "(" + (body + ")");
      AtConcat(s, pos, "(", body + ")");
      AtConcat(s, pos + 1, body, ")");
      AtHead(s, pos + 1 + |body|, ")");
      AltRoundTrip(s, pos + 1, a);
      ParseAtomStep(s, pos, a, pos + 1 + |body|);
    }
  }

  lemma {:induction false} AltRoundTrip(s: string, pos: nat, a: Node)
    requires a.Alternation? && IsAtom(a) && Printable(a)
    requires At(s, pos, Print(a.children[0]) + PrintAlts(a, 1))
    requires Peek(s, pos + |Print(a.children[0]) + PrintAlts(a, 1)|) == ')'
    ensures ParseAlternation(s, pos) == Ok((a, pos + |Print(a.children[0]) + PrintAlts(a, 1)|))
    decreases a, 1
  {
    var cs := a.children;
    var first := Print(cs[0]);
    AtConcat(s, pos, first, PrintAlts(a, 1));
    var m := pos + |first|;
    if |PrintAlts(a, 1)| > 0 {
      AtHead(s, m, PrintAlts(a, 1));
    }
    PatternRoundTrip(s, pos, cs[0], ')');
    assert [cs[0]] == cs[..1];
    AltRestRoundTrip(s, m, a, 1, [cs[0]]);
    ParseAlternationStep(s, pos, cs[0], m, AltRest(s, m, [cs[0]]));
  }

  lemma {:induction false} AltRestRoundTrip(s: string, pos: nat, a: Node, i: nat, acc: seq<Node>)
    requires a.Alternation? && IsAtom(a) && Printable(a) && 1 <= i <= |a.children|
    requires acc == a.children[..i]
    requires At(s, pos, PrintAlts(a, i))
    requires Peek(s, pos + |PrintAlts(a, i)|) == ')'
    ensures AltRest(s, pos, acc) == Ok((a, pos + |PrintAlts(a, i)|))
    decreases a, 0, |a.children| - i, 1
  {
    var cs := a.children;
    var e := pos + |PrintAlts(a, i)|;
    if i == |cs| {
      assert acc == cs;
      AltRestStop(s, pos, acc);
    } else {
      var m := AltsHead(s, pos, a, i);
      var next := acc + [cs[i]];
      assert next == cs[..i + 1];
      AltRestRoundTrip(s, m, a, i + 1, next);
      AltRestStep(s, pos, acc, cs[i], m, AltRest(s, m, next));
    }
  }

  /** The first option of `PrintAlts(a, i)` parses back, and the remaining
      options are written from where it stops. */
  lemma {:induction false} AltsHead(s: string, pos: nat, a: Node, i: nat) returns (m: nat)
    requires a.Alternation? && IsAtom(a) && Printable(a) && 1 <= i < |a.children|
    requires At(s, pos, PrintAlts(a, i))
    requires Peek(s, pos + |PrintAlts(a, i)|) == ')'
    ensures pos < |s| && Peek(s, pos) == '|' && pos + 1 <= m <= |s|
    ensures ParseSequence(s, pos + 1, ')') == Ok((a.children[i], m))
    ensures At(s, m, PrintAlts(a, i + 1)) && m + |PrintAlts(a, i + 1)| == pos + |PrintAlts(a, i)|
    decreases a, 0, |a.children| - i, 0
  {
    m := AltsSplit(s, pos, a, i);
    assert IsPattern(a.children[i]) && Printable(a.children[i]);
    PatternRoundTrip(s, pos + 1, a.children[i], ')');
  }

  /** `PrintAlts(a, i)` is a `|`, the option `i`, and the later options. */
  lemma {:induction false} AltsSplit(s: string, pos: nat, a: Node, i: nat) returns (m: nat)
    requires a.Alternation? && 1 <= i < |a.children|
    requires At(s, pos, PrintAlts(a, i))
    requires Peek(s, pos + |PrintAlts(a, i)|) == ')'
    ensures pos < |s| && Peek(s, pos) == '|' && m == pos + 1 + |Print(a.children[i])|
    ensures At(s, pos + 1, Print(a.children[i])) && Stops(s, m, ')')
    ensures At(s, m, PrintAlts(a, i + 1)) && m + |PrintAlts(a, i + 1)| == pos + |PrintAlts(a, i)|
  {
    var item := Print(a.children[i]);
    var tail := PrintAlts(a, i + 1);
    m := pos + 1 + |item|;
    PrintAltsStart(a, i);
    AtConcat(s, pos, "|", item + tail);
    AtHead(s, pos, "|");
    AtConcat(s, pos + 1, item, tail);
    if |tail| > 0 {
      PrintAltsStart(a, i + 1);
      AtHead(s, m, tail);
    }
  }

  /** What may follow an item: no power character, and no digit after a
      `^n` count. */
  predicate FollowsItem(s: string, e: nat, it: Node) {
    Peek(s, e) != '^' && Peek(s, e) != '?' && (Counted(it) ==> !IsDigit(Peek(s, e)))
  }

  lemma {:induction false} ItemRoundTrip(s: string, pos: nat, it: Node)
    requires IsItem(it) && Printable(it) && At(s, pos, Print(it))
    requires FollowsItem(s, pos + |Print(it)|, it)
    ensures pos < |s|
    ensures ParseItem(s, pos) == Ok((it, pos + |Print(it)|))
    decreases it, 3
  {
    assert pos < |s| by {
      ItemStart(it);
      AtHead(s, pos, Print(it));
    }
    var e := pos + |Print(it)|;
    if IsAtom(it) {
      AtomRoundTrip(s, pos, it);
      ParseItemStep(s, pos, it, e, ApplyPower(s, e, it));
    } else {
      PowerItemRoundTrip(s, pos, it);
    }
  }

  /** An atom with a power suffix reads back as the same repetition. */
  lemma {:induction false} PowerItemRoundTrip(s: string, pos: nat, it: Node)
    requires it.Repetition? && IsAtom(it.child) && PowerBounds(it.min, it.max)
    requires Printable(it.child) && At(s, pos, Print(it))
    requires FollowsItem(s, pos + |Print(it)|, it)
    ensures ParseItem(s, pos) == Ok((it, pos + |Print(it)|))
    decreases it, 2
  {
    var c := it.child;
    var suf := PowerSuffix(it.min, it.max);
    var m := pos + |Print(c)|;
    assert At(s, pos, Print(c)) && At(s, m, suf) && pos + |Print(it)| == m + |suf| by {
      assert Print(it) == Print(c) + suf;
      AtConcat(s, pos, Print(c), suf);
    }
    assert pos < m <= |s| by {
      ItemStart(c);
    }
    AtomRoundTrip(s, pos, c);
    PowerRoundTrip(s, m, c, it.min, it.max);
    assert Repetition(c, it.min, it.max) == it;
    ParseItemStep(s, pos, c, m, ApplyPower(s, m, c));
  }

  lemma {:induction false} ItemsRoundTrip(s: string, pos: nat, n: Node, i: nat, until: char)
    requires n.Sequence? && IsPattern(n) && Printable(n) && i <= |n.children|
    requires until == ')' || until == '\0'
    requires At(s, pos, PrintItems(n, i)) && Stops(s, pos + |PrintItems(n, i)|, until)
    ensures SeqItems(s, pos, until) == Ok((n.children[i..], pos + |PrintItems(n, i)|))
    decreases n, 4, |n.children| - i, 1
  {
    var cs := n.children;
    var e := pos + |PrintItems(n, i)|;
    if i == |cs| {
      assert cs[i..] == [];
      SeqItemsStop(s, pos, until);
    } else {
      var m := ItemsHead(s, pos, n, i, until);
      ItemsRoundTrip(s, m, n, i + 1, until);
      SeqItemsStep(s, pos, until, cs, i, m, m + |PrintItems(n, i + 1)|);
    }
  }

  /** The first item of `PrintItems(n, i)` parses back, and the remaining
      items are written from where it stops. */
  lemma {:induction false} ItemsHead(s: string, pos: nat, n: Node, i: nat, until: char) returns (m: nat)
    requires n.Sequence? && IsPattern(n) && Printable(n) && i < |n.children|
    requires until == ')' || until == '\0'
    requires At(s, pos, PrintItems(n, i)) && Stops(s, pos + |PrintItems(n, i)|, until)
    ensures pos < m <= |s| && pos < |s| && Peek(s, pos) != until && Peek(s, pos) != '|'
    ensures ParseItem(s, pos) == Ok((n.children[i], m))
    ensures At(s, m, PrintItems(n, i + 1)) && m + |PrintItems(n, i + 1)| == pos + |PrintItems(n, i)|
    decreases n, 4, |n.children| - i, 0
  {
    assert !IsAtom(n);
    m := ItemsSplit(s, pos, n, i, until);
    ItemRoundTrip(s, pos, n.children[i]);
  }

  /** `PrintItems(n, i)` is the item `i` followed by the later items, and
      what follows the item cannot extend it. */
  lemma {:induction false} ItemsSplit(s: string, pos: nat, n: Node, i: nat, until: char) returns (m: nat)
    requires n.Sequence? && i < |n.children| && (until == ')' || until == '\0')
    requires forall j :: 0 <= j < |n.children| ==> IsItem(n.children[j]) && Printable(n.children[j])
    requires forall j :: 0 < j < |n.children| && Counted(n.children[j - 1]) ==> !StartsWithDigit(n.children[j])
    requires At(s, pos, PrintItems(n, i)) && Stops(s, pos + |PrintItems(n, i)|, until)
    ensures m == pos + |Print(n.children[i])| && pos < m && pos < |s|
    ensures Peek(s, pos) != until && Peek(s, pos) != '|' && Peek(s, pos) != '\0'
    ensures At(s, pos, Print(n.children[i])) && FollowsItem(s, m, n.children[i])
    ensures At(s, m, PrintItems(n, i + 1)) && m + |PrintItems(n, i + 1)| == pos + |PrintItems(n, i)|
  {
    var cs := n.children;
    var item := Print(cs[i]);
    var tail := PrintItems(n, i + 1);
    m := pos + |item|;
    PrintItemsStart(n, i);
    AtConcat(s, pos, item, tail);
    ItemStart(cs[i]);
    AtHead(s, pos, item);
    if i + 1 < |cs| {
      PrintItemsStart(n, i + 1);
      ItemStart(cs[i + 1]);
      AtHead(s, m, tail);
      assert Counted(cs[i]) ==> !StartsWithDigit(cs[i + 1]);
    }
  }

  lemma {:induction false} PatternRoundTrip(s: string, pos: nat, p: Node, until: char)
    requires IsPattern(p) && Printable(p) && At(s, pos, Print(p))
    requires until == ')' || until == '\0'
    requires Stops(s, pos + |Print(p)|, until)
    ensures ParseSequence(s, pos, until) == Ok((p, pos + |Print(p)|))
    decreases p, 5
  {
    var e := pos + |Print(p)|;
    if IsItem(p) {
      ItemStart(p);
      AtHead(s, pos, Print(p));
      ItemRoundTrip(s, pos, p);
      SeqItemsStop(s, e, until);
      assert [p][1..] == [] && [p][0..] == [p];
      SeqItemsStep(s, pos, until, [p], 0, e, e);
      ParseSequenceStep(s, pos, until, [p], e);
    } else {
      assert !IsAtom(p);
      ItemsRoundTrip(s, pos, p, 0, until);
      assert p.children[0..] == p.children;
      ParseSequenceStep(s, pos, until, p.children, e);
    }
  }

  /** The parser inverts the printer: a printed pattern parses back to the
      same tree, also when a top-level `|` (and anything at all) follows. */
  lemma ParsePrint(n: Node, rest: string)
    requires IsPattern(n) && Printable(n)
    requires |rest| == 0 || rest[0] == '|'
    ensures Parse(Print(n) + rest) == Ok(n)
  {
    var s := Print(n) + rest;
    assert At(s, 0, Print(n)) by {
      forall k | 0 <= k < |Print(n)|
        ensures s[0 + k] == Print(n)[k]
      {
      }
    }
    if |rest| > 0 {
      assert s[|Print(n)|] == '|';
    }
    PatternRoundTrip(s, 0, n, '\0');
  }

  // ---------------------------------------------------------------------
  // Error cases and the sample patterns
  // ---------------------------------------------------------------------

  /** A `(` with no `)` anywhere after it fails with "Expected )". */
  lemma UnclosedParenFails(s: string, pos: nat)
    requires pos < |s| && s[pos] == '('
    requires forall j :: pos < j < |s| ==> s[j] != ')'
    ensures ParseAtom(s, pos).Err?
    ensures ParseItem(s, pos).Err?
  {
  }

  /** A pattern that opens a parenthesis it never closes is rejected. */
  lemma ParseUnclosed(t: string)
    requires forall j :: 0 <= j < |t| ==> t[j] != ')'
    ensures Parse("(" + t).Err?
  {
    var s := "(" + t;
    UnclosedParenFails(s, 0);
    assert SeqItems(s, 0, '\0').Err?;
  }

  /** A `^` followed by neither `+`, `*` nor a digit is rejected, since
      `std::stoi` finds no number. */
  lemma ParseBadPower(c: char, t: string)
    requires Plain(c)
    requires |t| == 0 || (t[0] != '+' && t[0] != '*' && !IsDigit(t[0]))
    ensures Parse([c] + "^" + t).Err?
  {
    var s := [c] + "^" + t;
    assert Peek(s, 1) == '^';
    assert Peek(s, 2) == if |t| == 0 then '\0' else t[0];
    assert ParseAtom(s, 0) == Ok((Literal([c]), 1));
    assert ApplyPower(s, 1, Literal([c])).Err?;
    assert ParseItem(s, 0).Err?;
    assert SeqItems(s, 0, '\0').Err?;
  }

  /** At the top level a `)` is an ordinary literal and a `|` ends the
      pattern. */
  lemma TopLevelExamples()
    ensures Parse(")") == Ok(Literal(")"))
    ensures Parse("a|b") == Ok(Literal("a"))
    ensures Parse("") == Ok(Sequence([]))
  {
    assert SeqItems(")", 1, '\0') == Ok(([], 1));
    assert SeqItems("a|b", 1, '\0') == Ok(([], 1));
  }
}

=== FILE: samples.dfy ===
/** The three patterns of the demonstration program: their trees, their
    printed form, and the parse of each back into its tree. */
module RegexSamples {
  import opened Wrappers
  import opened Text
  import opened Regex

  function Lit(c: char): Node { Literal([c]) }

  function SampleOne(): Node {
    Sequence([Lit('O'),
              Repetition(Alternation([Lit('P'), Sequence([Lit('Q'), Lit('2')]), Lit('R')]), 1, MaxRepetition),
              Lit('2'),
              Alternation([Lit('3'), Lit('4')])])
  }

  function SampleTwo(): Node {
    Sequence([Repetition(Lit('A'), 0, MaxRepetition), Lit('B'),
              Alternation([Lit('C'), Lit('D'), Lit('E')]), Lit('F'),
              Repetition(Alternation([Lit('G'), Lit('H'), Lit('I')]), 2, 2)])
  }

  function SampleThree(): Node {
    Sequence([Repetition(Lit('J'), 1, MaxRepetition), Lit('K'),
              Repetition(Alternation([Lit('L'), Lit('M'), Lit('N')]), 0, MaxRepetition),
              Repetition(Lit('0'), 0, 1),
              Repetition(Alternation([Lit('P'), Lit('Q')]), 3, 3)])
  }

  lemma SampleOneShape()
    ensures IsPattern(SampleOne()) && Printable(SampleOne())
  {
    SampleOneIsPattern();
    SampleOnePrintable();
  }

  lemma SampleOneIsPattern()
    ensures IsPattern(SampleOne())
  {
    var n := SampleOne();
    var alt := n.children[1].child;
    assert IsPattern(alt.children[1]);
    assert IsAtom(alt);
    assert IsItem(n.children[1]);
    assert IsAtom(n.children[3]);
    assert forall i :: 0 <= i < |n.children| ==> IsItem(n.children[i]);
  }

  lemma SampleOnePrintable()
    ensures Printable(SampleOne())
  {
    var n := SampleOne();
    var alt := n.children[1].child;
    assert Printable(alt.children[1]);
    assert Printable(alt);
    assert forall i :: 0 <= i < |n.children| ==> Printable(n.children[i]);
  }

  lemma SampleOneGroups()
    ensures Print(SampleOne().children[1]) == "(P|Q2|R)^+"
    ensures Print(SampleOne().children[3]) == "(3|4)"
  {
    var alt := SampleOne().children[1].child;
    assert Print(alt.children[1]) == "Q2" by {
      assert PrintItems(alt.children[1], 2) == "";
    }
    assert PrintAlts(alt, 3) == "";
    assert PrintAlts(SampleOne().children[3], 2) == "";
  }

  /** One step of `PrintItems`, for the sample proofs. */
  lemma PrintItemsCons(n: Node, i: nat, head: string, tail: string)
    requires n.Sequence? && i < |n.children|
    requires Print(n.children[i]) == head && PrintItems(n, i + 1) == tail
    ensures PrintItems(n, i) == head + tail
  {
  }

  lemma SampleOneTail()
    ensures PrintItems(SampleOne(), 2) == "2(3|4)"
  {
    var n := SampleOne();
    SampleOneGroups();
    assert PrintItems(n, 3) == "(3|4)" by {
      assert PrintItems(n, 4) == "";
    }
  }

  lemma SampleOnePrint()
    ensures Print(SampleOne()) == "O(P|Q2|R)^+2(3|4)"
  {
    var n := SampleOne();
    SampleOneGroups();
    SampleOneTail();
    PrintItemsCons(n, 1, "(P|Q2|R)^+", "2(3|4)");
    PrintItemsCons(n, 0, "O", "(P|Q2|R)^+" + "2(3|4)");
    SampleOneText();
  }

  lemma SampleOneText()
    ensures "O" + ("(P|Q2|R)^+" + "2(3|4)") == "O(P|Q2|R)^+2(3|4)"
  {
  }

  /** The three patterns of the demonstration program parse without error,
      into the trees above. */
  lemma SampleOneParses()
    ensures Parse("O(P|Q2|R)^+2(3|4)") == Ok(SampleOne())
  {
    SampleOneShape();
    SampleOnePrint();
    ParsePrint(SampleOne(), "");
    assert Print(SampleOne()) + "" == Print(SampleOne());
  }

  lemma SampleTwoShape()
    ensures IsPattern(SampleTwo()) && Printable(SampleTwo())
  {
    SampleTwoIsPattern();
    SampleTwoPrintable();
  }

  lemma SampleTwoIsPattern()
    ensures IsPattern(SampleTwo())
  {
    var n := SampleTwo();
    assert IsAtom(n.children[2]);
    assert IsAtom(n.children[4].child);
    assert forall i :: 0 <= i < |n.children| ==> IsItem(n.children[i]);
  }

  lemma SampleTwoPrintable()
    ensures Printable(SampleTwo())
  {
    var n := SampleTwo();
    assert Printable(n.children[2]);
    assert Printable(n.children[4].child);
    assert forall i :: 0 <= i < |n.children| ==> Printable(n.children[i]);
  }

  lemma SampleTwoGroups()
    ensures Print(SampleTwo().children[2]) == "(C|D|E)"
    ensures Print(SampleTwo().children[4]) == "(G|H|I)^2"
  {
    var n := SampleTwo();
    assert PrintAlts(n.children[2], 3) == "";
    assert PrintAlts(n.children[4].child, 3) == "";
    CountSuffix(2);
  }

  lemma SampleTwoTail()
    ensures PrintItems(SampleTwo(), 2) == "(C|D|E)F(G|H|I)^2"
  {
    var n := SampleTwo();
    SampleTwoGroups();
    assert PrintItems(n, 4) == "(G|H|I)^2" by {
      assert PrintItems(n, 5) == "";
    }
  }

  lemma SampleTwoPrint()
    ensures Print(SampleTwo()) == "A^*B(C|D|E)F(G|H|I)^2"
  {
    var n := SampleTwo();
    SampleTwoTail();
    PrintItemsCons(n, 1, "B", "(C|D|E)F(G|H|I)^2");
    assert Print(n.children[0]) == "A^*";
    PrintItemsCons(n, 0, "A^*", "B" + "(C|D|E)F(G|H|I)^2");
    SampleTwoText();
  }

  lemma SampleTwoText()
    ensures "A^*" + ("B" + "(C|D|E)F(G|H|I)^2") == "A^*B(C|D|E)F(G|H|I)^2"
  {
  }

  lemma SampleTwoParses()
    ensures Parse("A^*B(C|D|E)F(G|H|I)^2") == Ok(SampleTwo())
  {
    SampleTwoShape();
    SampleTwoPrint();
    ParsePrint(SampleTwo(), "");
    assert Print(SampleTwo()) + "" == Print(SampleTwo());
  }

  lemma SampleThreeShape()
    ensures IsPattern(SampleThree()) && Printable(SampleThree())
  {
    SampleThreeIsPattern();
    SampleThreePrintable();
  }

  lemma SampleThreeIsPattern()
    ensures IsPattern(SampleThree())
  {
    var n := SampleThree();
    assert IsAtom(n.children[2].child);
    assert IsAtom(n.children[4].child);
    assert forall i :: 0 <= i < |n.children| ==> IsItem(n.children[i]);
  }

  lemma SampleThreePrintable()
    ensures Printable(SampleThree())
  {
    var n := SampleThree();
    assert Printable(n.children[2].child);
    assert Printable(n.children[4].child);
    assert forall i :: 0 <= i < |n.children| ==> Printable(n.children[i]);
    assert !StartsWithDigit(n.children[1]);
    assert Counted(n.children[4]);
  }

  lemma SampleThreeGroups()
    ensures Print(SampleThree().children[2]) == "(L|M|N)^*"
    ensures Print(SampleThree().children[4]) == "(P|Q)^3"
  {
    var n := SampleThree();
    assert PrintAlts(n.children[2].child, 3) == "";
    assert PrintAlts(n.children[4].child, 2) == "";
    CountSuffix(3);
  }

  lemma SampleThreeTail()
    ensures PrintItems(SampleThree(), 2) == "(L|M|N)^*0?(P|Q)^3"
  {
    var n := SampleThree();
    SampleThreeGroups();
    assert PrintItems(n, 4) == "(P|Q)^3" by {
      assert PrintItems(n, 5) == "";
    }
  }

  lemma SampleThreePrint()
    ensures Print(SampleThree()) == "J^+K(L|M|N)^*0?(P|Q)^3"
  {
    var n := SampleThree();
    SampleThreeTail();
    PrintItemsCons(n, 1, "K", "(L|M|N)^*0?(P|Q)^3");
    assert Print(n.children[0]) == "J^+";
    PrintItemsCons(n, 0, "J^+", "K" + "(L|M|N)^*0?(P|Q)^3");
    SampleThreeText();
  }

  lemma SampleThreeText()
    ensures "J^+" + ("K" + "(L|M|N)^*0?(P|Q)^3") == "J^+K(L|M|N)^*0?(P|Q)^3"
  {
  }

  /** A one-digit count prints as `^` and that digit. */
  lemma CountSuffix(d: nat)
    requires 2 <= d <= 4
    ensures PowerSuffix(d, d) == "^" + [DigitChar(d)]
  {
  }

  lemma SampleThreeParses()
    ensures Parse("J^+K(L|M|N)^*0?(P|Q)^3") == Ok(SampleThree())
  {
    SampleThreeShape();
    SampleThreePrint();
    ParsePrint(SampleThree(), "");
    assert Print(SampleThree()) + "" == Print(SampleThree());
  }
}

=== FILE: subset.dfy ===
/** `FiniteAutomaton::ConvertToDFA`, the subset construction of the hash-map
    version of the automaton labs. Each set of states the exploration meets
    becomes one state of the result, named by `JoinStates`; the empty set of
    states is named by the empty string and has no row of its own, so it
    acts as a dead state. */
module SubsetConstruction {
  import opened Text
  import opened SubsetWorklist
  import opened FiniteAutomata

  /** The step of the automaton as a value for the generic exploration. */
  function StepFn(t: TransitionMap): (f: (set<State>, Symbol) -> set<State>)
    ensures forall s, x :: f(s, x) == Step(t, s, x)
  {
    (s: set<State>, x: Symbol) => Step(t, s, x)
  }

  function AllTargets(t: TransitionMap): set<State>
  {
    set q, x, p | q in t && x in t[q] && p in t[q][x] :: p
  }

  /** Every state a set met by the exploration can hold. */
  function Universe(a: Automaton): set<State>
  {
    {a.start} + AllTargets(a.transitions)
  }

  lemma StepFnWithin(a: Automaton)
    ensures StepWithin(StepFn(a.transitions), Universe(a))
    ensures EmptyIsDead(StepFn(a.transitions))
  {
    var f := StepFn(a.transitions);
    forall s, y | s <= Universe(a)
      ensures f(s, y) <= Universe(a)
    {
      forall p | p in f(s, y)
        ensures p in AllTargets(a.transitions)
      {
        var q :| q in s && p in Targets(a.transitions, q, y);
      }
    }
  }

  /** The sets of states the queue of `ConvertToDFA` holds, in the order
      they are enqueued; the alphabet is visited in ascending order. */
  function Subsets(a: Automaton): (r: seq<set<State>>)
    ensures |r| > 0 && r[0] == {a.start} && NoDup(r)
    ensures forall k :: 0 <= k < |r| ==> r[k] != {} && r[k] <= Universe(a)
    ensures ClosedFrom(StepFn(a.transitions), SortedSet(a.alphabet), r, 0, |r|)
  {
    StepFnWithin(a);
    Reachable(StepFn(a.transitions), SortedSet(a.alphabet), Universe(a), {a.start})
  }

  /** What the model needs of `JoinStates`, which concatenates the member
      names in the hash set's order: a one-state set is named by its state,
      different non-empty sets get different names, and no non-empty set is
      named by the empty string. */
  ghost predicate GoodNames(join: set<State> -> State, u: set<State>)
  {
    && (forall q :: join({q}) == q)
    && (forall s1, s2 :: s1 <= u && s2 <= u && s1 != {} && s2 != {} && join(s1) == join(s2) ==> s1 == s2)
    && (forall s :: s <= u && s != {} ==> join(s) != "")
  }

  /** `stateMapping[nextSet]`: the empty set is never recorded, so looking
      it up inserts and yields the empty string. */
  function NameOf(join: set<State> -> State, s: set<State>): State
  {
    if s == {} then "" else join(s)
  }

  /** The row written for the set `s`: every symbol of the alphabet leads to
      the one state named after the successor set. */
  function Row(a: Automaton, join: set<State> -> State, s: set<State>): (row: map<Symbol, set<State>>)
    ensures row.Keys == a.alphabet
    ensures forall x :: x in row ==> row[x] == {NameOf(join, Step(a.transitions, s, x))}
  {
    map x | x in a.alphabet :: {NameOf(join, Step(a.transitions, s, x))}
  }

  ghost predicate InjectiveOn(join: set<State> -> State, fam: set<set<State>>)
  {
    forall s1, s2 :: s1 in fam && s2 in fam && join(s1) == join(s2) ==> s1 == s2
  }

  function BuildDfa(a: Automaton, join: set<State> -> State, fam: set<set<State>>): Automaton
    requires InjectiveOn(join, fam)
  {
    Automaton(
      set s | s in fam :: join(s),
      a.alphabet,
      map s | s in fam :: join(s) := Row(a, join, s),
      join({a.start}),
      set s | s in fam && ContainsFinal(a.finals, s) :: join(s))
  }

  /** What the construction needs of the family of explored sets. */
  ghost predicate ProperFamily(a: Automaton, join: set<State> -> State, fam: set<set<State>>)
  {
    && InjectiveOn(join, fam)
    && {a.start} in fam
    && join({a.start}) == a.start
    && (forall s :: s in fam ==> s != {} && join(s) != "")
    && (forall s, x :: s in fam && x in a.alphabet && Step(a.transitions, s, x) != {} ==> Step(a.transitions, s, x) in fam)
  }

  lemma SubsetsProper(a: Automaton, join: set<State> -> State)
    requires GoodNames(join, Universe(a))
    ensures ProperFamily(a, join, Elems(Subsets(a)))
  {
    assert {a.start} in Elems(Subsets(a)) by { assert Subsets(a)[0] == {a.start}; }
    forall s, x | s in Elems(Subsets(a)) && x in a.alphabet && Step(a.transitions, s, x) != {}
      ensures Step(a.transitions, s, x) in Elems(Subsets(a))
    {
      NonEmptySuccessorIsSubset(a, s, x);
    }
  }

  lemma {:induction false} BuildDfaShape(a: Automaton, join: set<State> -> State, fam: set<set<State>>)
    requires ProperFamily(a, join, fam)
    ensures var d := BuildDfa(a, join, fam);
      && d.start == a.start && d.alphabet == a.alphabet
      && Deterministic(d.transitions)
      && "" !in d.states
      && d.finals <= d.states
      && d.start in d.states
      && d.transitions.Keys == d.states
      && (forall q :: q in d.states ==> d.transitions[q].Keys == d.alphabet)
      && (forall q, x :: q in d.transitions && x in d.transitions[q] ==> d.transitions[q][x] <= d.states + {""})
  {
    var d := BuildDfa(a, join, fam);
    forall q, x | q in d.transitions && x in d.transitions[q]
      ensures |d.transitions[q][x]| <= 1
      ensures d.transitions[q][x] <= d.states + {""}
    {
      var s :| s in fam && join(s) == q;
      assert d.transitions[q] == Row(a, join, s);
    }
    forall q | q in d.states
      ensures d.transitions[q].Keys == d.alphabet
    {
      var s :| s in fam && join(s) == q;
      assert d.transitions[q] == Row(a, join, s);
    }
  }

  /** `FiniteAutomaton::ConvertToDFA`. A deterministic automaton is returned
      as it is; otherwise the subset construction runs. */
  function ConvertToDFA(a: Automaton, join: set<State> -> State): (d: Automaton)
    requires !Deterministic(a.transitions) ==> GoodNames(join, Universe(a))
    ensures Deterministic(a.transitions) ==> d == a
    ensures Deterministic(d.transitions)
    ensures d.start == a.start && d.alphabet == a.alphabet
    ensures !Deterministic(a.transitions) ==>
      && "" !in d.states
      && d.finals <= d.states
      && d.start in d.states
      && d.transitions.Keys == d.states
      && (forall q :: q in d.states ==> d.transitions[q].Keys == d.alphabet)
      && (forall q, x :: q in d.transitions && x in d.transitions[q] ==> d.transitions[q][x] <= d.states + {""})
  {
    if Deterministic(a.transitions) then a
    else
      SubsetsProper(a, join);
      BuildDfaShape(a, join, Elems(Subsets(a)));
      BuildDfa(a, join, Elems(Subsets(a)))
  }

  /** A state of the result is final exactly when the set it names holds a
      final state of the original. */
  lemma ConvertToDFAFinals(a: Automaton, join: set<State> -> State, s: set<State>)
    requires !Deterministic(a.transitions) && GoodNames(join, Universe(a))
    requires s in Subsets(a)
    ensures join(s) in ConvertToDFA(a, join).finals <==> ContainsFinal(a.finals, s)
  {
    SubsetsProper(a, join);
  }

  /** A non-empty successor of an explored set on a symbol of the alphabet
      is explored too. */
  lemma NonEmptySuccessorIsSubset(a: Automaton, s: set<State>, x: Symbol)
    requires s in Subsets(a) && x in a.alphabet
    requires Step(a.transitions, s, x) != {}
    ensures Step(a.transitions, s, x) in Subsets(a)
  {
    var r := Subsets(a);
    var syms := SortedSet(a.alphabet);
    var k :| 0 <= k < |r| && r[k] == s;
    var j :| 0 <= j < |syms| && syms[j] == x;
    assert StepFn(a.transitions)(r[k], syms[j]) != {};
  }

  // ---------------------------------------------------------------------
  // The result accepts the same words.

  /** Every symbol the transition map uses with a target is in the
      alphabet. */
  ghost predicate SymbolsInAlphabet(a: Automaton)
  {
    forall q, x :: q in a.transitions && x in a.transitions[q] && a.transitions[q][x] != {} ==> x in a.alphabet
  }

  /** Every character of `w`, as a one-character symbol, is in the
      alphabet. */
  predicate WordOver(w: string, alphabet: set<Symbol>)
  {
    forall i :: 0 <= i < |w| ==> [w[i]] in alphabet
  }

  lemma StepSingleton(t: TransitionMap, q: State, x: Symbol)
    ensures Step(t, {q}, x) == Targets(t, q, x)
  {
  }

  /** The empty name has no row and is not final, so nothing is accepted
      once the result has moved there. */
  lemma {:induction false} DeadStateRejects(d: Automaton, w: string)
    requires "" !in d.transitions && "" !in d.finals
    ensures !Simulate(d.transitions, d.finals, {""}, w)
  {
    if |w| > 0 {
      StepSingleton(d.transitions, "", [w[0]]);
    } else {
      assert {""} * d.finals == {};
    }
  }

  lemma {:induction false} BuildDfaSimulates(a: Automaton, join: set<State> -> State, fam: set<set<State>>, s: set<State>, w: string)
    requires ProperFamily(a, join, fam)
    requires SymbolsInAlphabet(a) || WordOver(w, a.alphabet)
    requires s in fam
    ensures var d := BuildDfa(a, join, fam);
      Simulate(d.transitions, d.finals, {join(s)}, w) == Simulate(a.transitions, a.finals, s, w)
    decreases |w|
  {
    var d := BuildDfa(a, join, fam);
    BuildDfaShape(a, join, fam);
    assert d.transitions[join(s)] == Row(a, join, s);
    if |w| == 0 {
      if join(s) in d.finals {
        var s' :| s' in fam && ContainsFinal(a.finals, s') && join(s') == join(s);
      }
      assert join(s) in d.finals ==> join(s) in {join(s)} * d.finals;
    } else {
      var x := [w[0]];
      var n := Step(a.transitions, s, x);
      StepSingleton(d.transitions, join(s), x);
      if x !in a.alphabet {
        if WordOver(w, a.alphabet) {
          assert false;
        }
        assert n == {};
      } else if n == {} {
        DeadStateRejects(d, w[1..]);
      } else {
        assert WordOver(w, a.alphabet) ==> WordOver(w[1..], a.alphabet) by {
          if WordOver(w, a.alphabet) {
            forall i | 0 <= i < |w[1..]| ensures [w[1..][i]] in a.alphabet { assert w[1..][i] == w[i + 1]; }
          }
        }
        BuildDfaSimulates(a, join, fam, n, w[1..]);
      }
    }
  }

  /** `ConvertToDFA` keeps the language: on every word over the alphabet,
      and on every word at all when the transitions only use symbols of
      the alphabet. */
  lemma ConvertToDFAPreservesLanguage(a: Automaton, join: set<State> -> State, w: string)
    requires !Deterministic(a.transitions) ==> GoodNames(join, Universe(a))
    requires SymbolsInAlphabet(a) || WordOver(w, a.alphabet)
    ensures StringBelongsToLanguage(ConvertToDFA(a, join), w) == StringBelongsToLanguage(a, w)
  {
    if !Deterministic(a.transitions) {
      SubsetsProper(a, join);
      BuildDfaSimulates(a, join, Elems(Subsets(a)), {a.start}, w);
    }
  }

  // ---------------------------------------------------------------------
  // The states of the result are the reachable sets.

  /** The set of states the automaton is in after reading the symbols
      `ys` from the start state. */
  function Reach(a: Automaton, ys: seq<Symbol>): set<State>
  {
    Run(StepFn(a.transitions), {a.start}, ys)
  }

  predicate SymbolsOver(ys: seq<Symbol>, alphabet: set<Symbol>)
  {
    forall k :: 0 <= k < |ys| ==> ys[k] in alphabet
  }

  /** The result has one state per set of states reachable over the
      alphabet: the start state, and the name of every non-empty set some
      sequence of symbols leads to. */
  lemma ConvertToDFAStates(a: Automaton, join: set<State> -> State, q: State)
    requires !Deterministic(a.transitions) && GoodNames(join, Universe(a))
    ensures q in ConvertToDFA(a, join).states
        <==> q == a.start || exists ys :: SymbolsOver(ys, a.alphabet) && Reach(a, ys) != {} && q == join(Reach(a, ys))
  {
    var d := ConvertToDFA(a, join);
    var r := Subsets(a);
    var syms := SortedSet(a.alphabet);
    var f := StepFn(a.transitions);
    StepFnWithin(a);
    SubsetsProper(a, join);
    assert forall ys :: SymbolsOver(ys, a.alphabet) <==> Over(ys, syms);
    if q in d.states {
      var s :| s in Elems(r) && join(s) == q;
      ReachableExactly(f, syms, Universe(a), {a.start}, s);
      if s != {a.start} {
        var ys :| Over(ys, syms) && Run(f, {a.start}, ys) == s;
        assert Reach(a, ys) == s;
      }
    }
    if q != a.start && exists ys :: SymbolsOver(ys, a.alphabet) && Reach(a, ys) != {} && q == join(Reach(a, ys)) {
      var ys :| SymbolsOver(ys, a.alphabet) && Reach(a, ys) != {} && q == join(Reach(a, ys));
      ReachableExactly(f, syms, Universe(a), {a.start}, Reach(a, ys));
    }
  }
}

=== FILE: text.dfy ===
/** Character classes of the C locale, decimal conversions (`std::to_string`,
    `std::stoi`) and the lexicographic order in which `std::set<std::string>`
    iterates. The order is also the stand-in iteration order the model uses
    for hash containers whose real order is unspecified. */
module Text {
  import opened Wrappers

  predicate IsDigit(c: char) { '0' <= c <= '9' }
  predicate IsUpper(c: char) { 'A' <= c <= 'Z' }
  predicate IsLower(c: char) { 'a' <= c <= 'z' }
  predicate IsAlpha(c: char) { IsUpper(c) || IsLower(c) }
  predicate IsAlnum(c: char) { IsAlpha(c) || IsDigit(c) }

  /** `std::isspace` in the C locale: space, tab, newline, vertical tab,
      form feed and carriage return. */
  predicate IsSpace(c: char) {
    c == ' ' || c == '\t' || c == '\n' || c == '\r' || c as int == 11 || c as int == 12
  }

  /** `std::toupper` in the C locale. */
  function ToUpper(c: char): (r: char)
    ensures IsLower(c) ==> IsUpper(r) && r as int == c as int - 32
    ensures !IsLower(c) ==> r == c
  {
    if IsLower(c) then (c as int - 32) as char else c
  }

  function UpperString(s: string): (r: string)
    ensures |r| == |s|
    ensures forall i :: 0 <= i < |s| ==> r[i] == ToUpper(s[i])
  {
    if |s| == 0 then [] else [ToUpper(s[0])] + UpperString(s[1..])
  }

  /** The number of bytes the UTF-8 encoding of `c` takes, which is what a
      `std::string` holding the text counts for it. */
  function Utf8Width(c: char): (n: nat)
    ensures 1 <= n <= 4
    ensures n == 1 <==> c as int < 0x80
  {
    if c as int < 0x80 then 1
    else if c as int < 0x800 then 2
    else if c as int < 0x1_0000 then 3
    else 4
  }

  /** `std::string::length()` of the UTF-8 encoding of `s`. */
  function Utf8Length(s: string): (n: nat)
    ensures |s| <= n <= 4 * |s|
    ensures n == |s| <==> forall i :: 0 <= i < |s| ==> s[i] as int < 0x80
  {
    if |s| == 0 then 0
    else
      var n := Utf8Width(s[0]) + Utf8Length(s[1..]);
      assert forall i :: 1 <= i < |s| ==> s[i] == s[1..][i - 1];
      n
  }

  predicate AllDigits(s: string) {
    forall i :: 0 <= i < |s| ==> IsDigit(s[i])
  }

  function DigitChar(d: nat): (c: char)
    requires d < 10
    ensures IsDigit(c)
  {
    ('0' as int + d) as char
  }

  function DigitValue(c: char): (d: nat)
    requires IsDigit(c)
    ensures d < 10
  {
    c as int - '0' as int
  }

  /** The value of a run of decimal digits, most significant first. */
  function DecimalValue(s: string): nat
    requires AllDigits(s)
  {
    if |s| == 0 then 0 else 10 * DecimalValue(s[..|s| - 1]) + DigitValue(s[|s| - 1])
  }

  /** `std::to_string` on a non-negative integer. */
  function NatToString(n: nat): (r: string)
    ensures |r| > 0 && AllDigits(r)
    ensures DecimalValue(r) == n
  {
    if n < 10 then [DigitChar(n)]
    else
      var r := NatToString(n / 10) + [DigitChar(n % 10)];
      assert r[..|r| - 1] == NatToString(n / 10);
      r
  }

  lemma NatToStringInjective(m: nat, n: nat)
    requires NatToString(m) == NatToString(n)
    ensures m == n
  {
  }

  /** Length of the longest prefix of `s[from..]` made of digits. */
  function DigitRun(s: string, from: nat): (k: nat)
    requires from <= |s|
    ensures from + k <= |s|
    ensures forall i :: from <= i < from + k ==> IsDigit(s[i])
    ensures from + k == |s| || !IsDigit(s[from + k])
    decreases |s| - from
  {
    if from < |s| && IsDigit(s[from]) then 1 + DigitRun(s, from + 1) else 0
  }

  /** `std::stoi` without its overflow check: optional leading white space,
      an optional sign, then at least one digit; anything after the digits
      is ignored. No digit there is an `invalid_argument` exception. */
  function Stoi(s: string): (r: Result<int>)
    ensures |s| == 0 ==> r.Err?
    ensures |s| > 0 && !IsSpace(s[0]) && !IsDigit(s[0]) && s[0] != '+' && s[0] != '-' ==> r.Err?
    ensures |s| > 0 && IsDigit(s[0]) ==> r == Ok(DecimalValue(s[..DigitRun(s, 0)]))
  {
    var w := SpaceRun(s, 0);
    var signed := w < |s| && (s[w] == '+' || s[w] == '-');
    var d := if signed then w + 1 else w;
    var k := DigitRun(s, d);
    if k == 0 then Err("invalid stoi argument")
    else
      var v := DecimalValue(s[d..d + k]);
      Ok(if signed && s[w] == '-' then 0 - (v as int) else v)
  }

  function SpaceRun(s: string, from: nat): (k: nat)
    requires from <= |s|
    ensures from + k <= |s|
    ensures forall i :: from <= i < from + k ==> IsSpace(s[i])
    ensures from + k == |s| || !IsSpace(s[from + k])
    decreases |s| - from
  {
    if from < |s| && IsSpace(s[from]) then 1 + SpaceRun(s, from + 1) else 0
  }

  /** `std::stoi` reads back what `std::to_string` wrote, also when other
      characters than digits follow. */
  lemma StoiReadsDecimal(n: nat, rest: string)
    requires |rest| == 0 || !IsDigit(rest[0])
    ensures Stoi(NatToString(n) + rest) == Ok(n)
  {
    var s := NatToString(n) + rest;
    var k := |NatToString(n)|;
    DigitRunStops(s, 0, k);
    assert s[..k] == NatToString(n);
  }

  /** `std::stoi` of a `std::to_string` of a natural number. */
  lemma StoiNat(n: nat)
    ensures Stoi(NatToString(n)) == Ok(n)
  {
    StoiReadsDecimal(n, "");
    assert NatToString(n) + "" == NatToString(n);
  }

  lemma {:induction false} DigitRunStops(s: string, from: nat, to: nat)
    requires from <= to <= |s|
    requires forall i :: from <= i < to ==> IsDigit(s[i])
    requires to == |s| || !IsDigit(s[to])
    ensures DigitRun(s, from) == to - from
    decreases |s| - from
  {
    if from < to {
      DigitRunStops(s, from + 1, to);
    }
  }

  // ---------------------------------------------------------------------
  // Lexicographic order on strings, as `std::string::compare` orders them.

  predicate LexLess(a: string, b: string)
  {
    if |a| == 0 then |b| > 0
    else if |b| == 0 then false
    else a[0] < b[0] || (a[0] == b[0] && LexLess(a[1..], b[1..]))
  }

  lemma {:induction false} LexLessIrreflexive(a: string)
    ensures !LexLess(a, a)
  {
    if |a| > 0 {
      LexLessIrreflexive(a[1..]);
    }
  }

  lemma {:induction false} LexLessAsymmetric(a: string, b: string)
    requires LexLess(a, b)
    ensures !LexLess(b, a)
  {
    if |a| > 0 && |b| > 0 && a[0] == b[0] {
      LexLessAsymmetric(a[1..], b[1..]);
    }
  }

  lemma {:induction false} LexLessTransitive(a: string, b: string, c: string)
    requires LexLess(a, b) && LexLess(b, c)
    ensures LexLess(a, c)
  {
    if |a| > 0 && a[0] == b[0] && b[0] == c[0] {
      LexLessTransitive(a[1..], b[1..], c[1..]);
    }
  }

  lemma {:induction false} LexLessTotal(a: string, b: string)
    requires a != b
    ensures LexLess(a, b) || LexLess(b, a)
  {
    if |a| > 0 && |b| > 0 && a[0] == b[0] {
      assert a == [a[0]] + a[1..] && b == [b[0]] + b[1..];
      LexLessTotal(a[1..], b[1..]);
    }
  }

  lemma {:induction false} LeastWitness(s: set<string>) returns (m: string)
    requires s != {}
    ensures m in s && forall x :: x in s && x != m ==> LexLess(m, x)
    decreases |s|
  {
    var x :| x in s;
    var rest := s - {x};
    if rest == {} {
      assert s == {x};
      m := x;
    } else {
      var m' := LeastWitness(rest);
      if LexLess(x, m') {
        m := x;
        forall y | y in s && y != x
          ensures LexLess(x, y)
        {
          if y != m' {
            LexLessTransitive(x, m', y);
          }
        }
      } else {
        LexLessTotal(x, m');
        m := m';
      }
    }
  }

  lemma LeastExists(s: set<string>)
    requires s != {}
    ensures exists m :: m in s && forall x :: x in s && x != m ==> LexLess(m, x)
  {
    var m := LeastWitness(s);
  }

  /** The least element of a non-empty set of strings. */
  function Least(s: set<string>): (m: string)
    requires s != {}
    ensures m in s
    ensures forall x :: x in s && x != m ==> LexLess(m, x)
  {
    LeastExists(s);
    assert forall a, b :: LexLess(a, b) ==> !LexLess(b, a) by {
      forall a, b | LexLess(a, b) ensures !LexLess(b, a) { LexLessAsymmetric(a, b); }
    }
    var m :| m in s && forall x :: x in s && x != m ==> LexLess(m, x);
    m
  }

  /** A subset is no larger than its superset. */
  lemma {:induction false} SubsetCard<T>(a: set<T>, b: set<T>)
    requires a <= b
    ensures |a| <= |b|
    decreases |a|
  {
    if a != {} {
      var x :| x in a;
      SubsetCard(a - {x}, b - {x});
    }
  }

  /** No element of `s` occurs twice. */
  predicate NoDup<T(==)>(s: seq<T>)
  {
    forall i, j :: 0 <= i < j < |s| ==> s[i] != s[j]
  }

  function Elems<T(==,!new)>(s: seq<T>): (r: set<T>)
    ensures forall x :: x in r <==> x in s
  {
    set x | x in s
  }

  lemma {:induction false} NoDupCard<T(!new)>(s: seq<T>)
    requires NoDup(s)
    ensures |Elems(s)| == |s|
  {
    if |s| > 0 {
      var init := s[..|s| - 1];
      assert NoDup(init);
      NoDupCard(init);
      assert Elems(s) == Elems(init) + {s[|s| - 1]};
      assert s[|s| - 1] !in Elems(init);
    }
  }

  /** Two duplicate-free sequences with no element in common join into a
      duplicate-free one. */
  lemma NoDupConcat<T>(a: seq<T>, b: seq<T>)
    requires NoDup(a) && NoDup(b)
    requires forall x :: x in a ==> x !in b
    ensures NoDup(a + b)
  {
    forall i, j | 0 <= i < j < |a + b|
      ensures (a + b)[i] != (a + b)[j]
    {
      if i < |a| && |a| <= j {
        assert (a + b)[i] in a && (a + b)[j] in b;
      }
    }
  }

  /** The members of `s` in ascending order, each once. */
  function SortedSet(s: set<string>): (r: seq<string>)
    ensures |r| == |s|
    ensures forall x :: x in s <==> x in r
    ensures forall i, j :: 0 <= i < j < |r| ==> LexLess(r[i], r[j])
    ensures NoDup(r)
    decreases |s|
  {
    if s == {} then []
    else
      var m := Least(s);
      [m] + SortedSet(s - {m})
  }

  /** The members of a set of characters in ascending order, each once. */
  function SortedChars(s: set<char>): (r: seq<char>)
    ensures |r| == |s|
    ensures forall x :: x in s <==> x in r
    ensures forall i, j :: 0 <= i < j < |r| ==> r[i] < r[j]
    decreases |s|
  {
    if s == {} then []
    else
      var m := LeastChar(s);
      [m] + SortedChars(s - {m})
  }

  /** The least member of a non-empty set of characters. */
  function LeastChar(s: set<char>): (m: char)
    requires s != {}
    ensures m in s
    ensures forall x :: x in s ==> m <= x
  {
    LeastCharExists(s);
    var m :| m in s && forall x :: x in s ==> m <= x;
    m
  }

  lemma {:induction false} LeastCharWitness(s: set<char>) returns (m: char)
    requires s != {}
    ensures m in s && forall x :: x in s ==> m <= x
    decreases |s|
  {
    var x :| x in s;
    if s - {x} == {} {
      assert s == {x};
      m := x;
    } else {
      var m' := LeastCharWitness(s - {x});
      m := if x < m' then x else m';
      forall y | y in s
        ensures m <= y
      {
        if y != x {
          assert y in s - {x};
        }
      }
    }
  }

  lemma LeastCharExists(s: set<char>)
    requires s != {}
    ensures exists m :: m in s && forall x :: x in s ==> m <= x
  {
    var m := LeastCharWitness(s);
  }

  /** A non-empty sequence is its first element followed by the rest. */
  lemma SplitHead<T>(s: seq<T>)
    requires |s| > 0
    ensures [s[0]] + s[1..] == s
  {
  }

  /** Concatenation of `parts` with `sep` between neighbours. */
  function JoinWith(parts: seq<string>, sep: string): string
  {
    if |parts| == 0 then ""
    else if |parts| == 1 then parts[0]
    else parts[0] + sep + JoinWith(parts[1..], sep)
  }

  /** Concatenation of all `parts`. */
  function Concat(parts: seq<string>): (r: string)
    ensures |parts| == 0 ==> r == ""
  {
    if |parts| == 0 then "" else parts[0] + Concat(parts[1..])
  }

  lemma {:induction false} ConcatAppend(a: seq<string>, b: seq<string>)
    ensures Concat(a + b) == Concat(a) + Concat(b)
  {
    if |a| > 0 {
      assert (a + b)[1..] == a[1..] + b;
      ConcatAppend(a[1..], b);
    } else {
      assert a + b == b;
    }
  }

  lemma ConcatSingle(x: string)
    ensures Concat([x]) == x
  {
    assert [x][1..] == [];
  }

  /** The concatenation of a frame of lines: first line, middle, last line. */
  lemma {:induction false} ConcatFrame(lines: seq<string>)
    requires |lines| >= 2
    ensures Concat(lines) == lines[0] + Concat(lines[1..|lines| - 1]) + lines[|lines| - 1]
  {
    var mid := lines[1..|lines| - 1];
    var last := lines[|lines| - 1];
    ConcatCons(lines);
    assert lines[1..] == mid + [last];
    ConcatAppend(mid, [last]);
    ConcatSingle(last);
    assert Concat(lines[1..]) == Concat(mid) + last;
    AppendAssoc(lines[0], Concat(mid), last);
  }

  lemma ConcatCons(lines: seq<string>)
    requires |lines| > 0
    ensures Concat(lines) == lines[0] + Concat(lines[1..])
  {
  }

  lemma AppendAssoc(a: string, b: string, c: string)
    ensures a + (b + c) == a + b + c
  {
  }
}

=== FILE: variant23.dfy ===
/** The non-deterministic automaton of variant 23 that the automaton lab's
    driver builds: states `q0`, `q1`, `q2`, alphabet `a`, `b`, final state
    `q2`. */
module Variant23 {
  import opened Wrappers
  import opened FiniteAutomata
  import opened Grammars
  import opened AutomatonGrammar
  import SubsetConstruction

  function Nfa(): Automaton
  {
    Automaton(
      {"q0", "q1", "q2"},
      {"a", "b"},
      map["q0" := map["a" := {"q0", "q1"}, "b" := {"q0"}],
          "q1" := map["b" := {"q2"}, "a" := {"q0"}],
          "q2" := map["b" := {"q2"}]],
      "q0",
      {"q2"})
  }

  /** `q0` has two successors on `a`, so the driver reports the automaton
      as non-deterministic. */
  lemma NfaIsNotDeterministic()
    ensures !Deterministic(Nfa().transitions)
  {
    assert |Nfa().transitions["q0"]["a"]| > 1 by {
      assert "q0" != "q1";
    }
  }

  /** `ab` is read along `q0 q1 q2`. */
  lemma NfaAcceptsAb()
    ensures StringBelongsToLanguage(Nfa(), "ab")
  {
    var a := Nfa();
    var path := ["q0", "q1", "q2"];
    assert "ab"[0] == 'a' && "ab"[1] == 'b';
    assert IsRun(a.transitions, "ab", path);
    AcceptsIffRun(a, "ab");
  }

  /** The start state `q0` is not final, so the empty word is rejected. */
  lemma NfaRejectsEmpty()
    ensures !StringBelongsToLanguage(Nfa(), "")
  {
    assert Nfa().start !in Nfa().finals;
  }

  /** After one `a` the automaton is in `q0` or `q1`, neither final. */
  lemma NfaRejectsA()
    ensures !StringBelongsToLanguage(Nfa(), "a")
  {
    var a := Nfa();
    AcceptsIffRun(a, "a");
    forall path | IsRun(a.transitions, "a", path) && path[0] == a.start
      ensures path[1] !in a.finals
    {
      assert "a"[0] == 'a';
    }
  }

  lemma NfaEdges(e: Edge)
    requires HasEdge(Nfa().transitions, e)
    ensures e.from in Nfa().states && e.to in Nfa().states
    ensures |e.symbol| == 1 && e.symbol in Nfa().alphabet && ' ' !in e.symbol
  {
  }

  lemma NfaLetters(q: State)
    requires q in Nfa().states
    ensures NonTerminalMap(Nfa())[q] !in Nfa().alphabet
  {
    var alphabet: set<Symbol> := {"a", "b"};
    forall i: nat | i < 3 ensures Letter(i) !in alphabet {
      assert Letter(i)[0] < 'a';
    }
    LetterOutside(Nfa(), q, alphabet);
  }

  /** The automaton has the shape under which its grammar mirrors it. */
  lemma NfaIsMirrorable()
    ensures Mirrorable(Nfa())
  {
    var a := Nfa();
    assert |a.states| == 3;
    forall e | HasEdge(a.transitions, e)
      ensures e.from in a.states && e.to in a.states && |e.symbol| == 1 && e.symbol in a.alphabet
    {
      NfaEdges(e);
    }
    forall q | q in a.states
      ensures NonTerminalMap(a)[q] !in a.alphabet
    {
      NfaLetters(q);
    }
  }

  /** What the driver prints for each generated word: every word the
      grammar of the automaton generates with terminals only is "Valid"
      for the automaton `ConvertToDFA` builds from it, whatever names
      `JoinStates` hands out. */
  lemma GeneratedWordsAreValid(join: set<State> -> State, picks: seq<nat>, w: string, rest: seq<nat>)
    requires SubsetConstruction.GoodNames(join, SubsetConstruction.Universe(Nfa()))
    requires GenerateString(ToGrammar(Nfa()), ToGrammar(Nfa()).start, picks) == Some(Derived(w, rest))
    requires AllTerminal(w, Nfa().alphabet)
    ensures StringBelongsToLanguage(SubsetConstruction.ConvertToDFA(Nfa(), join), w)
  {
    NfaIsMirrorable();
    GeneratedWordsAreValidForDfa(Nfa(), join, picks, w, rest);
  }

  /** And the driver's classification line reads "Type 3". */
  lemma GrammarIsRegular()
    ensures TypeName(ChomskyType(ToGrammar(Nfa()))) == "Type 3: Regular Grammar"
  {
    var a := Nfa();
    forall e | HasEdge(a.transitions, e) ensures ' ' !in e.symbol { NfaEdges(e); }
    ToGrammarIsRegular(a);
  }
}

=== FILE: worklist.dfy ===
/** The breadth-first exploration of state sets shared by both subset
    constructions. A queue of state sets is seeded with one set; each
    dequeued set is expanded by every symbol in turn and a non-empty
    successor that has not been seen before is recorded and enqueued.

    The model keeps the sequence of every set ever enqueued, in order. The
    queue of the source is always a suffix of that sequence, so the queue is
    represented by the index `i` of its head. */
module SubsetWorklist {
  import opened Text

  type StateSet = set<string>

  /** All subsets of `u`. */
  ghost function PowerSet(u: set<string>): (p: set<StateSet>)
    ensures forall s :: s in p <==> s <= u
    decreases |u|
  {
    if u == {} then
      assert forall s: StateSet :: s <= u ==> s == {};
      {{}}
    else
      var x :| x in u;
      var p := PowerSet(u - {x});
      var r := p + set s | s in p :: s + {x};
      assert forall s :: s <= u ==> s in r by {
        forall s | s <= u
          ensures s in r
        {
          if x in s {
            assert s - {x} in p;
            assert s == (s - {x}) + {x};
          } else {
            assert s in p;
          }
        }
      }
      r
  }

  /** Every step stays inside the universe `u`. */
  ghost predicate StepWithin<Sym(!new)>(step: (StateSet, Sym) -> StateSet, u: set<string>)
  {
    forall s, y :: s <= u ==> step(s, y) <= u
  }

  /** Every non-empty successor of the sets in `enq[lo..hi]` is in `enq`. */
  ghost predicate ClosedFrom<Sym>(step: (StateSet, Sym) -> StateSet, syms: seq<Sym>, enq: seq<StateSet>, lo: nat, hi: nat)
    requires lo <= hi <= |enq|
  {
    forall k, j :: lo <= k < hi && 0 <= j < |syms| && step(enq[k], syms[j]) != {} ==> step(enq[k], syms[j]) in enq
  }

  /** The inner loop over the alphabet for one dequeued set `cur`. */
  function Expand<Sym>(step: (StateSet, Sym) -> StateSet, cur: StateSet, syms: seq<Sym>, enq: seq<StateSet>): (r: seq<StateSet>)
    ensures |enq| <= |r| && r[..|enq|] == enq
    ensures NoDup(enq) ==> NoDup(r)
    ensures forall k :: |enq| <= k < |r| ==> r[k] != {} && exists j :: 0 <= j < |syms| && r[k] == step(cur, syms[j])
    ensures forall j :: 0 <= j < |syms| && step(cur, syms[j]) != {} ==> step(cur, syms[j]) in r
    decreases |syms|
  {
    if |syms| == 0 then enq
    else
      var n := step(cur, syms[0]);
      var enq' := if n != {} && n !in enq then enq + [n] else enq;
      var r := Expand(step, cur, syms[1..], enq');
      assert forall k :: |enq| <= k < |r| ==> exists j :: 0 <= j < |syms| && r[k] == step(cur, syms[j]) by {
        forall k | |enq| <= k < |r|
          ensures exists j :: 0 <= j < |syms| && r[k] == step(cur, syms[j])
        {
          if k < |enq'| {
            assert r[k] == n == step(cur, syms[0]);
          } else {
            var j' :| 0 <= j' < |syms[1..]| && r[k] == step(cur, syms[1..][j']);
            assert r[k] == step(cur, syms[j' + 1]);
          }
        }
      }
      assert forall j :: 0 <= j < |syms| && step(cur, syms[j]) != {} ==> step(cur, syms[j]) in r by {
        forall j | 0 <= j < |syms| && step(cur, syms[j]) != {}
          ensures step(cur, syms[j]) in r
        {
          if j == 0 {
            assert n in enq';
            assert n in r[..|enq'|];
          } else {
            assert step(cur, syms[1..][j - 1]) in r;
          }
        }
      }
      r
  }

  /** A duplicate-free sequence of subsets of `u` is no longer than the
      number of such subsets. */
  lemma WithinPowerSet(u: set<string>, enq: seq<StateSet>)
    requires NoDup(enq)
    requires forall k :: 0 <= k < |enq| ==> enq[k] <= u
    ensures |enq| <= |PowerSet(u)|
  {
    NoDupCard(enq);
    SubsetCard(Elems(enq), PowerSet(u));
  }

  /** One round of the outer loop keeps the loop invariant, one position
      further. */
  lemma ExpandKeeps<Sym(!new)>(step: (StateSet, Sym) -> StateSet, syms: seq<Sym>, u: set<string>, enq: seq<StateSet>, i: nat)
    requires StepWithin(step, u)
    requires i < |enq| && NoDup(enq)
    requires forall k :: 0 <= k < |enq| ==> enq[k] <= u
    requires ClosedFrom(step, syms, enq, 0, i)
    ensures var enq' := Expand(step, enq[i], syms, enq);
      && NoDup(enq')
      && (forall k :: 0 <= k < |enq'| ==> enq'[k] <= u)
      && ClosedFrom(step, syms, enq', 0, i + 1)
      && |enq'| <= |PowerSet(u)|
  {
    var enq' := Expand(step, enq[i], syms, enq);
    forall k | 0 <= k < |enq'|
      ensures enq'[k] <= u
    {
      if k < |enq| {
        assert enq'[k] == enq[k];
      } else {
        var j :| 0 <= j < |syms| && enq'[k] == step(enq[i], syms[j]);
      }
    }
    forall k, j | 0 <= k < i + 1 && 0 <= j < |syms| && step(enq'[k], syms[j]) != {}
      ensures step(enq'[k], syms[j]) in enq'
    {
      assert enq'[k] == enq[k];
      if k < i {
        assert step(enq[k], syms[j]) in enq;
        assert step(enq[k], syms[j]) in enq'[..|enq|];
      }
    }
    WithinPowerSet(u, enq');
  }

  /** The outer loop: dequeue `enq[i]`, expand it, continue until the
      queue is empty. */
  function Explore<Sym(!new)>(step: (StateSet, Sym) -> StateSet, syms: seq<Sym>, u: set<string>, enq: seq<StateSet>, i: nat): (r: seq<StateSet>)
    requires StepWithin(step, u)
    requires i <= |enq| && NoDup(enq)
    requires forall k :: 0 <= k < |enq| ==> enq[k] <= u
    requires ClosedFrom(step, syms, enq, 0, i)
    ensures |enq| <= |r| && r[..|enq|] == enq && NoDup(r)
    ensures forall k :: 0 <= k < |r| ==> r[k] <= u
    ensures forall k :: |enq| <= k < |r| ==> r[k] != {}
    ensures ClosedFrom(step, syms, r, 0, |r|)
    decreases |PowerSet(u)| - |enq|, |enq| - i
  {
    WithinPowerSet(u, enq);
    if i == |enq| then enq
    else
      var enq' := Expand(step, enq[i], syms, enq);
      ExpandKeeps(step, syms, u, enq, i);
      var r := Explore(step, syms, u, enq', i + 1);
      assert r[..|enq|] == enq by {
        assert r[..|enq'|] == enq';
        assert enq'[..|enq|] == enq;
      }
      assert forall k :: |enq| <= k < |r| ==> r[k] != {} by {
        forall k | |enq| <= k < |r|
          ensures r[k] != {}
        {
          if k < |enq'| {
            assert r[k] == r[..|enq'|][k] == enq'[k];
          }
        }
      }
      r
  }

  /** The sets that `Explore` enqueues from the seed `seed`. */
  function Reachable<Sym(!new)>(step: (StateSet, Sym) -> StateSet, syms: seq<Sym>, u: set<string>, seed: StateSet): (r: seq<StateSet>)
    requires StepWithin(step, u) && seed <= u
    ensures |r| > 0 && r[0] == seed && NoDup(r)
    ensures forall k :: 0 <= k < |r| ==> r[k] <= u
    ensures forall k :: 1 <= k < |r| ==> r[k] != {}
    ensures ClosedFrom(step, syms, r, 0, |r|)
  {
    Explore(step, syms, u, [seed], 0)
  }

  /** A family that holds the seed and every non-empty successor of its
      members holds every set the exploration enqueues. */
  lemma {:induction false} ExploreLeast<Sym(!new)>(step: (StateSet, Sym) -> StateSet, syms: seq<Sym>, u: set<string>, enq: seq<StateSet>, i: nat, fam: set<StateSet>)
    requires StepWithin(step, u)
    requires i <= |enq| && NoDup(enq)
    requires forall k :: 0 <= k < |enq| ==> enq[k] <= u
    requires ClosedFrom(step, syms, enq, 0, i)
    requires forall k :: 0 <= k < |enq| ==> enq[k] in fam
    requires forall s, j :: s in fam && 0 <= j < |syms| && step(s, syms[j]) != {} ==> step(s, syms[j]) in fam
    ensures forall k :: 0 <= k < |Explore(step, syms, u, enq, i)| ==> Explore(step, syms, u, enq, i)[k] in fam
    decreases |PowerSet(u)| - |enq|, |enq| - i
  {
    WithinPowerSet(u, enq);
    if i < |enq| {
      var enq' := Expand(step, enq[i], syms, enq);
      ExpandKeeps(step, syms, u, enq, i);
      forall k | 0 <= k < |enq'|
        ensures enq'[k] in fam
      {
        if k < |enq| {
          assert enq'[k] == enq[k];
        } else {
          var j :| 0 <= j < |syms| && enq'[k] == step(enq[i], syms[j]);
        }
      }
      ExploreLeast(step, syms, u, enq', i + 1, fam);
    }
  }

  /** Each set the exploration enqueues is the seed or a non-empty successor
      of an earlier one, so the exploration yields the least family that
      holds the seed and is closed under non-empty successors. */
  lemma ReachableLeast<Sym(!new)>(step: (StateSet, Sym) -> StateSet, syms: seq<Sym>, u: set<string>, seed: StateSet, fam: set<StateSet>)
    requires StepWithin(step, u) && seed <= u
    requires seed in fam
    requires forall s, j :: s in fam && 0 <= j < |syms| && step(s, syms[j]) != {} ==> step(s, syms[j]) in fam
    ensures forall k :: 0 <= k < |Reachable(step, syms, u, seed)| ==> Reachable(step, syms, u, seed)[k] in fam
  {
    ExploreLeast(step, syms, u, [seed], 0, fam);
  }

  // ---------------------------------------------------------------------
  // Reachability: the sets the exploration finds are exactly those the
  // seed reaches by a sequence of symbols, when the empty set is a dead end.

  /** The set reached from `seed` after the symbols `ys`. */
  function Run<Sym>(step: (StateSet, Sym) -> StateSet, seed: StateSet, ys: seq<Sym>): StateSet
    decreases |ys|
  {
    if |ys| == 0 then seed else Run(step, step(seed, ys[0]), ys[1..])
  }

  predicate Over<Sym(==)>(ys: seq<Sym>, syms: seq<Sym>)
  {
    forall k :: 0 <= k < |ys| ==> ys[k] in syms
  }

  ghost predicate EmptyIsDead<Sym(!new)>(step: (StateSet, Sym) -> StateSet)
  {
    forall y :: step({}, y) == {}
  }

  lemma {:induction false} RunAppend<Sym>(step: (StateSet, Sym) -> StateSet, seed: StateSet, ys: seq<Sym>, y: Sym)
    ensures Run(step, seed, ys + [y]) == step(Run(step, seed, ys), y)
    decreases |ys|
  {
    if |ys| > 0 {
      assert (ys + [y])[1..] == ys[1..] + [y];
      RunAppend(step, step(seed, ys[0]), ys[1..], y);
    }
  }

  lemma {:induction false} RunFromEmpty<Sym(!new)>(step: (StateSet, Sym) -> StateSet, ys: seq<Sym>)
    requires EmptyIsDead(step)
    ensures Run(step, {}, ys) == {}
    decreases |ys|
  {
    if |ys| > 0 {
      RunFromEmpty(step, ys[1..]);
    }
  }

  lemma {:induction false} RunWithin<Sym(!new)>(step: (StateSet, Sym) -> StateSet, u: set<string>, seed: StateSet, ys: seq<Sym>)
    requires StepWithin(step, u) && seed <= u
    ensures Run(step, seed, ys) <= u
    decreases |ys|
  {
    if |ys| > 0 {
      RunWithin(step, u, step(seed, ys[0]), ys[1..]);
    }
  }

  /** From a set of a closed sequence, every non-empty set reached over
      the symbols is in the sequence too. */
  lemma {:induction false} RunStaysIn<Sym(!new)>(step: (StateSet, Sym) -> StateSet, syms: seq<Sym>, r: seq<StateSet>, from: StateSet, ys: seq<Sym>)
    requires ClosedFrom(step, syms, r, 0, |r|) && EmptyIsDead(step)
    requires from in r && Over(ys, syms)
    requires Run(step, from, ys) != {}
    ensures Run(step, from, ys) in r
    decreases |ys|
  {
    if |ys| > 0 {
      var n := step(from, ys[0]);
      if n == {} {
        RunFromEmpty(step, ys[1..]);
      } else {
        var k :| 0 <= k < |r| && r[k] == from;
        var j :| 0 <= j < |syms| && syms[j] == ys[0];
        assert n in r;
        RunStaysIn(step, syms, r, n, ys[1..]);
      }
    }
  }

  /** The exploration finds the seed and exactly the non-empty sets that
      the seed reaches over the symbols. */
  lemma ReachableExactly<Sym(!new)>(step: (StateSet, Sym) -> StateSet, syms: seq<Sym>, u: set<string>, seed: StateSet, s: StateSet)
    requires StepWithin(step, u) && seed <= u && EmptyIsDead(step)
    ensures s in Reachable(step, syms, u, seed)
        <==> s == seed || (s != {} && exists ys :: Over(ys, syms) && Run(step, seed, ys) == s)
  {
    var r := Reachable(step, syms, u, seed);
    if s != {} && exists ys :: Over(ys, syms) && Run(step, seed, ys) == s {
      var ys :| Over(ys, syms) && Run(step, seed, ys) == s;
      RunStaysIn(step, syms, r, seed, ys);
    }
    if s in r && s != seed {
      var fam := set x | x in PowerSet(u) && exists ys :: Over(ys, syms) && Run(step, seed, ys) == x;
      assert seed in fam by {
        assert Over([], syms) && Run(step, seed, []) == seed;
      }
      forall x, j | x in fam && 0 <= j < |syms| && step(x, syms[j]) != {}
        ensures step(x, syms[j]) in fam
      {
        var ys :| Over(ys, syms) && Run(step, seed, ys) == x;
        RunAppend(step, seed, ys, syms[j]);
        assert Over(ys + [syms[j]], syms);
        RunWithin(step, u, seed, ys + [syms[j]]);
      }
      ReachableLeast(step, syms, u, seed, fam);
      var k :| 0 <= k < |r| && r[k] == s;
      assert s in fam;
    }
  }
}

=== FILE: wrappers.dfy ===
/** Failure-compatible result types shared by every component. An `Err`
    stands for a C++ exception (or an error return) of the modelled code;
    its message is informative only. */
module Wrappers {

  datatype Option<+T> = None | Some(value: T) {
    predicate IsFailure() { None? }

    function PropagateFailure<U>(): Option<U>
      requires None?
    {
      None
    }

    function Extract(): T
      requires Some?
    {
      value
    }
  }

  datatype Result<+T> = Ok(value: T) | Err(msg: string) {
    predicate IsFailure() { Err? }

    function PropagateFailure<U>(): Result<U>
      requires Err?
    {
      Err(msg)
    }

    function Extract(): T
      requires Ok?
    {
      value
    }
  }
}
